=== FILE: README.md ===
# A verified model of the ai_agent Telegram bot's core

ai_agent is a Telegram bot backed by large language models. A user's message
goes through a planner that asks a model which tools to run (WolframAlpha,
web search, image search, YouTube summaries), the tools' results are merged
and handed back to the model, and the answer is formatted as Telegram HTML,
cut into messages and sent with buttons (run the code, render the LaTeX,
translate). Per-user modes (default, wolfram, groq, and a `processing`
lock) decide which pipeline a message takes. A SQLite store keeps users and
the dialogue history.

This project models that core in Dafny and proves properties of the model.
One module per component of the program:

| file | module | models |
|---|---|---|
| common.dfy | Common | messages and histories, `Result`/`Option`, the credential-rotation loop, Python string operations (`split`, `join`, `strip`, `find`, slicing, `str(int)`) |
| plan.dfy | PlanParser | src/llm_answer.py: tool registry, catalog prompt, history flattening, reply parsing, result merging, final message list |
| gateway.dfy | Gateway | src/agent/llm/llm.py, groq.py, google.py: file partition, Groq rotation, compound model, Gemini request, routing with fallback |
| files.dfy | FileUtils | src/agent/tools/file_utils.py: speech recognition retries, `files_to_text`, `download_images`, the vertical PNG layout |
| store.dfy, clock.dfy | HistoryStore, Clock | src/bot/database.py and src/sql.py: the Users and Messages tables as a class; `utc_time` and its order |
| bot_modes.dfy | BotModes | src/bot/bot.py: the per-user mode machine as a class, handler routing by registration order |
| bot_output.dfy | BotOutput | src/bot/bot.py: `smart_split`, answer slicing, file batches, the groq-mode chunk loop |
| bot_callbacks.dfy | BotCallbacks | src/bot/bot.py: buttons, callback data and its reading back, run-code / render / translate handlers |
| bot_pipeline.dfy | BotPipeline | src/bot/bot.py: the default, groq and wolfram pipelines over the store and the modes (the expression photo excepted, see Left out) |
| legacy_bot.dfy | LegacyBot | src/bot.py: the older handler with its processing lock, nine-file cut and run button |
| chunking.dfy, code_blocks.dfy, tables.dfy, quotes.dfy | Chunking, CodeBlocks, Tables, Quotes | src/bot/formatter.py: `smart_split`/`split_html`, `replace_code_lang`, `make_strings_unique` and separators, the tag maps, `process_quotes` |
| latex.dfy, latex_images.dfy | Latex, LatexImages | src/agent/tools/latex.py: wrapping, the bounded compile retries, fence stripping, expression images |
| youtube.dfy | YouTube | src/agent/tools/youtube.py: transcript text with minute headers, video id, title, the transcript fallback chain, `youtube_sum` |
| wolfram.dfy | Wolfram | src/agent/tools/wolfram.py: the calculator rewrite, truncation at the website marker, link extraction and substitution |
| imdb.dfy | Imdb | src/agent/tools/imdb.py: reshaping of a film's details, the first search hit |
| legacy_tools.dfy | LegacyTools | src/agent/tools.py: the older `files_to_text`, `genai_api`, `llm_api`, `DDGS_answer` and `google_short_answer` |

Every language model, Groq or Gemini client, web service, file reader, hash
and clock is a parameter of the model: a function that returns a value or
fails (`Result`, or `Reply` = `Success(text) | Failure(err)`). Python
exceptions are the `Raised(error)` case of `Result`; the error text names the
exception but its wording is not part of any contract.

Where the code differs from the project's own description, the model
follows the code:

- The tools of a plan are gathered without `return_exceptions`, so one failing tool fails the whole plan (`PlanParser.Gather`, `PlanParser.GatherRaisedFirst`); there is no per-tool isolation.
- The bot's modes live in aiogram's in-memory storage; nothing survives a restart, and the model has no persistence for them.
- `files_to_text` in src/agent/tools/file_utils.py does not read plain text files at all (see Findings). Every caller that appends it to a prompt (the gateway, the bot's attachments) is modelled with that as-written text, so a plain file contributes `Error reading <path>`.
- `make_strings_unique` does not always keep first occurrences: `["a", "a", "a_1"]` becomes `["a", "a_1", "a_1_1"]`. `Tables.MakeStringsUnique` states the rule the code follows (an entry is kept iff it is not already taken).
- In groq mode the answer is cut to its first character by `[0]` on the string that `groq_api_compound` returns (see Findings).

## Model

| member | source | states |
|---|---|---|
| PlanParser.RegistryAgrees | src/llm_answer.py:20-70 | the dispatch table and the description table name the same six tools, in the same order, each once |
| PlanParser.BuildCatalogPrompt | src/llm_answer.py:47-61 | the selection prompt built line by line is the fixed head, one `name: description` line per tool in table order joined by line breaks, a line break, then the fixed format instructions |
| PlanParser.CatalogLinesSplit | src/llm_answer.py:49-50 | cut at its line breaks, the catalog section is exactly the `name: description` line of every tool in order, followed by an empty remainder |
| PlanParser.FlattenHistory | src/llm_answer.py:77-81 | a plain prompt is used verbatim; a dialogue becomes `History:`, the earlier `role: content` lines and `\nUser ask: ` with the last content; a dialogue raises iff it is empty |
| PlanParser.FlattenSingle | src/llm_answer.py:78-79 | a one-message dialogue flattens to `History:\nUser ask: ` and its content |
| PlanParser.FlattenExtend | src/llm_answer.py:78-79 | one more earlier message adds exactly one more `role: content` line, after a line break, before the question |
| PlanParser.ParseLine | src/llm_answer.py:96-104 | a line yields an invocation only for a registered tool name |
| PlanParser.InputAfterFirstColon | src/llm_answer.py:97-98 | the name is the text before the first colon and the input is the whole rest of the line, later colons kept |
| PlanParser.ParseNamedLine | src/llm_answer.py:97-104 | `name: input` for a registered name parses to that tool with the stripped input, whatever colons the input holds |
| PlanParser.ParseBareName | src/llm_answer.py:97-104 | a line that is exactly a tool name, with no colon, is an invocation with an empty input |
| PlanParser.ParseNoColon | src/llm_answer.py:97-104 | without a colon the whole stripped, lower-cased line is the candidate name and the input is empty |
| PlanParser.ParseUnknown | src/llm_answer.py:102-104 | a line whose text before the first colon is not a registered name, once stripped and lower-cased, is dropped |
| PlanParser.StripTool | src/llm_answer.py:102-103 | stripping and lower-casing leave every registered name unchanged and no name holds a colon, so every registered name can be matched |
| PlanParser.ToolNamesPlain | src/llm_answer.py:63-70 | every registered name is lower-case letters and underscores only |
| PlanParser.Plan | src/llm_answer.py:95-105 | the plan has at most one entry per line and every entry names a registered tool |
| PlanParser.PlanAppend | src/llm_answer.py:95-105 | the plan of two blocks of lines is the plan of the first followed by the plan of the second: line order and duplicates are kept |
| PlanParser.PlanMembership | src/llm_answer.py:95-105 | an invocation is in the plan iff some reply line parses to it |
| PlanParser.PlanEmpty | src/llm_answer.py:95-105 | a reply in which no line names a tool gives the empty plan |
| PlanParser.TrailingNewlineHarmless | src/llm_answer.py:92-93 | the line break appended to the reply adds only an empty line and never changes the plan |
| PlanParser.PlanFromReply | src/llm_answer.py:93-105 | the loop over the reply's lines builds exactly the plan of the lines of the reply plus a line break |
| PlanParser.SelectTool | src/llm_answer.py:75-107 | the planner flattens the history, asks the model once (Gemini, no files) with the catalog as system message, and returns the plan of the reply; an empty dialogue or a failing model raises |
| PlanParser.Gather | src/llm_answer.py:120-124 | when gathering succeeds there is one value per invocation, each the value its own tool returned |
| PlanParser.GatherRaisedFirst | src/llm_answer.py:120-124 | gathering raises iff some tool raises, and then with the error of the first tool in plan order that raises |
| PlanParser.ResultLines | src/llm_answer.py:128-132 | one `name(input): text` line per result, in plan order |
| PlanParser.AllFilesOfTexts | src/llm_answer.py:129-133 | results that are plain texts add no files |
| PlanParser.UseTool | src/llm_answer.py:118-138 | the merged text is the result lines joined by line breaks and the file list is every pair's files concatenated in plan order; any tool exception is the result |
| PlanParser.MergeEmpty | src/llm_answer.py:126-138 | the empty plan merges to the empty text and no files |
| PlanParser.MergeExtend | src/llm_answer.py:126-138 | one more invocation adds one more line after a line break, and its files after the earlier ones |
| PlanParser.AssembleMessages | src/llm_answer.py:147-155 | the system prompt comes first, then the caller's messages unchanged, then the `tool result:` assistant message exactly when the tool text or the file list is non-empty |
| PlanParser.MergedTextEmptyIff | src/llm_answer.py:154 | the merged text is empty iff the plan is empty, since every line names its tool |
| PlanParser.FullAnswer | src/llm_answer.py:141-161 | plan, run, assemble and ask the model once more with the caller's files and provider; a planner or tool exception is the result; the request is the system prompt, then the history's messages, then, exactly when the plan is non-empty, one last `assistant` message `tool result:` followed by the plan's result lines joined by newlines |
| Common.AppendToLast | src/agent/llm/llm.py:16 | appending to the last message's content changes that content only, and no other message |
| Common.Rotate | src/agent/llm/groq.py:24-36 | trying clients in order: the first success's text wins; if every client fails the answer is the prefix and the last error; with no client at all reading the unbound answer raises |
| Gateway.Images | src/agent/llm/llm.py:17 | every file kept is an image name (`.png`, `.jpg`, `.jpeg`, `.webp`) |
| Gateway.NonImages | src/agent/llm/llm.py:16 | no file kept is an image name |
| Gateway.PartitionFiles | src/agent/llm/llm.py:16-17 | the two filters split the files: every file lands in exactly one of them |
| Gateway.NoImages | src/agent/llm/llm.py:16-17 | with no image among the files, the image list is empty and the other list is all the files in order |
| Gateway.GroqNeverRaises | src/agent/llm/groq.py:24-37 | `groq_api` answers exactly when there is at least one client and at least one message: with no client `answer` is never bound, and with no message the closing log line's `messages[-1]` raises `IndexError`; when every client fails the answer is `Error ` and the last client's error |
| Gateway.GroqMessages | src/agent/llm/groq.py:17-22 | a prompt becomes one user message; with files, an empty dialogue raises, and otherwise every message but the last is kept and the last one's content gains the as-written `files_to_text` text |
| Gateway.GroqApi | src/agent/llm/groq.py:15-37 | the messages are normalised and the as-written `files_to_text` text appended to the last one (`Error reading <path>` once a plain file is among them); the answer is the rotation over the clients, except that an empty message list raises `IndexError` at the closing log line; the clients called are those up to and including the first success, or all of them |
| Gateway.TryCompound | src/agent/llm/groq.py:61-75 | the compound retry loop returns the first completion's text and executed tools, or the last error as `Error <e>` and no tools |
| Gateway.GroqCompound | src/agent/llm/groq.py:40-88 | a model outside the compound family becomes `groq/compound`; the four fixed tools are enabled plus `browser_automation` iff asked; the messages are `GroqMessages`', carrying the as-written `files_to_text` text; the answer alone or with the executed tools (the elapsed-time string is dropped, see Left out); no client at all raises, and so does an empty message list, at the closing log line's `messages[-1]` |
| Gateway.ModelFor | src/agent/llm/google.py:41 | the chat model is a known one, the requested one when it is known and the flash model otherwise |
| Gateway.FormatHistory | src/agent/llm/google.py:35-39 | one Gemini turn per earlier message, in order, with role `user` for user and system messages and `model` for any other |
| Gateway.FormatTurns | src/agent/llm/google.py:35-39 | the loop over the earlier messages builds exactly that history |
| Gateway.AttachedText | src/agent/llm/google.py:45-49 | the text the files add to the user message is empty exactly when every file is an image |
| Gateway.CollectFiles | src/agent/llm/google.py:44-49 | the loop over the files collects the image files in order and appends every other file's as-written `files_to_text` text to the user message in order |
| Gateway.ImagesEmptyIff | src/agent/llm/google.py:51-54 | the image list is non-empty iff some file has an image extension |
| Gateway.GeminiRequestShape | src/agent/llm/google.py:26-54 | the history has `len(messages) - 1` turns (none for a string) with mapped roles, the text starts with the user message, the model is a known one, and the multimodal form is sent iff some file is an image |
| Gateway.GenaiApi | src/agent/llm/google.py:26-57 | `genai_api` returns the chat session's answer to exactly that request, whose user message carries the as-written `files_to_text` text of every non-image file, or raises for an empty dialogue or when the session raises |
| Gateway.LlmApi | src/agent/llm/llm.py:9-36 | the as-written `files_to_text` text of the non-image files is appended to the last message; Gemini first when the provider is google or an image is present, falling back to Groq without the images, else Groq first falling back to Gemini without files; which backends were called, in order; an empty dialogue raises before any call |
| Gateway.GeminiFirst | src/agent/llm/llm.py:21-26 | Gemini's answer when it does not raise, otherwise Groq's answer for the same messages |
| Gateway.GroqFirst | src/agent/llm/llm.py:28-33 | Groq's answer when it does not raise, otherwise Gemini's answer without files |
| Gateway.GroqFirstNeverFallsBack | src/agent/llm/llm.py:28-33 | because `groq_api` turns every client error into an answer, the Groq-first route never reaches Gemini while a Groq client is configured (inside `llm_api` the message list is never empty) |
| FileUtils.SpeechRecognition | src/agent/tools/file_utils.py:24-39 | clients are tried in order until the first success, whose text is returned stripped; if all fail, the last `Error with speech recognition: ` message, stripped; the first client is sent the file's contents and every later one the empty remainder of the same handle; no client at all raises |
| FileUtils.Extract | src/agent/tools/file_utils.py:117-128 | as written, a pdf, docx or mp3 path gets what the corrected reading gets, and every other path raises (`elif file:` reads an unbound name) |
| FileUtils.ExtractFixed | src/agent/tools/file_utils.py:117-128 | as evidently intended, a path that is not pdf, docx or mp3 is read as a text file |
| FileUtils.FirstFailing | src/agent/tools/file_utils.py:115-128 | the index of the first file whose extraction raises, every earlier one succeeding |
| FileUtils.EntriesAppend | src/agent/tools/file_utils.py:130 | one more readable file adds its `path:\ntext\n\n---\n\n` block after the earlier ones |
| FileUtils.Collect | src/agent/tools/file_utils.py:112-136 | the loop gives one block per file in order, or, as soon as an extraction raises, only `Error reading <path>` for that path |
| FileUtils.FilesToText | src/agent/tools/file_utils.py:107-136 | `files_to_text` as written: that loop with pdf, docx and mp3 dispatched and every other path raising |
| FileUtils.FilesToTextFixed | src/agent/tools/file_utils.py:107-136 | the same loop with other paths read as text files |
| FileUtils.FilesText | src/agent/tools/file_utils.py:107-136 | the as-written text its callers append is empty exactly when there are no files |
| FileUtils.FilesTextFixed | src/agent/tools/file_utils.py:107-136 | the corrected text is empty exactly when there are no files, and when every file reads it holds at least the nine separator characters per file |
| FileUtils.OneFileText | src/agent/tools/file_utils.py:114-136 | for one path, as written: its `path:\ntext\n\n---\n\n` block when it reads, `Error reading <path>` when its reader raises, and always `Error reading <path>` for a path that is not pdf, docx or mp3 |
| FileUtils.AgreeWhenDispatched | src/agent/tools/file_utils.py:117-130 | when every path is pdf, docx or mp3, the as-written and corrected texts coincide |
| FileUtils.ErrorWhenUndispatched | src/agent/tools/file_utils.py:126-136 | as written, one path that is not pdf, docx or mp3 turns the whole text into `Error reading <path>` for one of the paths |
| FileUtils.FilesTextEmpty | src/agent/tools/file_utils.py:112-132 | an empty file list yields the empty text, as written and corrected, so appending it changes nothing |
| FileUtils.PlainFileAsWritten | src/agent/tools/file_utils.py:126 | as written, a text file is never read: once every file before it was read, the result is `Error reading <that path>` |
| FileUtils.PlainFileFixed | src/agent/tools/file_utils.py:126-130 | corrected, a readable text file contributes its block like any other file |
| FileUtils.FixedAgreesOnKnownKinds | src/agent/tools/file_utils.py:117-124 | on pdf, docx and mp3 files the two versions give the same result |
| FileUtils.DownloadImages | src/agent/tools/file_utils.py:57-81 | one entry per URL, in URL order: `<hash> <i>.png` when that download succeeded, `None` otherwise |
| FileUtils.DownloadNamesDistinct | src/agent/tools/file_utils.py:72-77 | two downloads of the same call never share a file name |
| FileUtils.MaxWidth | src/agent/tools/file_utils.py:178 | the canvas width is the width of some picture and no picture is wider |
| FileUtils.TotalHeightMonotone | src/agent/tools/file_utils.py:180 | the height of the first pictures grows with their number |
| FileUtils.MergeLayout | src/agent/tools/file_utils.py:174-192 | the canvas is as wide as the widest picture and as high as all together; picture `i` is centred with floor division and placed at the sum of the earlier heights; an empty list raises |
| FileUtils.LayoutInside | src/agent/tools/file_utils.py:186-189 | every picture lies inside the canvas |
| FileUtils.LayoutDisjoint | src/agent/tools/file_utils.py:186-189 | an earlier picture ends at or above the top of any later one, so no two overlap |
| HistoryStore.TextToHash | src/bot/database.py:14-15 | the hash is the first 32 characters of the content's digest (all of it when shorter), so equal contents always get equal hashes; the older copy at src/sql.py:8-9 takes the same 32-character prefix |
| HistoryStore.UserRowsMembers | src/bot/database.py:79 | the rows read for a user are exactly the stored rows with that user's id |
| HistoryStore.OtherRowsMembers | src/bot/database.py:133 | the rows kept by the delete are exactly the stored rows of other users |
| HistoryStore.TakeLast | src/bot/database.py:79 | `LIMIT n` after `ORDER BY time DESC`, reversed: the last `n` rows in their order, all rows when `n` is negative or larger |
| HistoryStore.AsMessages | src/bot/database.py:82 | one `{'role', 'content'}` message per row, in order |
| HistoryStore.Archived | src/bot/database.py:115 | one `{'role', 'content', 'time'}` entry per row, in order |
| HistoryStore.Store.constructor | src/bot/database.py:22-53 | both tables start empty and every stored message belongs to a known user and carries its content's hash |
| HistoryStore.OpenStore | src/bot/database.py:74 | the store of the bot starts empty with a default history of ten turns |
| HistoryStore.OpenLegacyStore | src/sql.py:68 | the older store starts empty with a default history of seven turns |
| HistoryStore.Store.CheckUser | src/bot/database.py:56-71 | an unknown id gets a row with count 1 and first = last = now; a known id gets count + 1 and last = now with the names and first time kept; one row per id; messages untouched; the older copy at src/sql.py:50-65 of the same register-or-count operation |
| HistoryStore.Store.InsertMessage | src/bot/database.py:85-96 | with no such user the call raises and nothing is stored; otherwise exactly one row is appended with the user's name, the role, the content, now and the content's hash, and nothing else changes; the older copy at src/sql.py:79-90 of the same append |
| HistoryStore.Store.SelectHistory | src/bot/database.py:74-82 | the last `n` turns of that user only (ten by default), oldest first, as role and content; the older copy at src/sql.py:68-76, seven turns by default |
| HistoryStore.Store.GetMessageByHash | src/bot/database.py:99-108 | the content of the first stored turn with that hash; raises iff no turn has it; the older copy at src/sql.py:93-101 of the same look-up |
| HistoryStore.Store.ClearUserHistory | src/bot/database.py:111-136 | every turn of the user is deleted and every other user's turn kept in order; the dialogue is archived under `<id>_<now>` iff it is non-empty; the users are untouched |
| HistoryStore.DeleteUserRows | src/bot/database.py:133 | the delete keeps exactly the other users' rows, in order |
| HistoryStore.ClearedHistoryEmpty | src/bot/database.py:133 | after clearing, the user's history reads back empty and every other user's history is unchanged |
| HistoryStore.InsertThenSelect | src/bot/database.py:74-96 | the history read after storing a turn ends with that turn and holds at most the limit |
| Clock.UtcTime | src/bot/database.py:17-20 | the timestamp is always 19 characters, zero-padded fields |
| Clock.UtcTimeOrder | src/bot/database.py:17-20 | string order on timestamps is chronological order, and two instants print the same iff they are equal; the older copy at src/sql.py:11-14 has the same format and the same order |
| BotModes.FirstAccepting | src/bot/bot.py:64-155 | the handler chosen accepts the message and is one of those registered; no handler is chosen only when none accepts |
| BotModes.Route | src/bot/bot.py:64-155 | every message reaches a handler whose filter accepts it: each mode has a catch-all registered after the commands |
| BotModes.RouteWhileProcessing | src/bot/bot.py:115-119 | in `processing`, `/start`, `/help` and `/log` (registered earlier) are still answered; every other message, the toggles included, gets the "stuck" reply |
| BotModes.RouteOutsideProcessing | src/bot/bot.py:130-155 | outside `processing`, `/wolfram` and `/groq` reach their toggles, and any other message reaches the pipeline of the current mode (wolfram, groq, default) |
| BotModes.Toggle | src/bot/bot.py:132-149 | a toggle leaves to the default mode iff the user is already in the target mode, and enters the target mode otherwise, for `/wolfram` (132-137) and `/groq` (144-149) alike |
| BotModes.ToggleProperties | src/bot/bot.py:130-152 | the same toggle twice from the default mode comes back to it; the other toggle switches between wolfram and groq directly |
| BotModes.PipelineRestoresMode | src/bot/bot.py:157-471 | a pipeline holds the user in `processing` and on a normal return puts the user back in the mode it started from; when it raises the user stays in `processing`; this holds for the wolfram (157-190), groq (209-278, `set_state(FSM.groq)` at the end) and default (282-471, `state.clear()` at the end) pipelines |
| BotModes.ProcessingIsSticky | src/bot/bot.py:115-119 | no message changes the mode of a user in `processing` |
| BotModes.Conversations.constructor | src/bot/bot.py:51 | the dispatcher starts with no stored state for anyone |
| BotModes.Conversations.Receive | src/bot/bot.py:64-282 | the handler run is the routed one, the user's mode becomes the mode after that handler starts, and no other user's mode changes |
| BotModes.Conversations.Finish | src/bot/bot.py:190 | a pipeline's closing `set_state`/`clear` restores its mode; after an exception the mode is left as it was; other users are untouched |
| BotModes.Conversations.ClearState | src/bot/bot.py:122-127 | the `clear_state` button returns the user to the default mode and touches no one else |
| BotOutput.SmartSplit | src/bot/bot.py:193-204 | head and tail concatenate to the text; the head fits the window unless the text already does (then the tail is empty); a non-empty text gives a non-empty head |
| BotOutput.SepCut | src/bot/bot.py:197-202 | a cut found by the separator scan lies past index 100 and inside the window |
| BotOutput.SepCutFirst | src/bot/bot.py:199-202 | the cut is made after the last occurrence of the first separator (in the listed order) that occurs past index 100 inside the window |
| BotOutput.SepCutNone | src/bot/bot.py:204 | when no separator occurs past index 100 there is no separator cut |
| BotOutput.SmartSplitCut | src/bot/bot.py:193-204 | on a text longer than the window: the hard cut at `max_length` when no separator qualifies, otherwise the cut after the first qualifying separator |
| BotOutput.Slices | src/bot/bot.py:440-446 | every slice the answer loop visits is non-empty and at most the window |
| BotOutput.SlicesCover | src/bot/bot.py:440-446 | the slices concatenate to the answer, there are none iff the answer is empty, and all but the last are full |
| BotOutput.AnswerMessages | src/bot/bot.py:440-446 | one message per slice |
| BotOutput.AnswerMessageAt | src/bot/bot.py:441-445 | message `i` is the rendered HTML slice when rendering succeeds and the plain slice otherwise; it carries the keyboard iff there is one, this slice renders and no earlier slice rendered |
| BotOutput.KeyboardAtMostOnce | src/bot/bot.py:442-443 | the keyboard is attached to at most one message |
| BotOutput.SendAnswer | src/bot/bot.py:440-446 | the loop sends exactly the messages `AnswerMessages` describes for the 4000-character slices |
| BotOutput.Raws | src/bot/bot.py:249-276 | the raw text of each sent piece, in order |
| BotOutput.GroqRun | src/bot/bot.py:249-276 | every piece the groq loop sends holds between 1 and 4000 characters of the answer, carries no keyboard, and is either the formatted HTML of that text, which rendered and was delivered, or the text itself as plain text |
| BotOutput.GroqFallback | src/bot/bot.py:268-276 | after a failed chunk every piece keeps the same shape, and the first one is a plain-text cut of at most 3500 characters |
| BotOutput.GroqCoversAtMost | src/bot/bot.py:249-276 | the text sent by the groq-mode loop as written never adds up to more than the answer |
| BotOutput.GroqFallbackCoversAtMost | src/bot/bot.py:268-276 | the same for the `except` branch |
| BotOutput.GroqPrefixRaws | src/bot/bot.py:249-276 | the text sent by a piece followed by more pieces is the piece's text followed by theirs |
| BotOutput.GroqWellBehavedCovers | src/bot/bot.py:249-266 | when formatting never fails, stays within 4096 and is accepted, the loop sends the whole answer, every piece as HTML |
| BotOutput.GroqOverlongLosesText | src/bot/bot.py:258-259 | as written, a first chunk whose HTML exceeds 4096 characters makes the loop drop the text after the re-cut chunk |
| BotOutput.GroqFailedChunkLost | src/bot/bot.py:268-276 | as written, a first chunk that fails to format is never sent |
| BotOutput.GroqStep | src/bot/bot.py:250-276 | one turn of the loop leaves strictly less text to send |
| BotOutput.GroqTurn | src/bot/bot.py:250-276 | the loop body computes exactly the turn `GroqStep` describes |
| BotOutput.GroqSendAsWritten | src/bot/bot.py:249-276 | the loop as written sends exactly `GroqRun` |
| BotOutput.Deliver | src/bot/bot.py:256-276 | a piece is sent as HTML only when it formats within 4096 characters and is accepted, otherwise as its raw text; it never carries a keyboard |
| BotOutput.FixedStep | src/bot/bot.py:250-276 | a corrected turn sends a non-empty chunk of at most 4000 characters, and chunk plus what is left is the text before the turn |
| BotOutput.FixedRun | src/bot/bot.py:249-276 | the corrected loop sends nothing exactly for an empty answer, and each piece is 1 to 4000 characters delivered as HTML when it renders and is delivered, else plain |
| BotOutput.FixedRunCovers | src/bot/bot.py:249-276 | the corrected loop sends the whole answer in order, each chunk at most 4000 characters and sent as `Deliver` says |
| BotOutput.FixedRunAgrees | src/bot/bot.py:249-266 | with a well-behaved formatter the corrected loop sends exactly what the loop as written sends |
| BotOutput.GroqSend | src/bot/bot.py:249-276 | the corrected loop's method sends exactly `FixedRun` |
| BotOutput.GroqFixedTurn | src/bot/bot.py:250-276 | the corrected loop body computes `FixedStep` |
| BotOutput.WellBehavedTurn | src/bot/bot.py:251-266 | with a well-behaved formatter one turn sends the whole first 4000-window chunk as HTML, as the loop as written does |
| BotOutput.Window | src/bot/bot.py:395 | a window holds at most nine files |
| BotOutput.SendFiles | src/bot/bot.py:392-410 | the file loop makes exactly the batches `Batches` describes |
| BotOutput.WindowShift | src/bot/bot.py:410 | dropping the first nine files shifts the later windows down by one |
| BotOutput.BatchesShape | src/bot/bot.py:392-410 | there are ceil(n/9) batches, and batch `k` holds the non-images of window `k` as documents and its images as one media group, each in order |
| BotOutput.Batches | src/bot/bot.py:392-410 | there are no batches exactly when there are no files, and no batch holds more than nine documents or nine photos |
| BotOutput.SortWindow | src/bot/bot.py:395-402 | one window's files are sorted into documents and photos, keeping their order |
| BotOutput.BatchesSendEachFileOnce | src/bot/bot.py:392-410 | every output file is sent exactly once (the batches' files are a permutation of the output files) |
| BotCallbacks.RouteEncoded | src/bot/bot.py:477-559 | every button's callback data reaches the handler meant for it, whatever its hash and language, although the handlers' filters only compare fixed-length prefixes |
| BotCallbacks.RouteTranslateMessage | src/bot/bot.py:477 | data written by a translate button passes the `data[:17]` filter |
| BotCallbacks.RouteRunCode | src/bot/bot.py:499 | data written by a run button passes the `data[:15]` filter and no earlier one |
| BotCallbacks.RouteRenderLatex | src/bot/bot.py:538 | data written by a render button passes the `data[:12]` filter and no earlier one |
| BotCallbacks.RouteTranslateHelp | src/bot/bot.py:558 | data written by the help translation button passes the `data[:22]` filter: it is not caught by the `translate_message` filter before it |
| BotCallbacks.Encode | src/bot/bot.py:417-431 | every button's data but `clear_state` carries a `-` separating the handler's name from its fields, and `clear_state` carries none |
| BotCallbacks.Decode | src/bot/bot.py:477-481 | a button's data is understood exactly when some handler's filter accepts it, and what is read belongs to that handler; the language read by either translate handler never holds a `-`, because `split('-')` cuts it there |
| BotCallbacks.DecodeFixed | src/bot/bot.py:477-481 | the same handler as `Decode` reads the data, and outside the two translate handlers the two readings agree |
| BotCallbacks.Part | src/bot/bot.py:480-481 | a field read with `split('-')[k]` never holds a `-` |
| BotCallbacks.SplitN | src/bot/bot.py:480-481 | `split(c, n)` gives between one and n+1 pieces, and every piece but the last is free of `c` |
| BotCallbacks.SplitNAtFirst | src/bot/bot.py:480-481 | a bounded split of a text whose first piece has no separator is that piece followed by the split of the rest with one cut fewer |
| BotCallbacks.NamesWithoutDash | src/bot/bot.py:417-427 | none of the four callback names holds a `-` |
| BotCallbacks.OneField | src/bot/bot.py:560 | the pieces of `name-rest` are the name followed by the pieces of the rest |
| BotCallbacks.OneFieldN | src/bot/bot.py:560 | cut at most once, `name-rest` gives exactly the name and the rest |
| BotCallbacks.TwoFields | src/bot/bot.py:480-481 | the pieces of `name-hash-rest` are the name, the hash and the pieces of the rest |
| BotCallbacks.TwoFieldsN | src/bot/bot.py:480-481 | cut at most twice, `name-hash-rest` gives exactly the name, the hash and the rest |
| BotCallbacks.SplitWithoutDash | src/bot/bot.py:480-481 | a text with no `-` splits into itself alone |
| BotCallbacks.DecodeFixedRoundTrip | src/bot/bot.py:417-427 | read with bounded splits, every button's data reads back as exactly the button that wrote it (hashes are hexadecimal) |
| BotCallbacks.DecodeRoundTrip | src/bot/bot.py:477-560 | the handlers' own reading gives the button back whenever the language holds no `-` |
| BotCallbacks.DecodeTruncatesLanguage | src/bot/bot.py:427-481 | a translate button for a language with a region (`lang-region`) reads back as a translation into the bare `lang` |
| BotCallbacks.DecodeTruncatesHelpLanguage | src/bot/bot.py:91-560 | the same cut for the help text's translation button |
| BotCallbacks.DecodeTruncatesPtBr | src/bot/bot.py:91-560 | a `pt-br` client's help button asks for `pt` |
| BotCallbacks.Keyboard | src/bot/bot.py:413-436 | an answer gets at most four buttons |
| BotCallbacks.KeyboardButtons | src/bot/bot.py:413-436 | the run button iff the answer holds a Python block, the render button iff it holds a LaTeX block, a translation into the user's language iff the answer's language differs, a translation into the client's language whenever that differs from the user's; no button iff none of these; every button carries the answer's hash |
| BotCallbacks.HelpKeyboard | src/bot/bot.py:89-94 | `/help` gets no keyboard iff the client language is English, and otherwise one button translating into the client language |
| BotCallbacks.BeforeFence | src/bot/bot.py:507 | `split('```')[0]` is a prefix free of fences that is the whole piece or stops right at a fence |
| BotCallbacks.AfterMarker | src/bot/bot.py:507 | `split('```python')[1]` is the text after the first marker up to the next marker or the end |
| BotCallbacks.ExtractCode | src/bot/bot.py:506-509 | there is no code iff the answer has no Python marker (the subscript raises), and code found holds no fence |
| BotCallbacks.ExtractCodeFollowsMarker | src/bot/bot.py:507 | the code starts right after the first marker and is followed by a fence, or runs to the end |
| BotCallbacks.FirstMarker | src/bot/bot.py:507 | the code is the first fence-free piece after the first marker |
| BotCallbacks.FollowsMarker | src/bot/bot.py:507 | a prefix of the piece after the marker that stops at a fence is followed by a fence in the whole text |
| BotCallbacks.VisibleOutput | src/bot/bot.py:519-520 | the shown output is never empty, and it is the output itself iff the output holds something besides newlines |
| BotCallbacks.NewlinesOnly | src/bot/bot.py:519 | removing the newlines leaves nothing iff the text is only newlines |
| BotCallbacks.OutputMessages | src/bot/bot.py:530-532 | one `output` block per 4000-character slice of the shown output, in order |
| BotCallbacks.OutputCovers | src/bot/bot.py:530-532 | the blocks carry the whole shown output, in order, and there is at least one |
| BotCallbacks.RunCodeCallback | src/bot/bot.py:499-534 | the hash is the data's second field; with no such field, or no stored turn carrying the hash, the handler fails, nothing is stored and no photo is sent; otherwise the code is `ExtractCode` of the first stored turn with the hash, there is `NoCode` exactly when that code is missing or empty (nothing stored, no photo), and otherwise the photo is the interpreter's image, the record says what was shown and whether there was an image, the output goes out in one block per 4000-character slice, and exactly one system turn holding the record is appended for the clicking user; a stored hash and a known user always give an answer, and once the hash is stored only an unknown user makes the handler fail, after the code ran and its image was sent (`photoSent`); users and archive never change |
| BotCallbacks.RunStoredCode | src/bot/bot.py:505-534 | for a found answer: no code (or empty code) gives `NoCode` with nothing stored and no photo; otherwise the interpreter's image is sent, and the handler raises exactly when the user is unknown, storing nothing; on success the outcome is the run of the answer's code and the one system turn is appended |
| BotCallbacks.LatexBlock | src/bot/bot.py:544 | a block is found iff the answer has an opening ```` ```latex ```` line followed somewhere by a closing fence line |
| BotCallbacks.LatexBlockShape | src/bot/bot.py:544 | the block lies between the first opening and the first closing after it, and holds no closing (the match is lazy) |
| BotCallbacks.LatexBlockBounds | src/bot/bot.py:544 | the block is the text between the first opening and the first closing after it |
| BotCallbacks.NoCloseInside | src/bot/bot.py:544 | a stretch where no closing starts holds no closing |
| BotCallbacks.RenderLatexCallback | src/bot/bot.py:538-555 | the handler fails exactly when the data has no hash field, no stored turn carries the hash, the first such turn holds no ```` ```latex ```` block, or the user is unknown, and then nothing is stored; the PDF or the error text (`sent`) goes out exactly when the block was found, and it is the compile result of the LaTeX block of the first stored turn with the hash, so an unknown user still receives it before the insert raises; on success the outcome is that result and one system turn records whether it worked; nothing else in the store changes |
| BotCallbacks.TranslateCallback | src/bot/bot.py:477-496 | the data is read as written (`split('-')`, so a `pt-br` button asks for `pt`); when that reading fails nothing is sent; once it names a hash and a language, the handler fails exactly when no stored turn carries the hash; what is sent is the 4000-character slices of the first stored turn carrying the data's hash, translated into the language read, each HTML when it renders and plain otherwise, never with a keyboard |
| BotCallbacks.SendTranslation | src/bot/bot.py:482-493 | the lookup fails exactly when no stored turn carries the hash; otherwise the messages are the slices of the first such turn translated into the language, without keyboards |
| BotCallbacks.TranslateCallbackFixed | src/bot/bot.py:477-496 | the same handler, with the same failure and success conditions, over the corrected reading `DecodeFixed`, so a `pt-br` button is translated into `pt-br` |
| BotPipeline.MessageText | src/bot/bot.py:215-340 | the message text wins when there is one; otherwise the stripped transcript, the caption, or the stock request for a photo or a document; a message with neither text nor attachment has no text (the variable stays unbound); the groq pipeline (215-234) makes the same choice with the same stock text |
| BotPipeline.InputFiles | src/bot/bot.py:305-337 | a message brings at most one downloaded file |
| BotPipeline.Attached | src/bot/bot.py:349-352 | the text a file adds is empty exactly when the file stays with the request; otherwise the file is not an image and the text starts with a blank line and `<path>:` |
| BotPipeline.PlainDocumentAttached | src/bot/bot.py:349-352 | as written, a document that is not pdf, docx or mp3 adds only `\n\n<path>:\nError reading <path>` to the user's turn, whatever it holds |
| BotPipeline.FileKeptOrInlined | src/bot/bot.py:349-352 | the downloaded file stays with the request iff it is an image, and is otherwise turned into its as-written `files_to_text` text appended to the user's turn |
| BotPipeline.Record | src/bot/database.py:85-96 | inserting a turn for a registered user appends exactly that row and changes nothing else |
| BotPipeline.ToolAnswerSawToolTurn | src/bot/bot.py:361-384 | a tool turn exists iff the plan is non-empty; then the answer is the model's reply to the prompt extended by that turn; with an empty plan it is the concurrent plain reply and no files are produced |
| BotPipeline.Answer | src/bot/bot.py:361-384 | the answer and the tool files are the ones `AgentAnswer`/`ToolFiles` describe, and the store gains the `tool result:` system turn exactly when a non-empty plan ran |
| BotPipeline.SendReply | src/bot/bot.py:391-446 | the tool files go out in ceil(n/9) batches, each file once; the buttons are `Keyboard`'s for the answer; the answer goes out in 4000-character slices with the keyboard on the first one that renders; the expression photo is not part of the reply (see Left out) |
| BotPipeline.Converse | src/bot/bot.py:344-446 | the store gains the user's turn, the tool turn when tools ran and the answer when there is one; a reply exists iff there is an answer, and then it carries that answer, every tool file once, the buttons and the slices |
| BotPipeline.HandleDefault | src/bot/bot.py:281-446 | the user is registered or counted first; a message without text then raises with no turn stored; otherwise the prompt is the system prompt, the recent history read before the turn is stored, and the user's text with the document text, and the turn proceeds as `Converse` says |
| BotPipeline.ButtonsFindStoredAnswer | src/bot/bot.py:388-431 | every button under a stored answer carries a hash that names a stored turn, so the callbacks' lookup finds it |
| BotPipeline.FirstOfAnswer | src/bot/bot.py:242 | as written, `[0]` keeps one character of the answer, and raises on an empty answer |
| BotPipeline.GroqAnswerCutToFirstCharacter | src/bot/bot.py:242 | any answer longer than one character is cut to its first character |
| BotPipeline.GroqConverse | src/bot/bot.py:236-276 | the store gains the user's turn and the answer exactly when the compound model gives one; the reply is the whole answer sent in pieces that cover it exactly |
| BotPipeline.HandleGroq | src/bot/bot.py:207-278 | a photo is refused with the store untouched; a message without text raises before anything is stored; otherwise the history read before registration plus the user's turn goes to the compound model and the turn proceeds as `GroqConverse` says |
| BotPipeline.Classify | src/bot/bot.py:182-187 | an image file name is sent as a photo file, an http(s) link as a photo by URL, anything else (or nothing) as an apology |
| BotPipeline.HandleWolfram | src/bot/bot.py:155-190 | the first query is the text, or what the model reads off the photo; a second, model-repaired query is sent iff the first gets no answer; the reply classifies the last answer; it raises iff the query cannot be formed or the repair fails |
| LegacyBot.LegacyRoute | src/bot.py:51-59 | `/start` is answered in any state; any other message starts the pipeline iff the user is not being processed, and reaches no handler otherwise |
| LegacyBot.Lock.constructor | src/bot.py:31-36 | no user is locked at start |
| LegacyBot.Lock.Receive | src/bot.py:57-59 | the handler run is the routed one, and starting the pipeline locks the user |
| LegacyBot.Lock.Finish | src/bot.py:198 | a normal return unlocks the user; after an exception the user stays locked |
| LegacyBot.LegacyText | src/bot.py:75-113 | the user's text as in the current bot, except that a document without caption asks only to describe the document |
| LegacyBot.LegacyAttached | src/bot.py:123-127 | the text a file adds is empty exactly when the file stays with the request; otherwise it is a blank line, `<path>:` and the older tool module's `files_to_text` text for that file, which is not an image |
| LegacyBot.AnswerPrompt | src/bot.py:135-146 | the tool turn is added to the prompt exactly when the tool result has text or files |
| LegacyBot.FirstNine | src/bot.py:153 | at most the first nine output files, all of them when there are no more than nine |
| LegacyBot.LocalFiles | src/bot.py:186-193 | the files removed are exactly the sent files that are not `https:` links |
| LegacyBot.LegacySend | src/bot.py:153-193 | one batch of the first nine files; the run button iff the answer holds a Python block; the answer in 4000-character slices with the button on the first slice that renders; the local files among the nine removed |
| LegacyBot.OnlyFirstNineLeave | src/bot.py:153-168 | every one of the first nine files is sent exactly once, and no later file is sent or removed |
| LegacyBot.LegacyConverse | src/bot.py:131-193 | a failing plan or tool run stores nothing; otherwise the user's turn, the tool turn exactly when its result is kept, and the answer when there is one are stored in that order, and the reply carries that answer |
| LegacyBot.HandleLegacy | src/bot.py:57-198 | the user is registered first; a message without text raises with no turn stored; otherwise the prompt is built from the recent history and `LegacyAttached`'s text, and the turn goes on as `LegacyConverse` says |
| LegacyBot.Unescape | src/bot.py:207 | removing escape backslashes never lengthens the text, and keeps a non-empty text non-empty |
| LegacyBot.Escape | src/bot.py:207 | escaping never shortens the text |
| LegacyBot.UnescapeEscape | src/bot.py:207 | the substitution undoes markdown escaping: the code run is the code the model wrote |
| LegacyBot.UnescapePlain | src/bot.py:207 | text without backslashes is left unchanged |
| LegacyBot.LegacyCode | src/bot.py:205-209 | there is no code iff the message has no Python marker, and the un-escaped code is empty iff the extracted code is |
| LegacyBot.RunLastCode | src/bot.py:201-234 | without code, 'No code found', nothing stored and no photo; otherwise the interpreter's image is sent (`photoSent`) whether or not the insert then raises, it raises iff the user is unknown, and on success stores the shown-output record and sends one `output` block per 4000-character slice |
| Chunking.LastMatchEnd | src/bot/formatter.py:598-599 | the end of the last left-to-right match of the separator, or the start when there is none; no match starts after it |
| Chunking.BeforeLast | src/bot/formatter.py:598-599 | `_text_before_last` keeps a prefix of the window that ends with the separator, after which the separator does not occur |
| Chunking.Cut | src/bot/formatter.py:609-619 | the part kept from a full window is a non-empty prefix of it |
| Chunking.CutPriority | src/bot/formatter.py:612-619 | a window is cut after its last paragraph break if it has one; otherwise after its last line break, else its last `. `, else its last space, else not at all |
| Chunking.CutAtLine | src/bot/formatter.py:614-615 | without a paragraph break, a window with a line break is cut after its last one |
| Chunking.CutWithoutLines | src/bot/formatter.py:616-619 | without line breaks, the cut is after the last `. `, else after the last space, else the whole window is kept |
| Chunking.CutAtParagraph | src/bot/formatter.py:612-615 | a window with a paragraph break is cut after the last one: the line-break step that follows keeps that cut |
| Chunking.LineBreakKeepsParagraphCut | src/bot/formatter.py:613-615 | a part ending with a paragraph break is its own cut at its last line break |
| Chunking.PartsCover | src/bot/formatter.py:603-622 | the parts concatenate to the text; every part but the last is non-empty and fits a window; the last is shorter than a window |
| Chunking.SmartSplit | src/bot/formatter.py:581-622 | the loop returns exactly the parts `Parts` describes, with the window capped at 4096 |
| Chunking.Parts | src/bot/formatter.py:581-622 | the split loop yields at least one part, and exactly one when the text is shorter than the part size |
| Chunking.KeepPart | src/bot/formatter.py:609-619 | the cut steps of one turn compute `Cut` |
| Chunking.TagsAreTags | src/bot/formatter.py:677-679 | the six tags counted each start with `<`, end with `>` and hold neither elsewhere |
| Chunking.CountSplit | src/bot/formatter.py:677-679 | counting a tag is additive across a boundary that no occurrence crosses |
| Chunking.AppendNoStraddle | src/bot/formatter.py:683-693 | no occurrence of a tag crosses into text that starts with `<` |
| Chunking.PrependNoStraddle | src/bot/formatter.py:663-673 | no occurrence of a tag crosses out of a tag put in front |
| Chunking.CountWithoutOpen | src/bot/formatter.py:677-679 | a text without `<` holds no tag |
| Chunking.CountTagInTag | src/bot/formatter.py:677-679 | a tag holds exactly one occurrence of itself and none of another tag |
| Chunking.Repeat | src/bot/formatter.py:684 | `t * k` is k times as long as `t` |
| Chunking.CountRepeat | src/bot/formatter.py:684-692 | `t * k` holds k occurrences of `t` and none of any other tag |
| Chunking.SplitHtml | src/bot/formatter.py:624-698 | a text shorter than the limit comes back whole; otherwise the chunks are the re-balanced parts of the link-masked text |
| Chunking.BalanceChunk | src/bot/formatter.py:659-696 | one turn: reopen the carried tags on the restored chunk, then close what it leaves open |
| Chunking.CloseChunk | src/bot/formatter.py:677-693 | closing computes `CloseTags`: the balances are taken before any closer is added |
| Chunking.AppendTags | src/bot/formatter.py:684-692 | appending closers changes the count of a tag only by the closers appended |
| Chunking.CloseTagsCounts | src/bot/formatter.py:677-693 | closing keeps every opening tag and adds exactly the missing closers of each kind |
| Chunking.RebalanceClosed | src/bot/formatter.py:657-698 | one chunk per part, and every chunk closes every `<b>`, `<code>` and `<pre>` it opens |
| Chunking.Rebalance | src/bot/formatter.py:624-698 | the tag-balancing pass keeps one chunk per part |
| Chunking.CarryReopens | src/bot/formatter.py:662-693 | the next chunk opens again exactly the kinds of tag the previous chunk left open |
| CodeBlocks.Language | src/bot/formatter.py:44-48 | the language is the rest of the opening line, stripped and lower-cased; `c++` becomes `cpp` and an empty name `plaintext` |
| CodeBlocks.BreakRun | src/bot/formatter.py:63 | the length of the run of line breaks a text starts with: all line breaks, followed by the end or by something else |
| CodeBlocks.ReplaceCodeLang | src/bot/formatter.py:21-64 | the loop computes the line scan over `t.split('\n')` followed by the collapse of line-break runs before `</code>` |
| CodeBlocks.ScanAppend | src/bot/formatter.py:36-62 | scanning two runs of lines is scanning the first and then the second from where it ended |
| CodeBlocks.ScanLines | src/bot/formatter.py:21-60 | the line loop only ever appends: what was already emitted stays a prefix of the result |
| CodeBlocks.PassThrough | src/bot/formatter.py:60-61 | outside a block, lines that do not start with `<code>` are copied, each followed by a line break |
| CodeBlocks.Gather | src/bot/formatter.py:58-59 | inside a block, lines without `</code>` are gathered and nothing is emitted |
| CodeBlocks.Block | src/bot/formatter.py:38-57 | a block becomes the language-class opener, the gathered lines, the closing line up to its first `</code>`, and `</code></pre>` |
| CodeBlocks.CloseLine | src/bot/formatter.py:53-57 | a line holding `</code>` ends the block, keeping only what precedes its first `</code>` |
| CodeBlocks.Unterminated | src/bot/formatter.py:36-62 | a block that is never closed leaves only its opener in the output: its lines are dropped |
| CodeBlocks.CollapseRun | src/bot/formatter.py:63 | two or more line breaks right before `</code>` become one |
| CodeBlocks.Collapse | src/bot/formatter.py:63 | collapsing runs of `<br>` never lengthens the text, and a text it does not shorten is returned unchanged |
| CodeBlocks.Repeat | src/bot/formatter.py:63 | `n` copies of a character |
| CodeBlocks.BreakRunOfBreaks | src/bot/formatter.py:63 | the run measured at the start of n line breaks followed by something else is n |
| CodeBlocks.CollapseWithoutClose | src/bot/formatter.py:63 | a text without `</code>` is left unchanged by the substitution |
| CodeBlocks.Shifted | src/bot/formatter.py:63 | a suffix of a text without `</code>` has none either |
| CodeBlocks.TerminatedJoin | src/bot/formatter.py:34-61 | lines each followed by a line break are their join with one more line break at the end |
| CodeBlocks.NoCloseAfterBreak | src/bot/formatter.py:61-63 | a line break at the end cannot complete a `</code>` |
| CodeBlocks.PlainText | src/bot/formatter.py:21-64 | a text with no `<code>` line and no `</code>` comes back unchanged but for a line break at the end |
| Tables.SuffixedInjective | src/bot/formatter.py:223 | different counters give different `_k` names |
| Tables.TriedSize | src/bot/formatter.py:221-224 | the names `original_1` to `original_{m-1}` are m-1 distinct names, which bounds the inner loop |
| Tables.SubsetSize | src/bot/formatter.py:222 | a subset is no larger than its superset |
| Tables.MakeStringsUnique | src/bot/formatter.py:207-227 | one name per string, no two alike, each the string itself when still free and otherwise its first free `_k` variant |
| Tables.FirstFree | src/bot/formatter.py:220-224 | the inner loop returns a name not yet seen: the string itself if free, else `original_k` for the smallest free k |
| Tables.KeptUnlessTaken | src/bot/formatter.py:219-226 | a string keeps its own name iff no earlier output name is that string |
| Tables.Without | src/bot/formatter.py:158 | removing a character leaves none of it |
| Tables.ReplaceRemoves | src/bot/formatter.py:158 | `replace(c, '')` is the removal of every `c` |
| Tables.WithoutBothEmpty | src/bot/formatter.py:158 | removing dashes and colons leaves nothing iff the cell is only dashes and colons |
| Tables.WithoutHead | src/bot/formatter.py:158 | removal works one character at a time from the front |
| Tables.StripCharsEmpty | src/bot/formatter.py:155 | stripping a set of characters leaves nothing iff every character is in the set |
| Tables.StripCharsLeftEmpty | src/bot/formatter.py:155 | the same for stripping on the left only |
| Tables.SeparatorIff | src/bot/formatter.py:154-158 | a separator line holds something besides bars and spaces, and each of its cells, stripped, is made only of dashes and colons; and conversely |
| Tables.IsValidSeparator | src/bot/formatter.py:154-158 | a line passes as a table's separator row only if it holds some character other than `\|` and space (a line of bars and spaces alone is never a separator) |
| Tables.Align | src/bot/formatter.py:233-240 | a cell is centred iff it starts and ends with `:`, right-aligned iff it only ends with one, left-aligned iff it does not end with one |
| Tables.Alignments | src/bot/formatter.py:232-240 | one alignment per cell of the separator row with its outer bars stripped, each the `Align` of its cell (centred, right or left as `Align` states), at least one, and exactly one when the row holds no `\|` |
| Tables.TagsComeBack | src/bot/formatter.py:270-314 | the reverse table undoes the forward one: every tag's hash maps back to that tag (the other direction is `HashesComeBack`) |
| Tables.HashesComeBack | src/bot/formatter.py:270-314 | the forward table undoes the reverse one: every hash in the reverse table names a tag whose hash is that hash, so the two tables are mutual inverses |
| Tables.TagCounts | src/bot/formatter.py:270-314 | each table holds exactly twenty entries: the ten tags, opening and closing, and their twenty hashes |
| Quotes.ProcessQuotes | src/bot/formatter.py:466-491 | the loop joins exactly the lines `Grouped` describes: quoted runs as block quotes, other lines as they are |
| Quotes.Grouped | src/bot/formatter.py:466-491 | the grouping loop yields at most one line per input line plus one for a pending quote run, and yields nothing exactly when there is neither a pending run nor a line left |
| Quotes.Gathers | src/bot/formatter.py:474-477 | a run of quoted lines only gathers their contents |
| Quotes.RunBecomesOneBlock | src/bot/formatter.py:472-490 | a maximal run of quoted lines becomes exactly one block quote holding their contents in order, followed by the line that ended the run |
| Quotes.NoQuotesKept | src/bot/formatter.py:478-484 | without quoted lines every line is kept as it is |
| Quotes.NoQuotesUnchanged | src/bot/formatter.py:466-491 | a text with no quoted line comes back unchanged |
| Latex.StripFence | src/agent/tools/latex.py:78-81 | stripping a fence never lengthens the answer, and an answer that does not start with a fence is unchanged |
| Latex.LatexFenceRoundTrip | src/agent/tools/latex.py:78-79 | a body fenced as ```` ```latex ```` and closed on its own line comes back exactly |
| Latex.BareFenceRoundTrip | src/agent/tools/latex.py:80-81 | a body behind a bare fence comes back exactly, unless it begins with `latex` |
| Latex.Appended | src/agent/tools/latex.py:60 | appended text occurs right after what it was appended to |
| Latex.Extended | src/agent/tools/latex.py:60 | an occurrence stays in place when the text grows at the end |
| Latex.Enclose | src/agent/tools/latex.py:60 | the preamble comes first, `\begin{document}` right after it, then the content, and the text ends with `\end{document}` |
| Latex.Wrap | src/agent/tools/latex.py:52-60 | the wrapped text opens a document and holds the content; a content with `\begin{document}` is kept as it is; any other starts with the fixed preamble and ends with `\end{document}` |
| Latex.LatexToPdf | src/agent/tools/latex.py:50-62 | a call past the third turn returns `None` and compiles nothing |
| Latex.CompileFrom | src/agent/tools/latex.py:61-83 | past the third turn nothing is sent and the result is `None` |
| Latex.Retried | src/agent/tools/latex.py:61-83 | no repair is attempted when the document compiles or after the third turn; a repaired document wraps a `\begin{document}` and comes from a compiler answer that was not an error |
| Latex.Turn | src/agent/tools/latex.py:64-83 | one turn sends its document; a failed compile with a model answer goes on with the repaired document; otherwise a file comes back iff the document compiled, named after its md5 digest |
| Latex.AttemptsBounded | src/agent/tools/latex.py:61-83 | the first document sent is the given one, at most `4 - turn` documents are sent, and each opens a document |
| Latex.EarlierAttemptsFailed | src/agent/tools/latex.py:67-83 | every document sent before the last one failed to compile |
| Latex.FailedBefore | src/agent/tools/latex.py:72-83 | a failed document in front of documents all but the last of which failed keeps that property |
| Latex.FileFromLastAttempt | src/agent/tools/latex.py:64-71 | a file comes back iff the last document sent compiled, and it is named after that document's md5 digest |
| Latex.LastOfSent | src/agent/tools/latex.py:83 | putting a failed document in front of a later turn's outcome keeps the file and the last document |
| Latex.LatexToPdfAttempts | src/agent/tools/latex.py:50-83 | every document sent opens a document, all but the last failed, and a file comes back iff the last one compiled; the older copy at src/agent/tools.py:688-722, which asks the Google model for the repair, behaves the same |
| Latex.TextToPdfDocument | src/agent/tools/latex.py:86-103 | with the logger call corrected: a failing model call raises with nothing compiled; otherwise one to three documents are sent, the first being the stripped, fence-less answer, wrapped; the older copy at src/agent/tools.py:725-742 behaves the same |
| Latex.TextToPdfDocumentAsWritten | src/agent/tools/latex.py:101-103 | as written, the call always ends in `TypeError` from the logger call, losing the file name, after sending the compiler the same documents; the older copy at src/agent/tools.py:740-742 has the same logger call |
| LatexImages.NoSpaceLeft | src/agent/tools/latex.py:14 | replacing spaces by `%20` leaves no space |
| LatexImages.CodecogsLink | src/agent/tools/latex.py:14 | the link starts with the codecogs base address, the size and the closing brace |
| LatexImages.LinkHasNoSpace | src/agent/tools/latex.py:14 | an image link holds no space |
| LatexImages.LinkEndsWithExpression | src/agent/tools/latex.py:14 | an expression without spaces ends its link unchanged |
| LatexImages.Unwrapped | src/agent/tools/latex.py:13 | `strip('$')` never lengthens the expression and leaves no `$` at either end |
| LatexImages.ExpressionToPng | src/agent/tools/latex.py:10-27 | a result comes back iff the request for the unwrapped expression's link answers 200, and then it is the message and the one file named after the md5 digest; the older copy at src/agent/tools.py:647-663 behaves the same |
| LatexImages.FirstNonEmpty | src/agent/tools/latex.py:35-37 | the first non-empty item of a group, and none exactly when every item is empty (the subscript raises) |
| LatexImages.Kept | src/agent/tools/latex.py:33-42 | no more expressions are kept than given |
| LatexImages.Step | src/agent/tools/latex.py:34-42 | one iteration keeps the list going iff its element has a text, and appends the unwrapped text iff it is longer than three characters |
| LatexImages.KeptRenderable | src/agent/tools/latex.py:38-40 | every expression kept is longer than three characters and has no `$` at either end |
| LatexImages.KeptConcat | src/agent/tools/latex.py:34-42 | the kept expressions keep their order: the list for a concatenation is the concatenation of the lists |
| LatexImages.StepPrepended | src/agent/tools/latex.py:34-42 | a step after a prefix is the prefix in front of the step |
| LatexImages.KeptFails | src/agent/tools/latex.py:32-47 | the whole list fails iff some group has only empty items |
| LatexImages.LinksFor | src/agent/tools/latex.py:41-42 | one link per kept expression, in order |
| LatexImages.KeptPrefix | src/agent/tools/latex.py:34-42 | one more element extends the prefix's list by one step |
| LatexImages.LinksForAppend | src/agent/tools/latex.py:41-42 | the links of a concatenation are the concatenation of the links |
| LatexImages.ExpressionsToPng | src/agent/tools/latex.py:30-47 | a group without a non-empty item gives `[]`; otherwise the result is the download of the kept expressions' links, or `[]` when the download raises; the older copy at src/agent/tools.py:669-685 behaves the same |
| YouTube.Rendered | src/agent/tools/youtube.py:18-21 | one line per row: the `N minute:` header or the entry's text |
| YouTube.RenderedAppend | src/agent/tools/youtube.py:15-21 | rendering rows one run after another is rendering each run |
| YouTube.RowsStep | src/agent/tools/youtube.py:15-21 | one more entry adds its block of rows |
| YouTube.RowsShape | src/agent/tools/youtube.py:11-21 | the transcript's rows hold each entry's text and at most one minute header per entry; a transcript starting at a non-negative time opens with its first minute's header, and it always ends with the last entry's text |
| YouTube.RenderedStep | src/agent/tools/youtube.py:16-21 | one more entry adds a header line when its minute changes, then its text |
| YouTube.Transcript2Text | src/agent/tools/youtube.py:11-23 | the loop returns the rows for the whole transcript, joined by `sep`: a header comes before an entry exactly when its minute differs from the previous entry's; the older copy at src/agent/tools.py:522-534 behaves the same |
| YouTube.LinesAppend | src/agent/tools/youtube.py:15-21 | texts and header counts of rows add up across a concatenation |
| YouTube.TextsInOrder | src/agent/tools/youtube.py:15-21 | every entry's text appears exactly once and in order, with at most one header per entry |
| YouTube.RowsPrefix | src/agent/tools/youtube.py:15-21 | the rows of a prefix of the transcript begin the rows of the whole |
| YouTube.FirstEntryHeaded | src/agent/tools/youtube.py:13-19 | the first entry gets a header whenever it starts at or after zero |
| YouTube.EmptyTranscript | src/agent/tools/youtube.py:23 | an empty transcript gives the empty text |
| YouTube.MatchAt | src/agent/tools/youtube.py:30-31 | a match yields eleven id characters following `v=` or `/` |
| YouTube.MatchStart | src/agent/tools/youtube.py:31 | the search finds the leftmost match at or after a position, or none at all |
| YouTube.VideoId | src/agent/tools/youtube.py:29-37 | a link without `youtube.com` is its own id; otherwise the id is the group of the leftmost match, and there is none only when nothing matches anywhere |
| YouTube.NoMatchAt | src/agent/tools/youtube.py:30 | no match starts at a character other than `v` and `/` |
| YouTube.NoMatchIn | src/agent/tools/youtube.py:30 | no match starts inside a stretch without `v` and `/` |
| YouTube.WatchLinkId | src/agent/tools/youtube.py:30-33 | a `youtube.com/watch?v=` link gives the id after `v=` |
| YouTube.Title | src/agent/tools/youtube.py:43-47 | a page without a title gives the error title |
| YouTube.TitleKept | src/agent/tools/youtube.py:45 | a title without the ` - YouTube` suffix is kept as it is |
| YouTube.Transcript | src/agent/tools/youtube.py:50-75 | the requested language is used exactly when fetching it works; failing that, the language detected from the title whenever detection and that fetch both work; failing both, the first listed transcript translated to English; the placeholder iff the listing raises; and it raises iff the listing is empty (the variable stays unbound) |
| YouTube.PlaceholderText | src/agent/tools/youtube.py:75-77 | the placeholder renders as `0 minute:` and the notice |
| YouTube.GetYoutubeTranscripts | src/agent/tools/youtube.py:27-77 | a `youtube.com` link without an id gives the bare error string; a failing page request raises that exception; with an id and a page, it raises exactly when the transcript chain raises, and otherwise returns the rendered text of the chosen transcript and the page title; the older copy at src/agent/tools.py:538-589 behaves the same |
| YouTube.SumPrompt | src/agent/tools/youtube.py:84-87 | the prompt asks the question when a non-empty one is given and a summary otherwise, names the title, and ends with the transcript text |
| YouTube.ErrorAnswer | src/agent/tools/youtube.py:95 | the error answer starts `Error(`, holds the exception right after it, and ends with the fixed advice |
| YouTube.YoutubeSum | src/agent/tools/youtube.py:80-95 | fetched transcripts are answered with the model's answer (or the error answer) for the prompt built from the question, the title and the text, with or without a question; a raising fetch raises; as written, a bad link raises (the error string cannot be unpacked into two values); the older copy at src/agent/tools.py:592-607 behaves the same |
| YouTube.Answer | src/agent/tools/youtube.py:89-95 | the model's answer when it gives one, and the error answer naming the exception when it raises |
| YouTube.YoutubeSumFixed | src/agent/tools/youtube.py:80-95 | a bad link is answered with its error string; every other link is answered as written |
| YouTube.IncorrectLinkRaises | src/agent/tools/youtube.py:35-82 | a `youtube.com` link without an id makes `youtube_sum` raise |
| YouTube.BareDomainHasNoId | src/agent/tools/youtube.py:29-35 | `www.youtube.com` names the site but the pattern finds no id in it, the `incorrect link` case |
| YouTube.AnswersFromTranscript | src/agent/tools/youtube.py:80-92 | with a working page, the answer to a question is the model's answer to a prompt that starts with the question and ends with the transcript text |
| YouTube.SummarizesTranscript | src/agent/tools/youtube.py:80-92 | with a working page and no question (none, or an empty one), the answer is the model's answer to a summary request that names the title and ends with the transcript text |
| YouTube.QuestionPrompt | src/agent/tools/youtube.py:84-85 | a prompt with a question starts with the question and ends with the transcript |
| Wolfram.Calculator | src/agent/tools/wolfram.py:15-24 | the value of the rewritten expression when it evaluates, and `Calculator error: ` followed by the exception text when it raises; the older copy at src/agent/tools.py:293-301 behaves the same |
| Wolfram.PowerSyntaxShape | src/agent/tools/wolfram.py:18 | the rewritten expression has no caret left and is one character longer per caret |
| Wolfram.NoCaretUnchanged | src/agent/tools/wolfram.py:18 | an expression without a caret is evaluated as it is |
| Wolfram.Truncate | src/agent/tools/wolfram.py:42 | the cut text is a prefix of the answer |
| Wolfram.TruncateFixed | src/agent/tools/wolfram.py:42 | the corrected cut text is a prefix of the answer |
| Wolfram.TruncateDropsLast | src/agent/tools/wolfram.py:42 | as written, an answer without the marker loses its last character (`find` gives -1) |
| Wolfram.TruncateExample | src/agent/tools/wolfram.py:42 | `x = 2` without the marker comes back as `x = ` |
| Wolfram.TruncateFixedCorrect | src/agent/tools/wolfram.py:42 | corrected, the text is everything before the first marker and never holds it; without a marker the text is kept whole |
| Wolfram.TruncateAgrees | src/agent/tools/wolfram.py:42 | both versions agree whenever the marker is there |
| Wolfram.RunEnd | src/agent/tools/wolfram.py:43 | the end of the run of non-space characters from a position: the first white space, or the end |
| Wolfram.MatchLength | src/agent/tools/wolfram.py:43 | a match is never longer than the text |
| Wolfram.Pieces | src/agent/tools/wolfram.py:43-44 | every link found matches `https?://\S+`; a link is followed by white space, as the match is greedy |
| Wolfram.MatchIsLink | src/agent/tools/wolfram.py:43 | a match is a link and what follows it is white space |
| Wolfram.PiecesRoundTrip | src/agent/tools/wolfram.py:43-44 | the scan cuts the text into its non-matching characters and its matches, which put back together give the text |
| Wolfram.LinksWellFormed | src/agent/tools/wolfram.py:43 | every link `findall` returns is a full match: a scheme, at least one more character, no white space |
| Wolfram.NoSchemeUnchanged | src/agent/tools/wolfram.py:43-44 | a text in which `http` never occurs has no link and is not changed by the substitution |
| Wolfram.LlmApiAnswer | src/agent/tools/wolfram.py:36-46 | as written: every link returned is well formed, and a cut text without `http` comes back as it is with no links; the older copy at src/agent/tools.py:313-323 behaves the same |
| Wolfram.LlmApiAnswerFixed | src/agent/tools/wolfram.py:36-46 | with the corrected cut: an answer with neither marker nor `http` comes back whole with no links |
| Imdb.Field | src/agent/tools/imdb.py:56-59 | subscripting by a key succeeds iff the value is an object holding the key, and gives that key's value |
| Imdb.Reshape | src/agent/tools/imdb.py:44-59 | the details of a complete response: its keys less `poster` plus `url`, `review`, `rating` and `ratingCount`; the page link, the review body, the rating value and count set; every other key unchanged |
| Imdb.GetFilmById | src/agent/tools/imdb.py:20-61 | a 404 gives the error pair; it raises iff the response is not an object or lacks the poster, the review body, the rating value or count, or the poster download raises; otherwise the details are the response without the poster, with the page link, the review body, the rating and its count set, every other key unchanged, and the poster (downloaded or not) alone in the list, so the details are `Reshape` of the response; the older copy at src/agent/tools.py:759-783 behaves the same |
| Imdb.FirstId | src/agent/tools/imdb.py:11-16 | no hit iff the results are empty; otherwise the id of the first hit |
| Imdb.ImdbApi | src/agent/tools/imdb.py:64-75 | no hit gives the error pair; a failing search or lookup raises; a 404 gives the bare `'Error'`; once the lookup answers, the call raises exactly when `imdb_get_film_by_id` does (`FilmFails`), and a complete response whose poster downloads gives `Details` of `Reshape` of it, holding the page link and no poster |
| Imdb.LegacyImdbApi | src/agent/tools.py:786-796 | the older version: no hit gives the bare `'Error'`; a 404 gives the error pair; once the lookup answers, the call raises exactly when `imdb_get_film_by_id` does, and a complete response whose poster downloads gives the pair of `Reshape` of it and the one-element list of the downloaded poster |
| LegacyTools.FilesToText | src/agent/tools.py:131-161 | the text is the `<path>:\n<text>\n\n` blocks of all the files, or only `Error reading <path>` for the first one that cannot be read |
| LegacyTools.OneFile | src/agent/tools.py:140-161 | one readable file (a plain text file included) gives its block; one that cannot be read gives its error line |
| LegacyTools.FilesTextAppend | src/agent/tools.py:138-161 | reading two lists in one call gives the two results concatenated when both can be read; a failure in the first list hides the second |
| LegacyTools.AttachOne | src/agent/tools.py:241-246 | an image is collected and adds no text; any other file appends its header and its `files_to_text` result |
| LegacyTools.AttachFiles | src/agent/tools.py:240-246 | the message is the user text followed by every non-image file's contribution in order, and the images are exactly the image files in order |
| LegacyTools.GenaiApi | src/agent/tools.py:220-259 | the answer is the backend's answer to the request built from the history and the files, and an empty message list raises |
| LegacyTools.RequestShape | src/agent/tools.py:222-255 | one history entry per earlier message with its mapped role, a text that begins with the user message, the image files in order, and the list form iff a file is given |
| LegacyTools.TextFileRequest | src/agent/tools.py:244-252 | a readable text file alone is sent in the list form with no image, its header appearing twice |
| LegacyTools.LlmApi | src/agent/tools.py:262-290 | Gemini first when the provider is Google or a file is given, falling back to Groq on the messages without files; otherwise Groq alone, whose exception propagates; the calls made are listed in order |
| LegacyTools.Texts | src/agent/tools.py:399 | succeeds iff every answer has a text, and then gives those texts in order |
| LegacyTools.Top | src/agent/tools.py:398 | a prefix of the answers of length three, or all of them when fewer |
| LegacyTools.DdgsAnswer | src/agent/tools.py:395-401 | an empty text when the search raises or finds nothing |
| LegacyTools.DdgsAnswerLines | src/agent/tools.py:395-401 | with one-line texts, the lines of the answer are the texts of the first three answers in order |
| LegacyTools.GoogleShortAnswer | src/agent/tools.py:464-470 | the DuckDuckGo answer when it is not empty, the Tavily search's result otherwise |
| LegacyTools.FirstAnswerWins | src/agent/tools.py:464-470 | when the first three answers have texts and the first is not empty, Tavily is not asked and the answer begins with that first text |

## Left out

- The wording of the prompts sent to the models (the planner's instructions, the summary and repair requests): a prompt is a `Request` value or a string built from its parts, and only its parts are stated.
- The network, the language models, WolframAlpha, DuckDuckGo, Tavily, PyMovieDb, the YouTube transcript service, the translator, `md5`/`sha256`, `eval`, Python's `hash` and the clock: each is a parameter of the model. Only what the code does with their answers is stated.
- URL quoting (`urllib.parse.quote`) of the WolframAlpha and codecogs queries: it is passed through as a parameter.
- asyncio concurrency: `asyncio.gather` of the tools, the image downloads and the expression images are modelled as one pass in order. Interleavings of handlers for the same user are not modelled, so the `processing` lock is shown to be set and cleared by the handler, not to exclude a concurrent handler.
- Telegram transport: deleting the "thinking" message, chat actions, the `parse_mode` markup itself. A message send is a call to a parameter that either accepts or rejects the HTML.
- `markdown_to_html` and `replace_latex`: these are parameters, not a model of the markdown library.
- The JSON archive write in the history store is modelled as appending to the archive sequence. Files and encodings are not modelled.
- The f-string SQL in `sql_get_by_hash` (src/bot/database.py) allows injection through the hash. The model treats the hash as a key.
- `ORDER BY time` in the history queries is modelled as the table's insertion order. This is an assumption, not a consequence: `utc_time` has one-second resolution (`Clock.UtcTimeOrder` shows its string order is chronological), so the turns stored for one request share a time, and `ORDER BY time DESC LIMIT n` leaves the order of such ties unspecified. The model takes tied rows in insertion order.
- A string given where the code expects a list of messages or files is normalised by the caller (`Normalise`, the one-element list). Aliasing of the caller's list by `messages.insert`/`append` is not modelled.
- White space (`strip`, `\s`, `\S`) is Python's set restricted to Latin-1: the characters 9–13, 28–32, 0x85 and 0xA0. Lower-casing is ASCII only. Other Unicode white space and case mappings are not modelled.
- Imdb.FirstId: a search hit whose id is not a string is treated as raising. The order of keys in the details dictionary is not modelled.
- A JSON parse error from a service is folded into the service's `Raised` result.
- YouTube transcript entries always carry `text` and `start`. A malformed entry is not modelled.
- `tavily_search`, `tavily_content` and the page summaries are parameters.
- The older `groq_api` in src/agent/tools.py uses a single client and no rotation. It is a parameter of `LegacyTools.LlmApi`.
- Chunking.SmartSplit requires a positive chunk size: with `chars <= 0` the source loop never terminates, and the callers always pass a positive size.
- GroqCompound: the elapsed time (`datetime.now()` differences, floats) is logged, and with `only_answer=False` it is also the third element of the returned tuple (src/agent/llm/groq.py:81-88). `WithTools` holds only the answer and the tools: the third element is dropped.
- `sleep(10)` between speech-recognition retries: time is not modelled, only the number of attempts.
- The pixels of the PNG images: `merge_pngs_vertically` is modelled by its layout (sizes and offsets), not by the image content.
- The PDF, DOCX and audio readers are parameters (`FileUtils.Readers`).
- `pdf_to_image` and `merges_pdf` (src/agent/tools.py): conversions done entirely by the PDF library, with no logic of their own to model.
- `wolfram_short_answer_api`, `wolfram_simple_api`, `wolfram_short_answer` and `wolfram_full_answer`: HTTP pass-throughs with no logic beyond the request.
- The help translation handler (src/bot/bot.py:558-570): its routing and its reading of the language are modelled (`BotCallbacks.RouteTranslateHelp`, `BotCallbacks.DecodeTruncatesHelpLanguage`). Its single translated message, Markdown with a plain fallback, is not.
- Wolfram.LlmApiAnswer: states that every link returned is well formed and that a text without `http` comes back unchanged. It does not give the substituted text in closed form for texts with links. `Wolfram.PiecesRoundTrip` states how the scan cuts the text.
- LlmApiAnswerFixed: the same gap as `Wolfram.LlmApiAnswer`. It states that every link returned is well formed and that a text without `http` comes back unchanged, but it does not give the substituted text in closed form for texts with links.
- The other tools in src/agent/tools.py (`parsing`, `sum_page`, `google_links`, `google_full_answer`, `google_news`, `google_image`, `DDGS_images`, `detect_language`, `translate`, `code_interpreter`): calls into services, with no logic of their own beyond the call.
- SendReply: the photo of the answer's LaTeX expressions (src/bot/bot.py:422 and 449-455: the `$$…$$`/`$…$` scan, `async_expressions_to_png`, `merge_pngs_vertically`, `answer_photo`) is not part of `Reply`. Its parts are modelled on their own (`LatexImages.ExpressionsToPng`, `FileUtils.MergeLayout`), but the regular-expression scan of the answer and the photo message are not, and neither is the exception `merge_pngs_vertically` raises when one expression image failed to download.
- HandleLegacy: src/bot.py imports `files_to_text` from a module `api` that is not part of this model. `LegacyBot.LegacyAttached` takes the older tool module's version (src/agent/tools.py), which appends `path:\ntext\n\n` per file.

## Findings

| source | as written | input that shows it | evidently intended | confidence | as-written member | corrected member |
|---|---|---|---|---|---|---|
| src/agent/tools/file_utils.py:126 | the last branch tests `elif file:`, a name not yet bound, so `NameError` is caught and the whole call returns `Error reading <path>` | `files_to_text(["notes.txt"])` | a plain file is opened and its text read, as the older copy in src/agent/tools.py does | not executed | FileUtils.PlainFileAsWritten | FileUtils.PlainFileFixed |
| src/bot/bot.py:258-259 | when the first chunk's HTML exceeds 4096 characters, `smart_split(chunk, 3000)` overwrites `answer` with the rest of that chunk, losing the text after it | an answer of 5000 characters whose first 4000 format to more than 4096 | the re-cut's tail goes back in front of the remaining answer | not executed | BotOutput.GroqOverlongLosesText | BotOutput.FixedRunCovers |
| src/bot/bot.py:268-276 | when formatting a chunk raises, `smart_split(answer, 3500)` cuts the REST of the answer, so the failed chunk is never sent | an answer whose first chunk makes `markdown_to_html` raise | the failed chunk is sent as plain text | not executed | BotOutput.GroqFailedChunkLost | BotOutput.GroqSend |
| src/bot/bot.py:481 | the language is `split('-')[2]`, so a language code holding `-` is cut | a `pt-br` client's translation button, `translate_message-<hash>-pt-br`, asks for `pt` | the language is everything after the second `-` (`split('-', 2)`) | not executed | BotCallbacks.DecodeTruncatesPtBr | BotCallbacks.DecodeFixedRoundTrip |
| src/bot/bot.py:242 | `groq_api_compound(...)[0]` indexes the answer string that the function returns by default, keeping its first character | any answer of more than one character, such as `Hello` becoming `H` | the whole answer is stored and sent | not executed | BotPipeline.GroqAnswerCutToFirstCharacter | BotPipeline.HandleGroq |
| src/agent/tools/wolfram.py:42 | `answer[:answer.find(marker)]` with `find` giving -1 drops the last character when the marker is missing | an answer `x = 2` with no website marker becomes `x = ` | the answer is kept whole when the marker is missing | not executed | Wolfram.TruncateExample | Wolfram.TruncateFixedCorrect |
| src/agent/tools/youtube.py:35, 82 | `get_youtube_transcripts` returns the bare string `Error: incorrect link`, which `youtube_sum` unpacks into two names, raising `ValueError` outside its `try` | `youtube_sum("www.youtube.com")` | the error message is returned to the caller | not executed | YouTube.IncorrectLinkRaises | YouTube.YoutubeSumFixed |
| src/agent/tools/latex.py:102 | `logger.info(..., error=...)` passes a keyword the standard logger does not accept, so `text_to_pdf_document` raises `TypeError` after compiling and never returns the file name (the copy at src/agent/tools.py:741 too) | any text, such as `text_to_pdf_document("x")` with a compiling document | the outcome is logged and the file name returned | not executed | Latex.TextToPdfDocumentAsWritten | Latex.TextToPdfDocument |

=== FILE: bot_callbacks.dfy ===
/**
 * The inline buttons of the Telegram bot (src/bot/bot.py) and the callback
 * handlers they trigger: which buttons an answer gets, how a button's
 * callback data is written and read back, which handler a callback reaches,
 * and what the run-code, render-latex and translate handlers do with the
 * stored answer the data points to.
 */
module BotCallbacks {
  import opened Common
  import opened BotOutput
  import opened HistoryStore

  /** What a button asks for, as its callback data names it. */
  datatype Callback =
    | ClearState
    | TranslateMessage(hash: string, language: string)
    | RunPythonCode(hash: string)
    | RenderLatex(hash: string)
    | TranslateHelp(language: string)

  /** The callback data the bot attaches to a button: every button but `clear_state` carries a field separator. */
  function Encode(c: Callback): (r: string)
    ensures c.ClearState? <==> '-' !in r
  {
    match c
    case ClearState => "clear_state"
    case TranslateMessage(h, l) => "translate_message" + "-" + (h + "-" + l)
    case RunPythonCode(h) => "run_python_code" + "-" + h
    case RenderLatex(h) => "render_latex" + "-" + h
    case TranslateHelp(l) => "translate_help_message" + "-" + l
  }

  /** The callback handlers, one per `@dp.callback_query` registration. */
  datatype CallbackHandler =
    | ClearStateHandler
    | TranslateMessageHandler
    | RunCodeHandler
    | RenderLatexHandler
    | TranslateHelpHandler

  function HandlerOf(c: Callback): CallbackHandler {
    match c
    case ClearState => ClearStateHandler
    case TranslateMessage(_, _) => TranslateMessageHandler
    case RunPythonCode(_) => RunCodeHandler
    case RenderLatex(_) => RenderLatexHandler
    case TranslateHelp(_) => TranslateHelpHandler
  }

  /**
   * The handler aiogram runs for some callback data: the filters are tried
   * in registration order; each compares a fixed-length prefix (`data[:17]`
   * and so on) or, for `clear_state`, the whole data. No match: ignored.
   */
  function RouteCallback(data: string): Option<CallbackHandler> {
    if data == "clear_state" then Some(ClearStateHandler)
    else if Slice(data, 0, 17) == "translate_message" then Some(TranslateMessageHandler)
    else if Slice(data, 0, 15) == "run_python_code" then Some(RunCodeHandler)
    else if Slice(data, 0, 12) == "render_latex" then Some(RenderLatexHandler)
    else if Slice(data, 0, 22) == "translate_help_message" then Some(TranslateHelpHandler)
    else None
  }

  /** Every button's data reaches the handler meant for it, whatever the hash and language. */
  lemma RouteEncoded(c: Callback)
    ensures RouteCallback(Encode(c)) == Some(HandlerOf(c))
  {
    match c {
      case ClearState =>
      case TranslateMessage(h, l) => RouteTranslateMessage(h, l);
      case RunPythonCode(h) => RouteRunCode(h);
      case RenderLatex(h) => RouteRenderLatex(h);
      case TranslateHelp(l) => RouteTranslateHelp(l);
    }
  }

  lemma RouteTranslateMessage(h: string, l: string)
    ensures RouteCallback(Encode(TranslateMessage(h, l))) == Some(TranslateMessageHandler)
  {
    var d := Encode(TranslateMessage(h, l));
    assert d[..18] == "translate_message-";
    assert Slice(d, 0, 17) == d[..17];
  }

  lemma RouteRunCode(h: string)
    ensures RouteCallback(Encode(RunPythonCode(h))) == Some(RunCodeHandler)
  {
    var d := Encode(RunPythonCode(h));
    assert d[..16] == "run_python_code-";
    assert d != "clear_state" by { assert d[0] != "clear_state"[0]; }
    assert Slice(d, 0, 17)[0] == 'r';
    assert Slice(d, 0, 15) == d[..15];
  }

  lemma RouteRenderLatex(h: string)
    ensures RouteCallback(Encode(RenderLatex(h))) == Some(RenderLatexHandler)
  {
    var d := Encode(RenderLatex(h));
    assert d[..13] == "render_latex-";
    assert d != "clear_state" by { assert d[0] != "clear_state"[0]; }
    assert Slice(d, 0, 17)[0] == 'r';
    assert Slice(d, 0, 15)[1] == 'e';
    assert Slice(d, 0, 12) == d[..12];
  }

  lemma RouteTranslateHelp(l: string)
    ensures RouteCallback(Encode(TranslateHelp(l))) == Some(TranslateHelpHandler)
  {
    var d := Encode(TranslateHelp(l));
    assert d[..23] == "translate_help_message-";
    assert d != "clear_state" by { assert d[0] != "clear_state"[0]; }
    assert Slice(d, 0, 17)[10] == 'h';
    assert Slice(d, 0, 15)[0] == 't';
    assert Slice(d, 0, 12)[0] == 't';
    assert Slice(d, 0, 22) == d[..22];
  }

  // ---------------------------------------------------------------------
  // Reading the data back

  /** `data.split('-')[k]`, raising when there are too few pieces. */
  function Part(data: string, k: nat): (r: Result<string>)
    ensures r.Ok? ==> '-' !in r.value
  {
    var parts := Split(data, '-');
    if k < |parts| then Ok(parts[k]) else Raised("IndexError: list index out of range")
  }

  /**
   * A handler's reading of the data, field by field as the handlers write
   * it; `None` when no handler takes it. What it reads is a callback for
   * the handler the data was routed to, and a language it reads never
   * holds a `-`.
   */
  function Decode(data: string): (r: Option<Result<Callback>>)
    ensures r.None? <==> RouteCallback(data).None?
    ensures r.Some? && r.value.Ok? ==> Some(HandlerOf(r.value.value)) == RouteCallback(data)
    ensures r.Some? && r.value.Ok? && (r.value.value.TranslateMessage? || r.value.value.TranslateHelp?) ==>
      '-' !in r.value.value.language
  {
    match RouteCallback(data)
    case None => None
    case Some(ClearStateHandler) => Some(Ok(ClearState))
    case Some(TranslateMessageHandler) =>
      var h, l := Part(data, 1), Part(data, 2);
      Some(if h.Raised? then Raised(h.error) else if l.Raised? then Raised(l.error)
           else Ok(TranslateMessage(h.value, l.value)))
    case Some(RunCodeHandler) =>
      var h := Part(data, 1);
      Some(if h.Raised? then Raised(h.error) else Ok(RunPythonCode(h.value)))
    case Some(RenderLatexHandler) =>
      var h := Part(data, 1);
      Some(if h.Raised? then Raised(h.error) else Ok(RenderLatex(h.value)))
    case Some(TranslateHelpHandler) =>
      var l := Part(data, 1);
      Some(if l.Raised? then Raised(l.error) else Ok(TranslateHelp(l.value)))
  }

  /** Python `s.split(c, n)`: at most `n` cuts, the rest left whole in the last piece. */
  function SplitN(s: string, c: char, n: nat): (r: seq<string>)
    ensures 1 <= |r| <= n + 1
    ensures forall k :: 0 <= k < |r| - 1 ==> c !in r[k]
  {
    if n == 0 || c !in s then [s]
    else
      var i := FirstIndexOf(s, c);
      [s[..i]] + SplitN(s[i + 1..], c, n - 1)
  }

  lemma SplitNAtFirst(a: string, c: char, b: string, n: nat)
    requires c !in a && n > 0
    ensures SplitN(a + [c] + b, c, n) == [a] + SplitN(b, c, n - 1)
  {
    var s := a + [c] + b;
    assert s[|a|] == c;
    assert s[..|a|] == a;
    var i := FirstIndexOf(s, c);
    assert s[i + 1..] == b;
  }

  /** `data.split('-', n)[k]`, raising when there are too few pieces. */
  function PartN(data: string, n: nat, k: nat): Result<string> {
    var parts := SplitN(data, '-', n);
    if k < |parts| then Ok(parts[k]) else Raised("IndexError: list index out of range")
  }

  /**
   * The reading with the language taken as everything after the last
   * field separator the encoder wrote (`split('-', 2)` for a translation
   * of a message, `split('-', 1)` for the help text).
   */
  function DecodeFixed(data: string): (r: Option<Result<Callback>>)
    ensures r.None? <==> RouteCallback(data).None?
    ensures r.Some? && r.value.Ok? ==> Some(HandlerOf(r.value.value)) == RouteCallback(data)
    ensures RouteCallback(data) != Some(TranslateMessageHandler) && RouteCallback(data) != Some(TranslateHelpHandler) ==>
      r == Decode(data)
  {
    match RouteCallback(data)
    case None => None
    case Some(ClearStateHandler) => Some(Ok(ClearState))
    case Some(TranslateMessageHandler) =>
      var h, l := PartN(data, 2, 1), PartN(data, 2, 2);
      Some(if h.Raised? then Raised(h.error) else if l.Raised? then Raised(l.error)
           else Ok(TranslateMessage(h.value, l.value)))
    case Some(RunCodeHandler) =>
      var h := Part(data, 1);
      Some(if h.Raised? then Raised(h.error) else Ok(RunPythonCode(h.value)))
    case Some(RenderLatexHandler) =>
      var h := Part(data, 1);
      Some(if h.Raised? then Raised(h.error) else Ok(RenderLatex(h.value)))
    case Some(TranslateHelpHandler) =>
      var l := PartN(data, 1, 1);
      Some(if l.Raised? then Raised(l.error) else Ok(TranslateHelp(l.value)))
  }

  /** The buttons' hashes are hexadecimal (`text_to_hash`), so they hold no `-`. */
  predicate HashWithoutDash(c: Callback) {
    (c.TranslateMessage? || c.RunPythonCode? || c.RenderLatex?) ==> '-' !in c.hash
  }

  /** The field names hold no `-`. */
  lemma NamesWithoutDash()
    ensures '-' !in "translate_message" && '-' !in "run_python_code"
    ensures '-' !in "render_latex" && '-' !in "translate_help_message"
  {
  }

  /** The pieces of data made of a name and one more field. */
  lemma OneField(name: string, rest: string)
    requires '-' !in name
    ensures Split(name + "-" + rest, '-') == [name] + Split(rest, '-')
  {
    assert name + "-" + rest == name + ['-'] + rest;
    SplitAtFirst(name, '-', rest);
  }

  /** The same, cut at most once. */
  lemma OneFieldN(name: string, rest: string)
    requires '-' !in name
    ensures SplitN(name + "-" + rest, '-', 1) == [name, rest]
  {
    assert name + "-" + rest == name + ['-'] + rest;
    SplitNAtFirst(name, '-', rest, 1);
  }

  /** The pieces of data made of a name and two more fields. */
  lemma TwoFields(name: string, h: string, rest: string)
    requires '-' !in name && '-' !in h
    ensures Split(name + "-" + (h + "-" + rest), '-') == [name, h] + Split(rest, '-')
  {
    OneField(h, rest);
    OneField(name, h + "-" + rest);
  }

  /** The same, cut at most twice. */
  lemma TwoFieldsN(name: string, h: string, rest: string)
    requires '-' !in name && '-' !in h
    ensures SplitN(name + "-" + (h + "-" + rest), '-', 2) == [name, h, rest]
  {
    var t := h + "-" + rest;
    OneFieldN(h, rest);
    assert name + "-" + t == name + ['-'] + t;
    SplitNAtFirst(name, '-', t, 2);
  }

  lemma {:induction false} SplitWithoutDash(s: string)
    requires '-' !in s
    ensures Split(s, '-') == [s]
  {
  }

  /** With the corrected reading every button's data reads back as the button that wrote it. */
  lemma DecodeFixedRoundTrip(c: Callback)
    requires HashWithoutDash(c)
    ensures DecodeFixed(Encode(c)) == Some(Ok(c))
  {
    RouteEncoded(c);
    NamesWithoutDash();
    match c {
      case ClearState =>
      case TranslateMessage(h, l) =>
        TwoFieldsN("translate_message", h, l);
      case RunPythonCode(h) =>
        OneField("run_python_code", h);
        SplitWithoutDash(h);
      case RenderLatex(h) =>
        OneField("render_latex", h);
        SplitWithoutDash(h);
      case TranslateHelp(l) =>
        OneFieldN("translate_help_message", l);
    }
  }

  /** Without a `-` in the language, the handlers' own reading also gives the button back. */
  lemma DecodeRoundTrip(c: Callback)
    requires HashWithoutDash(c)
    requires (c.TranslateMessage? || c.TranslateHelp?) ==> '-' !in c.language
    ensures Decode(Encode(c)) == Some(Ok(c))
  {
    RouteEncoded(c);
    NamesWithoutDash();
    match c {
      case ClearState =>
      case TranslateMessage(h, l) =>
        TwoFields("translate_message", h, l);
        SplitWithoutDash(l);
      case RunPythonCode(h) =>
        OneField("run_python_code", h);
        SplitWithoutDash(h);
      case RenderLatex(h) =>
        OneField("render_latex", h);
        SplitWithoutDash(h);
      case TranslateHelp(l) =>
        OneField("translate_help_message", l);
        SplitWithoutDash(l);
    }
  }

  /**
   * A language code with a region (`pt-br`, `zh-hans`) comes back cut at
   * its `-`: the translation goes to the bare language.
   */
  lemma DecodeTruncatesLanguage(h: string, lang: string, region: string)
    requires '-' !in h && '-' !in lang
    ensures Decode(Encode(TranslateMessage(h, lang + "-" + region))) == Some(Ok(TranslateMessage(h, lang)))
  {
    var l := lang + "-" + region;
    var d := Encode(TranslateMessage(h, l));
    NamesWithoutDash();
    RouteTranslateMessage(h, l);
    TwoFields("translate_message", h, l);
    OneField(lang, region);
    var parts := Split(d, '-');
    assert parts == ["translate_message", h] + ([lang] + Split(region, '-'));
    assert Part(d, 1) == Ok(h) && Part(d, 2) == Ok(lang);
  }

  /** The same cut for the help text's translation button. */
  lemma DecodeTruncatesHelpLanguage(lang: string, region: string)
    requires '-' !in lang
    ensures Decode(Encode(TranslateHelp(lang + "-" + region))) == Some(Ok(TranslateHelp(lang)))
  {
    NamesWithoutDash();
    RouteEncoded(TranslateHelp(lang + "-" + region));
    OneField("translate_help_message", lang + "-" + region);
    OneField(lang, region);
  }

  /** The help button of a Brazilian Portuguese client asks for Portuguese, not Brazilian Portuguese. */
  lemma DecodeTruncatesPtBr()
    ensures Decode(Encode(TranslateHelp("pt-br"))) == Some(Ok(TranslateHelp("pt")))
  {
    assert "pt-br" == "pt" + "-" + "br";
    DecodeTruncatesHelpLanguage("pt", "br");
  }

  // ---------------------------------------------------------------------
  // The buttons

  /**
   * The buttons under an answer, in the order they are added: run code,
   * render LaTeX, translate to the language of the user's text, translate
   * to the language of the user's Telegram client.
   */
  function Keyboard(answer: string, hash: string, userLanguage: string, answerLanguage: string,
                    languageCode: string): (r: seq<Callback>)
    ensures |r| <= 4
  {
    (if Contains(answer, "```python") then [RunPythonCode(hash)] else []) +
    (if Contains(answer, "```latex") then [RenderLatex(hash)] else []) +
    (if answerLanguage != userLanguage then [TranslateMessage(hash, userLanguage)] else []) +
    (if languageCode != userLanguage then [TranslateMessage(hash, languageCode)] else [])
  }

  /**
   * The run button iff the answer holds a Python block, the LaTeX button
   * iff it holds a LaTeX block, a translation into the user's language iff
   * the answer is in another one, a translation into the client's language
   * whenever that differs from the user's; no button at all means no
   * keyboard.
   */
  lemma KeyboardButtons(answer: string, hash: string, userLanguage: string, answerLanguage: string, languageCode: string)
    ensures var r := Keyboard(answer, hash, userLanguage, answerLanguage, languageCode);
      (RunPythonCode(hash) in r <==> Contains(answer, "```python")) &&
      (RenderLatex(hash) in r <==> Contains(answer, "```latex")) &&
      (TranslateMessage(hash, userLanguage) in r <==> answerLanguage != userLanguage) &&
      (languageCode != userLanguage ==> TranslateMessage(hash, languageCode) in r) &&
      (r == [] <==> !Contains(answer, "```python") && !Contains(answer, "```latex") &&
                    answerLanguage == userLanguage && languageCode == userLanguage) &&
      (forall c :: c in r ==> c.hash == hash)
  {
    var run := if Contains(answer, "```python") then [RunPythonCode(hash)] else [];
    var render := if Contains(answer, "```latex") then [RenderLatex(hash)] else [];
    var user := if answerLanguage != userLanguage then [TranslateMessage(hash, userLanguage)] else [];
    var client := if languageCode != userLanguage then [TranslateMessage(hash, languageCode)] else [];
    var r := Keyboard(answer, hash, userLanguage, answerLanguage, languageCode);
    assert r == run + render + user + client;
    assert forall c :: c in r <==> c in run || c in render || c in user || c in client;
    forall c | c in r ensures c.hash == hash {
      assert c in run || c in render || c in user || c in client;
    }
  }

  /** The button under `/help`: a translation of the help text unless the client is in English. */
  function HelpKeyboard(languageCode: string): (r: seq<Callback>)
    ensures r == [] <==> languageCode == "en"
    ensures r != [] ==> r == [TranslateHelp(languageCode)]
  {
    if languageCode != "en" then [TranslateHelp(languageCode)] else []
  }

  // ---------------------------------------------------------------------
  // Run code

  const PythonFence: string := "```python"

  /** `piece.split('```')[0]`: the piece up to its first fence. */
  function BeforeFence(piece: string): (r: string)
    ensures r <= piece && !Contains(r, "```")
    ensures r == piece || OccursAt(piece, "```", |r|)
  {
    var j := Find(piece, "```");
    if j < 0 then piece
    else
      assert !Contains(piece[..j], "```") by {
        forall k | OccursAt(piece[..j], "```", k) ensures false {
          assert piece[..j][k..k + 3] == piece[k..k + 3];
          assert OccursAt(piece, "```", k);
        }
      }
      piece[..j]
  }

  /** `text.split('```python')[1]`, given the first marker at `i`: up to the next marker, or the end. */
  function AfterMarker(text: string, i: nat): (r: string)
    requires OccursAt(text, PythonFence, i)
    ensures OccursAt(text, r, i + 9)
    ensures i + 9 + |r| == |text| || OccursAt(text, PythonFence, i + 9 + |r|)
  {
    var next := FindFrom(text, PythonFence, i + 9);
    if next < 0 then text[i + 9..] else text[i + 9..next]
  }

  /**
   * `text.split('```python')[1].split('```')[0]`: the piece between the
   * first and the second Python marker (or the end), cut at its first
   * fence. No marker: the subscript raises and the code is `None`.
   */
  function ExtractCode(text: string): (r: Option<string>)
    ensures r.None? <==> !Contains(text, PythonFence)
    ensures r.Some? ==> !Contains(r.value, "```")
  {
    var i := Find(text, PythonFence);
    if i < 0 then None else Some(BeforeFence(AfterMarker(text, i)))
  }

  /**
   * The code is taken from right after the first marker: it is followed
   * there by a fence or the next marker, or runs to the end.
   */
  lemma ExtractCodeFollowsMarker(text: string)
    requires Contains(text, PythonFence)
    ensures var i := Find(text, PythonFence); var code := ExtractCode(text).value;
      OccursAt(text, PythonFence, i) && OccursAt(text, code, i + 9) &&
      (i + 9 + |code| == |text| || OccursAt(text, "```", i + 9 + |code|))
  {
    var i := FirstMarker(text);
    var piece := AfterMarker(text, i);
    FollowsMarker(text, i + 9, piece, BeforeFence(piece));
  }

  lemma FirstMarker(text: string) returns (i: nat)
    requires Contains(text, PythonFence)
    ensures i == Find(text, PythonFence) && OccursAt(text, PythonFence, i)
    ensures ExtractCode(text) == Some(BeforeFence(AfterMarker(text, i)))
  {
    ContainsIff(text, PythonFence);
    i := Find(text, PythonFence);
  }

  lemma FollowsMarker(text: string, start: nat, piece: string, code: string)
    requires OccursAt(text, piece, start)
    requires start + |piece| == |text| || OccursAt(text, PythonFence, start + |piece|)
    requires code <= piece && (code == piece || OccursAt(piece, "```", |code|))
    ensures OccursAt(text, code, start)
    ensures start + |code| == |text| || OccursAt(text, "```", start + |code|)
  {
    var e := start + |piece|;
    assert piece == text[start..e];
    assert code == piece[..|code|];
    assert text[start..start + |code|] == piece[..|code|];
    if code != piece {
      assert |code| + 3 <= |piece| && piece[|code|..|code| + 3] == "```";
      forall k | 0 <= k < 3 ensures text[start + |code| + k] == "```"[k] {
        assert text[start + |code| + k] == piece[|code| + k] == piece[|code|..|code| + 3][k];
      }
      assert text[start + |code|..start + |code| + 3] == "```";
    } else if e < |text| {
      assert text[e..e + 3] == text[e..e + 9][..3];
    }
  }

  /** What `code_interpreter` hands back: the text output and the file of the first image, if any. */
  datatype CodeRun = CodeRun(output: string, image: Option<string>)

  /** The output as shown: `'no text output'` when it has nothing but newlines. */
  function VisibleOutput(s: string): (r: string)
    ensures r != []
    ensures r == s <==> exists k :: 0 <= k < |s| && s[k] != '\n'
  {
    NewlinesOnly(s);
    if Replace(s, "\n", "") == "" then
      assert "no text output"[0] != '\n';
      "no text output"
    else s
  }

  /** Removing the newlines leaves nothing iff there is nothing but newlines. */
  lemma {:induction false} NewlinesOnly(s: string)
    ensures Replace(s, "\n", "") == "" <==> forall k :: 0 <= k < |s| ==> s[k] == '\n'
  {
    if s != [] {
      NewlinesOnly(s[1..]);
      assert forall k :: 1 <= k < |s| ==> s[k] == s[1..][k - 1];
    }
  }

  function BoolText(b: bool): string {
    if b then "True" else "False"
  }

  /** The system turn stored after a run. */
  function RunRecord(shown: string, image: bool): string {
    "The result of code execution that is visible to the user: " + shown + ". \nif there's an image: " + BoolText(image)
  }

  /** One output message: a slice of the shown output inside an `output` code block. */
  function OutputBlock(slice: string): string {
    "```output\n" + slice + "\n```"
  }

  /** `while str_result:` — the output goes out as 4000-character slices, each in its own block. */
  method OutputMessages(shown: string) returns (msgs: seq<string>)
    ensures |msgs| == |Slices(shown, 4000)|
    ensures forall i :: 0 <= i < |msgs| ==> msgs[i] == OutputBlock(Slices(shown, 4000)[i])
  {
    msgs := [];
    var rest := shown;
    ghost var done: seq<string> := [];
    while rest != []
      invariant done + Slices(rest, 4000) == Slices(shown, 4000)
      invariant |msgs| == |done|
      invariant forall i :: 0 <= i < |msgs| ==> msgs[i] == OutputBlock(done[i])
      decreases |rest|
    {
      var piece := if |rest| <= 4000 then rest else rest[..4000];
      SlicesStep(rest, 4000);
      var after := if |rest| <= 4000 then [] else rest[4000..];
      assert done + Slices(rest, 4000) == (done + [piece]) + Slices(after, 4000);
      msgs := msgs + [OutputBlock(piece)];
      done := done + [piece];
      rest := after;
    }
  }

  /** The blocks carry the whole shown output, in order, and there is at least one. */
  lemma OutputCovers(shown: string)
    requires shown != []
    ensures Concat(Slices(shown, 4000)) == shown && Slices(shown, 4000) != []
  {
    SlicesCover(shown, 4000);
  }

  /** What the run-code handler sends. */
  datatype RunOutcome =
    | NoCode
    | Ran(photo: Option<string>, record: string, messages: seq<string>)

  /** Row `i` is the first stored turn carrying `hash`: the one `sql_get_message_by_hash` returns. */
  predicate FirstStored(rows: seq<MessageRow>, hash: string, i: int) {
    0 <= i < |rows| && rows[i].messageHash == hash &&
    forall j :: 0 <= j < i ==> rows[j].messageHash != hash
  }

  /** Some stored turn carries the hash, so `sql_get_by_hash` finds a row. */
  predicate Stored(rows: seq<MessageRow>, hash: string) {
    exists i :: 0 <= i < |rows| && rows[i].messageHash == hash
  }

  /** The first stored turn with a hash is unique. */
  lemma FirstStoredUnique(rows: seq<MessageRow>, hash: string, i: int, j: int)
    requires FirstStored(rows, hash, i) && FirstStored(rows, hash, j)
    ensures i == j
  {
  }

  /**
   * `callback_run_code_in_message`: look the answer up by the hash in the
   * data, take its Python block and run it; with no code, say so; else send
   * the image, store what the user was shown as a system turn and send the
   * output. A missing hash or an unknown user raises. `photoSent` is the
   * image sent before the store insert, which goes out even when the insert
   * then raises for an unknown user.
   */
  method RunCodeCallback(store: Store, user: int, data: string, interpreter: string -> CodeRun, now: string)
    returns (r: Result<RunOutcome>, photoSent: Option<string>)
    requires store.Valid()
    modifies store
    ensures store.Valid()
    ensures store.users == old(store.users) && store.archive == old(store.archive)
    ensures Part(data, 1).Raised? ==> r.Raised?
    ensures Part(data, 1).Ok? && (forall i :: 0 <= i < |old(store.messages)| ==> old(store.messages)[i].messageHash != Part(data, 1).value) ==>
      r.Raised?
    ensures r.Raised? || r.value.NoCode? ==> store.messages == old(store.messages)
    ensures r.Ok? ==> Part(data, 1).Ok?
    ensures Part(data, 1).Ok? && Stored(old(store.messages), Part(data, 1).value) && user in old(store.users) ==> r.Ok?
    ensures r.Raised? && Part(data, 1).Ok? && Stored(old(store.messages), Part(data, 1).value) ==> user !in old(store.users)
    ensures r.Ok? ==>
      exists i :: FirstStored(old(store.messages), Part(data, 1).value, i) &&
        var code := ExtractCode(old(store.messages)[i].content);
        (r.value.NoCode? <==> code.None? || code.value == []) &&
        (r.value.Ran? ==> RanOn(old(store.messages)[i].content, interpreter, r.value))
    ensures r.Ok? && r.value.Ran? ==> photoSent == r.value.photo
    ensures r.Ok? && r.value.NoCode? ==> photoSent.None?
    ensures photoSent.Some? ==> Part(data, 1).Ok?
    ensures Part(data, 1).Ok? && (photoSent.Some? || (r.Raised? && Stored(old(store.messages), Part(data, 1).value))) ==>
      exists i :: FirstStored(old(store.messages), Part(data, 1).value, i) &&
        var code := ExtractCode(old(store.messages)[i].content);
        code.Some? && code.value != [] && photoSent == interpreter(code.value).image
    ensures r.Ok? && r.value.Ran? ==>
      user in old(store.users) &&
      store.messages == old(store.messages) +
        [MessageRow(old(store.users)[user].telegramName, user, "system", r.value.record, now, TextToHash(store.digest, r.value.record))]
  {
    var hash := Part(data, 1);
    if hash.Raised? {
      return Raised(hash.error), None;
    }
    var text := store.GetMessageByHash(hash.value);
    if text.Raised? {
      return Raised(text.error), None;
    }
    ghost var i :| FirstStored(store.messages, hash.value, i) && text.value == store.messages[i].content;
    r, photoSent := RunStoredCode(store, user, text.value, interpreter, now);
  }

  /**
   * The handler's steps once the answer is found: take its Python block;
   * with no code, say so; else run it, send the image, store what the user
   * was shown (raising for an unknown user, after the image went out) and
   * send the output.
   */
  method RunStoredCode(store: Store, user: int, content: string, interpreter: string -> CodeRun, now: string)
    returns (r: Result<RunOutcome>, photoSent: Option<string>)
    requires store.Valid()
    modifies store
    ensures store.Valid()
    ensures store.users == old(store.users) && store.archive == old(store.archive)
    ensures var code := ExtractCode(content);
      code.None? || code.value == [] ==> r == Ok(NoCode) && photoSent.None? && store.messages == old(store.messages)
    ensures var code := ExtractCode(content);
      code.Some? && code.value != [] ==>
        photoSent == interpreter(code.value).image &&
        (r.Raised? <==> user !in old(store.users)) &&
        (r.Raised? ==> store.messages == old(store.messages)) &&
        (r.Ok? ==>
           RanOn(content, interpreter, r.value) &&
           store.messages == old(store.messages) +
             [MessageRow(old(store.users)[user].telegramName, user, "system", r.value.record, now,
                         TextToHash(store.digest, r.value.record))])
  {
    var code := ExtractCode(content);
    if code.None? || code.value == [] {
      return Ok(NoCode), None;
    }
    var run := interpreter(code.value);
    photoSent := run.image;
    var shown := VisibleOutput(run.output);
    var record := RunRecord(shown, run.image.Some?);
    var stored := store.InsertMessage(user, "system", record, now);
    if stored.Raised? {
      return Raised(stored.error), photoSent;
    }
    var msgs := OutputMessages(shown);
    r := Ok(Ran(run.image, record, msgs));
    assert RanOn(content, interpreter, r.value);
  }

  /**
   * What a run of the answer `content` sends: the Python block is run, the
   * interpreter's image is the photo, the record says what the user was
   * shown, and the messages are that output's blocks, in order.
   */
  predicate RanOn(content: string, interpreter: string -> CodeRun, outcome: RunOutcome) {
    var code := ExtractCode(content);
    code.Some? && code.value != [] && outcome.Ran? &&
    var run := interpreter(code.value);
    var shown := VisibleOutput(run.output);
    outcome.photo == run.image &&
    outcome.record == RunRecord(shown, run.image.Some?) &&
    |outcome.messages| == |Slices(shown, 4000)| &&
    forall k :: 0 <= k < |outcome.messages| ==> outcome.messages[k] == OutputBlock(Slices(shown, 4000)[k])
  }

  // ---------------------------------------------------------------------
  // Render LaTeX

  const LatexOpen: string := "```latex\n"
  const LatexClose: string := "\n```"

  /**
   * `re.findall(r'```latex\n(.*?)\n```', text, re.DOTALL)[0]`: the shortest
   * stretch after the first opening that a closing follows. No match: the
   * subscript raises.
   */
  function LatexBlock(text: string): (r: Result<string>)
    ensures r.Ok? <==> Contains(text, LatexOpen) && FindFrom(text, LatexClose, Find(text, LatexOpen) + 9) >= 0
  {
    var i := Find(text, LatexOpen);
    if i < 0 then Raised("IndexError: list index out of range")
    else
      var j := FindFrom(text, LatexClose, i + 9);
      if j < 0 then Raised("IndexError: list index out of range")
      else Ok(text[i + 9..j])
  }

  /**
   * The block sits between the first opening and the first closing after
   * it, and holds no closing itself (the match is lazy).
   */
  lemma LatexBlockShape(text: string)
    requires LatexBlock(text).Ok?
    ensures var i := Find(text, LatexOpen); var b := LatexBlock(text).value;
      OccursAt(text, LatexOpen + b + LatexClose, i) && !Contains(b, LatexClose)
  {
    var i, j := LatexBlockBounds(text);
    var b := text[i + 9..j];
    assert text[i..j + 4] == LatexOpen + b + LatexClose by {
      assert text[i..i + 9] == LatexOpen;
      assert text[j..j + 4] == LatexClose;
      assert text[i..j + 4] == text[i..i + 9] + text[i + 9..j] + text[j..j + 4];
    }
    NoCloseInside(text, i + 9, j);
  }

  lemma LatexBlockBounds(text: string) returns (i: nat, j: nat)
    requires LatexBlock(text).Ok?
    ensures i == Find(text, LatexOpen) && i + 9 <= j && j + 4 <= |text|
    ensures OccursAt(text, LatexOpen, i) && OccursAt(text, LatexClose, j)
    ensures forall k :: i + 9 <= k < j ==> !OccursAt(text, LatexClose, k)
    ensures LatexBlock(text) == Ok(text[i + 9..j])
  {
    i := Find(text, LatexOpen);
    j := FindFrom(text, LatexClose, i + 9);
  }

  /** A stretch with no closing starting inside it holds no closing. */
  lemma NoCloseInside(text: string, lo: nat, hi: nat)
    requires lo <= hi <= |text|
    requires forall k :: lo <= k < hi ==> !OccursAt(text, LatexClose, k)
    ensures !Contains(text[lo..hi], LatexClose)
  {
    var b := text[lo..hi];
    forall k | OccursAt(b, LatexClose, k) ensures false {
      OccursInSlice(text, LatexClose, lo, hi, k);
    }
  }

  /** What the render-latex handler sends: the PDF, or the error text. */
  datatype LatexOutcome = PdfSent(file: string) | RenderFailed

  function Outcome(file: Option<string>): LatexOutcome {
    if file.Some? then PdfSent(file.value) else RenderFailed
  }

  /**
   * `callback_render_latex`: compile the stored answer's LaTeX block and
   * send the PDF or an error, then store whether it worked as a system turn.
   * `sent` is what went to the user before the store insert, which goes out
   * even when the insert then raises for an unknown user.
   */
  method RenderLatexCallback(store: Store, user: int, data: string, compile: string -> Option<string>, now: string)
    returns (r: Result<LatexOutcome>, sent: Option<LatexOutcome>)
    requires store.Valid()
    modifies store
    ensures store.Valid()
    ensures r.Raised? <==>
      Part(data, 1).Raised? || !Stored(old(store.messages), Part(data, 1).value) ||
      (exists i :: FirstStored(old(store.messages), Part(data, 1).value, i) &&
        LatexBlock(old(store.messages)[i].content).Raised?) ||
      user !in old(store.users)
    ensures r.Raised? ==> store.messages == old(store.messages)
    ensures r.Ok? ==>
      exists i ::
        FirstStored(old(store.messages), Part(data, 1).value, i) &&
        LatexBlock(old(store.messages)[i].content).Ok? &&
        r.value == Outcome(compile(LatexBlock(old(store.messages)[i].content).value))
    ensures r.Ok? ==> (user in old(store.users) && store.messages == old(store.messages) +
      [MessageRow(old(store.users)[user].telegramName, user, "system",
                  "latex rendering result: " + BoolText(r.value.PdfSent?), now,
                  TextToHash(store.digest, "latex rendering result: " + BoolText(r.value.PdfSent?)))])
    ensures store.users == old(store.users) && store.archive == old(store.archive)
    ensures r.Ok? ==> sent == Some(r.value)
    ensures sent.None? <==>
      Part(data, 1).Raised? || !Stored(old(store.messages), Part(data, 1).value) ||
      (exists i :: FirstStored(old(store.messages), Part(data, 1).value, i) &&
        LatexBlock(old(store.messages)[i].content).Raised?)
    ensures sent.Some? ==>
      exists i ::
        FirstStored(old(store.messages), Part(data, 1).value, i) &&
        LatexBlock(old(store.messages)[i].content).Ok? &&
        sent.value == Outcome(compile(LatexBlock(old(store.messages)[i].content).value))
  {
    var hash := Part(data, 1);
    if hash.Raised? {
      return Raised(hash.error), None;
    }
    var text := store.GetMessageByHash(hash.value);
    if text.Raised? {
      return Raised(text.error), None;
    }
    ghost var i :| FirstStored(store.messages, hash.value, i) && text.value == store.messages[i].content;
    forall j | FirstStored(store.messages, hash.value, j) ensures j == i {
      FirstStoredUnique(store.messages, hash.value, i, j);
    }
    var block := LatexBlock(text.value);
    if block.Raised? {
      return Raised(block.error), None;
    }
    var file := compile(block.value);
    var outcome := Outcome(file);
    sent := Some(outcome);
    var stored := store.InsertMessage(user, "system", "latex rendering result: " + BoolText(file.Some?), now);
    if stored.Raised? {
      return Raised(stored.error), sent;
    }
    r := Ok(outcome);
  }

  // ---------------------------------------------------------------------
  // Translate

  /**
   * The translation the handler sends for a button naming `hash` and
   * `language`: the stored answer translated, sent in 4000-character slices
   * as HTML when they render, else as plain text, never with a keyboard.
   */
  method SendTranslation(store: Store, hash: string, language: string, translate: (string, string) -> string,
                         render: string -> Option<string>)
    returns (r: Result<seq<Sent>>)
    ensures r.Raised? <==> forall i :: 0 <= i < |store.messages| ==> store.messages[i].messageHash != hash
    ensures r.Ok? ==>
      exists i :: FirstStored(store.messages, hash, i) &&
        r.value == AnswerMessages(Slices(translate(store.messages[i].content, language), 4000), false, render)
    ensures r.Ok? ==> forall i :: 0 <= i < |r.value| ==> !r.value[i].keyboard
  {
    var text := store.GetMessageByHash(hash);
    if text.Raised? {
      return Raised(text.error);
    }
    ghost var i :| FirstStored(store.messages, hash, i) && text.value == store.messages[i].content;
    var sent := SendAnswer(translate(text.value, language), false, render);
    forall k | 0 <= k < |sent| ensures !sent[k].keyboard {
      AnswerMessageAt(Slices(translate(text.value, language), 4000), false, render, k);
    }
    r := Ok(sent);
  }

  /**
   * `callback_translate_message` as written: the hash and the language are
   * `split('-')[1]` and `split('-')[2]` of the data, so a language holding
   * `-` reaches the translator cut at its first `-`.
   */
  method TranslateCallback(store: Store, data: string, translate: (string, string) -> string,
                           render: string -> Option<string>)
    returns (r: Result<seq<Sent>>)
    ensures Decode(data) != None && Decode(data).value.Raised? ==> r.Raised?
    ensures Decode(data) != None && Decode(data).value.Ok? && Decode(data).value.value.TranslateMessage? ==>
      (r.Raised? <==> !Stored(store.messages, Decode(data).value.value.hash))
    ensures r.Ok? ==>
      exists c: Callback, i ::
        Decode(data) == Some(Ok(c)) && c.TranslateMessage? && FirstStored(store.messages, c.hash, i) &&
        r.value == AnswerMessages(Slices(translate(store.messages[i].content, c.language), 4000), false, render)
    ensures r.Ok? ==> forall i :: 0 <= i < |r.value| ==> !r.value[i].keyboard
  {
    var decoded := Decode(data);
    if decoded.None? || decoded.value.Raised? || !decoded.value.value.TranslateMessage? {
      return Raised("not a translate button");
    }
    var c := decoded.value.value;
    r := SendTranslation(store, c.hash, c.language, translate, render);
  }

  /** The handler as evidently intended: the language is everything after the second `-`. */
  method TranslateCallbackFixed(store: Store, data: string, translate: (string, string) -> string,
                                render: string -> Option<string>)
    returns (r: Result<seq<Sent>>)
    ensures DecodeFixed(data) != None && DecodeFixed(data).value.Raised? ==> r.Raised?
    ensures DecodeFixed(data) != None && DecodeFixed(data).value.Ok? && DecodeFixed(data).value.value.TranslateMessage? ==>
      (r.Raised? <==> !Stored(store.messages, DecodeFixed(data).value.value.hash))
    ensures r.Ok? ==>
      exists c: Callback, i ::
        DecodeFixed(data) == Some(Ok(c)) && c.TranslateMessage? && FirstStored(store.messages, c.hash, i) &&
        r.value == AnswerMessages(Slices(translate(store.messages[i].content, c.language), 4000), false, render)
    ensures r.Ok? ==> forall i :: 0 <= i < |r.value| ==> !r.value[i].keyboard
  {
    var decoded := DecodeFixed(data);
    if decoded.None? || decoded.value.Raised? || !decoded.value.value.TranslateMessage? {
      return Raised("not a translate button");
    }
    var c := decoded.value.value;
    r := SendTranslation(store, c.hash, c.language, translate, render);
  }
}

=== FILE: bot_modes.dfy ===
/**
 * The per-user conversation modes of the Telegram bot (src/bot/bot.py) and
 * the way aiogram hands an incoming message to the first registered handler
 * whose filter accepts it. The mode store is aiogram's in-memory default:
 * one optional state per user, no state meaning the default mode.
 */
module BotModes {
  import opened Common

  /** `default_state` and the three states of the `FSM` group. */
  datatype Mode = Default | Processing | WolframMode | GroqMode

  /**
   * An incoming message as the filters see it: the bot command aiogram
   * parsed from it (`/start`, `/help`, ...), if any.
   */
  datatype Incoming = Incoming(command: Option<string>)

  /** The message handlers, one per `@dp.message` registration. */
  datatype Handler =
    | StartReply       // /start
    | HelpReply        // /help
    | LogReply         // /log
    | StuckReply       // any message while processing
    | WolframToggle    // /wolfram
    | GroqToggle       // /groq
    | WolframPipeline  // any message in wolfram mode
    | GroqPipeline     // any message in groq mode
    | DefaultPipeline  // any message in the default mode

  /** The handlers in the order the module registers them. */
  const Registered: seq<Handler> :=
    [StartReply, HelpReply, LogReply, StuckReply, WolframToggle, GroqToggle,
     WolframPipeline, GroqPipeline, DefaultPipeline]

  predicate IsCommand(msg: Incoming, name: string) {
    msg.command == Some(name)
  }

  /** The filter each handler was registered with. */
  predicate Accepts(h: Handler, mode: Mode, msg: Incoming) {
    match h
    case StartReply => IsCommand(msg, "start")
    case HelpReply => IsCommand(msg, "help")
    case LogReply => IsCommand(msg, "log")
    case StuckReply => mode == Processing
    case WolframToggle => IsCommand(msg, "wolfram")
    case GroqToggle => IsCommand(msg, "groq")
    case WolframPipeline => mode == WolframMode
    case GroqPipeline => mode == GroqMode
    case DefaultPipeline => mode == Default
  }

  /** The first of `hs` whose filter accepts the message. */
  function FirstAccepting(hs: seq<Handler>, mode: Mode, msg: Incoming): (r: Option<Handler>)
    ensures r.Some? ==> r.value in hs && Accepts(r.value, mode, msg)
    ensures r.None? ==> forall h :: h in hs ==> !Accepts(h, mode, msg)
  {
    if hs == [] then None
    else if Accepts(hs[0], mode, msg) then Some(hs[0])
    else FirstAccepting(hs[1..], mode, msg)
  }

  /** The handler aiogram runs: every mode has a catch-all, so one always accepts. */
  function Route(mode: Mode, msg: Incoming): (h: Handler)
    ensures Accepts(h, mode, msg)
  {
    var r := FirstAccepting(Registered, mode, msg);
    if r.Some? then r.value
    else
      assert Accepts(
        match mode
        case Default => DefaultPipeline
        case Processing => StuckReply
        case WolframMode => WolframPipeline
        case GroqMode => GroqPipeline, mode, msg);
      assert false; StartReply
  }

  /**
   * While processing, `/start`, `/help` and `/log` are still answered and
   * every other message, toggles included, gets the "stuck" reply.
   */
  lemma RouteWhileProcessing(msg: Incoming)
    ensures Route(Processing, msg) ==
      if IsCommand(msg, "start") then StartReply
      else if IsCommand(msg, "help") then HelpReply
      else if IsCommand(msg, "log") then LogReply
      else StuckReply
  {
  }

  /** Outside processing a toggle command reaches its toggle, and anything else that is not a command handled above reaches the mode's pipeline. */
  lemma RouteOutsideProcessing(mode: Mode, msg: Incoming)
    requires mode != Processing
    requires !IsCommand(msg, "start") && !IsCommand(msg, "help") && !IsCommand(msg, "log")
    ensures IsCommand(msg, "wolfram") ==> Route(mode, msg) == WolframToggle
    ensures IsCommand(msg, "groq") ==> Route(mode, msg) == GroqToggle
    ensures !IsCommand(msg, "wolfram") && !IsCommand(msg, "groq") ==>
      Route(mode, msg) == (match mode
        case Default => DefaultPipeline
        case WolframMode => WolframPipeline
        case GroqMode => GroqPipeline
        case Processing => StuckReply)
  {
  }

  predicate IsPipeline(h: Handler) {
    h == WolframPipeline || h == GroqPipeline || h == DefaultPipeline
  }

  /** `/wolfram` and `/groq`: leave the mode if already in it, otherwise enter it. */
  function Toggle(current: Mode, target: Mode): (m: Mode)
    requires target == WolframMode || target == GroqMode
    ensures m == Default <==> current == target
    ensures m != Default ==> m == target
  {
    if current == target then Default else target
  }

  /** The mode right after a handler starts. */
  function AfterReceive(mode: Mode, msg: Incoming): Mode {
    match Route(mode, msg)
    case WolframToggle => Toggle(mode, WolframMode)
    case GroqToggle => Toggle(mode, GroqMode)
    case WolframPipeline => Processing
    case GroqPipeline => Processing
    case DefaultPipeline => Processing
    case _ => mode
  }

  /** The mode a pipeline restores when it returns normally. */
  function Restored(h: Handler): Mode
    requires IsPipeline(h)
  {
    match h
    case WolframPipeline => WolframMode
    case GroqPipeline => GroqMode
    case DefaultPipeline => Default
  }

  /** The mode after a pipeline ends: restored on a normal return, left at `processing` when it raised. */
  function AfterFinish(h: Handler, raised: bool, current: Mode): Mode
    requires IsPipeline(h)
  {
    if raised then current else Restored(h)
  }

  /** The same toggle twice from the default mode comes back to it; the other toggle switches modes directly. */
  lemma ToggleProperties()
    ensures Toggle(Toggle(Default, WolframMode), WolframMode) == Default
    ensures Toggle(Toggle(Default, GroqMode), GroqMode) == Default
    ensures Toggle(WolframMode, GroqMode) == GroqMode && Toggle(GroqMode, WolframMode) == WolframMode
  {
  }

  /**
   * A pipeline started from a mode other than processing holds the user in
   * processing and, on a normal return, puts the user back in that mode.
   */
  lemma PipelineRestoresMode(mode: Mode, msg: Incoming)
    requires mode != Processing && IsPipeline(Route(mode, msg))
    ensures AfterReceive(mode, msg) == Processing
    ensures AfterFinish(Route(mode, msg), false, Processing) == mode
    ensures AfterFinish(Route(mode, msg), true, Processing) == Processing
  {
  }

  /** In processing no message changes the mode: only the clear-state button leaves it. */
  lemma ProcessingIsSticky(msg: Incoming)
    ensures AfterReceive(Processing, msg) == Processing
  {
    RouteWhileProcessing(msg);
  }

  /** aiogram's in-memory storage of the users' states. */
  class Conversations {
    var states: map<int, Mode>

    constructor ()
      ensures states == map[]
    {
      states := map[];
    }

    /** A user with no stored state is in the default mode. */
    function ModeOf(user: int): Mode
      reads this
    {
      if user in states then states[user] else Default
    }

    /** Dispatch one message of `user`: the chosen handler and its effect on the mode on entry. */
    method Receive(user: int, msg: Incoming) returns (h: Handler)
      modifies this
      ensures h == Route(old(ModeOf(user)), msg)
      ensures ModeOf(user) == AfterReceive(old(ModeOf(user)), msg)
      ensures forall u :: u != user ==> ModeOf(u) == old(ModeOf(u))
    {
      var mode := ModeOf(user);
      h := Route(mode, msg);
      match h {
        case WolframToggle =>
          states := states[user := Toggle(mode, WolframMode)];
        case GroqToggle =>
          states := states[user := Toggle(mode, GroqMode)];
        case WolframPipeline =>
          states := states[user := Processing];
        case GroqPipeline =>
          states := states[user := Processing];
        case DefaultPipeline =>
          states := states[user := Processing];
        case _ =>
      }
    }

    /** The end of a pipeline: its closing `set_state`/`clear`, skipped when it raised. */
    method Finish(user: int, h: Handler, raised: bool)
      requires IsPipeline(h)
      modifies this
      ensures ModeOf(user) == AfterFinish(h, raised, old(ModeOf(user)))
      ensures forall u :: u != user ==> ModeOf(u) == old(ModeOf(u))
    {
      if !raised {
        states := states[user := Restored(h)];
      }
    }

    /** The `clear_state` button: back to the default mode, whatever mode was pinned. */
    method ClearState(user: int)
      modifies this
      ensures ModeOf(user) == Default
      ensures forall u :: u != user ==> ModeOf(u) == old(ModeOf(u))
    {
      states := states[user := Default];
    }
  }
}

=== FILE: bot_output.dfy ===
/**
 * How the bot (src/bot/bot.py) cuts an answer into Telegram messages and
 * sends output files: `smart_split`, the 4000-character slices of the
 * default pipeline with the keyboard on the first HTML slice, the groq-mode
 * chunk loop, and the batches of at most nine files.
 *
 * `markdown_to_html` is the parameter `format` (`None` when it raises) and
 * Telegram's acceptance of an HTML message is the parameter `delivered`.
 */
module BotOutput {
  import opened Common
  import opened FileUtils
  import opened Gateway

  // ---------------------------------------------------------------------
  // smart_split

  /** The separators `smart_split` tries, in order. */
  const SplitSeps: seq<string> := ["\n\n", "\n", ". ", "> ", "</"]

  /**
   * The end of the head: after the last occurrence, lying wholly inside the
   * window and starting past index 100, of the first separator that has one.
   */
  function SepCut(text: string, maxLength: nat, seps: seq<string>): (r: Option<nat>)
    requires maxLength <= |text|
    ensures r.Some? ==> 100 < r.value <= maxLength
  {
    if seps == [] then None
    else
      var pos := RFind(text, seps[0], maxLength);
      if pos != -1 && pos > 100 then Some(pos + |seps[0]|) else SepCut(text, maxLength, seps[1..])
  }

  /** `smart_split(text, max_length)`: a head that fits and the tail after it. */
  function SmartSplit(text: string, maxLength: nat): (r: (string, string))
    ensures r.0 + r.1 == text
    ensures |r.0| <= maxLength
    ensures |text| <= maxLength ==> r == (text, [])
    ensures text != [] && maxLength > 0 ==> r.0 != []
  {
    if |text| <= maxLength then (text, [])
    else
      match SepCut(text, maxLength, SplitSeps)
      case Some(e) => (text[..e], text[e..])
      case None => (text[..maxLength], text[maxLength..])
  }

  lemma {:induction false} SepCutFirst(text: string, maxLength: nat, seps: seq<string>, k: nat)
    requires maxLength <= |text| && k < |seps|
    requires RFind(text, seps[k], maxLength) > 100
    requires forall j :: 0 <= j < k ==> RFind(text, seps[j], maxLength) <= 100
    ensures SepCut(text, maxLength, seps) == Some(RFind(text, seps[k], maxLength) + |seps[k]|)
  {
    if k > 0 {
      var rest := seps[1..];
      assert RFind(text, seps[0], maxLength) <= 100;
      assert SepCut(text, maxLength, seps) == SepCut(text, maxLength, rest);
      assert rest[k - 1] == seps[k];
      forall j | 0 <= j < k - 1
        ensures RFind(text, rest[j], maxLength) <= 100
      {
        assert rest[j] == seps[j + 1];
      }
      SepCutFirst(text, maxLength, rest, k - 1);
    }
  }

  lemma {:induction false} SepCutNone(text: string, maxLength: nat, seps: seq<string>)
    requires maxLength <= |text|
    requires forall j :: 0 <= j < |seps| ==> RFind(text, seps[j], maxLength) <= 100
    ensures SepCut(text, maxLength, seps) == None
  {
    if seps != [] {
      assert RFind(text, seps[0], maxLength) <= 100;
      SepCutNone(text, maxLength, seps[1..]);
    }
  }

  /**
   * Which cut `smart_split` makes on a text longer than the window: after
   * the first separator (in the order of `SplitSeps`) whose last occurrence
   * in the window starts past index 100, and at `max_length` when there is
   * none.
   */
  lemma SmartSplitCut(text: string, maxLength: nat, k: nat)
    requires |text| > maxLength
    ensures (forall j :: 0 <= j < |SplitSeps| ==> RFind(text, SplitSeps[j], maxLength) <= 100) ==>
      SmartSplit(text, maxLength).0 == text[..maxLength]
    ensures (k < |SplitSeps| && RFind(text, SplitSeps[k], maxLength) > 100 &&
             forall j :: 0 <= j < k ==> RFind(text, SplitSeps[j], maxLength) <= 100) ==>
      SmartSplit(text, maxLength).0 == text[..RFind(text, SplitSeps[k], maxLength) + |SplitSeps[k]|] &&
      EndsWith(SmartSplit(text, maxLength).0, SplitSeps[k])
  {
    if forall j :: 0 <= j < |SplitSeps| ==> RFind(text, SplitSeps[j], maxLength) <= 100 {
      SepCutNone(text, maxLength, SplitSeps);
    }
    if k < |SplitSeps| && RFind(text, SplitSeps[k], maxLength) > 100 &&
      (forall j :: 0 <= j < k ==> RFind(text, SplitSeps[j], maxLength) <= 100) {
      SepCutFirst(text, maxLength, SplitSeps, k);
      var pos := RFind(text, SplitSeps[k], maxLength);
      assert text[..pos + |SplitSeps[k]|][pos..] == text[pos..pos + |SplitSeps[k]|];
    }
  }

  // ---------------------------------------------------------------------
  // The default pipeline's answer: 4000-character slices

  /** `while s: ...s[:n]...; s = s[n:]`: the slices the loop visits. */
  function Slices(s: string, n: nat): (r: seq<string>)
    requires n > 0
    ensures forall i :: 0 <= i < |r| ==> 0 < |r[i]| <= n
    decreases |s|
  {
    if s == [] then [] else if |s| <= n then [s] else [s[..n]] + Slices(s[n..], n)
  }

  /** The slices put back together give the text, and all but the last are full. */
  lemma {:induction false} SlicesCover(s: string, n: nat)
    requires n > 0
    ensures Concat(Slices(s, n)) == s
    ensures Slices(s, n) == [] <==> s == []
    ensures forall i :: 0 <= i < |Slices(s, n)| - 1 ==> |Slices(s, n)[i]| == n
    decreases |s|
  {
    if s != [] && |s| > n {
      SlicesCover(s[n..], n);
      assert s == s[..n] + s[n..];
    } else if s != [] {
      assert Concat([s]) == s + Concat([]);
    }
  }

  /** A message the bot sends: its text, whether as HTML, and whether with the keyboard. */
  datatype Sent = Sent(text: string, html: bool, keyboard: bool)

  /**
   * The messages for the slices: each slice goes out as HTML when it
   * renders and is accepted, else as plain text without the keyboard; the
   * keyboard goes with the first HTML message only.
   */
  function AnswerMessages(slices: seq<string>, keyboard: bool, render: string -> Option<string>): (r: seq<Sent>)
    ensures |r| == |slices|
  {
    if slices == [] then []
    else
      match render(slices[0])
      case Some(h) => [Sent(h, true, keyboard)] + AnswerMessages(slices[1..], false, render)
      case None => [Sent(slices[0], false, false)] + AnswerMessages(slices[1..], keyboard, render)
  }

  /**
   * Message `i` is the rendered slice when it renders and the raw slice
   * otherwise, and it carries the keyboard iff there is one and it is the
   * first slice that renders.
   */
  lemma {:induction false} AnswerMessageAt(slices: seq<string>, keyboard: bool, render: string -> Option<string>, i: nat)
    requires i < |slices|
    ensures var m := AnswerMessages(slices, keyboard, render)[i];
      m.html == render(slices[i]).Some? &&
      (m.html ==> m.text == render(slices[i]).value) &&
      (!m.html ==> m.text == slices[i]) &&
      (m.keyboard <==> keyboard && render(slices[i]).Some? && forall j :: 0 <= j < i ==> render(slices[j]).None?)
  {
    if i > 0 {
      var kb := if render(slices[0]).Some? then false else keyboard;
      AnswerMessageAt(slices[1..], kb, render, i - 1);
      assert forall j :: 0 < j < i ==> slices[1..][j - 1] == slices[j];
      if render(slices[0]).None? {
        assert forall j :: 0 <= j < i ==> (render(slices[j]).None? <==> j == 0 || render(slices[1..][j - 1]).None?);
      }
    }
  }

  /** The keyboard is attached to at most one message. */
  lemma KeyboardAtMostOnce(slices: seq<string>, keyboard: bool, render: string -> Option<string>, i: nat, j: nat)
    requires i < j < |slices|
    ensures !(AnswerMessages(slices, keyboard, render)[i].keyboard && AnswerMessages(slices, keyboard, render)[j].keyboard)
  {
    AnswerMessageAt(slices, keyboard, render, i);
    AnswerMessageAt(slices, keyboard, render, j);
  }

  lemma SlicesStep(s: string, n: nat)
    requires n > 0 && s != []
    ensures Slices(s, n) == [if |s| <= n then s else s[..n]] + Slices(if |s| <= n then [] else s[n..], n)
  {
  }

  lemma AnswerMessagesStep(slices: seq<string>, keyboard: bool, render: string -> Option<string>)
    requires slices != []
    ensures render(slices[0]).Some? ==>
      AnswerMessages(slices, keyboard, render) == [Sent(render(slices[0]).value, true, keyboard)] + AnswerMessages(slices[1..], false, render)
    ensures render(slices[0]).None? ==>
      AnswerMessages(slices, keyboard, render) == [Sent(slices[0], false, false)] + AnswerMessages(slices[1..], keyboard, render)
  {
  }

  /** The answer-sending loop: `answer[:4000]` as HTML with the keyboard until one is sent, else as plain text. */
  method SendAnswer(answer: string, keyboard: bool, render: string -> Option<string>) returns (sent: seq<Sent>)
    ensures sent == AnswerMessages(Slices(answer, 4000), keyboard, render)
  {
    sent := [];
    var rest := answer;
    var kb := keyboard;
    ghost var target := AnswerMessages(Slices(answer, 4000), keyboard, render);
    while rest != []
      invariant sent + AnswerMessages(Slices(rest, 4000), kb, render) == target
      decreases |rest|
    {
      var piece := if |rest| <= 4000 then rest else rest[..4000];
      var after := if |rest| <= 4000 then [] else rest[4000..];
      var out := render(piece);
      var m := if out.Some? then Sent(out.value, true, kb) else Sent(piece, false, false);
      var kb' := if out.Some? then false else kb;
      SendStep(rest, kb, render);
      AppendAssociative(sent, [m], AnswerMessages(Slices(after, 4000), kb', render));
      sent := sent + [m];
      kb := kb';
      rest := after;
    }
  }

  /** One turn of the answer-sending loop. */
  lemma SendStep(rest: string, kb: bool, render: string -> Option<string>)
    requires rest != []
    ensures var piece := if |rest| <= 4000 then rest else rest[..4000];
      var after := if |rest| <= 4000 then [] else rest[4000..];
      AnswerMessages(Slices(rest, 4000), kb, render) ==
        [if render(piece).Some? then Sent(render(piece).value, true, kb) else Sent(piece, false, false)] +
        AnswerMessages(Slices(after, 4000), if render(piece).Some? then false else kb, render)
  {
    SlicesStep(rest, 4000);
    AnswerMessagesStep(Slices(rest, 4000), kb, render);
  }

  // ---------------------------------------------------------------------
  // Groq mode: the chunk loop

  /** A sent message together with the slice of the answer it carries. */
  datatype Piece = Piece(raw: string, out: Sent)

  function Raws(ps: seq<Piece>): (r: seq<string>)
    ensures |r| == |ps|
    ensures forall i :: 0 <= i < |ps| ==> r[i] == ps[i].raw
  {
    seq(|ps|, i requires 0 <= i < |ps| => ps[i].raw)
  }

  /**
   * What every message of the groq-mode loop looks like: a non-empty slice
   * of at most 4000 characters, without the keyboard, sent either as the
   * HTML formatted from that slice and accepted, or as the slice itself.
   */
  predicate GroqPiece(p: Piece, format: string -> Option<string>, delivered: string -> bool) {
    0 < |p.raw| <= 4000 && !p.out.keyboard &&
    (p.out.html ==> format(p.raw) == Some(p.out.text) && delivered(p.out.text)) &&
    (!p.out.html ==> p.out.text == p.raw)
  }

  /**
   * The groq-mode loop as written. A chunk whose HTML is longer than 4096
   * is cut again at 3000 and the loop goes on with that cut's tail only; on
   * any failure the loop cuts 3500 characters from what is left of the
   * answer and sends them as plain text.
   */
  function GroqRun(answer: string, format: string -> Option<string>, delivered: string -> bool): (r: seq<Piece>)
    ensures forall i :: 0 <= i < |r| ==> GroqPiece(r[i], format, delivered)
    decreases |answer|, 1
  {
    if answer == [] then []
    else
      var (chunk, rest) := SmartSplit(answer, 4000);
      match format(chunk)
      case None => GroqFallback(rest, format, delivered)
      case Some(f) =>
        if |f| <= 4096 then
          if delivered(f) then [Piece(chunk, Sent(f, true, false))] + GroqRun(rest, format, delivered)
          else GroqFallback(rest, format, delivered)
        else
          var (chunk2, rest2) := SmartSplit(chunk, 3000);
          match format(chunk2)
          case None => GroqFallback(rest2, format, delivered)
          case Some(f2) =>
            if delivered(f2) then [Piece(chunk2, Sent(f2, true, false))] + GroqRun(rest2, format, delivered)
            else GroqFallback(rest2, format, delivered)
  }

  /** The `except` branch: the next 3500 characters of what is left, as plain text; nothing left ends the loop. */
  function GroqFallback(current: string, format: string -> Option<string>, delivered: string -> bool): (r: seq<Piece>)
    ensures forall i :: 0 <= i < |r| ==> GroqPiece(r[i], format, delivered)
    ensures r != [] ==> !r[0].out.html && |r[0].raw| <= 3500
    decreases |current|, 0
  {
    var (chunk, rest) := SmartSplit(current, 3500);
    if chunk == [] then [] else [Piece(chunk, Sent(chunk, false, false))] + GroqRun(rest, format, delivered)
  }

  /** `markdown_to_html` never fails, stays within Telegram's limit, and Telegram accepts it. */
  ghost predicate WellBehaved(format: string -> Option<string>, delivered: string -> bool) {
    forall c :: format(c).Some? && |format(c).value| <= 4096 && delivered(format(c).value)
  }

  /** The slices the loop sends never add up to more than the answer. */
  lemma {:induction false} GroqCoversAtMost(answer: string, format: string -> Option<string>, delivered: string -> bool)
    ensures |Concat(Raws(GroqRun(answer, format, delivered)))| <= |answer|
    decreases |answer|, 1
  {
    if answer != [] {
      var (chunk, rest) := SmartSplit(answer, 4000);
      var f := format(chunk);
      if f.Some? && |f.value| <= 4096 && delivered(f.value) {
        GroqCoversAtMost(rest, format, delivered);
        GroqPrefixRaws(Piece(chunk, Sent(f.value, true, false)), GroqRun(rest, format, delivered));
      } else if f.Some? && |f.value| > 4096 {
        var (chunk2, rest2) := SmartSplit(chunk, 3000);
        var f2 := format(chunk2);
        if f2.Some? && delivered(f2.value) {
          GroqCoversAtMost(rest2, format, delivered);
          GroqPrefixRaws(Piece(chunk2, Sent(f2.value, true, false)), GroqRun(rest2, format, delivered));
        } else {
          GroqFallbackCoversAtMost(rest2, format, delivered);
        }
      } else {
        GroqFallbackCoversAtMost(rest, format, delivered);
      }
    }
  }

  /** The same for the `except` branch. */
  lemma {:induction false} GroqFallbackCoversAtMost(current: string, format: string -> Option<string>, delivered: string -> bool)
    ensures |Concat(Raws(GroqFallback(current, format, delivered)))| <= |current|
    decreases |current|, 0
  {
    var (chunk, rest) := SmartSplit(current, 3500);
    if chunk != [] {
      GroqCoversAtMost(rest, format, delivered);
      GroqPrefixRaws(Piece(chunk, Sent(chunk, false, false)), GroqRun(rest, format, delivered));
    }
  }

  lemma GroqPrefixRaws(p: Piece, ps: seq<Piece>)
    ensures Concat(Raws([p] + ps)) == p.raw + Concat(Raws(ps))
  {
    assert Raws([p] + ps) == [p.raw] + Raws(ps);
    assert ([p.raw] + Raws(ps))[1..] == Raws(ps);
  }

  /** With a well-behaved formatter nothing is lost: the slices sent are the whole answer, each as HTML. */
  lemma {:induction false} GroqWellBehavedCovers(answer: string, format: string -> Option<string>, delivered: string -> bool)
    requires WellBehaved(format, delivered)
    ensures Concat(Raws(GroqRun(answer, format, delivered))) == answer
    ensures forall i :: 0 <= i < |GroqRun(answer, format, delivered)| ==> GroqRun(answer, format, delivered)[i].out.html
    decreases |answer|
  {
    if answer != [] {
      var (chunk, rest) := SmartSplit(answer, 4000);
      assert format(chunk).Some? && |format(chunk).value| <= 4096 && delivered(format(chunk).value);
      GroqWellBehavedCovers(rest, format, delivered);
      GroqPrefixRaws(Piece(chunk, Sent(format(chunk).value, true, false)), GroqRun(rest, format, delivered));
    }
  }

  /**
   * As written, a first chunk whose HTML is too long loses the rest of the
   * answer: what is sent adds up to less than the answer.
   */
  lemma GroqOverlongLosesText(answer: string, format: string -> Option<string>, delivered: string -> bool)
    requires |answer| > 4000
    requires var f := format(SmartSplit(answer, 4000).0); f.Some? && |f.value| > 4096
    ensures Concat(Raws(GroqRun(answer, format, delivered))) != answer
  {
    var (chunk, rest) := SmartSplit(answer, 4000);
    var (chunk2, rest2) := SmartSplit(chunk, 3000);
    var f2 := format(chunk2);
    if f2.Some? && delivered(f2.value) {
      GroqCoversAtMost(rest2, format, delivered);
      GroqPrefixRaws(Piece(chunk2, Sent(f2.value, true, false)), GroqRun(rest2, format, delivered));
    } else {
      GroqFallbackCoversAtMost(rest2, format, delivered);
    }
  }

  /** As written, a first chunk that fails to format is never sent. */
  lemma GroqFailedChunkLost(answer: string, format: string -> Option<string>, delivered: string -> bool)
    requires |answer| > 4000
    requires format(SmartSplit(answer, 4000).0).None?
    ensures Concat(Raws(GroqRun(answer, format, delivered))) != answer
  {
    var (chunk, rest) := SmartSplit(answer, 4000);
    GroqFallbackCoversAtMost(rest, format, delivered);
  }

  /** One turn of the loop as written: what it sends, what it goes on with, and whether it breaks. */
  datatype Step = Step(emitted: seq<Piece>, next: string, stop: bool)

  function GroqStep(left: string, format: string -> Option<string>, delivered: string -> bool): (s: Step)
    requires left != []
    ensures |s.next| < |left|
  {
    var (chunk, rest) := SmartSplit(left, 4000);
    var f := format(chunk);
    var (sentChunk, current, failed) :=
      if f.None? then (chunk, rest, true)
      else if |f.value| > 4096 then
        var (chunk2, rest2) := SmartSplit(chunk, 3000);
        (chunk2, rest2, format(chunk2).None? || !delivered(format(chunk2).value))
      else (chunk, rest, !delivered(f.value));
    if failed then
      var (chunk3, rest3) := SmartSplit(current, 3500);
      if chunk3 == [] then Step([], rest3, true)
      else Step([Piece(chunk3, Sent(chunk3, false, false))], rest3, false)
    else Step([Piece(sentChunk, Sent(format(sentChunk).value, true, false))], current, false)
  }

  lemma GroqRunUnfold(left: string, format: string -> Option<string>, delivered: string -> bool)
    requires left != []
    ensures var s := GroqStep(left, format, delivered);
      GroqRun(left, format, delivered) == s.emitted + (if s.stop then [] else GroqRun(s.next, format, delivered))
  {
  }

  /** The body of the loop as written: one `smart_split` and its `try`/`except`. */
  method GroqTurn(left: string, format: string -> Option<string>, delivered: string -> bool)
    returns (emitted: seq<Piece>, next: string, stop: bool)
    requires left != []
    ensures Step(emitted, next, stop) == GroqStep(left, format, delivered)
  {
    var cut := SmartSplit(left, 4000);
    var chunk := cut.0;
    next := cut.1;
    var failed := false;
    var f := format(chunk);
    if f.None? {
      failed := true;
    } else if |f.value| > 4096 {
      cut := SmartSplit(chunk, 3000);
      chunk, next := cut.0, cut.1;
      f := format(chunk);
      failed := f.None? || !delivered(f.value);
    } else {
      failed := !delivered(f.value);
    }
    if failed {
      cut := SmartSplit(next, 3500);
      chunk, next := cut.0, cut.1;
      if chunk == [] {
        return [], next, true;
      }
      emitted, stop := [Piece(chunk, Sent(chunk, false, false))], false;
    } else {
      emitted, stop := [Piece(chunk, Sent(f.value, true, false))], false;
    }
  }

  /** The groq-mode loop as written. */
  method GroqSendAsWritten(answer: string, format: string -> Option<string>, delivered: string -> bool)
    returns (pieces: seq<Piece>)
    ensures pieces == GroqRun(answer, format, delivered)
  {
    pieces := [];
    var left := answer;
    ghost var target := GroqRun(answer, format, delivered);
    while left != []
      invariant pieces + GroqRun(left, format, delivered) == target
      decreases |left|
    {
      GroqRunUnfold(left, format, delivered);
      var emitted, next, stop := GroqTurn(left, format, delivered);
      if stop {
        assert emitted == [];
        break;
      }
      AppendAssociative(pieces, emitted, GroqRun(next, format, delivered));
      pieces := pieces + emitted;
      left := next;
    }
  }

  /** One corrected send: HTML when it formats within the limit and is accepted, else the raw text. */
  function Deliver(c: string, format: string -> Option<string>, delivered: string -> bool): (p: Piece)
    ensures p.raw == c
    ensures p.out.html ==> format(c) == Some(p.out.text) && |p.out.text| <= 4096 && delivered(p.out.text)
    ensures !p.out.html ==> p.out.text == c
    ensures !p.out.keyboard
  {
    var f := format(c);
    if f.Some? && |f.value| <= 4096 && delivered(f.value) then Piece(c, Sent(f.value, true, false))
    else Piece(c, Sent(c, false, false))
  }

  /**
   * One turn of the groq-mode loop with both losses repaired: an over-long
   * chunk is cut at 3000 and its tail goes back in front of the rest, and a
   * chunk that fails is sent as plain text.
   */
  function FixedStep(left: string, format: string -> Option<string>, delivered: string -> bool): (r: (Piece, string))
    requires left != []
    ensures r.0.raw + r.1 == left
    ensures r.0 == Deliver(r.0.raw, format, delivered)
    ensures 0 < |r.0.raw| <= 4000
  {
    var (chunk, tail) := SmartSplit(left, 4000);
    var f := format(chunk);
    if f.Some? && |f.value| > 4096 then
      var (head, back) := SmartSplit(chunk, 3000);
      AppendAssociative(head, back, tail);
      (Deliver(head, format, delivered), back + tail)
    else (Deliver(chunk, format, delivered), tail)
  }

  /** The corrected loop, turn by turn: every slice non-empty, at most 4000 characters, and sent as `Deliver` says. */
  function FixedRun(answer: string, format: string -> Option<string>, delivered: string -> bool): (r: seq<Piece>)
    ensures forall i :: 0 <= i < |r| ==> 0 < |r[i].raw| <= 4000 && r[i] == Deliver(r[i].raw, format, delivered)
    ensures r == [] <==> answer == []
    decreases |answer|
  {
    if answer == [] then []
    else
      var (piece, next) := FixedStep(answer, format, delivered);
      [piece] + FixedRun(next, format, delivered)
  }

  /**
   * The corrected loop loses nothing: the slices it sends are the whole
   * answer in order, each at most 4000 characters and sent as `Deliver` says.
   */
  lemma {:induction false} FixedRunCovers(answer: string, format: string -> Option<string>, delivered: string -> bool)
    ensures Concat(Raws(FixedRun(answer, format, delivered))) == answer
    ensures forall i :: 0 <= i < |FixedRun(answer, format, delivered)| ==>
      FixedRun(answer, format, delivered)[i] == Deliver(FixedRun(answer, format, delivered)[i].raw, format, delivered) &&
      0 < |FixedRun(answer, format, delivered)[i].raw| <= 4000
    decreases |answer|
  {
    if answer != [] {
      var (piece, next) := FixedStep(answer, format, delivered);
      FixedRunCovers(next, format, delivered);
      GroqPrefixRaws(piece, FixedRun(next, format, delivered));
      var r := FixedRun(answer, format, delivered);
      assert r == [piece] + FixedRun(next, format, delivered);
      assert forall i :: 1 <= i < |r| ==> r[i] == FixedRun(next, format, delivered)[i - 1];
    }
  }

  /** With a well-behaved formatter the corrected loop sends exactly what the loop as written sends. */
  lemma {:induction false} FixedRunAgrees(answer: string, format: string -> Option<string>, delivered: string -> bool)
    requires WellBehaved(format, delivered)
    ensures FixedRun(answer, format, delivered) == GroqRun(answer, format, delivered)
    decreases |answer|
  {
    if answer != [] {
      WellBehavedTurn(answer, format, delivered);
      var (piece, next) := FixedStep(answer, format, delivered);
      FixedRunAgrees(next, format, delivered);
    }
  }

  /** The groq-mode loop with both losses repaired. */
  method GroqSend(answer: string, format: string -> Option<string>, delivered: string -> bool)
    returns (pieces: seq<Piece>)
    ensures pieces == FixedRun(answer, format, delivered)
  {
    pieces := [];
    var left := answer;
    ghost var target := FixedRun(answer, format, delivered);
    while left != []
      invariant pieces + FixedRun(left, format, delivered) == target
      decreases |left|
    {
      var piece, next := GroqFixedTurn(left, format, delivered);
      AppendAssociative(pieces, [piece], FixedRun(next, format, delivered));
      pieces := pieces + [piece];
      left := next;
    }
  }

  /** The body of the corrected loop. */
  method GroqFixedTurn(left: string, format: string -> Option<string>, delivered: string -> bool)
    returns (piece: Piece, next: string)
    requires left != []
    ensures (piece, next) == FixedStep(left, format, delivered)
  {
    var (chunk, tail) := SmartSplit(left, 4000);
    var f := format(chunk);
    if f.Some? && |f.value| > 4096 {
      var (head, back) := SmartSplit(chunk, 3000);
      piece := Deliver(head, format, delivered);
      next := back + tail;
    } else {
      piece := Deliver(chunk, format, delivered);
      next := tail;
    }
  }

  /** With a well-behaved formatter a turn sends the whole first chunk as HTML, as the loop as written does. */
  lemma WellBehavedTurn(left: string, format: string -> Option<string>, delivered: string -> bool)
    requires left != [] && WellBehaved(format, delivered)
    ensures var (chunk, tail) := SmartSplit(left, 4000);
      |format(chunk).value| <= 4096 &&
      GroqRun(left, format, delivered) == [Deliver(chunk, format, delivered)] + GroqRun(tail, format, delivered)
  {
    var (chunk, tail) := SmartSplit(left, 4000);
    assert format(chunk).Some? && |format(chunk).value| <= 4096 && delivered(format(chunk).value);
  }

  // ---------------------------------------------------------------------
  // Output files: batches of nine

  /** The files one batch handles, as a media group and as separate documents. */
  datatype Batch = Batch(documents: seq<string>, photos: seq<string>)

  /** The `k`-th window of nine files. */
  function Window(files: seq<string>, k: nat): (w: seq<string>)
    requires 9 * k <= |files|
    ensures |w| <= 9
  {
    files[9 * k..if 9 * k + 9 <= |files| then 9 * k + 9 else |files|]
  }

  /**
   * The batches `while output_files:` makes: one per window of nine, in
   * order, so no media group or run of documents exceeds nine files.
   */
  function Batches(files: seq<string>): (r: seq<Batch>)
    ensures r == [] <==> files == []
    ensures forall k :: 0 <= k < |r| ==> |r[k].documents| <= 9 && |r[k].photos| <= 9
    decreases |files|
  {
    if files == [] then []
    else
      var window := if |files| <= 9 then files else files[..9];
      [Batch(NonImages(window), Images(window))] + Batches(if |files| <= 9 then [] else files[9..])
  }

  /**
   * `while output_files:` over windows of nine: the non-images of a window
   * are sent one by one as documents, its images as one media group.
   */
  method SendFiles(files: seq<string>) returns (batches: seq<Batch>)
    ensures batches == Batches(files)
  {
    batches := [];
    var left := files;
    while left != []
      invariant batches + Batches(left) == Batches(files)
      decreases |left|
    {
      var window := if |left| <= 9 then left else left[..9];
      var batch := SortWindow(window);
      var next := if |left| <= 9 then [] else left[9..];
      assert Batches(left) == [batch] + Batches(next);
      AppendAssociative(batches, [batch], Batches(next));
      batches := batches + [batch];
      left := next;
    }
  }

  /** Dropping the first window shifts the later windows down by one. */
  lemma WindowShift(files: seq<string>, k: nat)
    requires |files| > 9 && 1 <= k && 9 * k <= |files|
    ensures Window(files[9..], k - 1) == Window(files, k)
  {
    var lo := 9 * k;
    assert 9 * (k - 1) == lo - 9;
    var hi := if lo + 9 <= |files| then lo + 9 else |files|;
    var inner, outer := Window(files[9..], k - 1), Window(files, k);
    assert outer == files[lo..hi];
    assert inner == files[9..][lo - 9..hi - 9];
    assert forall m :: 0 <= m < hi - lo ==> inner[m] == files[lo + m] == outer[m];
  }

  /**
   * There are as many batches as windows of nine (the last one possibly
   * short), and batch `k` holds the non-images and the images of window `k`,
   * each in order.
   */
  lemma {:induction false} BatchesShape(files: seq<string>)
    ensures |Batches(files)| == (|files| + 8) / 9
    ensures forall k :: 0 <= k < |Batches(files)| ==>
      9 * k <= |files| && Batches(files)[k] == Batch(NonImages(Window(files, k)), Images(Window(files, k)))
    decreases |files|
  {
    if files != [] {
      var r := Batches(files);
      if |files| <= 9 {
        assert Window(files, 0) == files;
      } else {
        var rest := files[9..];
        BatchesShape(rest);
        assert r == [r[0]] + Batches(rest);
        assert Window(files, 0) == files[..9];
        forall k | 1 <= k < |r|
          ensures 9 * k <= |files| && r[k] == Batch(NonImages(Window(files, k)), Images(Window(files, k)))
        {
          assert r[k] == Batches(rest)[k - 1];
          WindowShift(files, k);
        }
      }
    }
  }

  /** One window: its non-images as documents and its images as photos, each in order. */
  method SortWindow(window: seq<string>) returns (batch: Batch)
    ensures batch == Batch(NonImages(window), Images(window))
  {
    var documents: seq<string> := [];
    var photos: seq<string> := [];
    var i := 0;
    while i < |window|
      invariant 0 <= i <= |window|
      invariant documents == NonImages(window[..i]) && photos == Images(window[..i])
    {
      assert window[..i + 1] == window[..i] + [window[i]];
      NonImagesAppend(window[..i], window[i]);
      ImagesAppend(window[..i], window[i]);
      if IsImage(window[i]) {
        photos := photos + [window[i]];
      } else {
        documents := documents + [window[i]];
      }
      i := i + 1;
    }
    assert window[..i] == window;
    batch := Batch(documents, photos);
  }

  /** All documents and photos of the batches, in batch order. */
  function BatchFiles(batches: seq<Batch>): seq<string> {
    if batches == [] then [] else batches[0].documents + batches[0].photos + BatchFiles(batches[1..])
  }

  /** Every output file is sent exactly once. */
  lemma {:induction false} BatchesSendEachFileOnce(files: seq<string>)
    ensures multiset(BatchFiles(Batches(files))) == multiset(files)
    decreases |files|
  {
    if files != [] {
      var window := if |files| <= 9 then files else files[..9];
      var rest := if |files| <= 9 then [] else files[9..];
      BatchesSendEachFileOnce(rest);
      var b := Batch(NonImages(window), Images(window));
      assert Batches(files) == [b] + Batches(rest);
      BatchFilesCons(b, Batches(rest));
      OneBatchThenRest(window, rest, BatchFiles(Batches(rest)));
      assert files == window + rest;
    }
  }

  lemma BatchFilesCons(b: Batch, bs: seq<Batch>)
    ensures BatchFiles([b] + bs) == b.documents + b.photos + BatchFiles(bs)
  {
    assert ([b] + bs)[1..] == bs;
  }

  /** A window's documents and photos, then files standing for the rest, hold the window and the rest. */
  lemma OneBatchThenRest(window: seq<string>, rest: seq<string>, later: seq<string>)
    requires multiset(later) == multiset(rest)
    ensures multiset(NonImages(window) + Images(window) + later) == multiset(window + rest)
  {
    PartitionFiles(window);
  }
}

=== FILE: bot_pipeline.dfy ===
/**
 * The three message pipelines of the Telegram bot (src/bot/bot.py): the
 * default agent turn, the groq-mode turn and the wolfram-mode turn. The two
 * that keep a history are methods on the history store. The language
 * models, the tool selection and execution, the WolframAlpha client, the
 * HTML formatter and the language detector are parameters (each is modelled
 * in its own module); Telegram's progress messages, downloads and file
 * deletions are left out, and each result says what the pipeline sends.
 */
module BotPipeline {
  import opened Common
  import opened HistoryStore
  import opened BotOutput
  import FileUtils
  import Gateway
  import PlanParser
  import BotCallbacks

  // ---------------------------------------------------------------------
  // The incoming message

  /** What a message carries besides its text. */
  datatype Attachment =
    | NoAttachment
    | Voice(transcript: string)             // what speech recognition returned
    | Photo(file: string, caption: string)  // the downloaded file; `""` for no caption
    | Document(file: string, caption: string)

  /** An incoming message: its attachment and its text (`""` when it has none). */
  datatype Input = Input(attachment: Attachment, text: string)

  const DescribeImage: string := "Describe the image"
  const DescribeDocument: string := "Describe the document or answer a previous question"

  /**
   * The user's text: the message text when there is one, otherwise the
   * stripped transcript, the caption or the stock request for the
   * attachment. A message with neither (a sticker, say) leaves `text`
   * unbound, and its first use raises.
   */
  function MessageText(input: Input): (r: Option<string>)
    ensures input.text != "" ==> r == Some(input.text)
    ensures r.None? <==> input.text == "" && input.attachment.NoAttachment?
    ensures input.text == "" && input.attachment.Voice? ==> r == Some(Strip(input.attachment.transcript))
    ensures input.text == "" && (input.attachment.Photo? || input.attachment.Document?) ==>
      r.value == if input.attachment.caption != "" then input.attachment.caption
                 else if input.attachment.Photo? then DescribeImage else DescribeDocument
  {
    if input.text != "" then Some(input.text)
    else
      match input.attachment
      case NoAttachment => None
      case Voice(t) => Some(Strip(t))
      case Photo(_, c) => Some(if c != "" then c else DescribeImage)
      case Document(_, c) => Some(if c != "" then c else DescribeDocument)
  }

  /** The downloaded files: the photo or the document, if any. */
  function InputFiles(input: Input): (r: seq<string>)
    ensures |r| <= 1
  {
    match input.attachment
    case Photo(f, _) => [f]
    case Document(f, _) => [f]
    case _ => []
  }

  /**
   * The text the default pipeline adds to the user's turn for a file that
   * is not an image: a blank line, the name, and what `files_to_text`
   * reads from it. Removing the file from the list it iterates over skips
   * nothing, since there is at most one.
   */
  function Attached(input: Input, rd: FileUtils.Readers): (r: string)
    ensures r == "" <==> Kept(input) == InputFiles(input)
    ensures r != "" ==> var f := InputFiles(input)[0];
      !FileUtils.IsImage(f) && StartsWith(r, "\n\n" + f + ":\n")
  {
    var files := InputFiles(input);
    if files == [] || FileUtils.IsImage(files[0]) then ""
    else
      "\n\n" + files[0] + ":\n" + FileUtils.FilesText([files[0]], rd)
  }

  /**
   * As written, a document that is not a pdf, docx or mp3 file adds only
   * its name and an error line to the user's turn, whatever it holds.
   */
  lemma PlainDocumentAttached(input: Input, rd: FileUtils.Readers)
    requires Attached(input, rd) != "" && !FileUtils.Dispatched(InputFiles(input)[0])
    ensures var f := InputFiles(input)[0];
      Attached(input, rd) == "\n\n" + f + ":\n" + "Error reading " + f
  {
    var f := InputFiles(input)[0];
    FileUtils.OneFileText(f, rd);
    assert FileUtils.FilesText([f], rd) == "Error reading " + f;
  }

  /** The files the models still receive: the image, if the attachment is one. */
  function Kept(input: Input): seq<string> {
    Gateway.Images(InputFiles(input))
  }

  /** Every downloaded file either stays with the request (an image) or is turned into text (anything else). */
  lemma FileKeptOrInlined(input: Input, rd: FileUtils.Readers)
    ensures Kept(input) == InputFiles(input) <==> Attached(input, rd) == ""
    ensures Kept(input) == [] || Kept(input) == InputFiles(input)
  {
    var files := InputFiles(input);
    if files != [] {
      assert files == [files[0]];
      assert [files[0]][1..] == [];
    }
  }

  // ---------------------------------------------------------------------
  // Rows the pipelines store

  /** The user row after `sql_check_user`. */
  function CheckedIn(users: map<int, UserRow>, id: int, name: string, username: string, now: string): map<int, UserRow> {
    if id !in users then users[id := UserRow(name, username, 1, now, now)]
    else users[id := users[id].(messageCount := users[id].messageCount + 1, lastMessage := now)]
  }

  /** One turn as `sql_insert_message` stores it for a registered user. */
  function Turn(s: Store, id: int, role: string, content: string, now: string): MessageRow
    reads s
    requires id in s.users
  {
    MessageRow(s.users[id].telegramName, id, role, content, now, TextToHash(s.digest, content))
  }

  /** The user's recent turns, as `sql_select_history` returns them with its default `n`. */
  function Recent(s: Store, rows: seq<MessageRow>, id: int): seq<Message> {
    AsMessages(TakeLast(UserRows(rows, id), s.historyDefault))
  }

  /** Insert a turn for a user that `sql_check_user` has registered: it cannot raise. */
  method Record(store: Store, id: int, role: string, content: string, now: string)
    requires store.Valid() && id in store.users
    modifies store
    ensures store.Valid()
    ensures store.users == old(store.users) && store.archive == old(store.archive)
    ensures store.messages == old(store.messages) + [Turn(store, id, role, content, now)]
  {
    var r := store.InsertMessage(id, role, content, now);
    assert r.Ok?;
  }

  // ---------------------------------------------------------------------
  // The default pipeline

  /** The services the default pipeline calls. */
  datatype Agent = Agent(
    systemPrompt: string,
    select: (seq<Message>, seq<string>) -> Result<seq<PlanParser.Invocation>>,  // llm_select_tool(..., 'google')
    useTools: seq<PlanParser.Invocation> -> Result<PlanParser.Merged>,          // llm_use_tool
    llm: (seq<Message>, seq<string>) -> Result<string>,                          // llm_api(..., 'google')
    rd: FileUtils.Readers,
    detect: string -> string,                                                  // detect_language
    render: string -> Option<string>)                                          // markdown_to_html

  /** The conversation the agent sees: its system prompt, the recent history, and the user's turn with the document text. */
  function Prompt(systemPrompt: string, history: seq<Message>, userTurn: string): seq<Message> {
    [Message("system", systemPrompt)] + history + [Message("user", userTurn)]
  }

  const ToolResultPrefix: string := "tool result:\n"

  /**
   * The system turn the pipeline adds after running a non-empty tool plan:
   * the merged tool output. `None` when the plan is empty or either the
   * selection or a tool raised.
   */
  function ToolTurn(prompt: seq<Message>, images: seq<string>, agent: Agent): Option<string> {
    match agent.select(prompt, images)
    case Raised(_) => None
    case Ok(plan) =>
      if plan == [] then None
      else
        match agent.useTools(plan)
        case Raised(_) => None
        case Ok(merged) => Some(ToolResultPrefix + merged.text)
  }

  /** The files the tools produced, sent before the answer. */
  function ToolFiles(prompt: seq<Message>, images: seq<string>, agent: Agent): seq<string> {
    match agent.select(prompt, images)
    case Raised(_) => []
    case Ok(plan) =>
      if plan == [] then []
      else
        match agent.useTools(plan)
        case Raised(_) => []
        case Ok(merged) => merged.files
  }

  /**
   * The answer: with an empty plan, the reply the concurrent plain call
   * gave; otherwise the reply to the prompt extended by the tool turn. A
   * failing selection, tool run or model call raises.
   */
  function AgentAnswer(prompt: seq<Message>, images: seq<string>, agent: Agent): Result<string> {
    match agent.select(prompt, images)
    case Raised(e) => Raised(e)
    case Ok(plan) =>
      if plan == [] then agent.llm(prompt, images)
      else
        match agent.useTools(plan)
        case Raised(e) => Raised(e)
        case Ok(merged) => agent.llm(prompt + [Message("system", ToolResultPrefix + merged.text)], images)
  }

  /** An answer after a non-empty plan always saw the tool result. */
  lemma ToolAnswerSawToolTurn(prompt: seq<Message>, images: seq<string>, agent: Agent)
    requires AgentAnswer(prompt, images, agent).Ok?
    ensures ToolTurn(prompt, images, agent).Some? <==> agent.select(prompt, images).value != []
    ensures ToolTurn(prompt, images, agent).Some? ==>
      AgentAnswer(prompt, images, agent) == agent.llm(prompt + [Message("system", ToolTurn(prompt, images, agent).value)], images)
    ensures ToolTurn(prompt, images, agent).None? ==>
      AgentAnswer(prompt, images, agent) == agent.llm(prompt, images) && ToolFiles(prompt, images, agent) == []
  {
  }

  /** What the default pipeline sends after storing the answer. */
  datatype Reply = Reply(answer: string, batches: seq<Batch>, buttons: seq<BotCallbacks.Callback>, messages: seq<Sent>)

  /** Lines 356-384 in pipeline order: select, then either await the plain answer or run the tools, store their turn, and ask again. */
  method Answer(store: Store, user: int, prompt: seq<Message>, images: seq<string>, agent: Agent, now: string)
    returns (r: Result<string>, files: seq<string>)
    requires store.Valid() && user in store.users
    modifies store
    ensures store.Valid()
    ensures store.users == old(store.users) && store.archive == old(store.archive)
    ensures r == AgentAnswer(prompt, images, agent)
    ensures files == ToolFiles(prompt, images, agent)
    ensures store.messages == old(store.messages) +
      (if ToolTurn(prompt, images, agent).Some? then [Turn(store, user, "system", ToolTurn(prompt, images, agent).value, now)] else [])
  {
    files := [];
    var tools := agent.select(prompt, images);
    if tools.Raised? {
      return Raised(tools.error), files;
    }
    if tools.value == [] {
      r := agent.llm(prompt, images);
      return;
    }
    var merged := agent.useTools(tools.value);
    if merged.Raised? {
      return Raised(merged.error), files;
    }
    files := merged.value.files;
    var toolTurn := ToolResultPrefix + merged.value.text;
    Record(store, user, "system", toolTurn, now);
    r := agent.llm(prompt + [Message("system", toolTurn)], images);
  }

  /** Lines 391-442: the tool files in batches of nine, then the answer in slices with the buttons. */
  method SendReply(answer: string, files: seq<string>, hash: string, userLanguage: string, languageCode: string, agent: Agent)
    returns (reply: Reply)
    ensures reply.answer == answer
    ensures multiset(BatchFiles(reply.batches)) == multiset(files) && |reply.batches| == (|files| + 8) / 9
    ensures reply.buttons == BotCallbacks.Keyboard(answer, hash, userLanguage, agent.detect(answer), languageCode)
    ensures reply.messages == AnswerMessages(Slices(answer, 4000), reply.buttons != [], agent.render)
  {
    var batches := SendFiles(files);
    BatchesSendEachFileOnce(files);
    BatchesShape(files);
    var buttons := BotCallbacks.Keyboard(answer, hash, userLanguage, agent.detect(answer), languageCode);
    var sent := SendAnswer(answer, buttons != [], agent.render);
    reply := Reply(answer, batches, buttons, sent);
  }

  /**
   * The outcome of a default turn once the prompt is built: the store
   * gained the user's turn, the tool turn exactly when a non-empty plan's
   * tools ran, and the answer exactly when there is one; on success the
   * reply holds that answer, every tool file once, the buttons for the
   * stored answer's hash, and the answer's slices.
   */
  ghost predicate DefaultOutcome(s: Store, before: seq<MessageRow>, user: int, text: string, prompt: seq<Message>,
                                 images: seq<string>, languageCode: string, now: string, agent: Agent, r: Result<Reply>)
    reads s
    requires user in s.users
  {
    var tool := ToolTurn(prompt, images, agent);
    var answer := AgentAnswer(prompt, images, agent);
    (r.Ok? <==> answer.Ok?) &&
    s.messages == before + [Turn(s, user, "user", text, now)] +
      (if tool.Some? then [Turn(s, user, "system", tool.value, now)] else []) +
      (if answer.Ok? then [Turn(s, user, "assistant", answer.value, now)] else []) &&
    (r.Ok? ==>
      var hash := TextToHash(s.digest, answer.value);
      var buttons := BotCallbacks.Keyboard(answer.value, hash, agent.detect(text), agent.detect(answer.value), languageCode);
      r.value.answer == answer.value &&
      multiset(BatchFiles(r.value.batches)) == multiset(ToolFiles(prompt, images, agent)) &&
      r.value.buttons == buttons &&
      r.value.messages == AnswerMessages(Slices(answer.value, 4000), buttons != [], agent.render))
  }

  /**
   * Lines 346-442 once the prompt is built: store the user's turn, get the
   * answer (storing the tool turn on the way), store the answer and send.
   */
  method Converse(store: Store, user: int, text: string, prompt: seq<Message>, images: seq<string>,
                  languageCode: string, now: string, agent: Agent)
    returns (r: Result<Reply>)
    requires store.Valid() && user in store.users
    modifies store
    ensures store.Valid()
    ensures store.users == old(store.users) && store.archive == old(store.archive)
    ensures DefaultOutcome(store, old(store.messages), user, text, prompt, images, languageCode, now, agent, r)
  {
    Record(store, user, "user", text, now);
    var answer, files := Answer(store, user, prompt, images, agent, now);
    if answer.Raised? {
      return Raised(answer.error);
    }
    Record(store, user, "assistant", answer.value, now);
    var reply := SendReply(answer.value, files, TextToHash(store.digest, answer.value), agent.detect(text), languageCode, agent);
    r := Ok(reply);
  }

  /**
   * `message_handler`: register the user, read the recent history, then
   * store the user's turn, get, store and send the answer as `Converse`
   * does. A message without text raises right after the user was
   * registered.
   */
  method HandleDefault(store: Store, user: int, name: string, username: string, languageCode: string,
                       input: Input, now: string, agent: Agent)
    returns (r: Result<Reply>)
    requires store.Valid()
    modifies store
    ensures store.Valid()
    ensures store.users == CheckedIn(old(store.users), user, name, username, now)
    ensures store.archive == old(store.archive)
    ensures MessageText(input).None? ==> r.Raised? && store.messages == old(store.messages)
    ensures MessageText(input).Some? ==>
      var prompt := Prompt(agent.systemPrompt, Recent(store, old(store.messages), user),
                           MessageText(input).value + Attached(input, agent.rd));
      DefaultOutcome(store, old(store.messages), user, MessageText(input).value, prompt, Kept(input), languageCode, now, agent, r)
  {
    ghost var before := store.messages;
    store.CheckUser(name, username, user, now);
    assert store.users == CheckedIn(old(store.users), user, name, username, now) && user in store.users;
    assert store.messages == before;
    var text := MessageText(input);
    if text.None? {
      return Raised("UnboundLocalError: cannot access local variable 'text' where it is not associated with a value");
    }
    var history := store.SelectHistory(user, None);
    assert history == Recent(store, before, user);
    var prompt := Prompt(agent.systemPrompt, history, text.value + Attached(input, agent.rd));
    r := Converse(store, user, text.value, prompt, Kept(input), languageCode, now, agent);
  }

  /**
   * After a successful default turn every button points at a stored turn:
   * the answer was stored under the hash the buttons carry, so the
   * callbacks' lookup by hash finds a turn.
   */
  lemma ButtonsFindStoredAnswer(s: Store, rows: seq<MessageRow>, user: int, answer: string, now: string,
                                userLanguage: string, answerLanguage: string, languageCode: string)
    requires user in s.users
    requires |rows| > 0 && rows[|rows| - 1] == Turn(s, user, "assistant", answer, now)
    ensures forall c :: c in BotCallbacks.Keyboard(answer, TextToHash(s.digest, answer), userLanguage, answerLanguage, languageCode) ==>
      exists i :: 0 <= i < |rows| && rows[i].messageHash == c.hash
  {
    BotCallbacks.KeyboardButtons(answer, TextToHash(s.digest, answer), userLanguage, answerLanguage, languageCode);
    forall c | c in BotCallbacks.Keyboard(answer, TextToHash(s.digest, answer), userLanguage, answerLanguage, languageCode)
      ensures exists i :: 0 <= i < |rows| && rows[i].messageHash == c.hash
    {
      assert rows[|rows| - 1].messageHash == c.hash;
    }
  }

  // ---------------------------------------------------------------------
  // The groq pipeline

  /** What the groq pipeline sends: a refusal for photos, or the answer in pieces. */
  datatype GroqReply = ImagesUnsupported | GroqAnswered(answer: string, pieces: seq<Piece>)

  /** The services of the groq pipeline. */
  datatype GroqServices = GroqServices(
    compound: (seq<Message>, seq<string>) -> Result<string>,  // groq_api_compound(messages, files=...)
    format: string -> Option<string>,                         // markdown_to_html
    delivered: string -> bool)                                // whether Telegram accepts the HTML message

  /**
   * `groq_api_compound(...)[0]` as written: with `only_answer` left at its
   * default the call returns the answer string, and indexing it keeps its
   * first character; an empty answer raises.
   */
  function FirstOfAnswer(answer: string): (r: Result<string>)
    ensures r.Raised? <==> answer == []
    ensures r.Ok? ==> |r.value| == 1 && r.value <= answer
  {
    if answer == [] then Raised("IndexError: string index out of range") else Ok(answer[..1])
  }

  /** Any answer longer than one character is cut down to its first. */
  lemma GroqAnswerCutToFirstCharacter(answer: string)
    requires |answer| > 1
    ensures FirstOfAnswer(answer).Ok? && FirstOfAnswer(answer).value != answer
    ensures FirstOfAnswer(answer).value + answer[1..] == answer
  {
    assert |FirstOfAnswer(answer).value| == 1;
  }

  /**
   * The outcome of a groq turn once the messages are built: the store
   * gained the user's turn, and the answer exactly when the model gave
   * one; on success the reply is the whole answer, sent in pieces that
   * cover it exactly.
   */
  ghost predicate GroqOutcome(s: Store, before: seq<MessageRow>, user: int, text: string, answer: Result<string>,
                              now: string, groq: GroqServices, r: Result<GroqReply>)
    reads s
    requires user in s.users
  {
    (r.Ok? <==> answer.Ok?) &&
    s.messages == before + [Turn(s, user, "user", text, now)] +
      (if answer.Ok? then [Turn(s, user, "assistant", answer.value, now)] else []) &&
    (r.Ok? ==>
      r.value == GroqAnswered(answer.value, FixedRun(answer.value, groq.format, groq.delivered)) &&
      Concat(Raws(r.value.pieces)) == answer.value)
  }

  /** Lines 236-276: store the user's turn, ask the compound model, store the answer and send it in pieces. */
  method GroqConverse(store: Store, user: int, text: string, messages: seq<Message>, files: seq<string>,
                      now: string, groq: GroqServices)
    returns (r: Result<GroqReply>)
    requires store.Valid() && user in store.users
    modifies store
    ensures store.Valid()
    ensures store.users == old(store.users) && store.archive == old(store.archive)
    ensures GroqOutcome(store, old(store.messages), user, text, groq.compound(messages, files), now, groq, r)
  {
    Record(store, user, "user", text, now);
    var answer := groq.compound(messages, files);
    if answer.Raised? {
      return Raised(answer.error);
    }
    Record(store, user, "assistant", answer.value, now);
    var pieces := GroqSend(answer.value, groq.format, groq.delivered);
    FixedRunCovers(answer.value, groq.format, groq.delivered);
    r := Ok(GroqAnswered(answer.value, pieces));
  }

  /**
   * `groq_message_handler`, with the whole answer kept (the evident intent
   * of the `[0]`): a photo is refused without touching the store; otherwise
   * the history is read before the user is registered, and the turn goes
   * on as `GroqConverse` says. A message without text raises before
   * anything is stored.
   */
  method HandleGroq(store: Store, user: int, name: string, username: string, input: Input, now: string,
                    groq: GroqServices)
    returns (r: Result<GroqReply>)
    requires store.Valid()
    modifies store
    ensures store.Valid()
    ensures store.archive == old(store.archive)
    ensures input.attachment.Photo? ==>
      r == Ok(ImagesUnsupported) && store.users == old(store.users) && store.messages == old(store.messages)
    ensures !input.attachment.Photo? && MessageText(input).None? ==>
      r.Raised? && store.users == old(store.users) && store.messages == old(store.messages)
    ensures !input.attachment.Photo? && MessageText(input).Some? ==>
      store.users == CheckedIn(old(store.users), user, name, username, now) &&
      var text := MessageText(input).value;
      var answer := groq.compound(Recent(store, old(store.messages), user) + [Message("user", text)], InputFiles(input));
      GroqOutcome(store, old(store.messages), user, text, answer, now, groq, r)
  {
    if input.attachment.Photo? {
      return Ok(ImagesUnsupported);
    }
    var text := MessageText(input);
    if text.None? {
      return Raised("UnboundLocalError: cannot access local variable 'text' where it is not associated with a value");
    }
    ghost var before := store.messages;
    var history := store.SelectHistory(user, None);
    assert history == Recent(store, before, user);
    var messages := history + [Message("user", text.value)];
    store.CheckUser(name, username, user, now);
    assert store.users == CheckedIn(old(store.users), user, name, username, now) && user in store.users;
    assert store.messages == before;
    r := GroqConverse(store, user, text.value, messages, InputFiles(input), now, groq);
  }

  // ---------------------------------------------------------------------
  // The wolfram pipeline

  /** What the wolfram pipeline sends. */
  datatype WolframReply =
    | PhotoFile(path: string)  // the downloaded answer page
    | PhotoUrl(url: string)    // a link Telegram fetches itself
    | Sorry                    // "Sorry, I couldn't process your query."

  const ImageQuerySystem: string :=
    "You are a helpful assistant who can turn images into a query for Wolfram Alpha. In your answer, provide ONLY the text of the expression, without any additional comments. If the image contains a mathematical expression, write it down exactly as it appears. If there are several expressions in the picture, write only the first one."
  const ImageQueryPrompt: string := "Give a query for Wolfram Alpha from this image"
  const FixQuerySystem: string :=
    "You are a helpful assistant that corrects queries for Wolfram Alpha. In your response, provide the corrected query ONLY"

  /** The request that asks the model to repair a query WolframAlpha rejected. */
  function FixQuery(query: string): seq<Message> {
    [Message("system", FixQuerySystem), Message("user", "Fix this query for Wolfram Alpha: " + query + ".")]
  }

  /** How the response is sent: an image file as a photo, an http(s) link as a photo by URL, anything else as an apology. */
  function Classify(response: Option<string>): (r: WolframReply)
    ensures r.PhotoFile? <==> response.Some? && FileUtils.IsImage(response.value)
    ensures r.PhotoUrl? <==>
      response.Some? && !FileUtils.IsImage(response.value) &&
      (StartsWith(response.value, "http://") || StartsWith(response.value, "https://"))
    ensures r.PhotoFile? ==> r.path == response.value
    ensures r.PhotoUrl? ==> r.url == response.value
  {
    if response.None? then Sorry
    else if FileUtils.IsImage(response.value) then PhotoFile(response.value)
    else if StartsWith(response.value, "http://") || StartsWith(response.value, "https://") then PhotoUrl(response.value)
    else Sorry
  }

  /**
   * `wolfram_message_handler`: the query is the message text, or for a
   * photo what the model reads off the image; WolframAlpha's simple API is
   * asked, and once more with a model-repaired query when the first answer
   * is missing. `queries` are the queries sent to WolframAlpha. A message
   * with neither photo nor text reaches `quote(None)`, which raises.
   */
  method HandleWolfram(input: Input, simple: string -> Option<string>, llm: (seq<Message>, seq<string>) -> Result<string>)
    returns (r: Result<WolframReply>, queries: seq<string>)
    ensures input.attachment.Photo? ==>
      var read := llm([Message("system", ImageQuerySystem), Message("user", ImageQueryPrompt)], [input.attachment.file]);
      (read.Raised? ==> r.Raised? && queries == []) &&
      (read.Ok? ==> queries != [] && queries[0] == read.value)
    ensures !input.attachment.Photo? ==>
      (input.text == "" ==> r.Raised? && queries == []) &&
      (input.text != "" ==> queries != [] && queries[0] == input.text)
    ensures queries != [] ==>
      (r.Raised? <==> simple(queries[0]).None? && llm(FixQuery(queries[0]), []).Raised?)
    ensures r.Ok? ==>
      1 <= |queries| <= 2 &&
      (|queries| == 2 <==> simple(queries[0]).None?) &&
      (|queries| == 2 ==> llm(FixQuery(queries[0]), []) == Ok(queries[1])) &&
      r.value == Classify(simple(queries[|queries| - 1]))
  {
    queries := [];
    var query: string;
    if input.attachment.Photo? {
      var read := llm([Message("system", ImageQuerySystem), Message("user", ImageQueryPrompt)], [input.attachment.file]);
      if read.Raised? {
        return Raised(read.error), queries;
      }
      query := read.value;
    } else {
      if input.text == "" {
        return Raised("TypeError: quote() doesn't support 'NoneType' objects"), queries;
      }
      query := input.text;
    }
    queries := [query];
    var response := simple(query);
    if response.None? {
      var fixedQuery := llm(FixQuery(query), []);
      if fixedQuery.Raised? {
        return Raised(fixedQuery.error), queries;
      }
      queries := queries + [fixedQuery.value];
      response := simple(fixedQuery.value);
    }
    r := Ok(Classify(response));
  }
}

=== FILE: chunking.dfy ===
/**
 * The formatter's message chunking (src/bot/formatter.py): `smart_split`,
 * which cuts a text into parts that fit a Telegram message, preferring a
 * paragraph break, then a line break, then a sentence end, then a space;
 * and `split_html`, which cuts an HTML answer with it and re-balances the
 * `<b>`, `<code>` and `<pre>` tags across the cuts.
 *
 * `split_html` hides each `<a>` tag behind a random placeholder before the
 * cut and puts it back in every chunk afterwards; the masked text and the
 * putting back are the parameters `masked` and `restore`.
 */
module Chunking {
  import opened Common

  /** Telegram's limit on the length of one message. */
  const TelegramLimit := 4096

  /** `smart_split` never makes parts longer than Telegram accepts. */
  function Cap(chars: int): int {
    if chars > TelegramLimit then TelegramLimit else chars
  }

  // ---------------------------------------------------------------------
  // Cutting one window

  /**
   * Where `sep.join(s.split(sep)[:-1]) + sep` ends: after the last match of
   * `sep` found by scanning `s` from `from` left to right, each match
   * skipping past itself; `from` when there is none.
   */
  function LastMatchEnd(s: string, sep: string, from: nat): (e: nat)
    requires sep != [] && from <= |s|
    ensures from <= e <= |s|
    ensures e == from <==> FindFrom(s, sep, from) == -1
    ensures e != from ==> e >= |sep| && OccursAt(s, sep, e - |sep|)
    ensures FindFrom(s, sep, e) == -1
    decreases |s| - from
  {
    var j := FindFrom(s, sep, from);
    if j < 0 then from else LastMatchEnd(s, sep, j + |sep|)
  }

  /** `_text_before_last(sep)`: the window up to and including the last `sep`. */
  function BeforeLast(s: string, sep: string): (r: string)
    requires sep != [] && Contains(s, sep)
    ensures |r| <= |s| && r == s[..|r|] && EndsWith(r, sep)
    ensures FindFrom(s, sep, |r|) == -1
  {
    assert FindFrom(s, sep, 0) >= 0;
    var e := LastMatchEnd(s, sep, 0);
    assert s[..e][e - |sep|..] == s[e - |sep|..e];
    s[..e]
  }

  /**
   * The part `smart_split` keeps from a full window. The helper reads the
   * current `part`, so after a cut at a paragraph break the line-break step
   * looks only at what that cut kept.
   */
  function Cut(window: string): (r: string)
    requires window != []
    ensures r != [] && |r| <= |window| && r == window[..|r|]
  {
    var part := if Contains(window, "\n\n") then BeforeLast(window, "\n\n") else window;
    if Contains(part, "\n") then BeforeLast(part, "\n")
    else if Contains(part, ". ") then BeforeLast(part, ". ")
    else if Contains(part, " ") then BeforeLast(part, " ")
    else part
  }

  /** A part ends with its whole separator, and the separator does not occur after it. */
  predicate EndsAtLast(window: string, r: string, sep: string)
    requires sep != [] && |r| <= |window| && r == window[..|r|]
  {
    EndsWith(r, sep) && FindFrom(window, sep, |r|) == -1
  }

  /**
   * The priority of the breaks: a window with a paragraph break is cut after
   * the last one; otherwise after the last line break, else after the last
   * ". ", else after the last space, else not at all.
   */
  lemma CutPriority(window: string)
    requires window != []
    ensures
      if Contains(window, "\n\n") then EndsAtLast(window, Cut(window), "\n\n")
      else if Contains(window, "\n") then EndsAtLast(window, Cut(window), "\n")
      else if Contains(window, ". ") then EndsAtLast(window, Cut(window), ". ")
      else if Contains(window, " ") then EndsAtLast(window, Cut(window), " ")
      else Cut(window) == window
  {
    if Contains(window, "\n\n") {
      CutAtParagraph(window);
    } else if Contains(window, "\n") {
      CutAtLine(window);
    } else {
      CutWithoutLines(window);
    }
  }

  lemma CutAtLine(window: string)
    requires window != [] && !Contains(window, "\n\n") && Contains(window, "\n")
    ensures EndsAtLast(window, Cut(window), "\n")
  {
    assert Cut(window) == BeforeLast(window, "\n");
  }

  lemma CutWithoutLines(window: string)
    requires window != [] && !Contains(window, "\n\n") && !Contains(window, "\n")
    ensures Contains(window, ". ") ==> EndsAtLast(window, Cut(window), ". ")
    ensures !Contains(window, ". ") && Contains(window, " ") ==> EndsAtLast(window, Cut(window), " ")
    ensures !Contains(window, ". ") && !Contains(window, " ") ==> Cut(window) == window
  {
  }

  lemma CutAtParagraph(window: string)
    requires window != [] && Contains(window, "\n\n")
    ensures EndsAtLast(window, Cut(window), "\n\n")
  {
    var part := BeforeLast(window, "\n\n");
    LineBreakKeepsParagraphCut(part);
    assert Cut(window) == part;
  }

  /** A part ending with a line break is its own cut at the last line break. */
  lemma LineBreakKeepsParagraphCut(part: string)
    requires EndsWith(part, "\n\n")
    ensures Contains(part, "\n") && BeforeLast(part, "\n") == part
  {
    var n := |part|;
    assert part[n - 1..n] == part[n - 2..][1..];
    assert OccursAt(part, "\n", n - 1);
    var e := LastMatchEnd(part, "\n", 0);
    assert e == n;
  }

  // ---------------------------------------------------------------------
  // smart_split

  /**
   * The parts `smart_split` makes of `text` with windows of `cap`
   * characters: a text shorter than a window is one part, any longer one
   * is cut at least once.
   */
  function Parts(text: string, cap: nat): (r: seq<string>)
    requires cap >= 1
    ensures |r| >= 1
    ensures |r| == 1 <==> |text| < cap
    decreases |text|
  {
    if |text| < cap then [text]
    else
      var part := Cut(text[..cap]);
      [part] + Parts(text[|part|..], cap)
  }

  /**
   * The parts put the text back together; every part but the last is
   * non-empty and fits in a window, and the last is shorter than a window
   * (it is empty when the text ends exactly at a cut).
   */
  lemma {:induction false} PartsCover(text: string, cap: nat)
    requires cap >= 1
    ensures Concat(Parts(text, cap)) == text
    ensures forall i :: 0 <= i < |Parts(text, cap)| - 1 ==> 0 < |Parts(text, cap)[i]| <= cap
    ensures |Parts(text, cap)[|Parts(text, cap)| - 1]| < cap
    decreases |text|
  {
    if |text| >= cap {
      var part := Cut(text[..cap]);
      var rest := text[|part|..];
      PartsCover(rest, cap);
      assert text == part + rest;
      var ps := Parts(text, cap);
      assert ps == [part] + Parts(rest, cap);
      assert ps[1..] == Parts(rest, cap);
      forall i | 0 <= i < |ps| - 1
        ensures 0 < |ps[i]| <= cap
      {
        if i > 0 {
          assert ps[i] == Parts(rest, cap)[i - 1];
        }
      }
    }
  }

  /** `smart_split(text, chars)`. A `chars` of zero or less makes the loop run forever. */
  method SmartSplit(text: string, chars: int) returns (parts: seq<string>)
    requires chars >= 1
    ensures parts == Parts(text, Cap(chars))
  {
    var cap: nat := Cap(chars);
    parts := [];
    var rest := text;
    while |rest| >= cap
      invariant parts + Parts(rest, cap) == Parts(text, cap)
      decreases |rest|
    {
      var part := KeepPart(rest[..cap]);
      ghost var tail := Parts(rest[|part|..], cap);
      assert Parts(rest, cap) == [part] + tail;
      AppendAssociative(parts, [part], tail);
      parts := parts + [part];
      rest := rest[|part|..];
    }
    parts := parts + [rest];
  }

  /** The cut steps of one turn of `smart_split`'s loop. */
  method KeepPart(window: string) returns (part: string)
    requires window != []
    ensures part == Cut(window)
  {
    part := window;
    if Contains(part, "\n\n") {
      part := BeforeLast(part, "\n\n");
    }
    if Contains(part, "\n") {
      part := BeforeLast(part, "\n");
    } else if Contains(part, ". ") {
      part := BeforeLast(part, ". ");
    } else if Contains(part, " ") {
      part := BeforeLast(part, " ");
    }
  }

  // ---------------------------------------------------------------------
  // Counting tags

  const Bold := "<b>"
  const BoldEnd := "</b>"
  const CodeTag := "<code>"
  const CodeEnd := "</code>"
  const PreTag := "<pre>"
  const PreEnd := "</pre>"

  /** A tag: one `<` at its start, one `>` at its end. */
  predicate Tag(t: string) {
    |t| >= 3 && t[0] == '<' && t[|t| - 1] == '>' &&
    (forall k :: 0 < k < |t| ==> t[k] != '<') &&
    (forall k :: 0 <= k < |t| - 1 ==> t[k] != '>')
  }

  lemma TagsAreTags()
    ensures Tag(Bold) && Tag(BoldEnd) && Tag(CodeTag) && Tag(CodeEnd) && Tag(PreTag) && Tag(PreEnd)
  {
  }

  /** No occurrence of `p` starts in `a` and ends in `b`. */
  predicate NoStraddle(a: string, b: string, p: string) {
    forall i :: 0 <= i < |a| < i + |p| ==> !OccursAt(a + b, p, i)
  }

  /** Counting is additive across a boundary that no occurrence crosses. */
  lemma {:induction false} CountSplit(a: string, b: string, p: string)
    requires p != [] && NoStraddle(a, b, p)
    ensures Count(a + b, p) == Count(a, p) + Count(b, p)
    decreases |a|
  {
    var s := a + b;
    if a == [] {
      assert s == b;
    } else if |s| < |p| {
    } else if s[..|p|] == p {
      if |a| < |p| {
        assert OccursAt(s, p, 0);
        assert false;
      }
      assert a[..|p|] == p;
      var a' := a[|p|..];
      assert s[|p|..] == a' + b;
      forall i | 0 <= i < |a'| < i + |p|
        ensures !OccursAt(a' + b, p, i)
      {
        if i + |p| <= |a' + b| {
          assert (a' + b)[i..i + |p|] == s[i + |p|..i + |p| + |p|];
        }
        assert !OccursAt(s, p, i + |p|);
      }
      CountSplit(a', b, p);
    } else {
      var a' := a[1..];
      assert s[1..] == a' + b;
      forall i | 0 <= i < |a'| < i + |p|
        ensures !OccursAt(a' + b, p, i)
      {
        if i + |p| <= |a' + b| {
          assert (a' + b)[i..i + |p|] == s[i + 1..i + 1 + |p|];
        }
        assert !OccursAt(s, p, i + 1);
      }
      CountSplit(a', b, p);
      if |a| < |p| {
        assert Count(a', p) == 0;
      } else {
        assert a[..|p|] != p;
      }
    }
  }

  /** Nothing starting with `<` can complete a tag begun before it. */
  lemma AppendNoStraddle(a: string, b: string, p: string)
    requires Tag(p) && (b == [] || b[0] == '<')
    ensures NoStraddle(a, b, p)
  {
    forall i | 0 <= i < |a| < i + |p|
      ensures !OccursAt(a + b, p, i)
    {
      if i + |p| <= |a + b| {
        assert (a + b)[i..i + |p|][|a| - i] == (a + b)[|a|] == '<';
        assert p[|a| - i] != '<';
      }
    }
  }

  /** A tag in front cannot be the start of another tag's occurrence. */
  lemma PrependNoStraddle(o: string, c: string, p: string)
    requires Tag(o) && Tag(p)
    ensures NoStraddle(o, c, p)
  {
    forall i | 0 <= i < |o| < i + |p|
      ensures !OccursAt(o + c, p, i)
    {
      if i + |p| <= |o + c| {
        if i == 0 {
          assert (o + c)[..|p|][|o| - 1] == o[|o| - 1] == '>';
          assert p[|o| - 1] != '>';
        } else {
          assert (o + c)[i..i + |p|][0] == o[i] != '<';
        }
      }
    }
  }

  lemma {:induction false} CountWithoutOpen(s: string, p: string)
    requires p != [] && p[0] == '<' && '<' !in s
    ensures Count(s, p) == 0
    decreases |s|
  {
    if |s| >= |p| {
      assert s[0] != '<';
      assert s[..|p|] != p;
      CountWithoutOpen(s[1..], p);
    }
  }

  /** A tag contains exactly itself and no other tag. */
  lemma CountTagInTag(t: string, p: string)
    requires Tag(t) && Tag(p)
    ensures Count(t, p) == if t == p then 1 else 0
  {
    if |t| >= |p| && t[..|p|] == p {
      assert t[|p| - 1] == '>';
      assert t == p;
      assert Count(t[|p|..], p) == 0;
    } else if |t| >= |p| {
      assert '<' !in t[1..];
      CountWithoutOpen(t[1..], p);
    }
  }

  /** `t * k` in Python. */
  function Repeat(t: string, k: nat): (r: string)
    ensures |r| == |t| * k
  {
    if k == 0 then [] else t + Repeat(t, k - 1)
  }

  lemma {:induction false} CountRepeat(t: string, k: nat, p: string)
    requires Tag(t) && Tag(p)
    ensures Count(Repeat(t, k), p) == if t == p then k else 0
  {
    if k > 0 {
      PrependNoStraddle(t, Repeat(t, k - 1), p);
      CountSplit(t, Repeat(t, k - 1), p);
      CountTagInTag(t, p);
      CountRepeat(t, k - 1, p);
    }
  }

  // ---------------------------------------------------------------------
  // split_html

  /** The tags a chunk left open, to be opened again at the start of the next one. */
  datatype Carry = Carry(b: bool, code: bool, pre: bool)

  /** Prepending the carried tags: `<b>` first, then `<code>`, then `<pre>` in front of both. */
  function Reopen(chunk: string, carry: Carry): string {
    var c1 := if carry.b then Bold + chunk else chunk;
    var c2 := if carry.code then CodeTag + c1 else c1;
    if carry.pre then PreTag + c2 else c2
  }

  /** How many more `open` than `close` tags the chunk holds (`0` when not more). */
  function Surplus(chunk: string, open: string, close: string): nat
    requires open != [] && close != []
  {
    if Count(chunk, open) > Count(chunk, close) then Count(chunk, open) - Count(chunk, close) else 0
  }

  /** Closing what the chunk left open; all three balances are taken before any closer is added. */
  function CloseTags(chunk: string): (string, Carry) {
    var kb := Surplus(chunk, Bold, BoldEnd);
    var kc := Surplus(chunk, CodeTag, CodeEnd);
    var kp := Surplus(chunk, PreTag, PreEnd);
    (chunk + Repeat(BoldEnd, kb) + Repeat(CodeEnd, kc) + Repeat(PreEnd, kp), Carry(kb > 0, kc > 0, kp > 0))
  }

  /** The chunks `split_html` returns for the parts `parts`, starting with `carry` open: one chunk per part. */
  function Rebalance(parts: seq<string>, restore: string -> string, carry: Carry): (r: seq<string>)
    ensures |r| == |parts|
  {
    if parts == [] then []
    else
      var (chunk, next) := CloseTags(Reopen(restore(parts[0]), carry));
      [chunk] + Rebalance(parts[1..], restore, next)
  }

  const NothingOpen := Carry(false, false, false)

  /** `split_html(text, max_length)`. */
  method SplitHtml(text: string, maxLength: int, masked: string, restore: string -> string)
    returns (chunks: seq<string>)
    requires maxLength >= 1
    ensures |text| < maxLength ==> chunks == [text]
    ensures |text| >= maxLength ==> chunks == Rebalance(Parts(masked, Cap(maxLength)), restore, NothingOpen)
  {
    if |text| < maxLength {
      return [text];
    }
    var parts := SmartSplit(masked, maxLength);
    chunks := [];
    var carry := NothingOpen;
    var i := 0;
    while i < |parts|
      invariant 0 <= i <= |parts|
      invariant chunks + Rebalance(parts[i..], restore, carry) == Rebalance(parts, restore, NothingOpen)
    {
      var chunk, next := BalanceChunk(restore(parts[i]), carry);
      assert parts[i..][1..] == parts[i + 1..];
      chunks := chunks + [chunk];
      carry := next;
      i := i + 1;
    }
  }

  /** One turn of `split_html`'s loop, after the links are back. */
  method BalanceChunk(restored: string, carry: Carry) returns (chunk: string, next: Carry)
    ensures (chunk, next) == CloseTags(Reopen(restored, carry))
  {
    chunk := restored;
    if carry.b {
      chunk := Bold + chunk;
    }
    if carry.code {
      chunk := CodeTag + chunk;
    }
    if carry.pre {
      chunk := PreTag + chunk;
    }
    assert chunk == Reopen(restored, carry);
    chunk, next := CloseChunk(chunk);
  }

  /** Closing the tags the reopened chunk leaves open. */
  method CloseChunk(reopened: string) returns (chunk: string, next: Carry)
    ensures (chunk, next) == CloseTags(reopened)
  {
    chunk := reopened;
    var bBalance := Count(chunk, Bold) - Count(chunk, BoldEnd);
    var codeBalance := Count(chunk, CodeTag) - Count(chunk, CodeEnd);
    var preBalance := Count(chunk, PreTag) - Count(chunk, PreEnd);
    next := NothingOpen;
    ghost var kb, kc, kp := Surplus(chunk, Bold, BoldEnd), Surplus(chunk, CodeTag, CodeEnd), Surplus(chunk, PreTag, PreEnd);
    assert Repeat(BoldEnd, 0) == [] && Repeat(CodeEnd, 0) == [] && Repeat(PreEnd, 0) == [];
    if bBalance > 0 {
      chunk := chunk + Repeat(BoldEnd, bBalance);
      next := next.(b := true);
    }
    assert chunk == reopened + Repeat(BoldEnd, kb);
    if codeBalance > 0 {
      chunk := chunk + Repeat(CodeEnd, codeBalance);
      next := next.(code := true);
    }
    assert chunk == reopened + Repeat(BoldEnd, kb) + Repeat(CodeEnd, kc);
    if preBalance > 0 {
      chunk := chunk + Repeat(PreEnd, preBalance);
      next := next.(pre := true);
    }
    assert chunk == reopened + Repeat(BoldEnd, kb) + Repeat(CodeEnd, kc) + Repeat(PreEnd, kp);
    assert next == Carry(kb > 0, kc > 0, kp > 0);
  }

  /** Appending tags changes the count of a tag only by the tags appended. */
  lemma AppendTags(a: string, t: string, k: nat, p: string)
    requires Tag(t) && Tag(p)
    ensures Count(a + Repeat(t, k), p) == Count(a, p) + (if t == p then k else 0)
  {
    AppendNoStraddle(a, Repeat(t, k), p);
    CountSplit(a, Repeat(t, k), p);
    CountRepeat(t, k, p);
  }

  /** Closing keeps every opening tag and adds exactly the missing closers. */
  lemma CloseTagsCounts(chunk: string)
    ensures var out := CloseTags(chunk).0;
      Count(out, Bold) == Count(chunk, Bold) &&
      Count(out, BoldEnd) == Count(chunk, BoldEnd) + Surplus(chunk, Bold, BoldEnd) &&
      Count(out, CodeTag) == Count(chunk, CodeTag) &&
      Count(out, CodeEnd) == Count(chunk, CodeEnd) + Surplus(chunk, CodeTag, CodeEnd) &&
      Count(out, PreTag) == Count(chunk, PreTag) &&
      Count(out, PreEnd) == Count(chunk, PreEnd) + Surplus(chunk, PreTag, PreEnd)
  {
    TagsAreTags();
    var kb := Surplus(chunk, Bold, BoldEnd);
    var kc := Surplus(chunk, CodeTag, CodeEnd);
    var kp := Surplus(chunk, PreTag, PreEnd);
    var s1 := chunk + Repeat(BoldEnd, kb);
    var s2 := s1 + Repeat(CodeEnd, kc);
    var tags := [Bold, BoldEnd, CodeTag, CodeEnd, PreTag, PreEnd];
    forall p | p in tags
      ensures Count(s2 + Repeat(PreEnd, kp), p) ==
        Count(chunk, p) + (if BoldEnd == p then kb else 0) + (if CodeEnd == p then kc else 0) +
        (if PreEnd == p then kp else 0)
    {
      AppendTags(chunk, BoldEnd, kb, p);
      AppendTags(s1, CodeEnd, kc, p);
      AppendTags(s2, PreEnd, kp, p);
    }
  }

  /** A chunk closes every `<b>`, `<code>` and `<pre>` it opens. */
  predicate Closed(chunk: string) {
    Count(chunk, Bold) <= Count(chunk, BoldEnd) &&
    Count(chunk, CodeTag) <= Count(chunk, CodeEnd) &&
    Count(chunk, PreTag) <= Count(chunk, PreEnd)
  }

  /**
   * `split_html` makes one chunk per part, each chunk closes every tag it
   * opens, and a chunk that had to close a tag hands it on to be opened
   * again at the start of the next chunk.
   */
  lemma {:induction false} RebalanceClosed(parts: seq<string>, restore: string -> string, carry: Carry)
    ensures |Rebalance(parts, restore, carry)| == |parts|
    ensures forall i :: 0 <= i < |parts| ==> Closed(Rebalance(parts, restore, carry)[i])
    decreases |parts|
  {
    if parts != [] {
      var (chunk, next) := CloseTags(Reopen(restore(parts[0]), carry));
      CloseTagsCounts(Reopen(restore(parts[0]), carry));
      RebalanceClosed(parts[1..], restore, next);
      var r := Rebalance(parts, restore, carry);
      assert r == [chunk] + Rebalance(parts[1..], restore, next);
      forall i | 0 <= i < |parts|
        ensures Closed(r[i])
      {
        if i > 0 {
          assert r[i] == Rebalance(parts[1..], restore, next)[i - 1];
        }
      }
    }
  }

  /** A chunk left with an unclosed tag makes the next chunk open it again. */
  lemma CarryReopens(parts: seq<string>, restore: string -> string, carry: Carry)
    requires |parts| >= 2
    ensures |Rebalance(parts, restore, carry)| == |parts|
    ensures var reopened := Reopen(restore(parts[0]), carry);
      Rebalance(parts, restore, carry)[1] ==
        CloseTags(Reopen(restore(parts[1]), Carry(
          Count(reopened, Bold) > Count(reopened, BoldEnd),
          Count(reopened, CodeTag) > Count(reopened, CodeEnd),
          Count(reopened, PreTag) > Count(reopened, PreEnd)))).0
  {
    var next := CloseTags(Reopen(restore(parts[0]), carry)).1;
    RebalanceClosed(parts, restore, carry);
    RebalanceClosed(parts[1..], restore, next);
    assert Rebalance(parts, restore, carry)[1] == Rebalance(parts[1..], restore, next)[0];
  }
}

=== FILE: clock.dfy ===
/**
 * The timestamp format of the history store (`utc_time` in
 * src/bot/database.py and src/sql.py): `YYYY.MM.DD HH:MM:SS`, zero-padded and
 * fixed-width, so that comparing two timestamps as strings (which is what
 * `ORDER BY time` does) compares the instants they denote.
 */
module Clock {
  import opened Common

  /** A UTC instant to the second; the clock itself is not modelled. */
  datatype DateTime = DateTime(year: int, month: int, day: int, hour: int, minute: int, second: int)

  /** The instants whose year prints with four digits. */
  predicate ValidTime(t: DateTime) {
    1000 <= t.year <= 9999 && 1 <= t.month <= 12 && 1 <= t.day <= 31 &&
    0 <= t.hour < 24 && 0 <= t.minute < 60 && 0 <= t.second < 60
  }

  /** Chronological order. */
  predicate Before(a: DateTime, b: DateTime) {
    a.year < b.year || (a.year == b.year &&
    (a.month < b.month || (a.month == b.month &&
    (a.day < b.day || (a.day == b.day &&
    (a.hour < b.hour || (a.hour == b.hour &&
    (a.minute < b.minute || (a.minute == b.minute && a.second < b.second)))))))))
  }

  /** Python's order on strings: by code point, a proper prefix first. */
  predicate LexLess(a: string, b: string) {
    if a == [] then b != []
    else if b == [] then false
    else a[0] < b[0] || (a[0] == b[0] && LexLess(a[1..], b[1..]))
  }

  /** Two digits, zero-padded (`%m`, `%d`, `%H`, `%M`, `%S`). */
  function Pad2(n: int): (r: string)
    requires 0 <= n < 100
    ensures |r| == 2
  {
    [DigitChar(n / 10), DigitChar(n % 10)]
  }

  /** Four digits (`%Y` for the years 1000 to 9999). */
  function Pad4(n: int): (r: string)
    requires 0 <= n < 10000
    ensures |r| == 4
  {
    Pad2(n / 100) + Pad2(n % 100)
  }

  /** `utc_time()` for the instant `t`: `%Y.%m.%d %H:%M:%S`. */
  function UtcTime(t: DateTime): (r: string)
    requires ValidTime(t)
    ensures |r| == 19
  {
    Pad4(t.year) + ("." + (Pad2(t.month) + ("." + (Pad2(t.day) + (" " +
      (Pad2(t.hour) + (":" + (Pad2(t.minute) + (":" + Pad2(t.second))))))))))
  }

  lemma {:induction false} LexIrreflexive(a: string)
    ensures !LexLess(a, a)
  {
    if a != [] {
      LexIrreflexive(a[1..]);
    }
  }

  /** Comparing two concatenations whose first parts have the same length compares the first parts, then the rest. */
  lemma {:induction false} LexConcat(a1: string, b1: string, a2: string, b2: string)
    requires |a1| == |a2|
    ensures LexLess(a1 + b1, a2 + b2) <==> LexLess(a1, a2) || (a1 == a2 && LexLess(b1, b2))
  {
    if a1 == [] {
      assert a1 + b1 == b1 && a2 + b2 == b2;
    } else {
      assert (a1 + b1)[0] == a1[0] && (a2 + b2)[0] == a2[0];
      assert (a1 + b1)[1..] == a1[1..] + b1 && (a2 + b2)[1..] == a2[1..] + b2;
      LexConcat(a1[1..], b1, a2[1..], b2);
      if a1[0] == a2[0] && a1[1..] == a2[1..] {
        assert a1 == a2;
      }
      if a1 == a2 {
        LexIrreflexive(a1);
      }
    }
  }

  lemma DigitOrder(d: nat, e: nat)
    requires d < 10 && e < 10
    ensures DigitChar(d) < DigitChar(e) <==> d < e
    ensures DigitChar(d) == DigitChar(e) <==> d == e
  {
  }

  lemma Pad2Order(x: int, y: int)
    requires 0 <= x < 100 && 0 <= y < 100
    ensures LexLess(Pad2(x), Pad2(y)) <==> x < y
    ensures Pad2(x) == Pad2(y) <==> x == y
  {
    var a, b := Pad2(x), Pad2(y);
    DigitOrder(x / 10, y / 10);
    DigitOrder(x % 10, y % 10);
    assert a[1..][1..] == [] && b[1..][1..] == [];
    assert !LexLess(a[1..][1..], b[1..][1..]);
    assert a[1..][0] == a[1] && b[1..][0] == b[1];
    assert LexLess(a[1..], b[1..]) <==> a[1] < b[1];
    assert LexLess(a, b) <==> a[0] < b[0] || (a[0] == b[0] && a[1] < b[1]);
    assert x < y <==> x / 10 < y / 10 || (x / 10 == y / 10 && x % 10 < y % 10);
    assert a == b <==> a[0] == b[0] && a[1] == b[1];
  }

  lemma Pad4Order(x: int, y: int)
    requires 0 <= x < 10000 && 0 <= y < 10000
    ensures LexLess(Pad4(x), Pad4(y)) <==> x < y
    ensures Pad4(x) == Pad4(y) <==> x == y
  {
    LexConcat(Pad2(x / 100), Pad2(x % 100), Pad2(y / 100), Pad2(y % 100));
    Pad2Order(x / 100, y / 100);
    Pad2Order(x % 100, y % 100);
    if Pad4(x) == Pad4(y) {
      assert Pad4(x)[..2] == Pad2(x / 100) && Pad4(y)[..2] == Pad2(y / 100);
      assert Pad4(x)[2..] == Pad2(x % 100) && Pad4(y)[2..] == Pad2(y % 100);
    }
  }

  /** A field followed by the rest: the comparison is decided by the field unless the fields are equal. */
  lemma FieldThenRest(f1: string, f2: string, sep: string, r1: string, r2: string)
    requires |f1| == |f2|
    ensures LexLess(f1 + (sep + r1), f2 + (sep + r2)) <==> LexLess(f1, f2) || (f1 == f2 && LexLess(r1, r2))
  {
    LexConcat(f1, sep + r1, f2, sep + r2);
    LexConcat(sep, r1, sep, r2);
    LexIrreflexive(sep);
  }

  /**
   * String order on timestamps is chronological order, and two instants
   * print the same iff they are the same instant.
   */
  lemma UtcTimeOrder(a: DateTime, b: DateTime)
    requires ValidTime(a) && ValidTime(b)
    ensures LexLess(UtcTime(a), UtcTime(b)) <==> Before(a, b)
    ensures UtcTime(a) == UtcTime(b) <==> a == b
  {
    var s1a, s1b := Pad2(a.minute) + (":" + Pad2(a.second)), Pad2(b.minute) + (":" + Pad2(b.second));
    var s2a, s2b := Pad2(a.hour) + (":" + s1a), Pad2(b.hour) + (":" + s1b);
    var s3a, s3b := Pad2(a.day) + (" " + s2a), Pad2(b.day) + (" " + s2b);
    var s4a, s4b := Pad2(a.month) + ("." + s3a), Pad2(b.month) + ("." + s3b);
    assert UtcTime(a) == Pad4(a.year) + ("." + s4a);
    assert UtcTime(b) == Pad4(b.year) + ("." + s4b);
    Pad2Order(a.second, b.second);
    Pad2Order(a.minute, b.minute);
    Pad2Order(a.hour, b.hour);
    Pad2Order(a.day, b.day);
    Pad2Order(a.month, b.month);
    Pad4Order(a.year, b.year);
    FieldThenRest(Pad2(a.minute), Pad2(b.minute), ":", Pad2(a.second), Pad2(b.second));
    FieldThenRest(Pad2(a.hour), Pad2(b.hour), ":", s1a, s1b);
    FieldThenRest(Pad2(a.day), Pad2(b.day), " ", s2a, s2b);
    FieldThenRest(Pad2(a.month), Pad2(b.month), ".", s3a, s3b);
    FieldThenRest(Pad4(a.year), Pad4(b.year), ".", s4a, s4b);
    if a != b {
      LexIrreflexive(UtcTime(a));
      assert Before(a, b) || Before(b, a);
      if Before(b, a) {
        FieldThenRest(Pad4(b.year), Pad4(a.year), ".", s4b, s4a);
        FieldThenRest(Pad2(b.month), Pad2(a.month), ".", s3b, s3a);
        FieldThenRest(Pad2(b.day), Pad2(a.day), " ", s2b, s2a);
        FieldThenRest(Pad2(b.hour), Pad2(a.hour), ":", s1b, s1a);
        FieldThenRest(Pad2(b.minute), Pad2(a.minute), ":", Pad2(b.second), Pad2(a.second));
        Pad2Order(b.second, a.second);
        Pad2Order(b.minute, a.minute);
        Pad2Order(b.hour, a.hour);
        Pad2Order(b.day, a.day);
        Pad2Order(b.month, a.month);
        Pad4Order(b.year, a.year);
      }
    }
  }
}

=== FILE: code_blocks.dfy ===
/**
 * `replace_code_lang` (src/bot/formatter.py): a line-by-line state machine
 * that turns a `<code>lang` line into `<pre><code class="language-lang">`,
 * gathers the block's lines up to the first line holding `</code>`, and
 * finally collapses a run of two or more line breaks before `</code>` into
 * one.
 */
module CodeBlocks {
  import opened Common

  const CodeOpen := "<code>"
  const CodeClose := "</code>"

  /** The language named on an opening line: the rest of the line, stripped and lower-cased. */
  function Language(line: string): (lang: string)
    requires StartsWith(line, CodeOpen)
    ensures Lower(Strip(line[6..])) == "c++" ==> lang == "cpp"
    ensures Strip(line[6..]) == [] ==> lang == "plaintext"
    ensures Lower(Strip(line[6..])) !in {"c++", ""} ==> lang == Lower(Strip(line[6..]))
  {
    var lang := Lower(Strip(line[6..]));
    if lang == "c++" then "cpp" else if lang == [] then "plaintext" else lang
  }

  function Opener(lang: string): string {
    "<pre><code class=\"language-" + lang + "\">"
  }

  /** The loop's variables: `result`, `code_content`, and whether `state == 1`. */
  datatype Scan = Scan(result: string, code: string, inBlock: bool)

  const Start := Scan("", "", false)

  /** One line of the loop. */
  function ScanLine(st: Scan, line: string): Scan {
    if !st.inBlock && StartsWith(line, CodeOpen) then
      if Contains(line, CodeClose) then st.(result := st.result + line + "\n")
      else Scan(st.result + Opener(Language(line)), "", true)
    else if st.inBlock then
      if Contains(line, CodeClose) then
        var code := st.code + line[..Find(line, CodeClose)];
        Scan(st.result + code + "</code></pre>\n", code, false)
      else st.(code := st.code + line + "\n")
    else st.(result := st.result + line + "\n")
  }

  /** The loop over `lines` from state `st`: the result only ever grows at its end. */
  function ScanLines(st: Scan, lines: seq<string>): (r: Scan)
    ensures st.result <= r.result
    decreases |lines|
  {
    if lines == [] then st
    else
      var next := ScanLine(st, lines[0]);
      assert st.result <= next.result;
      ScanLines(next, lines[1..])
  }

  /** The length of the run of line breaks `s` starts with. */
  function BreakRun(s: string): (n: nat)
    ensures n <= |s| && (n == |s| || s[n] != '\n')
    ensures forall k :: 0 <= k < n ==> s[k] == '\n'
  {
    if s != [] && s[0] == '\n' then 1 + BreakRun(s[1..]) else 0
  }

  /**
   * `re.sub(r"\n{2,}</code>", "\n</code>", s)`: it only ever shortens the
   * text, so a result as long as the text is the text itself.
   */
  function Collapse(s: string): (r: string)
    ensures |r| <= |s|
    ensures |r| == |s| ==> r == s
    decreases |s|
  {
    var n := BreakRun(s);
    if s == [] then []
    else if n == 0 then [s[0]] + Collapse(s[1..])
    else if n >= 2 && StartsWith(s[n..], CodeClose) then "\n</code>" + Collapse(s[n + |CodeClose|..])
    else s[..n] + Collapse(s[n..])
  }

  /** `replace_code_lang(t)`. */
  method ReplaceCodeLang(t: string) returns (r: string)
    ensures r == Collapse(ScanLines(Start, Split(t, '\n')).result)
  {
    var result := "";
    var codeContent := "";
    var state := 0;
    var lines := Split(t, '\n');
    var i := 0;
    while i < |lines|
      invariant 0 <= i <= |lines|
      invariant state == 0 || state == 1
      invariant ScanLines(Scan(result, codeContent, state == 1), lines[i..]) == ScanLines(Start, lines)
    {
      var line := lines[i];
      ghost var before := Scan(result, codeContent, state == 1);
      if state == 0 && StartsWith(line, CodeOpen) {
        if Contains(line, CodeClose) {
          result := result + line + "\n";
        } else {
          var lang := Lower(Strip(line[6..]));
          if lang == "c++" {
            lang := "cpp";
          } else if lang == [] {
            lang := "plaintext";
          }
          result := result + Opener(lang);
          state := 1;
          codeContent := "";
        }
      } else if state == 1 {
        if Contains(line, CodeClose) {
          codeContent := codeContent + line[..Find(line, CodeClose)];
          result := result + codeContent + "</code></pre>\n";
          state := 0;
        } else {
          codeContent := codeContent + line + "\n";
        }
      } else {
        result := result + line + "\n";
      }
      assert Scan(result, codeContent, state == 1) == ScanLine(before, line);
      assert lines[i..][1..] == lines[i + 1..];
      i := i + 1;
    }
    r := Collapse(result);
  }

  // ---------------------------------------------------------------------
  // What the state machine does to runs of lines

  /** Each line followed by a line break. */
  function Terminated(lines: seq<string>): string {
    if lines == [] then [] else lines[0] + "\n" + Terminated(lines[1..])
  }

  lemma {:induction false} ScanAppend(st: Scan, a: seq<string>, b: seq<string>)
    ensures ScanLines(st, a + b) == ScanLines(ScanLines(st, a), b)
    decreases |a|
  {
    if a == [] {
      assert a + b == b;
    } else {
      assert (a + b)[1..] == a[1..] + b;
      ScanAppend(ScanLine(st, a[0]), a[1..], b);
    }
  }

  /** Outside a block, lines that do not start with `<code>` pass through, each with a line break. */
  lemma {:induction false} PassThrough(st: Scan, lines: seq<string>)
    requires !st.inBlock
    requires forall k :: 0 <= k < |lines| ==> !StartsWith(lines[k], CodeOpen)
    ensures ScanLines(st, lines) == st.(result := st.result + Terminated(lines))
    decreases |lines|
  {
    if lines != [] {
      var next := ScanLine(st, lines[0]);
      assert next == st.(result := st.result + lines[0] + "\n");
      PassThrough(next, lines[1..]);
    }
  }

  /** Inside a block, lines without `</code>` are gathered and nothing is emitted. */
  lemma {:induction false} Gather(st: Scan, body: seq<string>)
    requires st.inBlock
    requires forall k :: 0 <= k < |body| ==> !Contains(body[k], CodeClose)
    ensures ScanLines(st, body) == st.(code := st.code + Terminated(body))
    decreases |body|
  {
    if body != [] {
      var next := ScanLine(st, body[0]);
      assert next == st.(code := st.code + body[0] + "\n");
      Gather(next, body[1..]);
    }
  }

  /**
   * A block: an opening line without `</code>`, lines without it, and a line
   * with it. The output gets the language class, the gathered lines, the
   * closing line up to its first `</code>`, and `</code></pre>`.
   */
  lemma Block(st: Scan, open: string, body: seq<string>, close: string)
    requires !st.inBlock && StartsWith(open, CodeOpen) && !Contains(open, CodeClose)
    requires forall k :: 0 <= k < |body| ==> !Contains(body[k], CodeClose)
    requires Contains(close, CodeClose)
    ensures var code := Terminated(body) + close[..Find(close, CodeClose)];
      ScanLines(st, [open] + body + [close]) ==
        Scan(st.result + Opener(Language(open)) + code + "</code></pre>\n", code, false)
  {
    var started := Scan(st.result + Opener(Language(open)), "", true);
    assert ScanLines(st, [open]) == started;
    ScanAppend(st, [open], body);
    Gather(started, body);
    var gathered := started.(code := Terminated(body));
    assert started.code + Terminated(body) == Terminated(body);
    assert ScanLines(st, [open] + body) == gathered;
    ScanAppend(st, [open] + body, [close]);
    assert ScanLines(st, [open] + body + [close]) == ScanLines(gathered, [close]);
    CloseLine(gathered, close);
  }

  lemma CloseLine(st: Scan, close: string)
    requires st.inBlock && Contains(close, CodeClose)
    ensures var code := st.code + close[..Find(close, CodeClose)];
      ScanLines(st, [close]) == Scan(st.result + code + "</code></pre>\n", code, false)
  {
    assert ScanLines(st, [close]) == ScanLines(ScanLine(st, close), []);
  }

  /** A block that is never closed leaves only its opening tag: its lines are dropped. */
  lemma Unterminated(st: Scan, open: string, body: seq<string>)
    requires !st.inBlock && StartsWith(open, CodeOpen) && !Contains(open, CodeClose)
    requires forall k :: 0 <= k < |body| ==> !Contains(body[k], CodeClose)
    ensures ScanLines(st, [open] + body).result == st.result + Opener(Language(open))
    ensures ScanLines(st, [open] + body).inBlock
  {
    var started := Scan(st.result + Opener(Language(open)), "", true);
    assert ScanLines(st, [open]) == started;
    ScanAppend(st, [open], body);
    Gather(started, body);
  }

  // ---------------------------------------------------------------------
  // The final substitution

  /** Two or more line breaks right before `</code>` become one. */
  lemma CollapseRun(n: nat, rest: string)
    requires n >= 2
    ensures Collapse(Repeat('\n', n) + CodeClose + rest) == "\n</code>" + Collapse(rest)
  {
    var s := Repeat('\n', n) + CodeClose + rest;
    var tail := CodeClose + rest;
    AppendAssociative(Repeat('\n', n), CodeClose, rest);
    assert tail[0] == '<';
    BreakRunOfBreaks(n, tail);
    assert s[n..] == tail && tail[..|CodeClose|] == CodeClose;
    assert s[n + |CodeClose|..] == rest;
  }

  function Repeat(c: char, n: nat): (r: string)
    ensures |r| == n && forall k :: 0 <= k < n ==> r[k] == c
  {
    if n == 0 then [] else [c] + Repeat(c, n - 1)
  }

  lemma {:induction false} BreakRunOfBreaks(n: nat, rest: string)
    requires rest == [] || rest[0] != '\n'
    ensures BreakRun(Repeat('\n', n) + rest) == n
  {
    if n > 0 {
      assert (Repeat('\n', n) + rest)[1..] == Repeat('\n', n - 1) + rest;
      BreakRunOfBreaks(n - 1, rest);
    }
  }

  /** A text without `</code>` is left as it is. */
  lemma {:induction false} CollapseWithoutClose(s: string)
    requires forall i :: !OccursAt(s, CodeClose, i)
    ensures Collapse(s) == s
    decreases |s|
  {
    if s != [] {
      var n := BreakRun(s);
      if n == 0 {
        Shifted(s, 1);
        CollapseWithoutClose(s[1..]);
      } else {
        if StartsWith(s[n..], CodeClose) {
          assert s[n..][..|CodeClose|] == s[n..n + |CodeClose|];
          assert OccursAt(s, CodeClose, n);
        }
        Shifted(s, n);
        CollapseWithoutClose(s[n..]);
        assert s[..n] + s[n..] == s;
      }
    }
  }

  lemma Shifted(s: string, n: nat)
    requires n <= |s| && forall i :: !OccursAt(s, CodeClose, i)
    ensures forall i :: !OccursAt(s[n..], CodeClose, i)
  {
    forall i
      ensures !OccursAt(s[n..], CodeClose, i)
    {
      if 0 <= i && i + |CodeClose| <= |s| - n {
        assert s[n..][i..i + |CodeClose|] == s[n + i..n + i + |CodeClose|];
        assert !OccursAt(s, CodeClose, n + i);
      }
    }
  }

  // ---------------------------------------------------------------------
  // A text with no code at all

  lemma {:induction false} TerminatedJoin(lines: seq<string>)
    requires lines != []
    ensures Terminated(lines) == Join(lines, "\n") + "\n"
    decreases |lines|
  {
    if |lines| > 1 {
      TerminatedJoin(lines[1..]);
    }
  }

  /** A line break at the end cannot complete a `</code>`. */
  lemma NoCloseAfterBreak(t: string)
    requires forall i :: !OccursAt(t, CodeClose, i)
    ensures forall i :: !OccursAt(t + "\n", CodeClose, i)
  {
    forall i
      ensures !OccursAt(t + "\n", CodeClose, i)
    {
      if 0 <= i && i + |CodeClose| <= |t| {
        assert (t + "\n")[i..i + |CodeClose|] == t[i..i + |CodeClose|];
        assert !OccursAt(t, CodeClose, i);
      } else if 0 <= i && i + |CodeClose| == |t| + 1 {
        assert (t + "\n")[i..i + |CodeClose|][|CodeClose| - 1] == (t + "\n")[|t|] == '\n';
      }
    }
  }

  /**
   * A text in which no line starts with `<code>` and `</code>` never occurs
   * comes back unchanged but for one more line break at the end.
   */
  lemma PlainText(t: string)
    requires forall line :: line in Split(t, '\n') ==> !StartsWith(line, CodeOpen)
    requires forall i :: !OccursAt(t, CodeClose, i)
    ensures Collapse(ScanLines(Start, Split(t, '\n')).result) == t + "\n"
  {
    var lines := Split(t, '\n');
    PassThrough(Start, lines);
    TerminatedJoin(lines);
    JoinSplit(t, '\n');
    assert ScanLines(Start, lines).result == t + "\n";
    NoCloseAfterBreak(t);
    CollapseWithoutClose(t + "\n");
  }
}

=== FILE: common.dfy ===
/**
 * Shared vocabulary of the model: the outcome of a call into code this model
 * cannot see (a language-model backend, an HTTP API, a file reader), the
 * outcome of a Python call that may raise, and the handful of Python string
 * operations (`in`, `startswith`, `split`, `join`, `strip`, `lower`, `count`,
 * `replace`, slicing) that the modelled code is built from.
 */
module Common {

  datatype Option<T> = None | Some(value: T)

  /** What an external collaborator returns: a value, or an exception with its message. */
  datatype Reply = Success(text: string) | Failure(err: string)

  /** A Python call of the modelled code that either returns a value or raises. */
  datatype Result<T> = Ok(value: T) | Raised(error: string)

  /** The backend a caller asks for (`provider: Literal['groq', 'google']`). */
  datatype Provider = Groq | Google

  /** One chat message `{'role': ..., 'content': ...}`. */
  datatype Message = Message(role: string, content: string)

  /** What callers pass as `messages`: a plain prompt or a list of messages. */
  datatype History = Prompt(text: string) | Dialogue(messages: seq<Message>)

  /** A plain prompt becomes one user message; a list is taken as it is. */
  function Normalise(h: History): seq<Message> {
    match h
    case Prompt(s) => [Message("user", s)]
    case Dialogue(ms) => ms
  }

  /** `messages[-1]['content'] += extra` on a non-empty list. */
  function AppendToLast(ms: seq<Message>, extra: string): (r: seq<Message>)
    requires ms != []
    ensures |r| == |ms| && r[..|ms| - 1] == ms[..|ms| - 1]
    ensures r[|ms| - 1] == Message(ms[|ms| - 1].role, ms[|ms| - 1].content + extra)
  {
    ms[..|ms| - 1] + [Message(ms[|ms| - 1].role, ms[|ms| - 1].content + extra)]
  }

  // ---------------------------------------------------------------------
  // Trying credentials in order

  /** The index of the first success, or the number of replies when every one failed. */
  function FirstSuccess(replies: seq<Reply>): (k: nat)
    ensures k <= |replies|
    ensures k < |replies| ==> replies[k].Success?
    ensures forall j :: 0 <= j < k ==> replies[j].Failure?
  {
    if replies == [] then 0
    else if replies[0].Success? then 0
    else 1 + FirstSuccess(replies[1..])
  }

  /**
   * The loop `for client in clients: try ... answer = ...; break / except
   * Exception as e: answer = prefix + str(e)`, followed by a read of
   * `answer`: the first success wins, otherwise the last failure's message
   * is the answer; with no replies at all `answer` was never bound and
   * reading it raises. `answer` is the value bound before the rest of the
   * replies are tried.
   */
  function Rotate(replies: seq<Reply>, prefix: string, answer: Option<string>): (r: Result<string>)
    ensures replies == [] ==> (r.Ok? <==> answer.Some?) && (answer.Some? ==> r == Ok(answer.value))
    ensures FirstSuccess(replies) < |replies| ==> r == Ok(replies[FirstSuccess(replies)].text)
    ensures replies != [] && FirstSuccess(replies) == |replies| ==> r == Ok(prefix + replies[|replies| - 1].err)
  {
    if replies == [] then
      (if answer.Some? then Ok(answer.value) else Raised("UnboundLocalError: answer"))
    else
      match replies[0]
      case Success(t) => Ok(t)
      case Failure(e) => Rotate(replies[1..], prefix, Some(prefix + e))
  }

  // ---------------------------------------------------------------------
  // Substrings

  predicate StartsWith(s: string, p: string) {
    |p| <= |s| && s[..|p|] == p
  }

  predicate EndsWith(s: string, p: string) {
    |p| <= |s| && s[|s| - |p|..] == p
  }

  /** A string that starts with `a + b` starts with `a`. */
  lemma StartsWithShorter(s: string, a: string, b: string)
    requires StartsWith(s, a + b)
    ensures StartsWith(s, a)
  {
    var whole, part := s[..|a + b|], s[..|a|];
    assert forall m :: 0 <= m < |a| ==> part[m] == whole[m];
  }

  /** A string that ends with `a + b` ends with `b`. */
  lemma EndsWithShorter(s: string, a: string, b: string)
    requires EndsWith(s, a + b)
    ensures EndsWith(s, b)
  {
    var whole, part := s[|s| - |a + b|..], s[|s| - |b|..];
    assert forall m :: 0 <= m < |b| ==> part[m] == whole[|a| + m];
  }

  /** `p` occurs in `s` at index `i`. */
  predicate OccursAt(s: string, p: string, i: int) {
    0 <= i && i + |p| <= |s| && s[i..i + |p|] == p
  }

  /** Python `s.find(p, i)`: the first index at or after `i` where `p` occurs, or -1. */
  function FindFrom(s: string, p: string, i: nat): (r: int)
    requires i <= |s|
    ensures r == -1 || (i <= r && OccursAt(s, p, r))
    ensures r == -1 ==> forall j :: i <= j ==> !OccursAt(s, p, j)
    ensures r != -1 ==> forall j :: i <= j < r ==> !OccursAt(s, p, j)
    decreases |s| - i
  {
    if i + |p| > |s| then -1
    else if s[i..i + |p|] == p then i
    else FindFrom(s, p, i + 1)
  }

  /** Python `s.find(p)`. */
  function Find(s: string, p: string): int {
    FindFrom(s, p, 0)
  }

  /** Python `s.rfind(p, 0, hi)`: the last index where `p` occurs wholly before `hi`, or -1. */
  function RFind(s: string, p: string, hi: nat): (r: int)
    requires hi <= |s|
    ensures r == -1 || (OccursAt(s, p, r) && r + |p| <= hi)
    ensures forall j :: r < j && j + |p| <= hi ==> !OccursAt(s, p, j)
  {
    if |p| > hi then -1
    else if s[hi - |p|..hi] == p then hi - |p|
    else RFind(s, p, hi - 1)
  }

  /** Python `p in s`. */
  predicate Contains(s: string, p: string) {
    Find(s, p) >= 0
  }

  lemma ContainsIff(s: string, p: string)
    ensures Contains(s, p) <==> exists i :: OccursAt(s, p, i)
  {
  }

  /** An occurrence inside a slice is an occurrence in the whole string, shifted by the slice's start. */
  lemma OccursInSlice(s: string, p: string, lo: nat, hi: nat, k: int)
    requires lo <= hi <= |s| && OccursAt(s[lo..hi], p, k)
    ensures OccursAt(s, p, lo + k)
  {
    var inner, outer := s[lo..hi][k..k + |p|], s[lo + k..lo + k + |p|];
    assert forall m :: 0 <= m < |p| ==> inner[m] == outer[m];
  }

  lemma OccursAtContains(s: string, p: string, i: int)
    requires OccursAt(s, p, i)
    ensures Contains(s, p)
  {
  }

  // ---------------------------------------------------------------------
  // Characters

  /** The characters Python's `str.strip()` and `\s` treat as white space (the ASCII and Latin-1 ones). */
  predicate IsSpace(c: char) {
    var n := c as int;
    (9 <= n <= 13) || (28 <= n <= 32) || n == 0x85 || n == 0xA0
  }

  /** Python `str.lower()` on one character, for the ASCII letters. */
  function LowerChar(c: char): char {
    if 'A' <= c <= 'Z' then (c as int + 32) as char else c
  }

  function Lower(s: string): (r: string)
    ensures |r| == |s|
    ensures forall i :: 0 <= i < |s| ==> r[i] == LowerChar(s[i])
  {
    if s == [] then [] else [LowerChar(s[0])] + Lower(s[1..])
  }

  /** Python `s.lstrip()`. */
  function StripLeft(s: string): (r: string)
    ensures |r| <= |s|
  {
    if s != [] && IsSpace(s[0]) then StripLeft(s[1..]) else s
  }

  /** Python `s.rstrip()`. */
  function StripRight(s: string): (r: string)
    ensures |r| <= |s|
  {
    if s != [] && IsSpace(s[|s| - 1]) then StripRight(s[..|s| - 1]) else s
  }

  /** Python `s.strip()`. */
  function Strip(s: string): string {
    StripRight(StripLeft(s))
  }

  /** `lstrip` removes a prefix of blanks and stops at the first other character. */
  lemma {:induction false} StripLeftShape(s: string)
    ensures var r := StripLeft(s); r == s[|s| - |r|..] && (r == [] || !IsSpace(r[0]))
    ensures forall k :: 0 <= k < |s| - |StripLeft(s)| ==> IsSpace(s[k])
  {
    if s != [] && IsSpace(s[0]) {
      StripLeftShape(s[1..]);
    }
  }

  /** `rstrip` removes a suffix of blanks and stops at the last other character. */
  lemma {:induction false} StripRightShape(s: string)
    ensures var r := StripRight(s); r == s[..|r|] && (r == [] || !IsSpace(r[|r| - 1]))
    ensures forall k :: |StripRight(s)| <= k < |s| ==> IsSpace(s[k])
  {
    if s != [] && IsSpace(s[|s| - 1]) {
      StripRightShape(s[..|s| - 1]);
    }
  }

  /** A text with no blank at either end is its own strip. */
  lemma StripNoBlanks(s: string)
    requires s == [] || (!IsSpace(s[0]) && !IsSpace(s[|s| - 1]))
    ensures Strip(s) == s
  {
  }

  /** Python `s.strip(chars)` for an explicit character set. */
  function StripChars(s: string, cs: set<char>): (r: string)
    ensures |r| <= |s|
    ensures r == [] || (r[0] !in cs && r[|r| - 1] !in cs)
  {
    StripCharsRight(StripCharsLeft(s, cs), cs)
  }

  function StripCharsLeft(s: string, cs: set<char>): (r: string)
    ensures |r| <= |s| && r == s[|s| - |r|..]
    ensures r == [] || r[0] !in cs
  {
    if s != [] && s[0] in cs then StripCharsLeft(s[1..], cs) else s
  }

  function StripCharsRight(s: string, cs: set<char>): (r: string)
    ensures |r| <= |s| && r == s[..|r|]
    ensures r == [] || r[|r| - 1] !in cs
    ensures s != [] && s[0] !in cs ==> r != [] && r[0] == s[0]
  {
    if s != [] && s[|s| - 1] in cs then StripCharsRight(s[..|s| - 1], cs) else s
  }

  // ---------------------------------------------------------------------
  // Splitting and joining

  /** Python `sep.join(parts)`. */
  function Join(parts: seq<string>, sep: string): string {
    if parts == [] then []
    else if |parts| == 1 then parts[0]
    else parts[0] + sep + Join(parts[1..], sep)
  }

  lemma AppendAssociative<T>(a: seq<T>, b: seq<T>, c: seq<T>)
    ensures a + (b + c) == a + b + c
  {
  }

  /** The concatenation of all parts (`''.join(parts)`). */
  function Concat(parts: seq<string>): string {
    if parts == [] then [] else parts[0] + Concat(parts[1..])
  }

  lemma ConcatAppend(parts: seq<string>, p: string)
    ensures Concat(parts + [p]) == Concat(parts) + p
  {
    if parts != [] {
      assert (parts + [p])[1..] == parts[1..] + [p];
      ConcatAppend(parts[1..], p);
    }
  }

  lemma JoinAppend(parts: seq<string>, p: string, sep: string)
    requires parts != []
    ensures Join(parts + [p], sep) == Join(parts, sep) + sep + p
  {
    if |parts| > 1 {
      assert (parts + [p])[1..] == parts[1..] + [p];
      JoinAppend(parts[1..], p, sep);
    }
  }

  /** Python `s.split(c)` for a one-character separator. */
  function Split(s: string, c: char): (r: seq<string>)
    ensures |r| >= 1
    ensures forall k :: 0 <= k < |r| ==> c !in r[k]
  {
    if c !in s then [s]
    else
      var i := FirstIndexOf(s, c);
      [s[..i]] + Split(s[i + 1..], c)
  }

  function FirstIndexOf(s: string, c: char): (i: nat)
    requires c in s
    ensures i < |s| && s[i] == c && c !in s[..i]
  {
    if s[0] == c then 0 else 1 + FirstIndexOf(s[1..], c)
  }

  lemma {:induction false} JoinSplit(s: string, c: char)
    ensures Join(Split(s, c), [c]) == s
    decreases |s|
  {
    if c in s {
      var i := FirstIndexOf(s, c);
      var head, rest := s[..i], s[i + 1..];
      var parts := Split(s, c);
      assert parts == [head] + Split(rest, c) && parts[1..] == Split(rest, c);
      JoinSplit(rest, c);
      assert Join(parts, [c]) == head + [c] + rest;
      assert s == head + [c] + rest;
    } else {
      assert Split(s, c) == [s];
    }
  }

  /** Splitting at the first separator: the piece before it, then the split of the rest. */
  lemma SplitAtFirst(a: string, c: char, b: string)
    requires c !in a
    ensures Split(a + [c] + b, c) == [a] + Split(b, c)
  {
    var s := a + [c] + b;
    assert s[|a|] == c;
    assert s[..|a|] == a;
    var i := FirstIndexOf(s, c);
    assert s[i + 1..] == b;
  }

  // ---------------------------------------------------------------------
  // Counting and replacing (non-overlapping, left to right, as Python does)

  /** Python `s.count(p)` for a non-empty `p`. */
  function Count(s: string, p: string): nat
    requires p != []
    decreases |s|
  {
    if |s| < |p| then 0
    else if s[..|p|] == p then 1 + Count(s[|p|..], p)
    else Count(s[1..], p)
  }

  /** Python `s.replace(pat, rep)` for a non-empty `pat`. */
  function Replace(s: string, pat: string, rep: string): string
    requires pat != []
    decreases |s|
  {
    if |s| < |pat| then s
    else if s[..|pat|] == pat then rep + Replace(s[|pat|..], pat, rep)
    else [s[0]] + Replace(s[1..], pat, rep)
  }

  lemma {:induction false} ReplaceAbsent(s: string, pat: string, rep: string)
    requires pat != [] && !Contains(s, pat)
    ensures Replace(s, pat, rep) == s
  {
    ContainsIff(s, pat);
    ReplaceNowhere(s, pat, rep);
  }

  lemma {:induction false} ReplaceNowhere(s: string, pat: string, rep: string)
    requires pat != [] && forall i :: !OccursAt(s, pat, i)
    ensures Replace(s, pat, rep) == s
    decreases |s|
  {
    if |s| >= |pat| {
      assert !OccursAt(s, pat, 0);
      forall j ensures !OccursAt(s[1..], pat, j) {
        if 0 <= j && j + |pat| <= |s| - 1 {
          assert s[1..][j..j + |pat|] == s[j + 1..j + 1 + |pat|];
          assert !OccursAt(s, pat, j + 1);
        }
      }
      ReplaceNowhere(s[1..], pat, rep);
    }
  }

  // ---------------------------------------------------------------------
  // Python slicing

  /** The index Python uses for a slice bound `i` on a sequence of length `n`. */
  function SliceIndex(i: int, n: nat): (r: nat)
    ensures r <= n
  {
    if i < 0 then (if n + i < 0 then 0 else n + i) else if i > n then n else i
  }

  /** Python `s[a:b]`, negative bounds counting from the end. */
  function Slice(s: string, a: int, b: int): (r: string)
    ensures |r| <= |s|
  {
    var lo, hi := SliceIndex(a, |s|), SliceIndex(b, |s|);
    if lo < hi then s[lo..hi] else []
  }

  // ---------------------------------------------------------------------
  // Decimal numerals (Python `str(n)` / f-string formatting of an int)

  function DigitChar(d: nat): char
    requires d < 10
  {
    ('0' as int + d) as char
  }

  function NatToString(n: nat): (r: string)
    ensures r != []
    ensures forall k :: 0 <= k < |r| ==> '0' <= r[k] <= '9'
    ensures |r| == 1 <==> n < 10
  {
    if n < 10 then [DigitChar(n)] else NatToString(n / 10) + [DigitChar(n % 10)]
  }

  function IntToString(n: int): string {
    if n < 0 then "-" + NatToString(-n) else NatToString(n)
  }

  /** Different numbers have different decimal numerals. */
  lemma {:induction false} NatToStringInjective(n: nat, m: nat)
    requires NatToString(n) == NatToString(m)
    ensures n == m
  {
    var a, b := NatToString(n), NatToString(m);
    if n >= 10 && m >= 10 {
      assert a[|a| - 1] == b[|b| - 1];
      assert a[..|a| - 1] == NatToString(n / 10) && b[..|b| - 1] == NatToString(m / 10);
      NatToStringInjective(n / 10, m / 10);
    }
  }
}

=== FILE: files.dfy ===
/**
 * File helpers of the agent (src/agent/tools/file_utils.py): speech
 * recognition with credential rotation, the extension dispatch of
 * `files_to_text`, the download result of `download_images` and the layout
 * arithmetic of `merge_pngs_vertically`.
 *
 * Readers of PDF, DOCX and audio files, the transcription clients, the HTTP
 * fetches and the date hash are parameters.
 */
module FileUtils {
  import opened Common

  /** The extensions every caller treats as images. */
  predicate IsImage(path: string) {
    EndsWith(path, ".png") || EndsWith(path, ".jpg") || EndsWith(path, ".jpeg") || EndsWith(path, ".webp")
  }

  // ---------------------------------------------------------------------
  // speech_recognition

  /** A transcription client: given the file name and the bytes read from the handle, a text or an error. */
  type SpeechClient = (string, string) -> Reply

  /**
   * `speech_recognition`: the file is opened once and each attempt calls
   * `file.read()` on the same handle, so the first client is sent the whole
   * contents and every later client the empty remainder. `file` is the
   * contents, or the error raised by `open`.
   */
  method SpeechRecognition(name: string, file: Result<string>, clients: seq<SpeechClient>)
    returns (r: Result<string>, sent: seq<string>)
    ensures file.Raised? ==> r == Raised(file.error) && sent == []
    ensures file.Ok? ==>
      var replies := seq(|clients|, i requires 0 <= i < |clients| => clients[i](name, if i == 0 then file.value else ""));
      var k := FirstSuccess(replies);
      |sent| == (if k < |clients| then k + 1 else |clients|) &&
      (forall i :: 0 <= i < |sent| ==> sent[i] == (if i == 0 then file.value else "")) &&
      (clients == [] ==> r.Raised?) &&
      (k < |clients| ==> r == Ok(Strip(replies[k].text))) &&
      (clients != [] && k == |clients| ==> r == Ok(Strip("Error with speech recognition: " + replies[|clients| - 1].err)))
  {
    sent := [];
    if file.Raised? {
      return Raised(file.error), sent;
    }
    ghost var all := seq(|clients|, i requires 0 <= i < |clients| => clients[i](name, if i == 0 then file.value else ""));
    var unread := file.value;
    var text: Option<string> := None;
    var done := false;
    var i := 0;
    while i < |clients| && !done
      invariant 0 <= i <= |clients|
      invariant |sent| == (if done then i + 1 else i)
      invariant forall j :: 0 <= j < |sent| ==> sent[j] == (if j == 0 then file.value else "")
      invariant unread == (if |sent| == 0 then file.value else "")
      invariant forall j :: 0 <= j < i ==> all[j].Failure?
      invariant done ==> i < |clients| && all[i].Success? && text == Some(all[i].text)
      invariant !done && i == 0 ==> text.None?
      invariant !done && i > 0 ==> text == Some("Error with speech recognition: " + all[i - 1].err)
      decreases |clients| - i, if done then 0 else 1
    {
      var payload := unread;
      unread := "";
      sent := sent + [payload];
      var reply := clients[i](name, payload);
      assert reply == all[i];
      if reply.Success? {
        text := Some(reply.text);
        done := true;
      } else {
        text := Some("Error with speech recognition: " + reply.err);
        i := i + 1;
      }
    }
    if text.None? {
      r := Raised("UnboundLocalError: text");
    } else {
      r := Ok(Strip(text.value));
    }
    if done {
      assert FirstSuccess(all) == i;
    } else {
      assert FirstSuccess(all) == |clients|;
    }
  }

  // ---------------------------------------------------------------------
  // files_to_text

  /** The extractors `files_to_text` dispatches to; each returns a text or raises. */
  datatype Readers = Readers(
    pdf: string -> Result<string>,
    docx: string -> Result<string>,
    speech: string -> Result<string>,
    plain: string -> Result<string>)

  /**
   * The text the loop body obtains for one path, as written: pdf, docx and
   * mp3 go to their readers; every other path reaches `elif file:` while the
   * local `file` is still unbound, which raises.
   */
  function Extract(rd: Readers, path: string): (r: Result<string>)
    ensures Dispatched(path) ==> r == ExtractFixed(rd, path)
    ensures !Dispatched(path) ==> r.Raised?
  {
    if EndsWith(path, ".pdf") then rd.pdf(path)
    else if EndsWith(path, ".docx") then rd.docx(path)
    else if EndsWith(path, ".mp3") then rd.speech(path)
    else Raised("UnboundLocalError: local variable 'file' referenced before assignment")
  }

  /** The paths the loop body hands to a reader of their own: pdf, docx and mp3. */
  predicate Dispatched(path: string) {
    EndsWith(path, ".pdf") || EndsWith(path, ".docx") || EndsWith(path, ".mp3")
  }

  predicate AllDispatched(files: seq<string>) {
    forall j :: 0 <= j < |files| ==> Dispatched(files[j])
  }

  /** The evident intent: any other path is read as a text file. */
  function ExtractFixed(rd: Readers, path: string): (r: Result<string>)
    ensures !Dispatched(path) ==> r == rd.plain(path)
  {
    if EndsWith(path, ".pdf") then rd.pdf(path)
    else if EndsWith(path, ".docx") then rd.docx(path)
    else if EndsWith(path, ".mp3") then rd.speech(path)
    else rd.plain(path)
  }

  /** The block one file contributes. */
  function Entry(path: string, text: string): string {
    path + ":\n" + text + "\n\n---\n\n"
  }

  /** The index of the first path whose extraction raises, or `|files|`. */
  function FirstFailing(files: seq<string>, extract: string -> Result<string>): (k: nat)
    ensures k <= |files|
    ensures k < |files| ==> extract(files[k]).Raised?
    ensures forall j :: 0 <= j < k ==> extract(files[j]).Ok?
  {
    if files == [] then 0
    else if extract(files[0]).Raised? then 0
    else 1 + FirstFailing(files[1..], extract)
  }

  /** The entries of files whose extraction succeeds, in order. */
  function Entries(files: seq<string>, extract: string -> Result<string>): string
    requires forall j :: 0 <= j < |files| ==> extract(files[j]).Ok?
  {
    if files == [] then "" else Entry(files[0], extract(files[0]).value) + Entries(files[1..], extract)
  }

  lemma {:induction false} EntriesAppend(files: seq<string>, p: string, extract: string -> Result<string>)
    requires forall j :: 0 <= j < |files| ==> extract(files[j]).Ok?
    requires extract(p).Ok?
    ensures Entries(files + [p], extract) == Entries(files, extract) + Entry(p, extract(p).value)
  {
    if files != [] {
      assert (files + [p])[0] == files[0];
      assert (files + [p])[1..] == files[1..] + [p];
      EntriesAppend(files[1..], p, extract);
      assert Entries(files + [p], extract) == Entry(files[0], extract(files[0]).value) + Entries(files[1..] + [p], extract);
    } else {
      assert Entries([p], extract) == Entry(p, extract(p).value) + Entries([], extract);
    }
  }

  /**
   * The loop of `files_to_text` for a given extractor: one entry per file in
   * order, or, as soon as an extraction raises, only `Error reading <path>`
   * for that path.
   */
  method Collect(files: seq<string>, extract: string -> Result<string>) returns (r: string)
    ensures FirstFailing(files, extract) < |files| ==>
      r == "Error reading " + files[FirstFailing(files, extract)]
    ensures FirstFailing(files, extract) == |files| ==> r == Entries(files, extract)
  {
    var result := "";
    var i := 0;
    while i < |files|
      invariant 0 <= i <= |files|
      invariant forall j :: 0 <= j < i ==> extract(files[j]).Ok?
      invariant result == Entries(files[..i], extract)
    {
      var text := extract(files[i]);
      if text.Raised? {
        return "Error reading " + files[i];
      }
      assert files[..i + 1] == files[..i] + [files[i]];
      EntriesAppend(files[..i], files[i], extract);
      result := result + files[i] + ":\n" + text.value + "\n\n---\n\n";
      i := i + 1;
    }
    assert files[..i] == files;
    r := result;
  }

  /** `files_to_text` as written. */
  method FilesToText(files: seq<string>, rd: Readers) returns (r: string)
    ensures var extract := (p: string) => Extract(rd, p);
      (FirstFailing(files, extract) < |files| ==> r == "Error reading " + files[FirstFailing(files, extract)]) &&
      (FirstFailing(files, extract) == |files| ==> r == Entries(files, extract))
  {
    r := Collect(files, (p: string) => Extract(rd, p));
  }

  /** `files_to_text` as evidently intended: other paths are read as text. */
  method FilesToTextFixed(files: seq<string>, rd: Readers) returns (r: string)
    ensures var extract := (p: string) => ExtractFixed(rd, p);
      (FirstFailing(files, extract) < |files| ==> r == "Error reading " + files[FirstFailing(files, extract)]) &&
      (FirstFailing(files, extract) == |files| ==> r == Entries(files, extract))
  {
    r := Collect(files, (p: string) => ExtractFixed(rd, p));
  }

  /**
   * The text `files_to_text` yields as written, as a value: what its
   * callers append. It is empty only for no files.
   */
  function FilesText(files: seq<string>, rd: Readers): (r: string)
    ensures r == "" <==> files == []
  {
    var extract := (p: string) => Extract(rd, p);
    var k := FirstFailing(files, extract);
    EntriesNonEmpty(files, extract);
    if k < |files| then "Error reading " + files[k] else Entries(files, extract)
  }

  /** The text the corrected `files_to_text` yields, as a value: empty only for no files. */
  function FilesTextFixed(files: seq<string>, rd: Readers): (r: string)
    ensures r == "" <==> files == []
    ensures (forall j :: 0 <= j < |files| ==> ExtractFixed(rd, files[j]).Ok?) ==>
      |r| >= 9 * |files|
  {
    var extract := (p: string) => ExtractFixed(rd, p);
    var k := FirstFailing(files, extract);
    EntriesNonEmpty(files, extract);
    if k < |files| then "Error reading " + files[k] else Entries(files, extract)
  }

  /**
   * When every path has a reader of its own, the as-written text and the
   * corrected one coincide: the two differ only on plain files.
   */
  lemma AgreeWhenDispatched(files: seq<string>, rd: Readers)
    requires AllDispatched(files)
    ensures FilesText(files, rd) == FilesTextFixed(files, rd)
  {
    SameExtraction(files, (p: string) => Extract(rd, p), (p: string) => ExtractFixed(rd, p));
  }

  /**
   * As written, one path without a reader of its own (a plain text file,
   * say) turns the whole text into an error line for one of the paths.
   */
  lemma ErrorWhenUndispatched(files: seq<string>, rd: Readers)
    requires !AllDispatched(files)
    ensures exists k :: 0 <= k < |files| && FilesText(files, rd) == "Error reading " + files[k]
  {
    FirstFailingBefore(files, rd);
    var k := FirstFailing(files, (p: string) => Extract(rd, p));
    assert FilesText(files, rd) == "Error reading " + files[k];
  }

  /** Two extractors that agree on every path fail first at the same path and give the same entries. */
  lemma {:induction false} SameExtraction(files: seq<string>, e1: string -> Result<string>, e2: string -> Result<string>)
    ensures (forall j :: 0 <= j < |files| ==> e1(files[j]) == e2(files[j])) ==>
      FirstFailing(files, e1) == FirstFailing(files, e2) &&
      (FirstFailing(files, e1) == |files| ==> Entries(files, e1) == Entries(files, e2))
  {
    if files != [] {
      SameExtraction(files[1..], e1, e2);
    }
  }

  /** A path without a reader of its own stops the as-written loop at or before it. */
  lemma {:induction false} FirstFailingBefore(files: seq<string>, rd: Readers)
    ensures forall j :: 0 <= j < |files| && !Dispatched(files[j]) ==>
      FirstFailing(files, (p: string) => Extract(rd, p)) <= j
  {
    if files != [] {
      FirstFailingBefore(files[1..], rd);
      assert forall j :: 1 <= j < |files| ==> files[1..][j - 1] == files[j];
    }
  }

  /** Every file adds a block of at least its nine separator characters, so the entries of some files are never empty. */
  lemma {:induction false} EntriesNonEmpty(files: seq<string>, extract: string -> Result<string>)
    ensures FirstFailing(files, extract) == |files| ==> |Entries(files, extract)| >= 9 * |files|
  {
    if files != [] && FirstFailing(files, extract) == |files| {
      EntriesNonEmpty(files[1..], extract);
      assert |Entry(files[0], extract(files[0]).value)| >= 9;
    }
  }

  /** An empty file list yields the empty text, so appending it changes nothing. */
  lemma FilesTextEmpty(rd: Readers)
    ensures FilesText([], rd) == ""
    ensures FilesTextFixed([], rd) == ""
  {
  }

  /**
   * What a caller appends for one attachment, as written: a pdf, docx or
   * mp3 file's block or its error line, and for any other file always the
   * error line, whatever it holds.
   */
  lemma {:induction false} OneFileText(path: string, rd: Readers)
    ensures Extract(rd, path).Ok? ==> FilesText([path], rd) == path + ":\n" + Extract(rd, path).value + "\n\n---\n\n"
    ensures Extract(rd, path).Raised? ==> FilesText([path], rd) == "Error reading " + path
    ensures !EndsWith(path, ".pdf") && !EndsWith(path, ".docx") && !EndsWith(path, ".mp3") ==>
      FilesText([path], rd) == "Error reading " + path
  {
    var extract := (p: string) => Extract(rd, p);
    if extract(path).Ok? {
      assert FirstFailing([path], extract) == 1;
      assert Entries([path], extract) == Entry(path, extract(path).value) + Entries([], extract);
    } else {
      assert FirstFailing([path], extract) == 0;
    }
  }

  /**
   * As written, a text file (say `notes.txt`) is never read: once every file
   * before it was read, the whole result is `Error reading notes.txt`,
   * whatever its contents.
   */
  lemma {:induction false} PlainFileAsWritten(files: seq<string>, k: nat, rd: Readers)
    requires k < |files|
    requires !EndsWith(files[k], ".pdf") && !EndsWith(files[k], ".docx") && !EndsWith(files[k], ".mp3")
    requires forall j :: 0 <= j < k ==> Extract(rd, files[j]).Ok?
    ensures FirstFailing(files, (p: string) => Extract(rd, p)) == k
  {
  }

  /** Corrected, a readable text file contributes its entry like any other file. */
  lemma {:induction false} PlainFileFixed(path: string, text: string, rd: Readers)
    requires !EndsWith(path, ".pdf") && !EndsWith(path, ".docx") && !EndsWith(path, ".mp3")
    requires rd.plain(path) == Ok(text)
    ensures FilesTextFixed([path], rd) == path + ":\n" + text + "\n\n---\n\n"
  {
    var extract := (p: string) => ExtractFixed(rd, p);
    assert extract(path) == Ok(text);
    assert FirstFailing([path], extract) == 1;
    assert Entries([path], extract) == Entry(path, text) + Entries([], extract);
  }

  /** Both versions agree on files of the dispatched kinds. */
  lemma {:induction false} FixedAgreesOnKnownKinds(files: seq<string>, rd: Readers)
    requires forall j :: 0 <= j < |files| ==>
      EndsWith(files[j], ".pdf") || EndsWith(files[j], ".docx") || EndsWith(files[j], ".mp3")
    ensures FirstFailing(files, (p: string) => Extract(rd, p)) == FirstFailing(files, (p: string) => ExtractFixed(rd, p))
    ensures FirstFailing(files, (p: string) => Extract(rd, p)) == |files| ==>
      Entries(files, (p: string) => Extract(rd, p)) == Entries(files, (p: string) => ExtractFixed(rd, p))
  {
    if files != [] {
      FixedAgreesOnKnownKinds(files[1..], rd);
    }
  }

  // ---------------------------------------------------------------------
  // download_images

  /**
   * `download_images`: the i-th URL is saved as `<name> <i>.png` when its
   * fetch answers 200 and is written, and yields `None` otherwise.
   * `fetched(url)` says whether that happened; `name` is the date hash.
   */
  method DownloadImages(urls: seq<string>, name: string, fetched: string -> bool) returns (r: seq<Option<string>>)
    ensures |r| == |urls|
    ensures forall i :: 0 <= i < |urls| ==>
      r[i] == if fetched(urls[i]) then Some(name + " " + NatToString(i) + ".png") else None
  {
    r := [];
    var i := 0;
    while i < |urls|
      invariant 0 <= i <= |urls| && |r| == i
      invariant forall j :: 0 <= j < i ==>
        r[j] == if fetched(urls[j]) then Some(name + " " + NatToString(j) + ".png") else None
    {
      var saved := if fetched(urls[i]) then Some(name + " " + NatToString(i) + ".png") else None;
      r := r + [saved];
      i := i + 1;
    }
  }

  /** Two downloads of the same call never share a file name. */
  lemma DownloadNamesDistinct(name: string, i: nat, j: nat)
    requires name + " " + NatToString(i) + ".png" == name + " " + NatToString(j) + ".png"
    ensures i == j
  {
    var a, b := name + " " + NatToString(i) + ".png", name + " " + NatToString(j) + ".png";
    assert |NatToString(i)| == |NatToString(j)|;
    assert NatToString(i) == a[|name| + 1..|a| - 4];
    assert NatToString(j) == b[|name| + 1..|b| - 4];
    NatToStringInjective(i, j);
  }

  // ---------------------------------------------------------------------
  // merge_pngs_vertically

  datatype Size = Size(width: nat, height: nat)

  datatype Placement = Placement(x: int, y: int)

  /** The canvas and where each picture is pasted. */
  datatype Layout = Layout(width: nat, height: nat, places: seq<Placement>)

  function MaxWidth(sizes: seq<Size>): (w: nat)
    requires sizes != []
    ensures forall i :: 0 <= i < |sizes| ==> sizes[i].width <= w
    ensures exists i :: 0 <= i < |sizes| && sizes[i].width == w
  {
    if |sizes| == 1 then sizes[0].width
    else
      var rest := MaxWidth(sizes[1..]);
      assert forall i :: 1 <= i < |sizes| ==> sizes[i].width == sizes[1..][i - 1].width;
      if sizes[0].width >= rest then sizes[0].width else rest
  }

  /** The sum of the heights of a list of pictures. */
  function TotalHeight(sizes: seq<Size>): nat {
    if sizes == [] then 0 else TotalHeight(sizes[..|sizes| - 1]) + sizes[|sizes| - 1].height
  }

  lemma {:induction false} TotalHeightMonotone(sizes: seq<Size>, i: nat, j: nat)
    requires i <= j <= |sizes|
    ensures TotalHeight(sizes[..i]) <= TotalHeight(sizes[..j])
    decreases j - i
  {
    if i < j {
      TotalHeightMonotone(sizes, i, j - 1);
      assert sizes[..j][..j - 1] == sizes[..j - 1];
    }
  }

  /**
   * `merge_pngs_vertically`: the canvas is as wide as the widest picture and
   * as high as all of them together; each picture is centred horizontally
   * (floor division) and placed right below the previous one. `max` of an
   * empty list raises.
   */
  method MergeLayout(sizes: seq<Size>) returns (r: Result<Layout>)
    ensures sizes == [] <==> r.Raised?
    ensures r.Ok? ==>
      r.value.width == MaxWidth(sizes) && r.value.height == TotalHeight(sizes) &&
      |r.value.places| == |sizes| &&
      forall i :: 0 <= i < |sizes| ==> r.value.places[i] == PlaceOf(sizes, r.value.width, i)
  {
    if sizes == [] {
      return Raised("ValueError: max() arg is an empty sequence");
    }
    var totalWidth := MaxWidth(sizes);
    var totalHeight := TotalHeight(sizes);
    var places: seq<Placement> := [];
    var currentHeight := 0;
    var i := 0;
    while i < |sizes|
      invariant 0 <= i <= |sizes| && |places| == i
      invariant currentHeight == TotalHeight(sizes[..i])
      invariant forall j :: 0 <= j < i ==> places[j] == PlaceOf(sizes, totalWidth, j)
    {
      var xOffset := (totalWidth - sizes[i].width) / 2;
      assert sizes[..i + 1][..i] == sizes[..i];
      assert TotalHeight(sizes[..i + 1]) == currentHeight + sizes[i].height;
      assert Placement(xOffset, currentHeight) == PlaceOf(sizes, totalWidth, i);
      places := places + [Placement(xOffset, currentHeight)];
      currentHeight := currentHeight + sizes[i].height;
      i := i + 1;
    }
    assert sizes[..|sizes|] == sizes;
    r := Ok(Layout(totalWidth, totalHeight, places));
  }

  /** Picture `i` is centred on a canvas of the given width (floor division) and placed right below the pictures before it. */
  function PlaceOf(sizes: seq<Size>, width: int, i: nat): Placement
    requires i < |sizes|
  {
    Placement((width - sizes[i].width) / 2, TotalHeight(sizes[..i]))
  }

  /** Every picture lies inside the canvas. */
  lemma LayoutInside(sizes: seq<Size>, i: nat)
    requires i < |sizes|
    ensures var x := (MaxWidth(sizes) - sizes[i].width) / 2;
      0 <= x && x + sizes[i].width <= MaxWidth(sizes)
    ensures TotalHeight(sizes[..i]) + sizes[i].height <= TotalHeight(sizes)
  {
    assert sizes[..i + 1][..i] == sizes[..i];
    TotalHeightMonotone(sizes, i + 1, |sizes|);
    assert sizes[..|sizes|] == sizes;
  }

  /** A picture placed earlier ends at or above the top of any later one: no two overlap. */
  lemma LayoutDisjoint(sizes: seq<Size>, i: nat, j: nat)
    requires i < j < |sizes|
    ensures TotalHeight(sizes[..i]) + sizes[i].height <= TotalHeight(sizes[..j])
  {
    assert sizes[..i + 1][..i] == sizes[..i];
    TotalHeightMonotone(sizes, i + 1, j);
  }
}

=== FILE: gateway.dfy ===
/**
 * The model gateway (src/agent/llm/llm.py, groq.py, google.py): input
 * normalisation, the split of attached files into images and other files,
 * the Groq credential rotation, the Gemini request, and the routing between
 * the two backends with a fallback on an exception.
 *
 * Every Groq client, the Gemini chat session and the file readers are
 * parameters; each call returns a value or fails.
 */
module Gateway {
  import opened Common
  import opened FileUtils

  // ---------------------------------------------------------------------
  // Files: images and the rest

  /** The image files, in their original order. */
  function Images(files: seq<string>): (r: seq<string>)
    ensures |r| <= |files|
    ensures forall k :: 0 <= k < |r| ==> IsImage(r[k])
  {
    if files == [] then []
    else if IsImage(files[0]) then [files[0]] + Images(files[1..])
    else Images(files[1..])
  }

  /** The other files, in their original order. */
  function NonImages(files: seq<string>): (r: seq<string>)
    ensures |r| <= |files|
    ensures forall k :: 0 <= k < |r| ==> !IsImage(r[k])
  {
    if files == [] then []
    else if IsImage(files[0]) then NonImages(files[1..])
    else [files[0]] + NonImages(files[1..])
  }

  /** The two filters split the files: every file lands in exactly one of them. */
  lemma {:induction false} PartitionFiles(files: seq<string>)
    ensures multiset(Images(files)) + multiset(NonImages(files)) == multiset(files)
  {
    if files != [] {
      var f, rest := files[0], files[1..];
      PartitionFiles(rest);
      assert files == [f] + rest;
      if IsImage(f) {
        assert Images(files) == [f] + Images(rest) && NonImages(files) == NonImages(rest);
      } else {
        assert Images(files) == Images(rest) && NonImages(files) == [f] + NonImages(rest);
      }
      SplitStep(f, rest, Images(rest), NonImages(rest), Images(files), NonImages(files));
    }
  }

  /** Putting the head of a list into one of the two parts of a split of its tail splits the list. */
  lemma SplitStep<T>(f: T, rest: seq<T>, a: seq<T>, b: seq<T>, a': seq<T>, b': seq<T>)
    requires multiset(a) + multiset(b) == multiset(rest)
    requires (a' == [f] + a && b' == b) || (a' == a && b' == [f] + b)
    ensures multiset(a') + multiset(b') == multiset([f] + rest)
  {
    assert multiset([f] + rest) == multiset([f]) + multiset(rest);
  }

  /** A list with no image yields no images and keeps every file among the others. */
  lemma {:induction false} NoImages(files: seq<string>)
    requires forall k :: 0 <= k < |files| ==> !IsImage(files[k])
    ensures Images(files) == [] && NonImages(files) == files
  {
    if files != [] {
      NoImages(files[1..]);
    }
  }

  // ---------------------------------------------------------------------
  // Groq: groq_api

  /** A Groq client: the completion for the messages and the model, or an error. */
  type GroqClient = (seq<Message>, string) -> Reply

  const DefaultGroqModel: string := "openai/gpt-oss-120b"

  function GroqReplies(ms: seq<Message>, model: string, clients: seq<GroqClient>): (r: seq<Reply>)
    ensures |r| == |clients|
  {
    seq(|clients|, i requires 0 <= i < |clients| => clients[i](ms, model))
  }

  /**
   * The answer of `groq_api` for the messages it sends. The closing log line
   * reads the last message's content, so an empty message list raises
   * `IndexError` once the client loop has produced an answer.
   */
  function GroqAnswer(ms: seq<Message>, model: string, clients: seq<GroqClient>): Result<string> {
    var a := Rotate(GroqReplies(ms, model, clients), "Error ", None);
    if a.Ok? && ms == [] then Raised("IndexError: list index out of range") else a
  }

  /**
   * With at least one client and at least one message `groq_api` never
   * raises: if every client fails, the last `Error <e>` string is returned
   * as the answer. With no message at all it always raises.
   */
  lemma GroqNeverRaises(ms: seq<Message>, model: string, clients: seq<GroqClient>)
    ensures GroqAnswer(ms, model, clients).Ok? <==> clients != [] && ms != []
    ensures ms != [] && clients != [] && FirstSuccess(GroqReplies(ms, model, clients)) == |clients| ==>
      GroqAnswer(ms, model, clients) == Ok("Error " + clients[|clients| - 1](ms, model).err)
  {
  }

  /** The messages `groq_api` (and `groq_api_compound`) send: attachments' text goes onto the last message. */
  function GroqMessages(h: History, files: seq<string>, rd: Readers): (r: Result<seq<Message>>)
    ensures r.Raised? <==> files != [] && Normalise(h) == []
    ensures r.Ok? ==> |r.value| == |Normalise(h)| && forall i :: 0 <= i < |r.value| - 1 ==> r.value[i] == Normalise(h)[i]
    ensures r.Ok? && r.value != [] ==>
      var last := Normalise(h)[|r.value| - 1];
      r.value[|r.value| - 1] == Message(last.role, last.content + FilesText(files, rd))
  {
    var ms := Normalise(h);
    if files == [] then Ok(ms)
    else if ms == [] then Raised("IndexError: list index out of range")
    else Ok(AppendToLast(ms, FilesText(files, rd)))
  }

  /**
   * `groq_api`: the clients are tried in list order and the first success
   * ends the loop; `tried` is the number of clients called.
   */
  method GroqApi(h: History, files: seq<string>, model: string, clients: seq<GroqClient>, rd: Readers)
    returns (r: Result<string>, tried: nat)
    ensures GroqMessages(h, files, rd).Raised? ==> r.Raised? && tried == 0
    ensures Normalise(h) == [] ==> r.Raised?
    ensures GroqMessages(h, files, rd).Ok? ==>
      var ms := GroqMessages(h, files, rd).value;
      var k := FirstSuccess(GroqReplies(ms, model, clients));
      r == GroqAnswer(ms, model, clients) &&
      tried == (if k < |clients| then k + 1 else |clients|)
  {
    var prepared := GroqMessages(h, files, rd);
    if prepared.Raised? {
      return Raised(prepared.error), 0;
    }
    var ms := prepared.value;
    ghost var replies := GroqReplies(ms, model, clients);
    var answer: Option<string> := None;
    var i := 0;
    tried := 0;
    while i < |clients|
      invariant 0 <= i <= |clients| && tried == i
      invariant forall j :: 0 <= j < i ==> replies[j].Failure?
      invariant i == 0 ==> answer.None?
      invariant i > 0 ==> answer == Some("Error " + replies[i - 1].err)
      invariant Rotate(replies, "Error ", None) == Rotate(replies[i..], "Error ", answer)
    {
      var reply := clients[i](ms, model);
      tried := tried + 1;
      assert replies[i..][0] == reply && replies[i..][1..] == replies[i + 1..];
      if reply.Success? {
        assert FirstSuccess(replies) == i;
        if ms == [] {
          return Raised("IndexError: list index out of range"), tried;
        }
        return Ok(reply.text), tried;
      }
      answer := Some("Error " + reply.err);
      i := i + 1;
    }
    assert FirstSuccess(replies) == |clients|;
    if answer.None? {
      r := Raised("UnboundLocalError: answer");
    } else if ms == [] {
      r := Raised("IndexError: list index out of range");
    } else {
      r := Ok(answer.value);
    }
  }

  // ---------------------------------------------------------------------
  // Groq: groq_api_compound

  /** One tool the compound model ran: `{tool.type: tool.arguments}`. */
  datatype ExecutedTool = ExecutedTool(kind: string, arguments: string)

  datatype CompoundReply = Completed(text: string, executed: seq<ExecutedTool>) | CompoundFailed(err: string)

  /** A compound client: messages, model and enabled tools to a completion with its executed tools, or an error. */
  type CompoundClient = (seq<Message>, string, seq<string>) -> CompoundReply

  /** What `groq_api_compound` returns: the answer alone, or the answer with the executed tools. */
  datatype CompoundResult = AnswerOnly(answer: string) | WithTools(answer: string, tools: seq<ExecutedTool>)

  const CompoundModels: seq<string> := ["groq/compound", "groq/compound-mini"]

  const BaseCompoundTools: seq<string> := ["web_search", "wolfram_alpha", "code_interpreter", "visit_website"]

  function AsReply(c: CompoundReply): Reply {
    match c
    case Completed(t, _) => Success(t)
    case CompoundFailed(e) => Failure(e)
  }

  /**
   * The retry loop of `groq_api_compound` over a non-empty client list: the
   * first completion's text and executed tools, or the last error and no tools.
   */
  method TryCompound(ms: seq<Message>, model: string, enabled: seq<string>, clients: seq<CompoundClient>)
    returns (answer: string, executed: seq<ExecutedTool>)
    requires clients != []
    ensures var replies := seq(|clients|, i requires 0 <= i < |clients| => clients[i](ms, model, enabled));
      var plain := seq(|clients|, i requires 0 <= i < |clients| => AsReply(replies[i]));
      var k := FirstSuccess(plain);
      answer == (if k < |clients| then replies[k].text else "Error " + plain[|clients| - 1].err) &&
      executed == (if k < |clients| then replies[k].executed else [])
  {
    ghost var replies := seq(|clients|, i requires 0 <= i < |clients| => clients[i](ms, model, enabled));
    ghost var plain := seq(|clients|, i requires 0 <= i < |clients| => AsReply(replies[i]));
    answer, executed := "", [];
    var i := 0;
    while i < |clients|
      invariant 0 <= i <= |clients|
      invariant forall j :: 0 <= j < i ==> plain[j].Failure?
      invariant i > 0 ==> answer == "Error " + plain[i - 1].err && executed == []
    {
      var reply := clients[i](ms, model, enabled);
      assert reply == replies[i] && plain[i] == AsReply(reply);
      if reply.Completed? {
        assert FirstSuccess(plain) == i;
        return reply.text, reply.executed;
      }
      answer, executed := "Error " + reply.err, [];
      i := i + 1;
    }
    assert FirstSuccess(plain) == |clients|;
  }

  /**
   * `groq_api_compound`: the model is forced into the compound family, the
   * enabled tools are the four fixed ones plus `browser_automation` when
   * asked, and the clients are tried in order. The executed tools are those of
   * the successful completion, and none when the last attempt failed. With no
   * client at all `executed_tools` is never bound and the call raises; with no
   * message at all the closing log line's `messages[-1]` raises.
   */
  method GroqCompound(h: History, model: string, files: seq<string>, onlyAnswer: bool, browserAutomation: bool,
                      clients: seq<CompoundClient>, rd: Readers)
    returns (r: Result<CompoundResult>, usedModel: string, enabled: seq<string>)
    ensures usedModel == if model in CompoundModels then model else "groq/compound"
    ensures enabled == BaseCompoundTools + (if browserAutomation then ["browser_automation"] else [])
    ensures (GroqMessages(h, files, rd).Raised? || clients == [] || Normalise(h) == []) ==> r.Raised?
    ensures GroqMessages(h, files, rd).Ok? && clients != [] && Normalise(h) != [] ==>
      var ms := GroqMessages(h, files, rd).value;
      var replies := seq(|clients|, i requires 0 <= i < |clients| => clients[i](ms, usedModel, enabled));
      var plain := seq(|clients|, i requires 0 <= i < |clients| => AsReply(replies[i]));
      var k := FirstSuccess(plain);
      var answer := if k < |clients| then replies[k].text else "Error " + plain[|clients| - 1].err;
      var tools := if k < |clients| then replies[k].executed else [];
      r == Ok(if onlyAnswer then AnswerOnly(answer) else WithTools(answer, tools))
  {
    usedModel := model;
    if model !in CompoundModels {
      usedModel := "groq/compound";
    }
    var prepared := GroqMessages(h, files, rd);
    enabled := BaseCompoundTools;
    if browserAutomation {
      enabled := enabled + ["browser_automation"];
    }
    if prepared.Raised? {
      return Raised(prepared.error), usedModel, enabled;
    }
    var ms := prepared.value;
    if clients == [] {
      return Raised("UnboundLocalError: executed_tools"), usedModel, enabled;
    }
    var answer, executed := TryCompound(ms, usedModel, enabled, clients);
    if ms == [] {
      return Raised("IndexError: list index out of range"), usedModel, enabled;
    }
    var tools := if executed != [] then executed else [];
    if onlyAnswer {
      r := Ok(AnswerOnly(answer));
    } else {
      r := Ok(WithTools(answer, tools));
    }
  }

  // ---------------------------------------------------------------------
  // Gemini: genai_api

  /** One history entry of a Gemini chat: `{'role': ..., 'parts': ...}`. */
  datatype GeminiTurn = GeminiTurn(role: string, parts: string)

  /** What is sent to the chat session: a text, or a list of the text and the opened images. */
  datatype GeminiRequest =
    | TextOnly(model: string, history: seq<GeminiTurn>, text: string)
    | Multimodal(model: string, history: seq<GeminiTurn>, text: string, images: seq<string>)

  /** The Gemini chat session: the answer to a request, or an exception. */
  type GeminiBackend = GeminiRequest -> Result<string>

  const GeminiModels: seq<string> := ["gemini-2.5-flash", "gemini-2.5-pro", "gemini-2.5-flash-lite"]

  const DefaultGeminiModel: string := "gemini-2.5-flash"

  /** Gemini knows only two roles: user and system turns are the user's, every other is the model's. */
  function RoleFor(role: string): string {
    if role == "user" || role == "system" then "user" else "model"
  }

  /** The model looked up by name, the flash model for an unknown name. */
  function ModelFor(model: string): (r: string)
    ensures r in GeminiModels
    ensures model in GeminiModels ==> r == model
  {
    if model in GeminiModels then model else DefaultGeminiModel
  }

  function FormatHistory(ms: seq<Message>): (r: seq<GeminiTurn>)
    ensures |r| == |ms|
    ensures forall i :: 0 <= i < |ms| ==> r[i] == GeminiTurn(RoleFor(ms[i].role), ms[i].content)
  {
    if ms == [] then [] else [GeminiTurn(RoleFor(ms[0].role), ms[0].content)] + FormatHistory(ms[1..])
  }

  /** The text appended to the user message for the non-image files, one `files_to_text` call per file. */
  function AttachedText(files: seq<string>, rd: Readers): (r: string)
    ensures r == "" <==> NonImages(files) == []
  {
    if files == [] then ""
    else if IsImage(files[0]) then AttachedText(files[1..], rd)
    else FilesText([files[0]], rd) + AttachedText(files[1..], rd)
  }

  lemma ImagesAppend(files: seq<string>, p: string)
    ensures Images(files + [p]) == Images(files) + (if IsImage(p) then [p] else [])
  {
    if files != [] {
      assert (files + [p])[1..] == files[1..] + [p];
      ImagesAppend(files[1..], p);
    }
  }

  lemma NonImagesAppend(files: seq<string>, p: string)
    ensures NonImages(files + [p]) == NonImages(files) + (if IsImage(p) then [] else [p])
  {
    if files != [] {
      assert (files + [p])[1..] == files[1..] + [p];
      NonImagesAppend(files[1..], p);
    }
  }

  /** The user message and the earlier messages; `messages[-1]` of an empty list raises. */
  function GenaiInput(h: History): Result<(string, seq<Message>)> {
    match h
    case Prompt(s) => Ok((s, []))
    case Dialogue(ms) =>
      if ms == [] then Raised("IndexError: list index out of range")
      else Ok((ms[|ms| - 1].content, ms[..|ms| - 1]))
  }

  /** The request `genai_api` sends for a user message, earlier messages, files and model name. */
  function GeminiRequestOf(user: string, earlier: seq<Message>, files: seq<string>, model: string, rd: Readers): GeminiRequest {
    var text := user + AttachedText(files, rd);
    if Images(files) != [] then Multimodal(ModelFor(model), FormatHistory(earlier), text, Images(files))
    else TextOnly(ModelFor(model), FormatHistory(earlier), text)
  }

  /** The answer of `genai_api`: the session's answer to the request, or the exception raised. */
  function GenaiAnswer(h: History, files: seq<string>, model: string, rd: Readers, send: GeminiBackend): Result<string> {
    match GenaiInput(h)
    case Raised(e) => Raised(e)
    case Ok(input) => send(GeminiRequestOf(input.0, input.1, files, model, rd))
  }

  /**
   * The request's shape: its history has one entry per earlier message (so
   * `len(messages) - 1` for a list, none for a string) with the mapped role,
   * the model is a known one, and the multimodal form is used iff some file
   * is an image.
   */
  lemma GeminiRequestShape(h: History, files: seq<string>, model: string, rd: Readers)
    requires GenaiInput(h).Ok?
    ensures var input := GenaiInput(h).value;
      var req := GeminiRequestOf(input.0, input.1, files, model, rd);
      |req.history| == (if h.Prompt? then 0 else |h.messages| - 1) &&
      (h.Dialogue? ==> forall i :: 0 <= i < |req.history| ==>
        req.history[i] == GeminiTurn(RoleFor(h.messages[i].role), h.messages[i].content)) &&
      (h.Prompt? ==> StartsWith(req.text, h.text)) &&
      (h.Dialogue? ==> StartsWith(req.text, h.messages[|h.messages| - 1].content)) &&
      req.model in GeminiModels &&
      (req.Multimodal? <==> exists k :: 0 <= k < |files| && IsImage(files[k]))
  {
    var input := GenaiInput(h).value;
    var text := input.0 + AttachedText(files, rd);
    assert text[..|input.0|] == input.0;
    ImagesEmptyIff(files);
  }

  lemma {:induction false} ImagesEmptyIff(files: seq<string>)
    ensures Images(files) != [] <==> exists k :: 0 <= k < |files| && IsImage(files[k])
  {
    if files != [] {
      ImagesEmptyIff(files[1..]);
      if exists k :: 0 <= k < |files[1..]| && IsImage(files[1..][k]) {
        var k :| 0 <= k < |files[1..]| && IsImage(files[1..][k]);
        assert IsImage(files[k + 1]);
      }
      if exists k :: 0 <= k < |files| && IsImage(files[k]) {
        var k :| 0 <= k < |files| && IsImage(files[k]);
        if k > 0 { assert IsImage(files[1..][k - 1]); }
      }
    }
  }

  /** The loop of `genai_api` over the earlier messages: one Gemini turn per message, in order. */
  method FormatTurns(earlier: seq<Message>) returns (formatted: seq<GeminiTurn>)
    ensures formatted == FormatHistory(earlier)
  {
    formatted := [];
    var i := 0;
    while i < |earlier|
      invariant 0 <= i <= |earlier|
      invariant formatted == FormatHistory(earlier[..i])
    {
      assert earlier[..i + 1] == earlier[..i] + [earlier[i]];
      formatted := formatted + [GeminiTurn(RoleFor(earlier[i].role), earlier[i].content)];
      assert formatted == FormatHistory(earlier[..i + 1]);
      i := i + 1;
    }
    assert earlier[..i] == earlier;
  }

  /** The loop of `genai_api` over the files: images are collected, every other file's text is appended. */
  method CollectFiles(user: string, files: seq<string>, rd: Readers) returns (message: string, imageFiles: seq<string>)
    ensures message == user + AttachedText(files, rd)
    ensures imageFiles == Images(files)
  {
    message := user;
    imageFiles := [];
    var j := 0;
    while j < |files|
      invariant 0 <= j <= |files|
      invariant imageFiles + Images(files[j..]) == Images(files)
      invariant message + AttachedText(files[j..], rd) == user + AttachedText(files, rd)
    {
      var left := files[j..];
      assert left[0] == files[j] && left[1..] == files[j + 1..];
      if IsImage(files[j]) {
        assert Images(left) == [files[j]] + Images(files[j + 1..]);
        AppendAssociative(imageFiles, [files[j]], Images(files[j + 1..]));
        imageFiles := imageFiles + [files[j]];
      } else {
        var piece := FilesText([files[j]], rd);
        assert AttachedText(left, rd) == piece + AttachedText(files[j + 1..], rd);
        AppendAssociative(message, piece, AttachedText(files[j + 1..], rd));
        message := message + piece;
      }
      j := j + 1;
    }
    assert files[j..] == [];
    assert Images([]) == [] && AttachedText([], rd) == "";
  }

  /** `genai_api`: map the history turn by turn, then go through the files, then send. */
  method GenaiApi(h: History, files: seq<string>, model: string, rd: Readers, send: GeminiBackend)
    returns (r: Result<string>)
    ensures r == GenaiAnswer(h, files, model, rd, send)
  {
    var userMessage: string;
    var formatted: seq<GeminiTurn> := [];
    match h {
      case Prompt(s) =>
        userMessage := s;
      case Dialogue(ms) =>
        if ms == [] {
          return Raised("IndexError: list index out of range");
        }
        userMessage := ms[|ms| - 1].content;
        formatted := FormatTurns(ms[..|ms| - 1]);
    }
    var imageFiles;
    userMessage, imageFiles := CollectFiles(userMessage, files, rd);
    var name := ModelFor(model);
    if imageFiles != [] {
      r := send(Multimodal(name, formatted, userMessage, imageFiles));
    } else {
      r := send(TextOnly(name, formatted, userMessage));
    }
  }

  // ---------------------------------------------------------------------
  // Routing: llm_api

  /** A backend call `llm_api` made. */
  datatype Backend = GeminiCall | GroqCall

  /**
   * `llm_api`: normalise, append the non-image files' text to the last
   * message, keep only the images as files, then route. Gemini goes first
   * (with the images) when the provider is Google or an image is attached, and
   * on an exception Groq answers without the images; otherwise Groq goes
   * first and on an exception Gemini answers without files. An exception of
   * the fallback propagates. `sent` is the message list after the in-place
   * append, `calls` the backends called in order.
   */
  method LlmApi(h: History, files: seq<string>, provider: Provider,
                clients: seq<GroqClient>, send: GeminiBackend, rd: Readers)
    returns (r: Result<string>, sent: seq<Message>, calls: seq<Backend>)
    ensures Normalise(h) == [] ==> r.Raised? && calls == []
    ensures Normalise(h) != [] ==>
      sent == AppendToLast(Normalise(h), FilesText(NonImages(files), rd)) &&
      var g := GenaiAnswer(Dialogue(sent), Images(files), DefaultGeminiModel, rd, send);
      var q := GroqAnswer(sent, DefaultGroqModel, clients);
      if provider == Google || Images(files) != [] then
        (g.Ok? ==> r == g && calls == [GeminiCall]) &&
        (g.Raised? ==> r == q && calls == [GeminiCall, GroqCall])
      else
        (q.Ok? ==> r == q && calls == [GroqCall]) &&
        (q.Raised? ==> r == GenaiAnswer(Dialogue(sent), [], DefaultGeminiModel, rd, send) && calls == [GroqCall, GeminiCall])
  {
    sent := Normalise(h);
    calls := [];
    if sent == [] {
      return Raised("IndexError: list index out of range"), sent, calls;
    }
    var extra := FilesToText(NonImages(files), rd);
    assert extra == FilesText(NonImages(files), rd);
    sent := AppendToLast(sent, extra);
    var images := Images(files);
    if provider == Google || images != [] {
      r, calls := GeminiFirst(sent, images, clients, send, rd);
    } else {
      r, calls := GroqFirst(sent, clients, send, rd);
    }
  }

  /** The Gemini-first route of `llm_api`: Gemini with the images, then Groq if Gemini raises. */
  method GeminiFirst(sent: seq<Message>, images: seq<string>, clients: seq<GroqClient>, send: GeminiBackend, rd: Readers)
    returns (r: Result<string>, calls: seq<Backend>)
    ensures var g := GenaiAnswer(Dialogue(sent), images, DefaultGeminiModel, rd, send);
      (g.Ok? ==> r == g && calls == [GeminiCall]) &&
      (g.Raised? ==> r == GroqAnswer(sent, DefaultGroqModel, clients) && calls == [GeminiCall, GroqCall])
  {
    calls := [GeminiCall];
    r := GenaiApi(Dialogue(sent), images, DefaultGeminiModel, rd, send);
    if r.Raised? {
      calls := calls + [GroqCall];
      assert GroqMessages(Dialogue(sent), [], rd) == Ok(sent);
      var tried;
      r, tried := GroqApi(Dialogue(sent), [], DefaultGroqModel, clients, rd);
    }
  }

  /** The Groq-first route of `llm_api`: Groq, then Gemini without images if Groq raises. */
  method GroqFirst(sent: seq<Message>, clients: seq<GroqClient>, send: GeminiBackend, rd: Readers)
    returns (r: Result<string>, calls: seq<Backend>)
    ensures var q := GroqAnswer(sent, DefaultGroqModel, clients);
      (q.Ok? ==> r == q && calls == [GroqCall]) &&
      (q.Raised? ==> r == GenaiAnswer(Dialogue(sent), [], DefaultGeminiModel, rd, send) && calls == [GroqCall, GeminiCall])
  {
    calls := [GroqCall];
    assert GroqMessages(Dialogue(sent), [], rd) == Ok(sent);
    var tried;
    r, tried := GroqApi(Dialogue(sent), [], DefaultGroqModel, clients, rd);
    if r.Raised? {
      calls := calls + [GeminiCall];
      r := GenaiApi(Dialogue(sent), [], DefaultGeminiModel, rd, send);
    }
  }

  /**
   * Because `groq_api` turns every client error into an answer, the Groq-first
   * route never reaches Gemini while at least one Groq client is configured.
   */
  lemma GroqFirstNeverFallsBack(sent: seq<Message>, clients: seq<GroqClient>)
    requires clients != [] && sent != []
    ensures GroqAnswer(sent, DefaultGroqModel, clients).Ok?
  {
    GroqNeverRaises(sent, DefaultGroqModel, clients);
  }
}

=== FILE: imdb.dfy ===
/**
 * The IMDb tool of src/agent/tools/imdb.py (and its copy in the older
 * src/agent/tools.py): the reshaping of a film's details in
 * `imdb_get_film_by_id` and the choice of the first search hit in
 * `imdb_api`. The PyMovieDb calls and the poster download are parameters;
 * their JSON text is taken as already parsed.
 */
module Imdb {
  import opened Common

  /** A value `json.loads` produces. */
  datatype Json = Null | Bool(b: bool) | Number(n: real) | Str(s: string) | Array(items: seq<Json>) | Object(fields: map<string, Json>)

  /** `j[key]` for a string key: the value, or the `KeyError`/`TypeError` it raises. */
  function Field(j: Json, key: string): (r: Result<Json>)
    ensures r.Ok? <==> j.Object? && key in j.fields
    ensures r.Ok? ==> r.value == j.fields[key]
  {
    match j
    case Object(fields) => if key in fields then Ok(fields[key]) else Raised("KeyError: " + key)
    case _ => Raised("TypeError: not subscriptable by a string")
  }

  /** `response.get('status', False) == 404`. */
  predicate IsNotFound(fields: map<string, Json>) {
    "status" in fields && fields["status"] == Number(404.0)
  }

  const TitleBase: string := "https://www.imdb.com/title/"

  /** `download_image(url)`: the saved file's name, `None` when the status is not 200, or an exception. */
  type ImageDownloader = Json -> Result<Option<string>>

  /** A Python value in the poster list: the file name, or `None`. */
  function PosterFile(d: Option<string>): Json {
    match d
    case Some(f) => Str(f)
    case None => Null
  }

  /** `review.reviewBody`, `rating.ratingValue` and `rating.ratingCount` can be read, and there is a poster. */
  predicate Complete(fields: map<string, Json>) {
    "poster" in fields &&
    "review" in fields && fields["review"].Object? && "reviewBody" in fields["review"].fields &&
    "rating" in fields && fields["rating"].Object? &&
    "ratingValue" in fields["rating"].fields && "ratingCount" in fields["rating"].fields
  }

  /** The keys the reshaping sets. */
  const Reshaped: set<string> := {"url", "review", "rating", "ratingCount"}

  /**
   * The details `imdb_get_film_by_id` builds from a complete response: the
   * page link set, the poster taken out, and the review and the rating
   * flattened to their body, value and count; every other key is kept.
   */
  function Reshape(imdbId: string, f: map<string, Json>): (d: map<string, Json>)
    requires Complete(f)
    ensures d.Keys == f.Keys - {"poster"} + Reshaped
    ensures d["url"] == Str(TitleBase + imdbId)
    ensures d["review"] == f["review"].fields["reviewBody"]
    ensures d["rating"] == f["rating"].fields["ratingValue"]
    ensures d["ratingCount"] == f["rating"].fields["ratingCount"]
    ensures forall k :: k in f && k !in Reshaped && k != "poster" ==> d[k] == f[k]
  {
    (f["url" := Str(TitleBase + imdbId)] - {"poster"})
      ["review" := f["review"].fields["reviewBody"]]
      ["rating" := f["rating"].fields["ratingValue"]]
      ["ratingCount" := f["rating"].fields["ratingCount"]]
  }

  /** `imdb_get_film_by_id` raises: not an object, or not a 404 and incomplete or the download raised. */
  predicate FilmFails(response: Json, downloadPoster: bool, download: ImageDownloader) {
    !response.Object? ||
    (!IsNotFound(response.fields) &&
     (!Complete(response.fields) || (downloadPoster && download(response.fields["poster"]).Raised?)))
  }

  /** What `imdb_get_film_by_id` returns: `('Error', [])`, or the details and the one-element poster list. */
  datatype Film = NotFound | Film(details: map<string, Json>, posters: seq<Json>)

  /**
   * `imdb_get_film_by_id(imdb_id, download_image_or_not)` for the parsed
   * response: a copy of the response with the page link set, the poster
   * taken out (downloaded or not) and the review and rating flattened.
   */
  method GetFilmById(imdbId: string, response: Json, downloadPoster: bool, download: ImageDownloader)
    returns (r: Result<Film>)
    ensures response.Object? && IsNotFound(response.fields) ==> r == Ok(NotFound)
    ensures r.Raised? <==>
      !response.Object? ||
      (!IsNotFound(response.fields) &&
       (!Complete(response.fields) || (downloadPoster && download(response.fields["poster"]).Raised?)))
    ensures r.Ok? && r.value.Film? ==>
      var f, d := response.fields, r.value.details;
      Complete(f) &&
      d.Keys == f.Keys - {"poster"} + Reshaped &&
      d["url"] == Str(TitleBase + imdbId) &&
      d["review"] == f["review"].fields["reviewBody"] &&
      d["rating"] == f["rating"].fields["ratingValue"] &&
      d["ratingCount"] == f["rating"].fields["ratingCount"] &&
      (forall k :: k in f && k !in Reshaped && k != "poster" ==> d[k] == f[k]) &&
      r.value.posters == [if downloadPoster then PosterFile(download(f["poster"]).value) else f["poster"]]
    ensures r.Ok? && r.value.Film? ==> r.value.details == Reshape(imdbId, response.fields)
    ensures response.Object? && !FilmFails(response, downloadPoster, download) && !IsNotFound(response.fields) ==>
      r.Ok? && r.value.Film?
  {
    if !response.Object? {
      return Raised("AttributeError: no attribute 'get'");
    }
    var fields := response.fields;
    if IsNotFound(fields) {
      return Ok(NotFound);
    }
    var result := fields;
    result := result["url" := Str(TitleBase + imdbId)];
    if "poster" !in fields {
      return Raised("KeyError: poster");
    }
    var poster: Json;
    if downloadPoster {
      var saved := download(fields["poster"]);
      if saved.Raised? {
        return Raised(saved.error);
      }
      poster := PosterFile(saved.value);
    } else {
      poster := fields["poster"];
    }
    result := result - {"poster"};
    var review := Field(response, "review");
    var body := if review.Ok? then Field(review.value, "reviewBody") else review;
    if body.Raised? {
      return Raised(body.error);
    }
    result := result["review" := body.value];
    var rating := Field(response, "rating");
    var value := if rating.Ok? then Field(rating.value, "ratingValue") else rating;
    if value.Raised? {
      return Raised(value.error);
    }
    result := result["rating" := value.value];
    var count := Field(rating.value, "ratingCount");
    if count.Raised? {
      return Raised(count.error);
    }
    result := result["ratingCount" := count.value];
    return Ok(Film(result, [poster]));
  }

  /**
   * The id of the first hit of a parsed search response
   * (`json.loads(...)['results'][0]['id']`), `None` when the results are
   * empty, or the exception. An empty string or object counts as empty,
   * as `len` does; any other non-list raises when indexed.
   */
  function FirstId(response: Result<Json>): (r: Result<Option<string>>)
    ensures r == Ok(None) <==>
      response.Ok? && Field(response.value, "results").Ok? &&
      var hits := Field(response.value, "results").value;
      (hits == Array([]) || hits == Str([]) || hits == Object(map[]))
    ensures r.Ok? && r.value.Some? ==>
      response.Ok? && Field(response.value, "results").Ok? &&
      var hits := Field(response.value, "results").value;
      hits.Array? && hits.items != [] && Field(hits.items[0], "id") == Ok(Str(r.value.value))
  {
    if response.Raised? then Raised(response.error)
    else
      match Field(response.value, "results")
      case Raised(e) => Raised(e)
      case Ok(hits) =>
        match hits
        case Array(items) =>
          if items == [] then Ok(None)
          else (
            match Field(items[0], "id")
            case Ok(Str(id)) => Ok(Some(id))
            case Ok(_) => Raised("a non-string id is not modelled")
            case Raised(e) => Raised(e))
        case Str(s) => if s == [] then Ok(None) else Raised("TypeError: string indices must be integers")
        case Object(m) => if m == map[] then Ok(None) else Raised("KeyError: 0")
        case _ => Raised("TypeError: object has no len()")
  }

  /** `imdb_api` as it stands: `('Error', [])`, the bare `'Error'` of a 404, or the details alone. */
  datatype Answer = NoResults | ErrorText | Details(details: map<string, Json>)

  /**
   * `imdb_api(title)`: search, take the first hit's id, and return its
   * details with the poster downloaded and then discarded.
   */
  method ImdbApi(title: string, search: string -> Result<Json>, getById: string -> Result<Json>, download: ImageDownloader)
    returns (r: Result<Answer>)
    ensures var first := FirstId(search(title));
      (first.Raised? ==> r.Raised?) &&
      (first == Ok(None) ==> r == Ok(NoResults)) &&
      (first.Ok? && first.value.Some? ==>
        var response := getById(first.value.value);
        (response.Raised? ==> r.Raised?) &&
        (response.Ok? && response.value.Object? && IsNotFound(response.value.fields) ==> r == Ok(ErrorText)) &&
        (r.Ok? && r.value.Details? ==>
          "url" in r.value.details && r.value.details["url"] == Str(TitleBase + first.value.value) &&
          "poster" !in r.value.details) &&
        (response.Ok? ==> (r.Raised? <==> FilmFails(response.value, true, download))) &&
        (response.Ok? && !FilmFails(response.value, true, download) && !IsNotFound(response.value.fields) ==>
          r == Ok(Details(Reshape(first.value.value, response.value.fields)))))
  {
    var first := FirstId(search(title));
    if first.Raised? {
      return Raised(first.error);
    }
    if first.value.None? {
      return Ok(NoResults);
    }
    var id := first.value.value;
    var response := getById(id);
    if response.Raised? {
      return Raised(response.error);
    }
    var film := GetFilmById(id, response.value, true, download);
    if film.Raised? {
      return Raised(film.error);
    }
    match film.value {
      case NotFound => r := Ok(ErrorText);
      case Film(details, _) => r := Ok(Details(details));
    }
  }

  /** The older `imdb_api`: the bare `'Error'` for no results, otherwise the pair. */
  datatype LegacyAnswer = BareError | Pair(film: Film)

  /** `imdb_api(title)` in src/agent/tools.py. */
  method LegacyImdbApi(title: string, search: string -> Result<Json>, getById: string -> Result<Json>, download: ImageDownloader)
    returns (r: Result<LegacyAnswer>)
    ensures var first := FirstId(search(title));
      (first.Raised? ==> r.Raised?) &&
      (first == Ok(None) ==> r == Ok(BareError)) &&
      (first.Ok? && first.value.Some? ==>
        var response := getById(first.value.value);
        (response.Raised? ==> r.Raised?) &&
        (response.Ok? && response.value.Object? && IsNotFound(response.value.fields) ==> r == Ok(Pair(NotFound))) &&
        (r.Ok? && r.value.Pair? && r.value.film.Film? ==>
          "url" in r.value.film.details && r.value.film.details["url"] == Str(TitleBase + first.value.value) &&
          |r.value.film.posters| == 1) &&
        (response.Ok? ==> (r.Raised? <==> FilmFails(response.value, true, download))) &&
        (response.Ok? && !FilmFails(response.value, true, download) && !IsNotFound(response.value.fields) ==>
          var f := response.value.fields;
          r == Ok(Pair(Film(Reshape(first.value.value, f), [PosterFile(download(f["poster"]).value)])))))
  {
    var first := FirstId(search(title));
    if first.Raised? {
      return Raised(first.error);
    }
    if first.value.None? {
      return Ok(BareError);
    }
    var id := first.value.value;
    var response := getById(id);
    if response.Raised? {
      return Raised(response.error);
    }
    var film := GetFilmById(id, response.value, true, download);
    if film.Raised? {
      return Raised(film.error);
    }
    r := Ok(Pair(film.value));
  }
}

=== FILE: latex.dfy ===
/**
 * The LaTeX documents of src/agent/tools/latex.py (the same code sits in
 * the older src/agent/tools.py): compiling a document through latexonline
 * with up to three attempts repaired by the language model, and the
 * stripping of a code fence around the model's answer.
 *
 * The HTTP requests, the model and the md5 digest are parameters; each
 * request answers a status (and a text) or raises.
 */
module Latex {
  import opened Common

  // ---------------------------------------------------------------------
  // Fence stripping

  /** `answer[8:-4]` after `` ```latex ``, `answer[3:-4]` after a bare `` ``` ``, else unchanged. */
  function StripFence(answer: string): (r: string)
    ensures |r| <= |answer|
    ensures !StartsWith(answer, "```") ==> r == answer
  {
    if StartsWith(answer, "```latex") then Slice(answer, 8, -4)
    else if StartsWith(answer, "```") then Slice(answer, 3, -4)
    else answer
  }

  /** A body fenced as LaTeX and closed on its own line comes back exactly. */
  lemma LatexFenceRoundTrip(body: string)
    ensures StripFence("```latex" + body + "\n```") == body
  {
    var s := "```latex" + body + "\n```";
    assert s[..8] == "```latex";
    assert s[..3] == "```";
    assert s[8..|s| - 4] == body;
  }

  /** A body behind a bare fence comes back exactly, unless it begins with `latex`. */
  lemma BareFenceRoundTrip(body: string)
    requires !StartsWith(body, "latex")
    ensures StripFence("```" + body + "\n```") == body
  {
    var s := "```" + body + "\n```";
    assert s[..3] == "```";
    if |body| >= 5 {
      assert s[..8][3..] == body[..5];
      assert "```latex"[3..] == "latex";
    } else if |s| >= 8 {
      assert s[..8][3 + |body|] == '\n';
    }
    assert s[3..|s| - 4] == body;
  }

  // ---------------------------------------------------------------------
  // Documents

  const BeginDocument: string := "\\begin{document}"

  const EndDocument: string := "\\end{document}"

  /** The fixed preamble put before a content without a document environment, line by line. */
  const PreambleLines: seq<string> := [
    "\\documentclass[a4paper]{article}\n",
    "\\usepackage[english,russian]{babel}\n",
    "\\usepackage[utf8]{inputenc}\n",
    "\\usepackage{geometry}\n",
    "\\geometry{a4paper, left=15mm, right=15mm, top=15mm, bottom=17mm}\n",
    "\\usepackage{amsmath, amssymb, amsfonts}\n"]

  function Preamble(): string {
    Concat(PreambleLines)
  }

  /** `b` occurs in `a + b` right after `a`. */
  lemma Appended(a: string, b: string)
    ensures OccursAt(a + b, b, |a|)
  {
    assert (a + b)[|a|..|a| + |b|] == b;
  }

  /** An occurrence stays where it is when the text grows at the end. */
  lemma Extended(s: string, p: string, i: int, t: string)
    requires OccursAt(s, p, i)
    ensures OccursAt(s + t, p, i)
  {
    assert (s + t)[i..i + |p|] == s[i..i + |p|];
  }

  /** `pre`, then a document environment around the content. */
  function Enclose(pre: string, content: string): (r: string)
    ensures OccursAt(r, BeginDocument, |pre|) && OccursAt(r, content, |pre| + |BeginDocument| + 1)
    ensures OccursAt(r, pre, 0) && EndsWith(r, EndDocument)
  {
    var head := pre + BeginDocument + "\n";
    var r := head + content + "\n" + EndDocument;
    Appended(pre, BeginDocument);
    Extended(pre + BeginDocument, BeginDocument, |pre|, "\n");
    Extended(head, BeginDocument, |pre|, content);
    Extended(head + content, BeginDocument, |pre|, "\n");
    Extended(head + content + "\n", BeginDocument, |pre|, EndDocument);
    Appended(head, content);
    Extended(head + content, content, |head|, "\n");
    Extended(head + content + "\n", content, |head|, EndDocument);
    Appended([], pre);
    Extended(pre, pre, 0, BeginDocument);
    Extended(pre + BeginDocument, pre, 0, "\n");
    Extended(head, pre, 0, content);
    Extended(head + content, pre, 0, "\n");
    Extended(head + content + "\n", pre, 0, EndDocument);
    Appended(head + content + "\n", EndDocument);
    r
  }

  /**
   * A content without `\begin{document}` is put in the fixed preamble and a
   * document environment; a content that has one is kept. Either way the
   * result opens a document and holds the content.
   */
  function Wrap(content: string): (r: string)
    ensures Contains(r, BeginDocument) && Contains(r, content)
    ensures Contains(content, BeginDocument) ==> r == content
    ensures !Contains(content, BeginDocument) ==> OccursAt(r, Preamble(), 0) && EndsWith(r, EndDocument)
  {
    if Contains(content, BeginDocument) then
      Appended([], content);
      OccursAtContains(content, content, 0);
      content
    else
      var r := Enclose(Preamble(), content);
      OccursAtContains(r, BeginDocument, |Preamble()|);
      OccursAtContains(r, content, |Preamble()| + |BeginDocument| + 1);
      r
  }

  /** A latexonline answer. */
  datatype Response = Response(status: int, text: string)

  /** The compile request for a document: the response, or an exception. */
  type Compiler = string -> Result<Response>

  /** The model: the answer to a prompt, or an exception. */
  /** What the LaTeX tools ask the model: to repair a document that failed, or to write one from a text. */
  datatype Request = Repair(error: string, doc: string) | Convert(text: string)

  /**
   * The model, given the prompt built from a request (the fixed wording
   * around the error and the document, or around the text): its answer, or
   * an exception.
   */
  type Model = Request -> Result<string>

  predicate Compiles(compile: Compiler, doc: string) {
    compile(doc).Ok? && compile(doc).value.status == 200
  }

  /** What a call achieved: the file name, `None`, or the exception; and the documents sent to compile. */
  datatype Outcome = Outcome(file: Result<Option<string>>, sent: seq<string>)

  /**
   * `latex_to_pdf(content, turn)`: wrap the content, then go on with the
   * wrapped document.
   */
  function LatexToPdf(content: string, turn: int, compile: Compiler, llm: Model, md5: string -> string)
    : (r: Outcome)
    ensures turn > 3 ==> r == Outcome(Ok(None), [])
  {
    CompileFrom(Wrap(content), turn, compile, llm, md5)
  }

  /**
   * The rest of a turn for a wrapped document: stop with `None` past the
   * third turn, compile, and on a failure ask the model to repair the
   * document and start the next turn with its answer, wrapped.
   */
  function CompileFrom(doc: string, turn: int, compile: Compiler, llm: Model, md5: string -> string)
    : (r: Outcome)
    ensures turn > 3 ==> r == Outcome(Ok(None), [])
    decreases 4 - turn
  {
    if turn > 3 then Outcome(Ok(None), [])
    else
      match compile(doc)
      case Raised(e) => Outcome(Raised(e), [doc])
      case Ok(response) =>
        if response.status == 200 then Outcome(Ok(Some(md5(doc) + ".pdf")), [doc])
        else
          match llm(Repair(response.text, doc))
          case Raised(e) => Outcome(Raised(e), [doc])
          case Ok(answer) =>
            var rest := CompileFrom(Wrap(StripFence(answer)), turn + 1, compile, llm, md5);
            Outcome(rest.file, [doc] + rest.sent)
  }

  /**
   * The document a failed compile goes on with, when the model answers: a
   * document that compiles, or a fourth turn, is never retried, and a retry
   * is always a whole document.
   */
  function Retried(doc: string, turn: int, compile: Compiler, llm: Model): (r: Option<string>)
    ensures Compiles(compile, doc) || turn > 3 ==> r.None?
    ensures r.Some? ==> Contains(r.value, BeginDocument) && compile(doc).Ok?
  {
    if turn <= 3 && compile(doc).Ok? && compile(doc).value.status != 200 &&
       llm(Repair(compile(doc).value.text, doc)).Ok?
    then Some(Wrap(StripFence(llm(Repair(compile(doc).value.text, doc)).value)))
    else None
  }

  /** One turn: a retried document is compiled next and everything else ends the call after one document. */
  lemma Turn(doc: string, turn: int, compile: Compiler, llm: Model, md5: string -> string)
    requires turn <= 3
    ensures var r := CompileFrom(doc, turn, compile, llm, md5);
      match Retried(doc, turn, compile, llm)
      case Some(next) =>
        var rest := CompileFrom(next, turn + 1, compile, llm, md5);
        r == Outcome(rest.file, [doc] + rest.sent) && compile(doc).Ok? && !Compiles(compile, doc)
      case None =>
        r.sent == [doc] &&
        ((r.file.Ok? && r.file.value.Some?) <==> Compiles(compile, doc)) &&
        (r.file.Ok? && r.file.value.Some? ==> r.file.value.value == md5(doc) + ".pdf")
  {
  }

  /**
   * At most `4 - turn` documents are sent (so three from the first turn),
   * the first is the given one, and each opens a document.
   */
  lemma {:induction false} AttemptsBounded(doc: string, turn: int, compile: Compiler, llm: Model, md5: string -> string)
    requires Contains(doc, BeginDocument)
    ensures var r := CompileFrom(doc, turn, compile, llm, md5);
      |r.sent| <= (if turn > 3 then 0 else 4 - turn) &&
      (turn <= 3 ==> r.sent != [] && r.sent[0] == doc) &&
      forall d :: d in r.sent ==> Contains(d, BeginDocument)
    decreases 4 - turn
  {
    if turn <= 3 {
      Turn(doc, turn, compile, llm, md5);
      var next := Retried(doc, turn, compile, llm);
      if next.Some? {
        AttemptsBounded(next.value, turn + 1, compile, llm, md5);
      }
    }
  }

  /** Every document but the last failed to compile. */
  lemma {:induction false} EarlierAttemptsFailed(doc: string, turn: int, compile: Compiler, llm: Model, md5: string -> string)
    ensures var r := CompileFrom(doc, turn, compile, llm, md5);
      forall k :: 0 <= k < |r.sent| - 1 ==> compile(r.sent[k]).Ok? && !Compiles(compile, r.sent[k])
    decreases 4 - turn
  {
    if turn <= 3 {
      Turn(doc, turn, compile, llm, md5);
      var next := Retried(doc, turn, compile, llm);
      if next.Some? {
        EarlierAttemptsFailed(next.value, turn + 1, compile, llm, md5);
        FailedBefore(doc, CompileFrom(next.value, turn + 1, compile, llm, md5).sent, compile);
      }
    }
  }

  /** A failed document put in front of documents all of which but the last failed. */
  lemma FailedBefore(doc: string, sent: seq<string>, compile: Compiler)
    requires compile(doc).Ok? && !Compiles(compile, doc)
    requires forall k :: 0 <= k < |sent| - 1 ==> compile(sent[k]).Ok? && !Compiles(compile, sent[k])
    ensures var all := [doc] + sent;
      forall k :: 0 <= k < |all| - 1 ==> compile(all[k]).Ok? && !Compiles(compile, all[k])
  {
    var all := [doc] + sent;
    assert forall k :: 1 <= k < |all| ==> all[k] == sent[k - 1];
  }

  /** A file comes back exactly when the last document sent compiled, and it is named after its digest. */
  lemma {:induction false} FileFromLastAttempt(doc: string, turn: int, compile: Compiler, llm: Model, md5: string -> string)
    ensures var r := CompileFrom(doc, turn, compile, llm, md5);
      ((r.file.Ok? && r.file.value.Some?) <==> (r.sent != [] && Compiles(compile, r.sent[|r.sent| - 1]))) &&
      (r.file.Ok? && r.file.value.Some? ==> r.file.value.value == md5(r.sent[|r.sent| - 1]) + ".pdf")
    decreases 4 - turn
  {
    if turn <= 3 {
      Turn(doc, turn, compile, llm, md5);
      var r := CompileFrom(doc, turn, compile, llm, md5);
      match Retried(doc, turn, compile, llm) {
        case Some(next) =>
          FileFromLastAttempt(next, turn + 1, compile, llm, md5);
          var rest := CompileFrom(next, turn + 1, compile, llm, md5);
          assert r == Outcome(rest.file, [doc] + rest.sent) && !Compiles(compile, doc);
          LastOfSent(doc, rest, compile, md5);
        case None =>
          assert r.sent[|r.sent| - 1] == doc;
      }
    }
  }

  /** The file and the last document of an outcome are unchanged by putting a document in front. */
  lemma LastOfSent(doc: string, rest: Outcome, compile: Compiler, md5: string -> string)
    requires (rest.file.Ok? && rest.file.value.Some?) <==> (rest.sent != [] && Compiles(compile, rest.sent[|rest.sent| - 1]))
    requires rest.file.Ok? && rest.file.value.Some? ==> rest.file.value.value == md5(rest.sent[|rest.sent| - 1]) + ".pdf"
    requires rest.sent == [] ==> !Compiles(compile, doc)
    ensures var r := Outcome(rest.file, [doc] + rest.sent);
      ((r.file.Ok? && r.file.value.Some?) <==> (r.sent != [] && Compiles(compile, r.sent[|r.sent| - 1]))) &&
      (r.file.Ok? && r.file.value.Some? ==> r.file.value.value == md5(r.sent[|r.sent| - 1]) + ".pdf")
  {
    var sent := [doc] + rest.sent;
    if rest.sent != [] {
      assert sent[|sent| - 1] == rest.sent[|rest.sent| - 1];
    } else {
      assert sent[|sent| - 1] == doc;
    }
  }

  /**
   * `latex_to_pdf(content, turn)` as a whole: the wrapped content is sent
   * first, at most `4 - turn` documents are sent, each opens a document,
   * all but the last failed, and a file comes back exactly when the last
   * one compiled.
   */
  lemma LatexToPdfAttempts(content: string, turn: int, compile: Compiler, llm: Model, md5: string -> string)
    requires turn <= 3
    ensures var r := LatexToPdf(content, turn, compile, llm, md5);
      1 <= |r.sent| <= 4 - turn && r.sent[0] == Wrap(content) &&
      (forall d :: d in r.sent ==> Contains(d, BeginDocument)) &&
      (forall k :: 0 <= k < |r.sent| - 1 ==> !Compiles(compile, r.sent[k])) &&
      ((r.file.Ok? && r.file.value.Some?) <==> Compiles(compile, r.sent[|r.sent| - 1]))
  {
    AttemptsBounded(Wrap(content), turn, compile, llm, md5);
    EarlierAttemptsFailed(Wrap(content), turn, compile, llm, md5);
    FileFromLastAttempt(Wrap(content), turn, compile, llm, md5);
  }

  /**
   * `text_to_pdf_document`: ask the model for a document, strip white space
   * and a fence, and compile from the first turn.
   */
  function TextToPdfDocument(text: string, compile: Compiler, llm: Model, md5: string -> string): (r: Outcome)
    ensures llm(Convert(text)).Raised? ==> r.file.Raised? && r.sent == []
    ensures llm(Convert(text)).Ok? ==>
      1 <= |r.sent| <= 3 && r.sent[0] == Wrap(StripFence(Strip(llm(Convert(text)).value)))
  {
    match llm(Convert(text))
    case Raised(e) => Outcome(Raised(e), [])
    case Ok(answer) =>
      AttemptsBounded(Wrap(StripFence(Strip(answer))), 1, compile, llm, md5);
      LatexToPdf(StripFence(Strip(answer)), 1, compile, llm, md5)
  }

  /**
   * `text_to_pdf_document` as it stands: after compiling, the standard
   * logger's `info` is called with the keyword `error`, which it does not
   * take, so the call raises `TypeError` and the file name is lost. The
   * documents sent to the compiler are the same.
   */
  function TextToPdfDocumentAsWritten(text: string, compile: Compiler, llm: Model, md5: string -> string): (r: Outcome)
    ensures r.file.Raised?
    ensures r.sent == TextToPdfDocument(text, compile, llm, md5).sent
    ensures llm(Convert(text)).Ok? ==> 1 <= |r.sent| && r.sent[0] == Wrap(StripFence(Strip(llm(Convert(text)).value)))
  {
    var done := TextToPdfDocument(text, compile, llm, md5);
    if done.file.Raised? then done
    else Outcome(Raised("TypeError: _log() got an unexpected keyword argument 'error'"), done.sent)
  }
}

=== FILE: latex_images.dfy ===
/**
 * Rendering LaTeX expressions as images through the codecogs service
 * (`latex_expression_to_png` and `async_expressions_to_png` in
 * src/agent/tools/latex.py, and their copies in the older
 * src/agent/tools.py). The requests and the md5 digest are parameters.
 */
module LatexImages {
  import opened Common

  const CodecogsBase: string := "https://latex.codecogs.com/png.image?\\dpi{"

  /** The image link for an expression at a resolution: codecogs' PNG endpoint, the resolution, then the expression. */
  function CodecogsLink(size: int, expression: string): (r: string)
    ensures StartsWith(r, CodecogsBase + IntToString(size) + "}")
  {
    CodecogsBase + IntToString(size) + "}" + Replace(expression, " ", "%20")
  }

  /** Replacing the spaces leaves none. */
  lemma {:induction false} NoSpaceLeft(s: string)
    ensures ' ' !in Replace(s, " ", "%20")
    decreases |s|
  {
    if |s| >= 1 {
      NoSpaceLeft(s[1..]);
      assert s[..1] == [s[0]];
    }
  }

  /** A link holds no space: it can be requested as it is. */
  lemma LinkHasNoSpace(size: int, expression: string)
    ensures ' ' !in CodecogsLink(size, expression)
  {
    NoSpaceLeft(expression);
    var digits := IntToString(size);
    assert ' ' !in digits;
    assert ' ' !in CodecogsBase;
  }

  /** An expression without spaces ends its link unchanged. */
  lemma LinkEndsWithExpression(size: int, expression: string)
    requires ' ' !in expression
    ensures EndsWith(CodecogsLink(size, expression), expression)
  {
    forall i ensures !OccursAt(expression, " ", i) {
      if 0 <= i && i + 1 <= |expression| {
        assert expression[i..i + 1] == [expression[i]];
      }
    }
    ReplaceNowhere(expression, " ", "%20");
    var link := CodecogsLink(size, expression);
    var head := CodecogsBase + IntToString(size) + "}";
    assert link == head + expression;
    assert link[|head|..] == expression;
  }

  /** The codecogs request: its status code, or an exception. */
  type ImageService = string -> Result<int>

  /** `expression.strip('$')`: every leading and trailing dollar sign removed. */
  function Unwrapped(expression: string): (r: string)
    ensures |r| <= |expression|
    ensures r == [] || (r[0] != '$' && r[|r| - 1] != '$')
    decreases |expression|
  {
    if expression != [] && expression[0] == '$' then Unwrapped(expression[1..])
    else if expression != [] && expression[|expression| - 1] == '$' then Unwrapped(expression[..|expression| - 1])
    else expression
  }

  /**
   * `latex_expression_to_png`: on status 200 the message and the one file
   * named after the digest of the unwrapped expression; otherwise, or on an
   * exception, nothing.
   */
  function ExpressionToPng(expression: string, size: int, get: ImageService, md5: string -> string)
    : (r: Option<(string, seq<string>)>)
    ensures r.Some? <==> get(CodecogsLink(size, Unwrapped(expression))) == Ok(200)
    ensures r.Some? ==>
      r.value.1 == [md5(Unwrapped(expression)) + ".png"] && StartsWith(r.value.0, "A rendering of the expression ")
  {
    var e := Unwrapped(expression);
    match get(CodecogsLink(size, e))
    case Raised(_) => None
    case Ok(status) =>
      if status == 200 then Some(("A rendering of the expression " + e + " will be added to the answer", [md5(e) + ".png"]))
      else None
  }

  /** An element of the expression list: a string, or a regex group tuple. */
  datatype Expression = Text(s: string) | Group(items: seq<string>)

  /** `[i for i in items if i][0]`, which raises when every item is empty. */
  function FirstNonEmpty(items: seq<string>): (r: Option<string>)
    ensures r.Some? ==> r.value != [] && r.value in items
    ensures r.None? <==> forall k :: 0 <= k < |items| ==> items[k] == []
  {
    if items == [] then None
    else if items[0] != [] then Some(items[0])
    else FirstNonEmpty(items[1..])
  }

  /** The string an element stands for, if any. */
  function Chosen(e: Expression): Option<string> {
    match e
    case Text(s) => Some(s)
    case Group(items) => FirstNonEmpty(items)
  }

  /** An unwrapped expression is rendered only when it is longer than three characters. */
  function Keep(t: string): seq<string> {
    if |t| <= 3 then [] else [t]
  }

  /**
   * The unwrapped expressions that get a link, in input order; `None` when
   * some group has no non-empty item (the `IndexError` that empties the
   * whole result).
   */
  function Kept(es: seq<Expression>): (r: Option<seq<string>>)
    ensures r.Some? ==> |r.value| <= |es|
  {
    if es == [] then Some([]) else Step(Kept(es[..|es| - 1]), es[|es| - 1])
  }

  /** One loop iteration: the list so far, extended by what the next element contributes. */
  function Step(before: Option<seq<string>>, e: Expression): (r: Option<seq<string>>)
    ensures r.Some? <==> before.Some? && Chosen(e).Some?
    ensures r.Some? ==> r.value == before.value + Keep(Unwrapped(Chosen(e).value))
  {
    match before
    case None => None
    case Some(b) =>
      match Chosen(e)
      case None => None
      case Some(x) => Some(b + Keep(Unwrapped(x)))
  }

  /** What is rendered is longer than three characters and has no `$` at either end. */
  predicate Renderable(t: string) {
    |t| > 3 && t[0] != '$' && t[|t| - 1] != '$'
  }

  lemma {:induction false} KeptRenderable(es: seq<Expression>)
    requires Kept(es).Some?
    ensures forall k :: 0 <= k < |Kept(es).value| ==> Renderable(Kept(es).value[k])
  {
    if es != [] {
      var before := Kept(es[..|es| - 1]).value;
      KeptRenderable(es[..|es| - 1]);
      var t := Unwrapped(Chosen(es[|es| - 1]).value);
      assert Kept(es).value == before + Keep(t);
      assert |t| > 3 ==> Renderable(t);
    }
  }

  /** Kept expressions keep their order: the list of a concatenation is the concatenation of the lists. */
  lemma {:induction false} KeptConcat(a: seq<Expression>, b: seq<Expression>)
    ensures Kept(a + b).Some? <==> Kept(a).Some? && Kept(b).Some?
    ensures Kept(a + b).Some? ==> Kept(a + b).value == Kept(a).value + Kept(b).value
    decreases |b|
  {
    if b == [] {
      assert a + b == a;
    } else {
      var ab, b' := a + b, b[..|b| - 1];
      KeptConcat(a, b');
      assert ab[..|ab| - 1] == a + b';
      var e := b[|b| - 1];
      assert ab[|ab| - 1] == e;
      assert Kept(ab) == Step(Kept(a + b'), e);
      assert Kept(b) == Step(Kept(b'), e);
      if Kept(a).Some? {
        assert Kept(a + b') == Prepended(Kept(a).value, Kept(b'));
        StepPrepended(Kept(a).value, Kept(b'), e);
      }
    }
  }

  function Prepended(x: seq<string>, y: Option<seq<string>>): Option<seq<string>> {
    if y.Some? then Some(x + y.value) else None
  }

  /** A step after a prefix is the prefix in front of the step. */
  lemma StepPrepended(x: seq<string>, y: Option<seq<string>>, e: Expression)
    ensures Step(Prepended(x, y), e) == Prepended(x, Step(y, e))
  {
    if y.Some? && Chosen(e).Some? {
      AppendAssociative(x, y.value, Keep(Unwrapped(Chosen(e).value)));
    }
  }

  /** The whole list fails exactly when some group has only empty items. */
  lemma {:induction false} KeptFails(es: seq<Expression>)
    ensures Kept(es).None? <==> exists k :: 0 <= k < |es| && Chosen(es[k]).None?
  {
    if es != [] {
      var init, last := es[..|es| - 1], es[|es| - 1];
      KeptFails(init);
      assert Kept(es) == Step(Kept(init), last);
      assert Kept(es).None? <==> Kept(init).None? || Chosen(last).None?;
      if Kept(init).None? {
        var k :| 0 <= k < |init| && Chosen(init[k]).None?;
        assert es[k] == init[k];
      } else if Chosen(last).None? {
        assert es[|es| - 1] == last;
      } else {
        forall k | 0 <= k < |es| ensures Chosen(es[k]).Some? {
          if k < |init| { assert es[k] == init[k]; }
        }
      }
    }
  }

  /** The links for the kept expressions, one each, in order. */
  function LinksFor(kept: seq<string>, size: int): (r: seq<string>)
    ensures |r| == |kept|
    ensures forall k :: 0 <= k < |kept| ==> r[k] == CodecogsLink(size, kept[k])
  {
    seq(|kept|, k requires 0 <= k < |kept| => CodecogsLink(size, kept[k]))
  }

  /** One more element extends the prefix by one step. */
  lemma KeptPrefix(es: seq<Expression>, i: nat)
    requires i < |es|
    ensures Kept(es[..i + 1]) == Step(Kept(es[..i]), es[i])
  {
    assert es[..i + 1][..i] == es[..i];
  }

  lemma LinksForAppend(a: seq<string>, b: seq<string>, size: int)
    ensures LinksFor(a + b, size) == LinksFor(a, size) + LinksFor(b, size)
  {
  }

  /** `download_images`: one file name or `None` per link, or an exception. */
  type Downloader = seq<string> -> Result<seq<Option<string>>>

  /**
   * `async_expressions_to_png`: collect the links, then download them; a
   * group without a non-empty item, or a failing download, gives `[]`.
   */
  method ExpressionsToPng(expressions: seq<Expression>, size: int, download: Downloader)
    returns (r: seq<Option<string>>)
    ensures Kept(expressions).None? ==> r == []
    ensures Kept(expressions).Some? ==>
      var d := download(LinksFor(Kept(expressions).value, size));
      r == if d.Ok? then d.value else []
  {
    var links: seq<string> := [];
    ghost var kept: seq<string> := [];
    for i := 0 to |expressions|
      invariant Kept(expressions[..i]) == Some(kept)
      invariant links == LinksFor(kept, size)
    {
      var chosen := Chosen(expressions[i]);
      if chosen.None? {
        KeptFails(expressions);
        return [];
      }
      var expression := Unwrapped(chosen.value);
      KeptPrefix(expressions, i);
      LinksForAppend(kept, Keep(expression), size);
      kept := kept + Keep(expression);
      if |expression| <= 3 {
        continue;
      }
      links := links + [CodecogsLink(size, expression)];
    }
    assert expressions[..|expressions|] == expressions;
    var d := download(links);
    r := if d.Ok? then d.value else [];
  }
}

=== FILE: legacy_bot.dfy ===
/**
 * The older Telegram handler (src/bot.py): one pipeline guarded by a
 * single `processing` state, which runs the tools before storing the
 * user's turn, keeps their result only when it is non-empty, sends at most
 * nine output files, offers one "run the last code" button, and un-escapes
 * the markdown of the code it runs. The store is the older one (history
 * size 7); services are parameters as in the current pipeline.
 */
module LegacyBot {
  import opened Common
  import opened HistoryStore
  import opened BotOutput
  import opened Gateway
  import opened PlanParser
  import BotCallbacks
  import BotPipeline
  import FileUtils
  import OlderTools = LegacyTools

  // ---------------------------------------------------------------------
  // The processing lock

  /** The handlers of the older bot. */
  datatype LegacyHandler = StartReply | Pipeline

  /**
   * `/start` is answered in any state; any other message starts the
   * pipeline in the default state and reaches no handler while the user
   * is processing.
   */
  function LegacyRoute(processing: bool, isStart: bool): (h: Option<LegacyHandler>)
    ensures h == Some(StartReply) <==> isStart
    ensures h == Some(Pipeline) <==> !isStart && !processing
    ensures h.None? <==> !isStart && processing
  {
    if isStart then Some(StartReply)
    else if processing then None
    else Some(Pipeline)
  }

  /** aiogram's in-memory states of the older bot: the users being processed. */
  class Lock {
    var processing: set<int>

    constructor ()
      ensures processing == {}
    {
      processing := {};
    }

    /** Dispatch one message of `user`: the pipeline locks the user. */
    method Receive(user: int, isStart: bool) returns (h: Option<LegacyHandler>)
      modifies this
      ensures h == LegacyRoute(user in old(processing), isStart)
      ensures processing == if h == Some(Pipeline) then old(processing) + {user} else old(processing)
    {
      h := LegacyRoute(user in processing, isStart);
      if h == Some(Pipeline) {
        processing := processing + {user};
      }
    }

    /** `state.clear()` at the end of the pipeline; skipped when it raised, which keeps the user locked. */
    method Finish(user: int, raised: bool)
      modifies this
      ensures processing == if raised then old(processing) else old(processing) - {user}
    {
      if !raised {
        processing := processing - {user};
      }
    }
  }

  // ---------------------------------------------------------------------
  // The pipeline

  const DescribeDocumentLegacy: string := "Describe the document"

  /**
   * The user's text in the older handler: as in the current one, except
   * that a document without caption asks only to describe the document.
   */
  function LegacyText(input: BotPipeline.Input): (r: Option<string>)
    ensures input.text == "" && input.attachment.Document? && input.attachment.caption == "" ==>
      r == Some(DescribeDocumentLegacy)
    ensures !(input.text == "" && input.attachment.Document? && input.attachment.caption == "") ==>
      r == BotPipeline.MessageText(input)
  {
    if input.text != "" then Some(input.text)
    else
      match input.attachment
      case NoAttachment => None
      case Voice(t) => Some(Strip(t))
      case Photo(_, c) => Some(if c != "" then c else BotPipeline.DescribeImage)
      case Document(_, c) => Some(if c != "" then c else DescribeDocumentLegacy)
  }

  /** The tools' merged result: the plan, then running it; either step may raise. */
  function LegacyTools(prompt: seq<Message>, images: seq<string>, agent: BotPipeline.Agent): Result<Merged> {
    match agent.select(prompt, images)
    case Raised(e) => Raised(e)
    case Ok(plan) => agent.useTools(plan)
  }

  /** The tool result is kept only when it has text or files. */
  predicate KeepsResult(m: Merged) {
    m.text != "" || m.files != []
  }

  /** The prompt of the answering call: the tool turn is added only when the result is kept. */
  function AnswerPrompt(prompt: seq<Message>, m: Merged): (r: seq<Message>)
    ensures KeepsResult(m) ==> r == prompt + [Message("system", BotPipeline.ToolResultPrefix + m.text)]
    ensures !KeepsResult(m) ==> r == prompt
  {
    if KeepsResult(m) then prompt + [Message("system", BotPipeline.ToolResultPrefix + m.text)] else prompt
  }

  /** `output_files[:9]`. */
  function FirstNine(files: seq<string>): (r: seq<string>)
    ensures |r| <= 9 && r <= files
    ensures |files| <= 9 ==> r == files
  {
    files[..if |files| < 9 then |files| else 9]
  }

  /** The files the clean-up loop removes: those that are not `https:` links. */
  function LocalFiles(files: seq<string>): (r: seq<string>)
    ensures forall f :: f in r <==> f in files && !StartsWith(f, "https:")
  {
    if files == [] then []
    else (if StartsWith(files[0], "https:") then [] else [files[0]]) + LocalFiles(files[1..])
  }

  /** What the older pipeline sends and removes. */
  datatype LegacyReply = LegacyReply(answer: string, batch: seq<Batch>, runButton: bool, messages: seq<Sent>, deleted: seq<string>)

  /**
   * Lines 153-193: the first nine files (documents one by one, images as
   * one group), the answer in 4000-character slices with the run button on
   * the first slice that renders, then the removal of the local files among
   * those nine.
   */
  method LegacySend(answer: string, files: seq<string>, render: string -> Option<string>) returns (reply: LegacyReply)
    ensures reply.answer == answer
    ensures reply.batch == if files == [] then [] else [Batch(NonImages(FirstNine(files)), Images(FirstNine(files)))]
    ensures reply.runButton <==> Contains(answer, BotCallbacks.PythonFence)
    ensures reply.messages == AnswerMessages(Slices(answer, 4000), reply.runButton, render)
    ensures reply.deleted == LocalFiles(FirstNine(files))
  {
    var nine := FirstNine(files);
    var batch: seq<Batch> := [];
    if nine != [] {
      batch := [Batch(NonImages(nine), Images(nine))];
    }
    var runButton := Contains(answer, BotCallbacks.PythonFence);
    var sent := SendAnswer(answer, runButton, render);
    reply := LegacyReply(answer, batch, runButton, sent, LocalFiles(nine));
  }

  /**
   * Every file of the first nine is sent exactly once, and no later file
   * is sent or removed.
   */
  lemma OnlyFirstNineLeave(files: seq<string>)
    ensures multiset(NonImages(FirstNine(files))) + multiset(Images(FirstNine(files))) == multiset(files[..|FirstNine(files)|])
    ensures forall f :: f in LocalFiles(FirstNine(files)) ==> f in files[..|FirstNine(files)|]
  {
    PartitionFiles(FirstNine(files));
  }

  /**
   * The outcome of the older pipeline once the prompt is built: a failing
   * plan or tool run stores nothing; otherwise the user's turn, the tool
   * turn exactly when its result is kept, and the answer when there is
   * one, are stored in that order, and the reply carries that answer.
   */
  ghost predicate LegacyOutcome(s: Store, before: seq<MessageRow>, user: int, text: string, prompt: seq<Message>,
                                images: seq<string>, now: string, agent: BotPipeline.Agent, r: Result<LegacyReply>)
    reads s
    requires user in s.users
  {
    var tools := LegacyTools(prompt, images, agent);
    (tools.Raised? ==> r.Raised? && s.messages == before) &&
    (tools.Ok? ==>
      var keep := KeepsResult(tools.value);
      var answer := agent.llm(AnswerPrompt(prompt, tools.value), images);
      (r.Ok? <==> answer.Ok?) &&
      s.messages == before + [BotPipeline.Turn(s, user, "user", text, now)] +
        (if keep then [BotPipeline.Turn(s, user, "system", BotPipeline.ToolResultPrefix + tools.value.text, now)] else []) +
        (if answer.Ok? then [BotPipeline.Turn(s, user, "assistant", answer.value, now)] else []) &&
      (r.Ok? ==>
        r.value.answer == answer.value &&
        r.value.batch == (if tools.value.files == [] then []
                          else [Batch(NonImages(FirstNine(tools.value.files)), Images(FirstNine(tools.value.files)))]) &&
        (r.value.runButton <==> Contains(answer.value, BotCallbacks.PythonFence)) &&
        r.value.messages == AnswerMessages(Slices(answer.value, 4000), r.value.runButton, agent.render) &&
        r.value.deleted == LocalFiles(FirstNine(tools.value.files))))
  }

  /** Lines 127-193 once the prompt is built. */
  method LegacyConverse(store: Store, user: int, text: string, prompt: seq<Message>, images: seq<string>,
                        now: string, agent: BotPipeline.Agent)
    returns (r: Result<LegacyReply>)
    requires store.Valid() && user in store.users
    modifies store
    ensures store.Valid()
    ensures store.users == old(store.users) && store.archive == old(store.archive)
    ensures LegacyOutcome(store, old(store.messages), user, text, prompt, images, now, agent, r)
  {
    var plan := agent.select(prompt, images);
    if plan.Raised? {
      return Raised(plan.error);
    }
    var merged := agent.useTools(plan.value);
    if merged.Raised? {
      return Raised(merged.error);
    }
    BotPipeline.Record(store, user, "user", text, now);
    var messages := prompt;
    if merged.value.text != "" || merged.value.files != [] {
      var toolTurn := BotPipeline.ToolResultPrefix + merged.value.text;
      messages := messages + [Message("system", toolTurn)];
      BotPipeline.Record(store, user, "system", toolTurn, now);
    }
    var answer := agent.llm(messages, images);
    if answer.Raised? {
      return Raised(answer.error);
    }
    BotPipeline.Record(store, user, "assistant", answer.value, now);
    var reply := LegacySend(answer.value, merged.value.files, agent.render);
    r := Ok(reply);
  }

  /**
   * `message_handler` of the older bot: register the user, bind the text
   * (a message without one raises), build the prompt from the last turns
   * and go on as `LegacyConverse` says.
   */
  method HandleLegacy(store: Store, user: int, name: string, username: string, input: BotPipeline.Input,
                      now: string, agent: BotPipeline.Agent)
    returns (r: Result<LegacyReply>)
    requires store.Valid()
    modifies store
    ensures store.Valid()
    ensures store.users == BotPipeline.CheckedIn(old(store.users), user, name, username, now)
    ensures store.archive == old(store.archive)
    ensures LegacyText(input).None? ==> r.Raised? && store.messages == old(store.messages)
    ensures LegacyText(input).Some? ==>
      var prompt := BotPipeline.Prompt(agent.systemPrompt, BotPipeline.Recent(store, old(store.messages), user),
                                       LegacyText(input).value + LegacyAttached(input, agent.rd));
      LegacyOutcome(store, old(store.messages), user, LegacyText(input).value, prompt, BotPipeline.Kept(input), now, agent, r)
  {
    store.CheckUser(name, username, user, now);
    assert store.users == BotPipeline.CheckedIn(old(store.users), user, name, username, now) && user in store.users;
    var text := LegacyText(input);
    if text.None? {
      return Raised("UnboundLocalError: cannot access local variable 'text' where it is not associated with a value");
    }
    var history := store.SelectHistory(user, None);
    var prompt := BotPipeline.Prompt(agent.systemPrompt, history, text.value + LegacyAttached(input, agent.rd));
    r := LegacyConverse(store, user, text.value, prompt, BotPipeline.Kept(input), now, agent);
  }

  /**
   * The text the older handler adds to the user's turn for a file that is
   * not an image. Its `files_to_text` comes from a module that is not part
   * of this model; the older tool module's version is taken, which reads any
   * other file as text and ends each block with a blank line.
   */
  function LegacyAttached(input: BotPipeline.Input, rd: FileUtils.Readers): (r: string)
    ensures BotPipeline.Kept(input) == BotPipeline.InputFiles(input) <==> r == ""
    ensures r != "" ==> var f := BotPipeline.InputFiles(input)[0];
      r == "\n\n" + f + ":\n" + OlderTools.FilesText([f], rd) && !FileUtils.IsImage(f)
  {
    var files := BotPipeline.InputFiles(input);
    if files == [] || FileUtils.IsImage(files[0]) then ""
    else "\n\n" + files[0] + ":\n" + OlderTools.FilesText([files[0]], rd)
  }

  // ---------------------------------------------------------------------
  // The run-last-code button

  /** The characters a backslash escapes in Telegram's markdown text. */
  predicate Escapable(c: char) {
    c in "_*()[]{}#+-!.<>|=`\\"
  }

  /** The regular-expression substitution that drops the backslash before each escaped character, left to right. */
  function Unescape(s: string): (r: string)
    ensures |r| <= |s|
    ensures s != [] ==> r != []
  {
    if s == [] then []
    else if |s| >= 2 && s[0] == '\\' && Escapable(s[1]) then [s[1]] + Unescape(s[2..])
    else [s[0]] + Unescape(s[1..])
  }

  /** Markdown escaping: a backslash before each escapable character. */
  function Escape(s: string): (r: string)
    ensures |s| <= |r|
  {
    if s == [] then [] else (if Escapable(s[0]) then ['\\', s[0]] else [s[0]]) + Escape(s[1..])
  }

  /** Un-escaping undoes markdown escaping, so the code run is the code the model wrote. */
  lemma {:induction false} UnescapeEscape(s: string)
    ensures Unescape(Escape(s)) == s
  {
    if s != [] {
      var e := Escape(s[1..]);
      UnescapeEscape(s[1..]);
      if Escapable(s[0]) {
        assert Escape(s) == ['\\', s[0]] + e;
        assert (['\\', s[0]] + e)[2..] == e;
      } else {
        assert Escape(s) == [s[0]] + e;
        assert ([s[0]] + e)[1..] == e;
      }
      assert s == [s[0]] + s[1..];
    }
  }

  /** Text without backslashes is left as it is. */
  lemma {:induction false} UnescapePlain(s: string)
    requires forall k :: 0 <= k < |s| ==> s[k] != '\\'
    ensures Unescape(s) == s
  {
    if s != [] {
      UnescapePlain(s[1..]);
      assert s == [s[0]] + s[1..];
    }
  }

  /** The code the button runs: the first Python block of the message, un-escaped; `None` without a block. */
  function LegacyCode(text: string): (r: Option<string>)
    ensures r.None? <==> !Contains(text, BotCallbacks.PythonFence)
    ensures r.Some? ==> (r.value == [] <==> BotCallbacks.ExtractCode(text).value == [])
  {
    match BotCallbacks.ExtractCode(text)
    case None => None
    case Some(code) => Some(Unescape(code))
  }

  /** What the run-last-code button sends. */
  datatype LegacyRun = NoCodeFound | LegacyRan(photo: Option<string>, record: string, messages: seq<string>)

  /**
   * `callback_run_last_code`: run the un-escaped first Python block of the
   * message the button is under; without code, answer 'No code found';
   * else send the image, store what the user was shown as a system turn
   * (raising for an unknown user) and send the output in blocks.
   * `photoSent` is the image sent before the store insert, which goes out
   * even when the insert then raises.
   */
  method RunLastCode(store: Store, user: int, text: string, interpreter: string -> BotCallbacks.CodeRun, now: string)
    returns (r: Result<LegacyRun>, photoSent: Option<string>)
    requires store.Valid()
    modifies store
    ensures store.Valid()
    ensures store.users == old(store.users) && store.archive == old(store.archive)
    ensures LegacyCode(text).None? || LegacyCode(text).value == [] ==>
      r == Ok(NoCodeFound) && store.messages == old(store.messages) && photoSent.None?
    ensures LegacyCode(text).Some? && LegacyCode(text).value != [] ==>
      photoSent == interpreter(LegacyCode(text).value).image
    ensures LegacyCode(text).Some? && LegacyCode(text).value != [] ==>
      var run := interpreter(LegacyCode(text).value);
      var shown := BotCallbacks.VisibleOutput(run.output);
      var record := BotCallbacks.RunRecord(shown, run.image.Some?);
      (r.Raised? <==> user !in old(store.users)) &&
      (r.Raised? ==> store.messages == old(store.messages)) &&
      (r.Ok? ==>
        store.messages == old(store.messages) +
          [MessageRow(old(store.users)[user].telegramName, user, "system", record, now, TextToHash(store.digest, record))] &&
        r.value.LegacyRan? && r.value.photo == run.image && r.value.record == record &&
        |r.value.messages| == |Slices(shown, 4000)| &&
        forall i :: 0 <= i < |r.value.messages| ==> r.value.messages[i] == BotCallbacks.OutputBlock(Slices(shown, 4000)[i]))
  {
    var code := LegacyCode(text);
    if code.None? || code.value == [] {
      return Ok(NoCodeFound), None;
    }
    var run := interpreter(code.value);
    photoSent := run.image;
    var shown := BotCallbacks.VisibleOutput(run.output);
    var record := BotCallbacks.RunRecord(shown, run.image.Some?);
    var stored := store.InsertMessage(user, "system", record, now);
    if stored.Raised? {
      return Raised(stored.error), photoSent;
    }
    var msgs := BotCallbacks.OutputMessages(shown);
    r := Ok(LegacyRan(run.image, record, msgs));
  }
}

=== FILE: legacy_tools.dfy ===
/**
 * The older monolithic tool module, src/agent/tools.py: its own
 * `files_to_text`, `genai_api` and `llm_api`, and the short web answer of
 * `DDGS_answer` and `google_short_answer`. Its LaTeX, WolframAlpha,
 * transcript and IMDb helpers are the same code as the split modules and
 * are modelled there.
 *
 * The file readers, the Gemini chat session, the Groq client and the
 * search services are parameters.
 */
module LegacyTools {
  import opened Common
  import FileUtils
  import Gateway

  // ---------------------------------------------------------------------
  // files_to_text

  /** The text for one path: pdf, docx and mp3 go to their readers, every other file is opened and read. */
  function Extractor(rd: FileUtils.Readers): string -> Result<string> {
    (p: string) => FileUtils.ExtractFixed(rd, p)
  }

  /** The block one file contributes here: no separator line after it. */
  function Entry(path: string, text: string): string {
    path + ":\n" + text + "\n\n"
  }

  /** The entries of files that can all be read, in order. */
  function Entries(files: seq<string>, rd: FileUtils.Readers): string
    requires forall j :: 0 <= j < |files| ==> Extractor(rd)(files[j]).Ok?
  {
    if files == [] then "" else Entry(files[0], Extractor(rd)(files[0]).value) + Entries(files[1..], rd)
  }

  /** What `files_to_text` returns: the entries, or only `Error reading <path>` for the first path that raises. */
  function FilesText(files: seq<string>, rd: FileUtils.Readers): string {
    var k := FileUtils.FirstFailing(files, Extractor(rd));
    if k < |files| then "Error reading " + files[k] else Entries(files, rd)
  }

  lemma {:induction false} EntriesAppend(files: seq<string>, p: string, rd: FileUtils.Readers)
    requires forall j :: 0 <= j < |files| ==> Extractor(rd)(files[j]).Ok?
    requires Extractor(rd)(p).Ok?
    ensures Entries(files + [p], rd) == Entries(files, rd) + Entry(p, Extractor(rd)(p).value)
    decreases |files|
  {
    if files != [] {
      assert (files + [p])[0] == files[0];
      assert (files + [p])[1..] == files[1..] + [p];
      EntriesAppend(files[1..], p, rd);
      assert Entries(files + [p], rd) == Entry(files[0], Extractor(rd)(files[0]).value) + Entries(files[1..] + [p], rd);
    } else {
      assert Entries([p], rd) == Entry(p, Extractor(rd)(p).value) + Entries([], rd);
    }
  }

  /** `files_to_text(files)`: read each file in turn and append its block; an exception abandons the result. */
  method FilesToText(files: seq<string>, rd: FileUtils.Readers) returns (r: string)
    ensures r == FilesText(files, rd)
  {
    var result := "";
    var i := 0;
    while i < |files|
      invariant 0 <= i <= |files|
      invariant forall j :: 0 <= j < i ==> Extractor(rd)(files[j]).Ok?
      invariant FileUtils.FirstFailing(files, Extractor(rd)) >= i
      invariant result == Entries(files[..i], rd)
    {
      var filePath := files[i];
      var text := FileUtils.ExtractFixed(rd, filePath);
      assert Extractor(rd)(filePath) == text;
      if text.Raised? {
        assert FileUtils.FirstFailing(files, Extractor(rd)) == i;
        return "Error reading " + filePath;
      }
      assert files[..i + 1] == files[..i] + [filePath];
      EntriesAppend(files[..i], filePath, rd);
      result := result + filePath + ":\n" + text.value + "\n\n";
      i := i + 1;
    }
    assert files[..i] == files;
    r := result;
  }

  /** One path: its block when it can be read (a text file included), its error line otherwise. */
  lemma OneFile(path: string, rd: FileUtils.Readers)
    ensures FileUtils.ExtractFixed(rd, path).Ok? ==>
      FilesText([path], rd) == path + ":\n" + FileUtils.ExtractFixed(rd, path).value + "\n\n"
    ensures FileUtils.ExtractFixed(rd, path).Raised? ==> FilesText([path], rd) == "Error reading " + path
  {
    if Extractor(rd)(path).Ok? {
      assert FileUtils.FirstFailing([path], Extractor(rd)) == 1;
      assert Entries([path], rd) == Entry(path, Extractor(rd)(path).value) + Entries([], rd);
    }
  }

  lemma {:induction false} FirstFailingAppend(a: seq<string>, b: seq<string>, extract: string -> Result<string>)
    ensures var k := FileUtils.FirstFailing(a, extract);
      FileUtils.FirstFailing(a + b, extract) == (if k < |a| then k else |a| + FileUtils.FirstFailing(b, extract))
    decreases |a|
  {
    if a == [] {
      assert a + b == b;
    } else {
      assert (a + b)[0] == a[0];
      assert (a + b)[1..] == a[1..] + b;
      FirstFailingAppend(a[1..], b, extract);
    }
  }

  lemma {:induction false} EntriesConcat(a: seq<string>, b: seq<string>, rd: FileUtils.Readers)
    requires forall j :: 0 <= j < |a| ==> Extractor(rd)(a[j]).Ok?
    requires forall j :: 0 <= j < |b| ==> Extractor(rd)(b[j]).Ok?
    ensures Entries(a + b, rd) == Entries(a, rd) + Entries(b, rd)
    decreases |a|
  {
    if a == [] {
      assert a + b == b;
    } else {
      assert (a + b)[0] == a[0];
      assert (a + b)[1..] == a[1..] + b;
      EntriesConcat(a[1..], b, rd);
    }
  }

  /**
   * Reading two lists one after the other: when both can be read whole,
   * the blocks are concatenated; when the first cannot, the second list is
   * never looked at.
   */
  lemma FilesTextAppend(a: seq<string>, b: seq<string>, rd: FileUtils.Readers)
    ensures FileUtils.FirstFailing(a, Extractor(rd)) == |a| && FileUtils.FirstFailing(b, Extractor(rd)) == |b| ==>
      FilesText(a + b, rd) == FilesText(a, rd) + FilesText(b, rd)
    ensures FileUtils.FirstFailing(a, Extractor(rd)) < |a| ==> FilesText(a + b, rd) == FilesText(a, rd)
  {
    var k := FileUtils.FirstFailing(a, Extractor(rd));
    FirstFailingAppend(a, b, Extractor(rd));
    if k < |a| {
      assert (a + b)[k] == a[k];
    } else if FileUtils.FirstFailing(b, Extractor(rd)) == |b| {
      EntriesConcat(a, b, rd);
    }
  }

  // ---------------------------------------------------------------------
  // genai_api

  /** The text a non-image file adds to the user message: a header, then `files_to_text` of that file, which repeats it. */
  function Attachment(path: string, rd: FileUtils.Readers): string {
    Header(path) + FilesText([path], rd)
  }

  /** The line `genai_api` writes before a file's text. */
  function Header(path: string): string {
    "\n\n" + path + ":\n"
  }

  /** What one file adds to the user message: nothing for an image, which is sent as itself. */
  function Contribution(path: string, rd: FileUtils.Readers): string {
    if FileUtils.IsImage(path) then "" else Attachment(path, rd)
  }

  /** The texts of the non-image files, in order. */
  function Attached(files: seq<string>, rd: FileUtils.Readers): string {
    if files == [] then "" else Contribution(files[0], rd) + Attached(files[1..], rd)
  }

  lemma {:induction false} AttachedAppend(files: seq<string>, p: string, rd: FileUtils.Readers)
    ensures Attached(files + [p], rd) == Attached(files, rd) + Contribution(p, rd)
    decreases |files|
  {
    if files != [] {
      assert (files + [p])[0] == files[0];
      assert (files + [p])[1..] == files[1..] + [p];
      AttachedAppend(files[1..], p, rd);
    } else {
      assert Attached([p], rd) == Contribution(p, rd) + Attached([], rd);
    }
  }

  /** The request `genai_api` sends: the list form whenever a file is given, even one with no image in it. */
  function Request(user: string, earlier: seq<Message>, files: seq<string>, rd: FileUtils.Readers): Gateway.GeminiRequest {
    var text := user + Attached(files, rd);
    if files != [] then Gateway.Multimodal(Gateway.DefaultGeminiModel, Gateway.FormatHistory(earlier), text, Gateway.Images(files))
    else Gateway.TextOnly(Gateway.DefaultGeminiModel, Gateway.FormatHistory(earlier), text)
  }

  /** The answer of `genai_api`, or the exception it raises. */
  function GenaiAnswer(h: History, files: seq<string>, rd: FileUtils.Readers, send: Gateway.GeminiBackend): Result<string> {
    match Gateway.GenaiInput(h)
    case Raised(e) => Raised(e)
    case Ok(input) => send(Request(input.0, input.1, files, rd))
  }

  /** One pass of that loop: an image is opened, any other file's text is appended with its header. */
  method AttachOne(message: string, filePath: string, rd: FileUtils.Readers) returns (m: string, image: seq<string>)
    ensures m == message + Contribution(filePath, rd)
    ensures image == (if FileUtils.IsImage(filePath) then [filePath] else [])
  {
    if FileUtils.IsImage(filePath) {
      m, image := message, [filePath];
    } else {
      var text := FilesToText([filePath], rd);
      m, image := message + "\n\n" + filePath + ":\n" + text, [];
    }
  }

  /** The loop over the file paths: images are collected, every other file's text is appended to the message. */
  method AttachFiles(user: string, files: seq<string>, rd: FileUtils.Readers) returns (message: string, images: seq<string>)
    ensures message == user + Attached(files, rd)
    ensures images == Gateway.Images(files)
  {
    message := user;
    images := [];
    var j := 0;
    while j < |files|
      invariant 0 <= j <= |files|
      invariant images == Gateway.Images(files[..j])
      invariant message == user + Attached(files[..j], rd)
    {
      var filePath := files[j];
      assert files[..j + 1] == files[..j] + [filePath];
      Gateway.ImagesAppend(files[..j], filePath);
      AttachedAppend(files[..j], filePath, rd);
      AppendAssociative(user, Attached(files[..j], rd), Contribution(filePath, rd));
      var image;
      message, image := AttachOne(message, filePath, rd);
      images := images + image;
      j := j + 1;
    }
    assert files[..j] == files;
  }

  /**
   * `genai_api(messages, file_paths)` on the flash model: map the earlier
   * turns, open the images and append every other file's text, then send.
   */
  method GenaiApi(h: History, files: seq<string>, rd: FileUtils.Readers, send: Gateway.GeminiBackend)
    returns (r: Result<string>)
    ensures r == GenaiAnswer(h, files, rd, send)
  {
    var userMessage: string;
    var formatted: seq<Gateway.GeminiTurn> := [];
    match h {
      case Prompt(s) =>
        userMessage := s;
      case Dialogue(ms) =>
        if ms == [] {
          return Raised("IndexError: list index out of range");
        }
        userMessage := ms[|ms| - 1].content;
        var history := ms[..|ms| - 1];
        var i := 0;
        while i < |history|
          invariant 0 <= i <= |history|
          invariant formatted == Gateway.FormatHistory(history[..i])
        {
          assert history[..i + 1] == history[..i] + [history[i]];
          formatted := formatted + [Gateway.GeminiTurn(Gateway.RoleFor(history[i].role), history[i].content)];
          assert formatted == Gateway.FormatHistory(history[..i + 1]);
          i := i + 1;
        }
        assert history[..i] == history;
    }
    var images;
    userMessage, images := AttachFiles(userMessage, files, rd);
    if files != [] {
      r := send(Gateway.Multimodal(Gateway.DefaultGeminiModel, formatted, userMessage, images));
    } else {
      r := send(Gateway.TextOnly(Gateway.DefaultGeminiModel, formatted, userMessage));
    }
  }

  /**
   * The request's shape: one history entry per earlier message with the
   * mapped role, the text begins with the user message, the images are the
   * image files in order, and the list form is used iff some file is given.
   */
  lemma RequestShape(h: History, files: seq<string>, rd: FileUtils.Readers)
    requires Gateway.GenaiInput(h).Ok?
    ensures var input := Gateway.GenaiInput(h).value;
      var req := Request(input.0, input.1, files, rd);
      |req.history| == (if h.Prompt? then 0 else |h.messages| - 1) &&
      (h.Dialogue? ==> forall i :: 0 <= i < |req.history| ==>
        req.history[i] == Gateway.GeminiTurn(Gateway.RoleFor(h.messages[i].role), h.messages[i].content)) &&
      StartsWith(req.text, input.0) &&
      req.model == Gateway.DefaultGeminiModel &&
      (req.Multimodal? <==> files != []) &&
      (req.Multimodal? ==> req.images == Gateway.Images(files))
  {
    var input := Gateway.GenaiInput(h).value;
    var text := input.0 + Attached(files, rd);
    assert text[..|input.0|] == input.0;
  }

  /**
   * A readable text file alone: the list form with no image, and the file's
   * header twice, once from `genai_api` and once from `files_to_text`.
   */
  lemma TextFileRequest(user: string, path: string, rd: FileUtils.Readers)
    requires !FileUtils.IsImage(path) && FileUtils.ExtractFixed(rd, path).Ok?
    ensures Request(user, [], [path], rd) ==
      Gateway.Multimodal(Gateway.DefaultGeminiModel, [], user + Header(path) + Entry(path, FileUtils.ExtractFixed(rd, path).value), [])
  {
    OneFile(path, rd);
    var entry := Entry(path, FileUtils.ExtractFixed(rd, path).value);
    assert Attached([path], rd) == Contribution(path, rd) + Attached([], rd);
    assert Attached([path], rd) == Header(path) + entry;
    AppendAssociative(user, Header(path), entry);
    assert Gateway.Images([path]) == [] + Gateway.Images([]);
  }

  // ---------------------------------------------------------------------
  // llm_api

  /** `groq_api(messages)`: one client, the completion's text or an exception. */
  type GroqBackend = (seq<Message>, string) -> Result<string>

  const GroqModel: string := "llama-3.3-70b-versatile"

  /**
   * `llm_api(messages, files, provider)`: Gemini goes first when the
   * provider is Google (the default) or any file is given, and on an
   * exception Groq answers the messages without the files; otherwise Groq
   * alone answers and its exception propagates. `calls` lists the backends
   * called in order.
   */
  method LlmApi(h: History, files: seq<string>, provider: Provider,
                groq: GroqBackend, send: Gateway.GeminiBackend, rd: FileUtils.Readers)
    returns (r: Result<string>, calls: seq<Gateway.Backend>)
    ensures var ms := Normalise(h);
      var g := GenaiAnswer(Dialogue(ms), files, rd, send);
      if provider == Google || files != [] then
        (g.Ok? ==> r == g && calls == [Gateway.GeminiCall]) &&
        (g.Raised? ==> r == groq(ms, GroqModel) && calls == [Gateway.GeminiCall, Gateway.GroqCall])
      else
        r == groq(ms, GroqModel) && calls == [Gateway.GroqCall]
  {
    var messages := Normalise(h);
    if provider == Google || files != [] {
      calls := [Gateway.GeminiCall];
      r := GenaiApi(Dialogue(messages), files, rd, send);
      if r.Raised? {
        calls := calls + [Gateway.GroqCall];
        r := groq(messages, GroqModel);
      }
    } else {
      calls := [Gateway.GroqCall];
      r := groq(messages, GroqModel);
    }
  }

  // ---------------------------------------------------------------------
  // DDGS_answer and google_short_answer

  /** The answers of a DuckDuckGo search, each a dictionary, or the exception. */
  type Answers = Result<seq<map<string, string>>>

  /** `[r["text"] for r in response]`: a `KeyError` when an answer has no text. */
  function Texts(items: seq<map<string, string>>): (r: Result<seq<string>>)
    ensures r.Ok? <==> forall k :: 0 <= k < |items| ==> "text" in items[k]
    ensures r.Ok? ==> |r.value| == |items| && forall k :: 0 <= k < |items| ==> r.value[k] == items[k]["text"]
  {
    if items == [] then Ok([])
    else if "text" !in items[0] then Raised("KeyError: 'text'")
    else
      match Texts(items[1..])
      case Raised(e) => Raised(e)
      case Ok(rest) => Ok([items[0]["text"]] + rest)
  }

  /** `response[:3]`. */
  function Top(items: seq<map<string, string>>): (r: seq<map<string, string>>)
    ensures |r| <= 3 && |r| <= |items| && r == items[..|r|]
    ensures |items| >= 3 ==> |r| == 3
  {
    if |items| <= 3 then items else items[..3]
  }

  /** `DDGS_answer(text)`: the texts of at most the first three answers, one per line; `''` on any exception. */
  function DdgsAnswer(answers: Answers): (r: string)
    ensures answers.Raised? ==> r == ""
    ensures answers.Ok? && Top(answers.value) == [] ==> r == ""
  {
    if answers.Raised? then ""
    else
      match Texts(Top(answers.value))
      case Raised(_) => ""
      case Ok(texts) => Join(texts, "\n")
  }

  /** Splitting `'\n'.join(parts)` at the line breaks gives the parts back when none holds a line break. */
  lemma {:induction false} SplitJoin(parts: seq<string>, c: char)
    requires parts != []
    requires forall k :: 0 <= k < |parts| ==> c !in parts[k]
    ensures Split(Join(parts, [c]), c) == parts
    decreases |parts|
  {
    if |parts| > 1 {
      var rest := Join(parts[1..], [c]);
      assert Join(parts, [c]) == parts[0] + [c] + rest;
      SplitJoin(parts[1..], c);
      SplitAtFirst(parts[0], c, rest);
      assert parts == [parts[0]] + parts[1..];
    } else {
      assert Join(parts, [c]) == parts[0] && c !in parts[0];
    }
  }

  /**
   * The lines of the short answer are the texts of the first three answers
   * in order, when each has a one-line text; answers after the third never
   * show.
   */
  lemma DdgsAnswerLines(items: seq<map<string, string>>)
    requires Top(items) != []
    requires forall k :: 0 <= k < |Top(items)| ==> "text" in Top(items)[k] && '\n' !in Top(items)[k]["text"]
    ensures var lines := Split(DdgsAnswer(Ok(items)), '\n');
      |lines| == |Top(items)| <= 3 &&
      forall k :: 0 <= k < |lines| ==> lines[k] == items[k]["text"]
  {
    var texts := Texts(Top(items)).value;
    SplitJoin(texts, '\n');
  }

  /** `google_short_answer(text)`: the DuckDuckGo answer, and a Tavily search only when that answer is empty. */
  function GoogleShortAnswer(text: string, ddgs: string -> Answers, tavily: string -> Result<string>): (r: Result<string>)
    ensures DdgsAnswer(ddgs(text)) != "" ==> r == Ok(DdgsAnswer(ddgs(text)))
    ensures DdgsAnswer(ddgs(text)) == "" ==> r == tavily(text)
  {
    var resp := DdgsAnswer(ddgs(text));
    if resp != "" then Ok(resp) else tavily(text)
  }

  /**
   * When the first answer has a text and every one of the first three has a
   * text, Tavily is never asked and the result begins with that first text.
   */
  lemma {:induction false} FirstAnswerWins(text: string, ddgs: string -> Answers, tavily: string -> Result<string>)
    requires ddgs(text).Ok?
    requires var top := Top(ddgs(text).value);
      top != [] && (forall k :: 0 <= k < |top| ==> "text" in top[k]) && top[0]["text"] != ""
    ensures var r := GoogleShortAnswer(text, ddgs, tavily);
      r.Ok? && StartsWith(r.value, ddgs(text).value[0]["text"])
  {
    var texts := Texts(Top(ddgs(text).value)).value;
    JoinStartsWithFirst(texts, "\n");
  }

  lemma JoinStartsWithFirst(parts: seq<string>, sep: string)
    requires parts != []
    ensures StartsWith(Join(parts, sep), parts[0])
  {
    if |parts| > 1 {
      assert (parts[0] + sep + Join(parts[1..], sep))[..|parts[0]|] == parts[0];
    }
  }
}

=== FILE: plan.dfy ===
/**
 * The agent's planning step (src/llm_answer.py): the tool registry and the
 * catalog prompt built from it, the flattening of a dialogue into one prompt,
 * the parsing of the model's free-text reply into an ordered plan of tool
 * invocations, the merging of the tools' results, and the assembly of the
 * final message list.
 *
 * The language model and the tools are parameters: `llm` answers a message
 * list (or raises), `run` runs one invocation (or raises).
 */
module PlanParser {
  import opened Common

  // ---------------------------------------------------------------------
  // Registry

  /** One entry of the tool description table. */
  datatype ToolInfo = ToolInfo(name: string, description: string, outputFile: bool)

  /** The keys of the dispatch table, in declaration order. */
  const ToolNames: seq<string> := [
    "wolfram_short_answer", "wolfram_full_answer", "google_short_answer",
    "google_full_answer", "google_image", "youtube_sum"]

  /** The description table, in declaration order. */
  const Catalog: seq<ToolInfo> := [
    ToolInfo("wolfram_short_answer",
      "For very complex calculations, solving difficult equations and up-to-date information (e.g., weather, exchange rates, today date, time and etc).",
      false),
    ToolInfo("wolfram_full_answer",
      "Full Wolfram Alpha answer with pictures and a lot of information",
      true),
    ToolInfo("google_short_answer",
      "Use if you need to get revelant information from the internet. It's important to ask the question well (e. g \"Who won on 2024 Olympic\" -> \"Which country won the most medals 2024 olympics\")",
      false),
    ToolInfo("google_full_answer",
      "For queries needing full-text information from the internet (e.g., entire lyrics or detailed articles). Don't use it for information you know.",
      false),
    ToolInfo("google_image",
      "Pictures that pop up when you search. Use when the user asks to find a picture",
      true),
    ToolInfo("youtube_sum",
      "Summarizes YouTube videos. Enter link in input",
      false)]

  const PromptHead: string :=
    "You are the chatbot's assistant, in charge of choosing the right tool for each request. Available functions:\n\n"

  const PromptTailParts: seq<string> := [
    "\nAnswer in the following format:\n\nThought: You should always think ",
    "about what to do. What the user wants to see, what is the best tool to ",
    "use and what inputs to use? Think only in English\n\n<function_name>: ",
    "<function_input>\n\n\nYou can call multiple functions (unless the model ",
    "herself is unable to answer), each time spelling out the names of the ",
    "function and the query for it. You can call the same function multiple ",
    "times, so don't be afraid to split questions into the same function. Don't ",
    "forget to convert the queries, and also avoid obscene queries in functions. ",
    "Use tools only when they are needed. You should not call functions during ",
    "a normal conversation (or if the model can answer itself)\n\nYou'll be ",
    "given a message history."]

  function PromptTail(): string {
    Concat(PromptTailParts)
  }

  const SystemPromptParts: seq<string> := [
    "You are a helpful ai agent. You can use WolframALpha, Google, Search image, ",
    "Summarize YouTube videos. You are a Telegram bot providing the best answers. ",
    "User does not see system message.\n\nTo run the code, you must write it ",
    "in ```python<code>``` and then ask the user for permission to execute ",
    "it. Only the first block of code will be executed. Available matplotlib"]

  function SystemPrompt(): string {
    Concat(SystemPromptParts)
  }

  predicate IsTool(name: string) {
    name in ToolNames
  }

  /** The dispatch table and the description table name the same six tools, in the same order, once each. */
  lemma RegistryAgrees()
    ensures |ToolNames| == |Catalog| == 6
    ensures forall i :: 0 <= i < 6 ==> Catalog[i].name == ToolNames[i]
    ensures forall i, j :: 0 <= i < j < 6 ==> ToolNames[i] != ToolNames[j]
  {
  }

  /** The catalog line of one tool. */
  function CatalogLine(t: ToolInfo): string {
    t.name + ": " + t.description
  }

  /** The selection prompt for a description table: head, one `name: description` line per tool, tail. */
  function CatalogPromptOf(catalog: seq<ToolInfo>): string {
    PromptHead + Join(CatalogLines(catalog), "\n") + "\n" + PromptTail()
  }

  /** The selection prompt as the module builds it at import time, line by line. */
  method BuildCatalogPrompt(catalog: seq<ToolInfo>) returns (p: string)
    requires catalog != []
    ensures p == CatalogPromptOf(catalog)
  {
    p := PromptHead;
    var i := 0;
    while i < |catalog|
      invariant 0 <= i <= |catalog|
      invariant p == PromptHead + Concat(LinesWithNewline(catalog[..i]))
    {
      assert catalog[..i + 1] == catalog[..i] + [catalog[i]];
      LinesWithNewlineAppend(catalog[..i], catalog[i]);
      ConcatAppend(LinesWithNewline(catalog[..i]), CatalogLine(catalog[i]) + "\n");
      AppendAssociative(PromptHead, Concat(LinesWithNewline(catalog[..i])), CatalogLine(catalog[i]) + "\n");
      p := p + (CatalogLine(catalog[i]) + "\n");
      i := i + 1;
    }
    assert catalog[..i] == catalog;
    ConcatIsJoin(catalog);
    AppendAssociative(PromptHead, Join(CatalogLines(catalog), "\n"), "\n");
    p := p + PromptTail();
  }

  function CatalogLines(ts: seq<ToolInfo>): (r: seq<string>)
    ensures |r| == |ts| && forall i :: 0 <= i < |ts| ==> r[i] == CatalogLine(ts[i])
  {
    if ts == [] then [] else [CatalogLine(ts[0])] + CatalogLines(ts[1..])
  }

  function LinesWithNewline(ts: seq<ToolInfo>): seq<string> {
    if ts == [] then [] else [CatalogLine(ts[0]) + "\n"] + LinesWithNewline(ts[1..])
  }

  lemma LinesWithNewlineAppend(ts: seq<ToolInfo>, t: ToolInfo)
    ensures LinesWithNewline(ts + [t]) == LinesWithNewline(ts) + [CatalogLine(t) + "\n"]
  {
    if ts != [] {
      assert (ts + [t])[1..] == ts[1..] + [t];
    }
  }

  lemma {:induction false} ConcatIsJoin(ts: seq<ToolInfo>)
    requires ts != []
    ensures Concat(LinesWithNewline(ts)) == Join(CatalogLines(ts), "\n") + "\n"
  {
    if |ts| > 1 {
      ConcatIsJoin(ts[1..]);
    }
  }

  /**
   * The catalog section of the prompt, cut at its line breaks, is exactly the
   * `name: description` line of every tool in registry order (and the empty
   * remainder after the last line break).
   */
  lemma {:induction false} CatalogLinesSplit(ts: seq<ToolInfo>)
    requires forall i :: 0 <= i < |ts| ==> '\n' !in CatalogLine(ts[i])
    ensures Split(Concat(LinesWithNewline(ts)), '\n') == CatalogLines(ts) + [""]
  {
    if ts != [] {
      CatalogLinesSplit(ts[1..]);
      SplitAtFirst(CatalogLine(ts[0]), '\n', Concat(LinesWithNewline(ts[1..])));
    }
  }

  // ---------------------------------------------------------------------
  // Flattening the history

  function RoleLine(m: Message): string {
    m.role + ": " + m.content
  }

  function RoleLines(ms: seq<Message>): (r: seq<string>)
    ensures |r| == |ms| && forall i :: 0 <= i < |ms| ==> r[i] == RoleLine(ms[i])
  {
    if ms == [] then [] else [RoleLine(ms[0])] + RoleLines(ms[1..])
  }

  /** The single user prompt the planner sees; `messages[-1]` of an empty list raises. */
  function FlattenHistory(h: History): (r: Result<string>)
    ensures h.Prompt? ==> r == Ok(h.text)
    ensures h.Dialogue? ==> (r.Ok? <==> h.messages != [])
    ensures r.Ok? && h.Dialogue? ==>
      StartsWith(r.value, "History:") &&
      EndsWith(r.value, "\nUser ask: " + h.messages[|h.messages| - 1].content)
  {
    match h
    case Prompt(s) => Ok(s)
    case Dialogue(ms) =>
      if ms == [] then Raised("IndexError: list index out of range")
      else
        var earlier := Join(RoleLines(ms[..|ms| - 1]), "\n");
        Ok("History:" + earlier + "\nUser ask: " + ms[|ms| - 1].content)
  }

  /** A dialogue of one message flattens to an empty history followed by the question. */
  lemma FlattenSingle(m: Message)
    ensures FlattenHistory(Dialogue([m])) == Ok("History:\nUser ask: " + m.content)
  {
    assert [m][..0] == [];
    assert Join(RoleLines([]), "\n") == "";
    assert "History:" + "" + "\nUser ask: " == "History:\nUser ask: ";
  }

  /** One more earlier message adds one more `role: content` line before the question. */
  lemma {:induction false} FlattenExtend(ms: seq<Message>, m: Message, last: Message)
    requires ms != []
    ensures FlattenHistory(Dialogue(ms + [m, last])) ==
      Ok("History:" + Join(RoleLines(ms), "\n") + "\n" + RoleLine(m) + "\nUser ask: " + last.content)
  {
    var all := ms + [m, last];
    assert all[..|all| - 1] == ms + [m];
    assert all[|all| - 1] == last;
    assert RoleLines(ms + [m]) == RoleLines(ms) + [RoleLine(m)];
    JoinAppend(RoleLines(ms), RoleLine(m), "\n");
    var j := Join(RoleLines(ms), "\n");
    assert FlattenHistory(Dialogue(all)).value == "History:" + (j + "\n" + RoleLine(m)) + "\nUser ask: " + last.content;
    assert "History:" + (j + "\n" + RoleLine(m)) + "\nUser ask: " + last.content
        == "History:" + j + "\n" + RoleLine(m) + "\nUser ask: " + last.content;
  }

  // ---------------------------------------------------------------------
  // Parsing the reply into a plan

  datatype Invocation = Invocation(name: string, input: string)

  /** One reply line: the name is the text before the first colon, the input everything after it. */
  function ParseLine(line: string): (r: Option<Invocation>)
    ensures r.Some? ==> IsTool(r.value.name)
  {
    var pieces := Split(line, ':');
    var name := Lower(Strip(pieces[0]));
    var input := Join(pieces[1..], ":");
    if IsTool(name) then Some(Invocation(name, Strip(input))) else None
  }

  /** The input is the whole text after the first colon; later colons are kept. */
  lemma InputAfterFirstColon(before: string, after: string)
    requires ':' !in before
    ensures Split(before + ":" + after, ':')[0] == before
    ensures Join(Split(before + ":" + after, ':')[1..], ":") == after
  {
    SplitAtFirst(before, ':', after);
    JoinSplit(after, ':');
  }

  /** `name: input` parses to that invocation whatever colons the input holds. */
  lemma ParseNamedLine(name: string, input: string)
    requires IsTool(name)
    ensures ParseLine(name + ": " + input) == Some(Invocation(name, Strip(" " + input)))
  {
    assert ':' !in name;
    assert name + ": " + input == name + ":" + (" " + input);
    InputAfterFirstColon(name, " " + input);
    StripTool(name);
  }

  /** A line with no colon that is exactly a tool name is an invocation with an empty input. */
  lemma ParseBareName(name: string)
    requires IsTool(name)
    ensures ParseLine(name) == Some(Invocation(name, ""))
  {
    StripTool(name);
    ParseNoColon(name);
  }

  /** Without a colon the whole line is the candidate name and the input is empty. */
  lemma ParseNoColon(line: string)
    requires ':' !in line
    ensures var name := Lower(Strip(line));
      ParseLine(line) == if IsTool(name) then Some(Invocation(name, "")) else None
  {
    assert Split(line, ':') == [line];
    assert Split(line, ':')[1..] == [];
    assert Join([], ":") == "";
    assert Strip("") == "";
  }

  /** A line whose text before the first colon is not a tool name is dropped. */
  lemma ParseUnknown(before: string, after: string)
    requires ':' !in before && !IsTool(Lower(Strip(before)))
    ensures ParseLine(before + ":" + after) == None
  {
    InputAfterFirstColon(before, after);
  }

  /** The registered names are lower case and carry no blanks, so strip and lower leave them alone. */
  lemma StripTool(name: string)
    requires IsTool(name)
    ensures Lower(Strip(name)) == name && ':' !in name
  {
    ToolNamesPlain();
    PlainFixed(name);
  }

  /** Lower-case letters and underscores only. */
  predicate Plain(s: string) {
    forall k :: 0 <= k < |s| ==> ('a' <= s[k] <= 'z') || s[k] == '_'
  }

  lemma PlainFixed(s: string)
    requires Plain(s)
    ensures Lower(Strip(s)) == s && ':' !in s
  {
    if s != [] {
      assert !IsSpace(s[0]) && !IsSpace(s[|s| - 1]);
    }
    StripNoBlanks(s);
    assert Lower(s) == s;
  }

  lemma ToolNamesPlain()
    ensures forall i :: 0 <= i < |ToolNames| ==> Plain(ToolNames[i])
  {
    assert Plain("wolfram_short_answer");
    assert Plain("wolfram_full_answer");
    assert Plain("google_short_answer");
    assert Plain("google_full_answer");
    assert Plain("google_image");
    assert Plain("youtube_sum");
  }

  /** The plan a sequence of reply lines yields. */
  function Plan(lines: seq<string>): (r: seq<Invocation>)
    ensures |r| <= |lines|
    ensures forall k :: 0 <= k < |r| ==> IsTool(r[k].name)
  {
    if lines == [] then []
    else
      match ParseLine(lines[0])
      case Some(inv) => [inv] + Plan(lines[1..])
      case None => Plan(lines[1..])
  }

  /** Plans of consecutive blocks of lines concatenate: order and duplicates are kept. */
  lemma {:induction false} PlanAppend(a: seq<string>, b: seq<string>)
    ensures Plan(a + b) == Plan(a) + Plan(b)
  {
    if a != [] {
      assert (a + b)[0] == a[0];
      assert (a + b)[1..] == a[1..] + b;
      PlanAppend(a[1..], b);
      match ParseLine(a[0]) {
        case Some(inv) =>
          assert Plan(a + b) == [inv] + Plan(a[1..] + b);
          assert Plan(a) == [inv] + Plan(a[1..]);
          AppendAssociative([inv], Plan(a[1..]), Plan(b));
        case None =>
          assert Plan(a + b) == Plan(a[1..] + b);
          assert Plan(a) == Plan(a[1..]);
      }
    } else {
      assert a + b == b;
    }
  }

  /** An invocation is in the plan iff some line parses to it. */
  lemma {:induction false} PlanMembership(lines: seq<string>, inv: Invocation)
    ensures inv in Plan(lines) <==> exists i :: 0 <= i < |lines| && ParseLine(lines[i]) == Some(inv)
  {
    if lines != [] {
      PlanMembership(lines[1..], inv);
      PlanCons(lines);
      SomeLineShift(lines, inv);
    }
  }

  lemma PlanCons(lines: seq<string>)
    requires lines != []
    ensures Plan(lines) == (if ParseLine(lines[0]).Some? then [ParseLine(lines[0]).value] else []) + Plan(lines[1..])
  {
  }

  /** Some line parses to `inv` iff the first does or some later one does. */
  lemma SomeLineShift(lines: seq<string>, inv: Invocation)
    requires lines != []
    ensures (exists i :: 0 <= i < |lines| && ParseLine(lines[i]) == Some(inv)) <==>
      ParseLine(lines[0]) == Some(inv) || exists i :: 0 <= i < |lines[1..]| && ParseLine(lines[1..][i]) == Some(inv)
  {
    if exists i :: 0 <= i < |lines[1..]| && ParseLine(lines[1..][i]) == Some(inv) {
      var i :| 0 <= i < |lines[1..]| && ParseLine(lines[1..][i]) == Some(inv);
      assert lines[i + 1] == lines[1..][i];
    }
    if exists i :: 0 <= i < |lines| && ParseLine(lines[i]) == Some(inv) {
      var i :| 0 <= i < |lines| && ParseLine(lines[i]) == Some(inv);
      if i > 0 {
        assert lines[1..][i - 1] == lines[i];
      }
    }
  }

  /** A reply in which no line names a tool gives the empty plan. */
  lemma {:induction false} PlanEmpty(lines: seq<string>)
    requires forall i :: 0 <= i < |lines| ==> ParseLine(lines[i]).None?
    ensures Plan(lines) == []
  {
    if lines != [] {
      PlanEmpty(lines[1..]);
    }
  }

  /** The newline the planner appends to the reply only adds an empty line, which names no tool. */
  lemma TrailingNewlineHarmless(reply: string)
    ensures Plan(Split(reply + "\n", '\n')) == Plan(Split(reply, '\n'))
  {
    SplitTrailing(reply, '\n');
    PlanAppend(Split(reply, '\n'), [""]);
    assert Strip("") == "";
    assert Lower("") == "";
  }

  lemma {:induction false} SplitTrailing(s: string, c: char)
    ensures Split(s + [c], c) == Split(s, c) + [""]
    decreases |s|
  {
    if c in s {
      var i := FirstIndexOf(s, c);
      var a, b := s[..i], s[i + 1..];
      assert s == a + [c] + b;
      SplitAtFirst(a, c, b);
      assert s + [c] == a + [c] + (b + [c]);
      SplitAtFirst(a, c, b + [c]);
      SplitTrailing(b, c);
      AppendAssociative([a], Split(b, c), [""]);
    } else {
      assert s + [c] == s + [c] + [];
      SplitAtFirst(s, c, []);
      assert Split([], c) == [[]];
      assert Split(s, c) == [s];
    }
  }

  lemma PlanSingle(line: string)
    ensures Plan([line]) == if ParseLine(line).Some? then [ParseLine(line).value] else []
  {
    assert Plan([line]) == (if ParseLine(line).Some? then [ParseLine(line).value] else []) + Plan([]);
  }

  /** The loop of `llm_select_tool` over the reply's lines. */
  method PlanFromReply(reply: string) returns (tools: seq<Invocation>)
    ensures tools == Plan(Split(reply + "\n", '\n'))
  {
    var answers := Split(reply + "\n", '\n');
    tools := [];
    var i := 0;
    while i < |answers|
      invariant 0 <= i <= |answers|
      invariant tools == Plan(answers[..i])
    {
      assert answers[..i + 1] == answers[..i] + [answers[i]];
      PlanAppend(answers[..i], [answers[i]]);
      var parsed := ParseLine(answers[i]);
      PlanSingle(answers[i]);
      if parsed.Some? {
        tools := tools + [parsed.value];
      }
      i := i + 1;
    }
    assert answers[..i] == answers;
  }

  /** The two messages the planner sends: the catalog as system prompt, the flattened history as user. */
  function SelectionMessages(catalog: string, userMessage: string): seq<Message> {
    [Message("system", catalog), Message("user", userMessage)]
  }

  /**
   * What `llm_select_tool` yields: the plan of the model's reply to the
   * catalog and the flattened history, or the exception raised on the way
   * (an empty dialogue, a failing model).
   */
  function Selected(h: History, catalog: string, llm: (seq<Message>, seq<string>, Provider) -> Result<string>): Result<seq<Invocation>> {
    match FlattenHistory(h)
    case Raised(e) => Raised(e)
    case Ok(u) =>
      match llm(SelectionMessages(catalog, u), [], Google)
      case Raised(e) => Raised(e)
      case Ok(reply) => Ok(Plan(Split(reply, '\n')))
  }

  /**
   * `llm_select_tool`: flatten, ask the model (Gemini by default, no files),
   * parse the reply line by line. `catalog` is the module-level selection
   * prompt, `BuildCatalogPrompt(Catalog)`.
   */
  method SelectTool(h: History, catalog: string, llm: (seq<Message>, seq<string>, Provider) -> Result<string>)
    returns (r: Result<seq<Invocation>>)
    ensures r == Selected(h, catalog, llm)
  {
    var flat := FlattenHistory(h);
    if flat.Raised? {
      return Raised(flat.error);
    }
    var reply := llm(SelectionMessages(catalog, flat.value), [], Google);
    if reply.Raised? {
      return Raised(reply.error);
    }
    var tools := PlanFromReply(reply.value);
    TrailingNewlineHarmless(reply.value);
    r := Ok(tools);
  }

  // ---------------------------------------------------------------------
  // Running the plan and merging the results

  /** What a tool returns: a text, or a pair of a text and a list of produced files. */
  datatype ToolValue = Text(text: string) | TextAndFiles(text: string, files: seq<string>)

  datatype Merged = Merged(text: string, files: seq<string>)

  /** The values of all invocations, or the first exception in plan order. */
  function Gather(tools: seq<Invocation>, run: Invocation -> Result<ToolValue>): (r: Result<seq<ToolValue>>)
    ensures r.Ok? ==> |r.value| == |tools| && forall i :: 0 <= i < |tools| ==> run(tools[i]) == Ok(r.value[i])
  {
    if tools == [] then Ok([])
    else
      match run(tools[0])
      case Raised(e) => Raised(e)
      case Ok(v) =>
        match Gather(tools[1..], run)
        case Raised(e) => Raised(e)
        case Ok(vs) => Ok([v] + vs)
  }

  /** Gathering fails iff some tool raises, and then with the error of the first one that does. */
  lemma {:induction false} GatherRaisedFirst(tools: seq<Invocation>, run: Invocation -> Result<ToolValue>)
    ensures Gather(tools, run).Raised? <==> exists i :: 0 <= i < |tools| && run(tools[i]).Raised?
    ensures Gather(tools, run).Raised? ==>
      exists i :: 0 <= i < |tools| && run(tools[i]) == Raised(Gather(tools, run).error) &&
        forall j :: 0 <= j < i ==> run(tools[j]).Ok?
  {
    if tools != [] {
      GatherRaisedFirst(tools[1..], run);
      if run(tools[0]).Ok? && Gather(tools[1..], run).Raised? {
        var i :| 0 <= i < |tools[1..]| && run(tools[1..][i]) == Raised(Gather(tools[1..], run).error) &&
          forall j :: 0 <= j < i ==> run(tools[1..][j]).Ok?;
        assert run(tools[i + 1]) == Raised(Gather(tools, run).error);
        forall j | 0 <= j < i + 1 ensures run(tools[j]).Ok? {
          if j > 0 { assert run(tools[1..][j - 1]).Ok?; }
        }
      }
      if exists i :: 0 <= i < |tools| && run(tools[i]).Raised? {
        var i :| 0 <= i < |tools| && run(tools[i]).Raised?;
        if i > 0 && run(tools[0]).Ok? {
          assert run(tools[1..][i - 1]).Raised?;
        }
      }
    }
  }

  /** The line one result contributes: `name(input): text`. */
  function ResultLine(inv: Invocation, v: ToolValue): string {
    inv.name + "(" + inv.input + "): " + v.text
  }

  function ResultLines(tools: seq<Invocation>, vs: seq<ToolValue>): (r: seq<string>)
    requires |tools| == |vs|
    ensures |r| == |tools| && forall i :: 0 <= i < |tools| ==> r[i] == ResultLine(tools[i], vs[i])
  {
    if tools == [] then [] else [ResultLine(tools[0], vs[0])] + ResultLines(tools[1..], vs[1..])
  }

  function FilesOf(v: ToolValue): seq<string> {
    if v.TextAndFiles? then v.files else []
  }

  /** The files of all results, concatenated in plan order. */
  function AllFiles(vs: seq<ToolValue>): seq<string> {
    if vs == [] then [] else FilesOf(vs[0]) + AllFiles(vs[1..])
  }

  lemma AllFilesAppend(vs: seq<ToolValue>, v: ToolValue)
    ensures AllFiles(vs + [v]) == AllFiles(vs) + FilesOf(v)
  {
    if vs != [] {
      assert (vs + [v])[1..] == vs[1..] + [v];
      AllFilesAppend(vs[1..], v);
    }
  }

  /** Results that are plain texts contribute no files. */
  lemma {:induction false} AllFilesOfTexts(vs: seq<ToolValue>)
    requires forall i :: 0 <= i < |vs| ==> vs[i].Text?
    ensures AllFiles(vs) == []
  {
    if vs != [] {
      AllFilesOfTexts(vs[1..]);
    }
  }

  /** `llm_use_tool`: gather every result, then one line per invocation and all files, in plan order. */
  method UseTool(tools: seq<Invocation>, run: Invocation -> Result<ToolValue>) returns (r: Result<Merged>)
    ensures Gather(tools, run).Raised? ==> r == Raised(Gather(tools, run).error)
    ensures Gather(tools, run).Ok? ==>
      r == Ok(Merged(Join(ResultLines(tools, Gather(tools, run).value), "\n"), AllFiles(Gather(tools, run).value)))
  {
    var g := Gather(tools, run);
    if g.Raised? {
      return Raised(g.error);
    }
    var results := g.value;
    var strResults: seq<string> := [];
    var images: seq<string> := [];
    var i := 0;
    while i < |results|
      invariant 0 <= i <= |results|
      invariant strResults == ResultLines(tools[..i], results[..i])
      invariant images == AllFiles(results[..i])
    {
      assert tools[..i + 1] == tools[..i] + [tools[i]];
      assert results[..i + 1] == results[..i] + [results[i]];
      AllFilesAppend(results[..i], results[i]);
      strResults := strResults + [ResultLine(tools[i], results[i])];
      if results[i].TextAndFiles? {
        images := images + results[i].files;
      }
      i := i + 1;
    }
    assert tools[..i] == tools && results[..i] == results;
    r := Ok(Merged(Join(strResults, "\n"), images));
  }

  /** The empty plan merges to the empty text and no files. */
  lemma MergeEmpty(run: Invocation -> Result<ToolValue>)
    ensures Gather([], run) == Ok([])
    ensures Join(ResultLines([], []), "\n") == "" && AllFiles([]) == []
  {
  }

  /** One more invocation adds one more line after a line break, and its files after the earlier ones. */
  lemma MergeExtend(tools: seq<Invocation>, vs: seq<ToolValue>, inv: Invocation, v: ToolValue)
    requires |tools| == |vs| && tools != []
    ensures Join(ResultLines(tools + [inv], vs + [v]), "\n") ==
      Join(ResultLines(tools, vs), "\n") + "\n" + ResultLine(inv, v)
    ensures AllFiles(vs + [v]) == AllFiles(vs) + FilesOf(v)
  {
    assert ResultLines(tools + [inv], vs + [v]) == ResultLines(tools, vs) + [ResultLine(inv, v)];
    JoinAppend(ResultLines(tools, vs), ResultLine(inv, v), "\n");
    AllFilesAppend(vs, v);
  }

  // ---------------------------------------------------------------------
  // The final answer

  /**
   * The message list `llm_full_answer` sends: the system prompt first, then the
   * caller's messages, then the tool result as an assistant message when the
   * tool text or the file list is non-empty.
   */
  method AssembleMessages(h: History, toolText: string, images: seq<string>) returns (ms: seq<Message>)
    ensures var base := if h.Prompt? then [Message("user", h.text)] else h.messages;
      |ms| == 1 + |base| + (if toolText != "" || images != [] then 1 else 0) &&
      ms[0] == Message("system", SystemPrompt()) &&
      ms[1..1 + |base|] == base &&
      (toolText != "" || images != [] ==> ms[|ms| - 1] == Message("assistant", "tool result:\n" + toolText))
  {
    match h {
      case Prompt(s) =>
        ms := [Message("system", SystemPrompt()), Message("user", s)];
      case Dialogue(d) =>
        ms := [Message("system", SystemPrompt())] + d;
        assert ms[1..1 + |d|] == d;
    }
    ghost var before := ms;
    if toolText != "" || images != [] {
      ms := ms + [Message("assistant", "tool result:\n" + toolText)];
      assert ms[..|before|] == before;
    }
  }

  /** Every result line holds its tool's name, so the merged text is empty iff the plan is. */
  lemma MergedTextEmptyIff(tools: seq<Invocation>, vs: seq<ToolValue>)
    requires |tools| == |vs|
    requires forall i :: 0 <= i < |tools| ==> IsTool(tools[i].name)
    ensures Join(ResultLines(tools, vs), "\n") == "" <==> tools == []
  {
    if tools != [] {
      var lines := ResultLines(tools, vs);
      assert |lines[0]| > 0;
      if |lines| > 1 {
        assert Join(lines, "\n") == lines[0] + "\n" + Join(lines[1..], "\n");
      }
    }
  }

  /**
   * `llm_full_answer`: plan, run the plan, assemble the messages and ask the
   * model once more with the caller's files and provider. Returns the answer
   * and the message list that was sent; the tool-result message is sent iff
   * the plan is non-empty.
   */
  method FullAnswer(h: History, files: seq<string>, provider: Provider, catalog: string,
                    llm: (seq<Message>, seq<string>, Provider) -> Result<string>,
                    run: Invocation -> Result<ToolValue>)
    returns (r: Result<string>, sent: seq<Message>)
    ensures Selected(h, catalog, llm).Raised? ==> r == Raised(Selected(h, catalog, llm).error)
    ensures Selected(h, catalog, llm).Ok? && Gather(Selected(h, catalog, llm).value, run).Raised? ==>
      r == Raised(Gather(Selected(h, catalog, llm).value, run).error)
    ensures Selected(h, catalog, llm).Ok? && Gather(Selected(h, catalog, llm).value, run).Ok? ==>
      var base := if h.Prompt? then [Message("user", h.text)] else h.messages;
      r == llm(sent, files, provider) &&
      |sent| == 1 + |base| + (if Selected(h, catalog, llm).value != [] then 1 else 0) &&
      sent[0] == Message("system", SystemPrompt()) && sent[1..1 + |base|] == base &&
      (Selected(h, catalog, llm).value != [] ==>
        var plan := Selected(h, catalog, llm).value;
        sent[|sent| - 1] == Message("assistant", "tool result:\n" + Join(ResultLines(plan, Gather(plan, run).value), "\n")))
  {
    sent := [];
    var plan := SelectTool(h, catalog, llm);
    if plan.Raised? {
      return Raised(plan.error), sent;
    }
    var merged := UseTool(plan.value, run);
    if merged.Raised? {
      return Raised(merged.error), sent;
    }
    var vs := Gather(plan.value, run).value;
    MergedTextEmptyIff(plan.value, vs);
    sent := AssembleMessages(h, merged.value.text, merged.value.files);
    r := llm(sent, files, provider);
  }
}

=== FILE: quotes.dfy ===
/**
 * `process_quotes`, the step of `markdown_to_html` (src/bot/formatter.py)
 * that turns quoted lines into Telegram block quotes. The text has already
 * been HTML-escaped, so a quoted line starts, after any white space, with
 * `&gt;`. A maximal run of such lines becomes one `<blockquote>` holding
 * their contents, one per line; every other line is kept.
 */
module Quotes {
  import opened Common

  const QuoteMark := "&gt;"

  /** `re.match(r'^\s*&gt;\s*(.*)$', line)`. */
  predicate IsQuote(line: string) {
    StartsWith(StripLeft(line), QuoteMark)
  }

  /** The group `(.*)`: what follows the mark and the white space after it. */
  function QuoteContent(line: string): string
    requires IsQuote(line)
  {
    StripLeft(StripLeft(line)[|QuoteMark|..])
  }

  function Blockquote(quoted: seq<string>): string {
    "<blockquote>" + Join(quoted, "\n") + "</blockquote>"
  }

  /** What the loop emits for the gathered contents when a run ends. */
  function Flush(quoted: seq<string>): seq<string> {
    if quoted == [] then [] else [Blockquote(quoted)]
  }

  /**
   * The output lines for `lines` when `quoted` has been gathered so far:
   * never more lines than came in (a gathered run counts as one), and none
   * only when nothing came in.
   */
  function Grouped(quoted: seq<string>, lines: seq<string>): (r: seq<string>)
    ensures |r| <= |lines| + (if quoted == [] then 0 else 1)
    ensures r == [] <==> quoted == [] && lines == []
    decreases |lines|
  {
    if lines == [] then Flush(quoted)
    else if IsQuote(lines[0]) then Grouped(quoted + [QuoteContent(lines[0])], lines[1..])
    else Flush(quoted) + [lines[0]] + Grouped([], lines[1..])
  }

  /** `process_quotes(text)`. */
  method ProcessQuotes(text: string) returns (r: string)
    ensures r == Join(Grouped([], Split(text, '\n')), "\n")
  {
    var lines := Split(text, '\n');
    var result: seq<string> := [];
    var quoteLines: seq<string> := [];
    for i := 0 to |lines|
      invariant result + Grouped(quoteLines, lines[i..]) == Grouped([], lines)
    {
      var line := lines[i];
      assert lines[i..] == [line] + lines[i + 1..];
      if IsQuote(line) {
        assert Grouped(quoteLines, lines[i..]) == Grouped(quoteLines + [QuoteContent(line)], lines[i + 1..]);
        quoteLines := quoteLines + [QuoteContent(line)];
      } else {
        ghost var tail := Grouped([], lines[i + 1..]);
        assert Grouped(quoteLines, lines[i..]) == Flush(quoteLines) + [line] + tail;
        AppendAssociative(result, Flush(quoteLines) + [line], tail);
        AppendAssociative(result, Flush(quoteLines), [line]);
        ghost var emitted := result + Flush(quoteLines);
        if quoteLines != [] {
          var quoteText := Join(quoteLines, "\n");
          result := result + ["<blockquote>" + quoteText + "</blockquote>"];
          quoteLines := [];
        }
        assert result == emitted;
        result := result + [line];
        assert Grouped(quoteLines, []) == [];
      }
    }
    assert lines[|lines|..] == [];
    if quoteLines != [] {
      var quoteText := Join(quoteLines, "\n");
      result := result + ["<blockquote>" + quoteText + "</blockquote>"];
    } else {
      assert result + [] == result;
    }
    r := Join(result, "\n");
  }

  /** The contents of a run of quoted lines. */
  function Contents(run: seq<string>): seq<string>
    requires forall k :: 0 <= k < |run| ==> IsQuote(run[k])
  {
    if run == [] then [] else [QuoteContent(run[0])] + Contents(run[1..])
  }

  /** A run of quoted lines only gathers contents. */
  lemma {:induction false} Gathers(quoted: seq<string>, run: seq<string>, rest: seq<string>)
    requires forall k :: 0 <= k < |run| ==> IsQuote(run[k])
    ensures Grouped(quoted, run + rest) == Grouped(quoted + Contents(run), rest)
    decreases |run|
  {
    if run == [] {
      assert run + rest == rest;
      assert quoted + Contents(run) == quoted;
    } else {
      assert (run + rest)[1..] == run[1..] + rest;
      Gathers(quoted + [QuoteContent(run[0])], run[1..], rest);
      assert Contents(run) == [QuoteContent(run[0])] + Contents(run[1..]);
      assert quoted + [QuoteContent(run[0])] + Contents(run[1..]) == quoted + Contents(run);
    }
  }

  /**
   * A maximal run of quoted lines becomes exactly one block quote holding
   * their contents in order, followed by the line that ended the run.
   */
  lemma RunBecomesOneBlock(run: seq<string>, rest: seq<string>)
    requires run != [] && forall k :: 0 <= k < |run| ==> IsQuote(run[k])
    requires rest == [] || !IsQuote(rest[0])
    ensures Grouped([], run + rest) ==
      [Blockquote(Contents(run))] + (if rest == [] then [] else [rest[0]] + Grouped([], rest[1..]))
  {
    Gathers([], run, rest);
    assert [] + Contents(run) == Contents(run);
    assert Contents(run) != [];
  }

  /** Without quoted lines every line is kept as it is. */
  lemma {:induction false} NoQuotesKept(lines: seq<string>)
    requires forall k :: 0 <= k < |lines| ==> !IsQuote(lines[k])
    ensures Grouped([], lines) == lines
    decreases |lines|
  {
    if lines != [] {
      NoQuotesKept(lines[1..]);
      assert Flush([]) == [];
      assert [lines[0]] + lines[1..] == lines;
    }
  }

  /** A text with no quoted line comes back unchanged. */
  lemma NoQuotesUnchanged(text: string)
    requires forall line :: line in Split(text, '\n') ==> !IsQuote(line)
    ensures Join(Grouped([], Split(text, '\n')), "\n") == text
  {
    NoQuotesKept(Split(text, '\n'));
    JoinSplit(text, '\n');
  }
}

=== FILE: store.dfy ===
/**
 * The SQLite history store (src/bot/database.py, and its older copy
 * src/sql.py): a `Users` table keyed by Telegram id and a `Messages` table
 * of every stored turn. The tables are the fields of `Store`; each `sql_*`
 * function is a method on it. The clock (`utc_time()`) is passed in as the
 * timestamp string `now`, and SHA-256 as the function `digest`.
 */
module HistoryStore {
  import opened Common

  /** A row of `Users`. */
  datatype UserRow = UserRow(telegramName: string, telegramUsername: string, messageCount: nat,
                             firstMessage: string, lastMessage: string)

  /** A row of `Messages`. */
  datatype MessageRow = MessageRow(userName: string, userId: int, role: string, content: string,
                                   time: string, messageHash: string)

  /** One archived turn of a cleared dialogue (`{'role', 'content', 'time'}`). */
  datatype ArchivedTurn = ArchivedTurn(role: string, content: string, time: string)

  /** One entry of the deleted-dialogues log: `{"<id>_<time>": dialog}`. */
  datatype ArchiveEntry = ArchiveEntry(key: string, dialog: seq<ArchivedTurn>)

  /** `text_to_hash`: the first 32 hex digits of the SHA-256 digest. */
  function TextToHash(digest: string -> string, text: string): (h: string)
    ensures |h| == if |digest(text)| < 32 then |digest(text)| else 32
    ensures h <= digest(text)
  {
    var d := digest(text);
    if |d| < 32 then d else d[..32]
  }

  /** The rows of one user, in table order. */
  function UserRows(rows: seq<MessageRow>, id: int): (r: seq<MessageRow>)
    ensures |r| <= |rows|
  {
    if rows == [] then []
    else UserRows(rows[..|rows| - 1], id) + (if rows[|rows| - 1].userId == id then [rows[|rows| - 1]] else [])
  }

  /** The rows of every other user, in table order. */
  function OtherRows(rows: seq<MessageRow>, id: int): (r: seq<MessageRow>)
    ensures |r| <= |rows|
  {
    if rows == [] then []
    else OtherRows(rows[..|rows| - 1], id) + (if rows[|rows| - 1].userId != id then [rows[|rows| - 1]] else [])
  }

  /** A user's rows are exactly the stored rows with that user id. */
  lemma {:induction false} UserRowsMembers(rows: seq<MessageRow>, id: int)
    ensures forall m :: m in UserRows(rows, id) <==> m in rows && m.userId == id
  {
    if rows != [] {
      UserRowsMembers(rows[..|rows| - 1], id);
      assert rows == rows[..|rows| - 1] + [rows[|rows| - 1]];
    }
  }

  /** Clearing keeps exactly the rows of the other users. */
  lemma {:induction false} OtherRowsMembers(rows: seq<MessageRow>, id: int)
    ensures forall m :: m in OtherRows(rows, id) <==> m in rows && m.userId != id
  {
    if rows != [] {
      OtherRowsMembers(rows[..|rows| - 1], id);
      assert rows == rows[..|rows| - 1] + [rows[|rows| - 1]];
    }
  }

  lemma UserRowsAppend(a: seq<MessageRow>, b: seq<MessageRow>, id: int)
    ensures UserRows(a + b, id) == UserRows(a, id) + UserRows(b, id)
    decreases |b|
  {
    if b == [] {
      assert a + b == a;
    } else {
      assert (a + b)[..|a + b| - 1] == a + b[..|b| - 1];
      UserRowsAppend(a, b[..|b| - 1], id);
    }
  }

  lemma UserRowsCons(rows: seq<MessageRow>, i: int, id: int)
    requires 0 <= i < |rows|
    ensures UserRows(rows[i..], id) == (if rows[i].userId == id then [rows[i]] else []) + UserRows(rows[i + 1..], id)
  {
    assert rows[i..] == [rows[i]] + rows[i + 1..];
    UserRowsAppend([rows[i]], rows[i + 1..], id);
    assert [rows[i]][..0] == [];
  }

  /** Where the backward scan of `SelectHistory` stops, the rows it picked are the last `limit`. */
  lemma LastRows(rows: seq<MessageRow>, i: int, id: int, limit: int)
    requires 0 <= i <= |rows|
    requires limit >= 0 ==> |UserRows(rows[i..], id)| <= limit
    requires i == 0 || (limit >= 0 && |UserRows(rows[i..], id)| == limit)
    ensures UserRows(rows[i..], id) == TakeLast(UserRows(rows, id), limit)
  {
    assert rows == rows[..i] + rows[i..];
    UserRowsAppend(rows[..i], rows[i..], id);
    if i == 0 {
      assert rows[i..] == rows;
    }
  }

  /** `LIMIT n`: a negative limit takes every row. */
  function TakeLast<T>(s: seq<T>, n: int): (r: seq<T>)
    ensures |r| == if 0 <= n < |s| then n else |s|
    ensures r == s[|s| - |r|..]
  {
    if 0 <= n < |s| then s[|s| - n..] else s
  }

  /** The `{'role', 'content'}` dictionaries built from rows. */
  function AsMessages(rows: seq<MessageRow>): (r: seq<Message>)
    ensures |r| == |rows|
    ensures forall i :: 0 <= i < |rows| ==> r[i] == Message(rows[i].role, rows[i].content)
  {
    seq(|rows|, i requires 0 <= i < |rows| => Message(rows[i].role, rows[i].content))
  }

  function Archived(rows: seq<MessageRow>): (r: seq<ArchivedTurn>)
    ensures |r| == |rows|
    ensures forall i :: 0 <= i < |rows| ==> r[i] == ArchivedTurn(rows[i].role, rows[i].content, rows[i].time)
  {
    seq(|rows|, i requires 0 <= i < |rows| => ArchivedTurn(rows[i].role, rows[i].content, rows[i].time))
  }

  class Store {
    /** SHA-256, as a hex string. */
    const digest: string -> string
    /** The default `n` of `sql_select_history`. */
    const historyDefault: int
    var users: map<int, UserRow>
    var messages: seq<MessageRow>
    /** The deleted-dialogues JSON log. */
    var archive: seq<ArchiveEntry>

    /**
     * Every stored message belongs to a known user and carries the hash of
     * its content.
     */
    predicate Valid()
      reads this
    {
      forall i :: 0 <= i < |messages| ==>
        messages[i].userId in users && messages[i].messageHash == TextToHash(digest, messages[i].content)
    }

    /** `sql_launch` on a fresh database file. */
    constructor (digest: string -> string, historyDefault: int)
      ensures this.digest == digest && this.historyDefault == historyDefault
      ensures users == map[] && messages == [] && archive == []
      ensures Valid()
    {
      this.digest := digest;
      this.historyDefault := historyDefault;
      users := map[];
      messages := [];
      archive := [];
    }

    /** `sql_check_user`: register a new user, or count one more request of a known one. */
    method CheckUser(name: string, username: string, id: int, now: string)
      requires Valid()
      modifies this
      ensures Valid()
      ensures id !in old(users) ==> users == old(users)[id := UserRow(name, username, 1, now, now)]
      ensures id in old(users) ==>
        users == old(users)[id := old(users)[id].(messageCount := old(users)[id].messageCount + 1, lastMessage := now)]
      ensures messages == old(messages) && archive == old(archive)
    {
      if id !in users {
        users := users[id := UserRow(name, username, 1, now, now)];
      } else {
        var u := users[id];
        users := users[id := u.(messageCount := u.messageCount + 1, lastMessage := now)];
      }
    }

    /**
     * `sql_insert_message`: append one turn, named after the user's
     * Telegram name. With no such user `fetchone()` is `None` and
     * subscripting it raises; nothing is stored.
     */
    method InsertMessage(id: int, role: string, content: string, now: string) returns (r: Result<()>)
      requires Valid()
      modifies this
      ensures Valid()
      ensures r.Raised? <==> id !in old(users)
      ensures r.Raised? ==> messages == old(messages)
      ensures r.Ok? ==> (messages == old(messages) +
        [MessageRow(old(users)[id].telegramName, id, role, content, now, TextToHash(digest, content))])
      ensures users == old(users) && archive == old(archive)
    {
      if id !in users {
        return Raised("TypeError: 'NoneType' object is not subscriptable");
      }
      var userName := users[id].telegramName;
      messages := messages + [MessageRow(userName, id, role, content, now, TextToHash(digest, content))];
      r := Ok(());
    }

    /**
     * `sql_select_history`: the last `n` turns of one user, oldest first
     * (`None` stands for the default argument). Table order stands for
     * `ORDER BY time`.
     */
    method SelectHistory(id: int, n: Option<int>) returns (r: seq<Message>)
      ensures var limit := if n.Some? then n.value else historyDefault;
        r == AsMessages(TakeLast(UserRows(messages, id), limit))
    {
      var limit := if n.Some? then n.value else historyDefault;
      var rows := messages;
      var picked: seq<MessageRow> := [];
      var i := |rows|;
      while i > 0 && (limit < 0 || |picked| < limit)
        invariant 0 <= i <= |rows|
        invariant picked == UserRows(rows[i..], id)
        invariant limit >= 0 ==> |picked| <= limit
      {
        i := i - 1;
        UserRowsCons(rows, i, id);
        if rows[i].userId == id {
          picked := [rows[i]] + picked;
        }
      }
      LastRows(rows, i, id, limit);
      r := AsMessages(picked);
    }

    /**
     * `sql_get_message_by_hash`: the content of the first stored turn with
     * that hash; with none, `fetchone()` is `None` and subscripting raises.
     */
    method GetMessageByHash(hash: string) returns (r: Result<string>)
      ensures r.Raised? <==> forall i :: 0 <= i < |messages| ==> messages[i].messageHash != hash
      ensures r.Ok? ==> exists i :: (0 <= i < |messages| && messages[i].messageHash == hash &&
        r.value == messages[i].content && forall j :: 0 <= j < i ==> messages[j].messageHash != hash)
    {
      var i := 0;
      while i < |messages|
        invariant 0 <= i <= |messages|
        invariant forall j :: 0 <= j < i ==> messages[j].messageHash != hash
      {
        if messages[i].messageHash == hash {
          return Ok(messages[i].content);
        }
        i := i + 1;
      }
      r := Raised("TypeError: 'NoneType' object is not subscriptable");
    }

    /**
     * `sql_clear_user_history`: log the user's dialogue (only when it is
     * non-empty) under the key `<id>_<now>`, then delete every turn of that
     * user and none of anyone else's.
     */
    method ClearUserHistory(id: int, now: string)
      requires Valid()
      modifies this
      ensures Valid()
      ensures messages == OtherRows(old(messages), id)
      ensures UserRows(old(messages), id) == [] ==> archive == old(archive)
      ensures UserRows(old(messages), id) != [] ==>
        archive == old(archive) + [ArchiveEntry(IntToString(id) + "_" + now, Archived(UserRows(old(messages), id)))]
      ensures users == old(users)
    {
      var dialog := UserRows(messages, id);
      if dialog != [] {
        archive := archive + [ArchiveEntry(IntToString(id) + "_" + now, Archived(dialog))];
      }
      var kept := DeleteUserRows(messages, id);
      OtherRowsMembers(messages, id);
      messages := kept;
      forall k | 0 <= k < |messages|
        ensures messages[k].userId in users && messages[k].messageHash == TextToHash(digest, messages[k].content)
      {
        assert messages[k] in old(messages);
      }
    }
  }

  /** `DELETE FROM messages WHERE user_id = ?`: the rows of everyone else, in their order. */
  method DeleteUserRows(rows: seq<MessageRow>, id: int) returns (kept: seq<MessageRow>)
    ensures kept == OtherRows(rows, id)
  {
    kept := [];
    var i := 0;
    while i < |rows|
      invariant 0 <= i <= |rows|
      invariant kept == OtherRows(rows[..i], id)
    {
      assert rows[..i + 1][..i] == rows[..i];
      if rows[i].userId != id {
        kept := kept + [rows[i]];
      }
      i := i + 1;
    }
    assert rows[..i] == rows;
  }

  /** `sql_launch` of src/bot/database.py: empty tables, ten turns of history by default. */
  method OpenStore(digest: string -> string) returns (s: Store)
    ensures fresh(s) && s.Valid()
    ensures s.digest == digest && s.historyDefault == 10
    ensures s.users == map[] && s.messages == [] && s.archive == []
  {
    s := new Store(digest, 10);
  }

  /** `sql_launch` of the older src/sql.py: the same tables, seven turns of history by default. */
  method OpenLegacyStore(digest: string -> string) returns (s: Store)
    ensures fresh(s) && s.Valid()
    ensures s.digest == digest && s.historyDefault == 7
    ensures s.users == map[] && s.messages == [] && s.archive == []
  {
    s := new Store(digest, 7);
  }

  /** After clearing, the user's history reads back empty and every other user's is untouched. */
  lemma ClearedHistoryEmpty(rows: seq<MessageRow>, id: int, other: int)
    requires other != id
    ensures UserRows(OtherRows(rows, id), id) == []
    ensures UserRows(OtherRows(rows, id), other) == UserRows(rows, other)
  {
    if rows != [] {
      var last := rows[|rows| - 1];
      var init := rows[..|rows| - 1];
      ClearedHistoryEmpty(init, id, other);
      var kept := if last.userId != id then [last] else [];
      UserRowsAppend(OtherRows(init, id), kept, id);
      UserRowsAppend(OtherRows(init, id), kept, other);
    }
  }

  /**
   * The history read back after storing a turn ends with that turn, and
   * holds at most the limit.
   */
  lemma InsertThenSelect(rows: seq<MessageRow>, row: MessageRow, limit: int)
    requires limit != 0
    ensures var t := TakeLast(UserRows(rows + [row], row.userId), limit);
      t != [] && t[|t| - 1] == row && (limit > 0 ==> |t| <= limit)
  {
    var all := UserRows(rows, row.userId) + [row];
    assert (rows + [row])[..|rows + [row]| - 1] == rows;
    assert UserRows(rows + [row], row.userId) == all;
    var t := TakeLast(all, limit);
    if 0 <= limit < |all| {
      assert t == all[|all| - limit..] && |t| == limit;
      assert t[|t| - 1] == all[|all| - 1];
    } else {
      assert t == all;
    }
  }
}

=== FILE: tables.dfy ===
/**
 * The helpers of the formatter's Markdown-table rendering
 * (src/bot/formatter.py, `replace_tables`): recognising the separator line
 * under a header, reading each column's alignment from it, making the
 * header's field names unique, and the two tables that hide HTML tags
 * behind fixed hashes while the cells are escaped.
 */
module Tables {
  import opened Common

  // ---------------------------------------------------------------------
  // make_strings_unique

  /** `original + f"_{k}"`. */
  function Suffixed(original: string, k: nat): string {
    original + "_" + NatToString(k)
  }

  lemma SuffixedInjective(original: string, j: nat, k: nat)
    requires Suffixed(original, j) == Suffixed(original, k)
    ensures j == k
  {
    var n := |original| + 1;
    assert Suffixed(original, j)[n..] == NatToString(j);
    assert Suffixed(original, k)[n..] == NatToString(k);
    NatToStringInjective(j, k);
  }

  /**
   * The name `make_strings_unique` gives `original` when the names before it
   * are `before`: itself when unused, otherwise `original_k` for the
   * smallest `k >= 1` that is unused.
   */
  ghost predicate FreshName(original: string, before: seq<string>, name: string) {
    if original !in before then name == original
    else
      exists k :: 1 <= k && name == Suffixed(original, k) && name !in before &&
        forall j :: 1 <= j < k ==> Suffixed(original, j) in before
  }

  /** The suffixed names `original_1` .. `original_{m-1}`. */
  ghost function Tried(original: string, m: nat): set<string> {
    set j | 1 <= j < m :: Suffixed(original, j)
  }

  lemma {:induction false} TriedSize(original: string, m: nat)
    requires m >= 1
    ensures |Tried(original, m)| == m - 1
  {
    if m > 1 {
      TriedSize(original, m - 1);
      assert Tried(original, m) == Tried(original, m - 1) + {Suffixed(original, m - 1)};
      if Suffixed(original, m - 1) in Tried(original, m - 1) {
        var j :| 1 <= j < m - 1 && Suffixed(original, j) == Suffixed(original, m - 1);
        SuffixedInjective(original, j, m - 1);
      }
    } else {
      assert Tried(original, m) == {};
    }
  }

  lemma {:induction false} SubsetSize<T>(a: set<T>, b: set<T>)
    requires a <= b
    ensures |a| <= |b|
    decreases |a|
  {
    if a != {} {
      var x :| x in a;
      SubsetSize(a - {x}, b - {x});
    }
  }

  /**
   * `make_strings_unique(strings)`: one name per string, no two alike, each
   * the string itself when it is still free and otherwise its first free
   * `_k` variant. A string seen for the first time can still be renamed
   * when an earlier renaming took its name (`["a", "a", "a_1"]` gives
   * `["a", "a_1", "a_1_1"]`).
   */
  method MakeStringsUnique(strings: seq<string>) returns (result: seq<string>)
    ensures |result| == |strings|
    ensures forall i, j :: 0 <= i < j < |result| ==> result[i] != result[j]
    ensures forall i :: 0 <= i < |result| ==> FreshName(strings[i], result[..i], result[i])
  {
    var seen: set<string> := {};
    result := [];
    for i := 0 to |strings|
      invariant |result| == i
      invariant forall x :: x in seen <==> x in result
      invariant forall a, b :: 0 <= a < b < i ==> result[a] != result[b]
      invariant forall a :: 0 <= a < i ==> FreshName(strings[a], result[..a], result[a])
    {
      ghost var before := result;
      var s := FirstFree(strings[i], seen);
      FirstFreeIsFresh(strings[i], before, seen, s);
      ExtendFresh(strings, before, s);
      seen := seen + {s};
      result := result + [s];
    }
  }

  /** The name the inner loop picks against the set of names so far is the fresh name against their list. */
  lemma FirstFreeIsFresh(original: string, before: seq<string>, seen: set<string>, s: string)
    requires forall x :: x in seen <==> x in before
    requires s !in seen
    requires original !in seen ==> s == original
    requires original in seen ==>
      exists k :: 1 <= k && s == Suffixed(original, k) &&
        forall j :: 1 <= j < k ==> Suffixed(original, j) in seen
    ensures FreshName(original, before, s)
  {
    if original in before {
      var k :| 1 <= k && s == Suffixed(original, k) &&
        forall j :: 1 <= j < k ==> Suffixed(original, j) in seen;
      assert forall j :: 1 <= j < k ==> Suffixed(original, j) in before;
    }
  }

  /** Appending the next string's fresh name keeps every earlier name fresh against its own prefix. */
  lemma ExtendFresh(strings: seq<string>, before: seq<string>, s: string)
    requires |before| < |strings|
    requires FreshName(strings[|before|], before, s)
    requires forall a :: 0 <= a < |before| ==> FreshName(strings[a], before[..a], before[a])
    ensures forall a :: 0 <= a <= |before| ==> FreshName(strings[a], (before + [s])[..a], (before + [s])[a])
  {
    var result := before + [s];
    forall a | 0 <= a <= |before|
      ensures FreshName(strings[a], result[..a], result[a])
    {
      if a < |before| {
        assert result[..a] == before[..a] && result[a] == before[a];
      } else {
        assert result[..a] == before && result[a] == s;
      }
    }
  }

  /** The inner loop: the first of `original`, `original_1`, `original_2`, ... not in `seen`. */
  method FirstFree(original: string, seen: set<string>) returns (s: string)
    ensures s !in seen
    ensures original !in seen ==> s == original
    ensures original in seen ==>
      exists k :: 1 <= k && s == Suffixed(original, k) &&
        forall j :: 1 <= j < k ==> Suffixed(original, j) in seen
  {
    s := original;
    var count := 1;
    while s in seen
      invariant count >= 1
      invariant count == 1 ==> s == original
      invariant count > 1 ==> s == Suffixed(original, count - 1) && original in seen
      invariant forall j :: 1 <= j < count - 1 ==> Suffixed(original, j) in seen
      decreases |seen| + 1 - count
    {
      assert Tried(original, count) + {original} <= seen;
      TriedSize(original, count);
      assert original !in Tried(original, count);
      SubsetSize(Tried(original, count) + {original}, seen);
      s := Suffixed(original, count);
      count := count + 1;
    }
  }

  /** A name is kept exactly when no earlier name has taken it. */
  lemma KeptUnlessTaken(strings: seq<string>, result: seq<string>, i: nat)
    requires |result| == |strings| && i < |result|
    requires FreshName(strings[i], result[..i], result[i])
    ensures result[i] == strings[i] <==> strings[i] !in result[..i]
  {
    if strings[i] in result[..i] {
      var k :| 1 <= k && result[i] == Suffixed(strings[i], k) && result[i] !in result[..i] &&
        forall j :: 1 <= j < k ==> Suffixed(strings[i], j) in result[..i];
      assert |result[i]| > |strings[i]|;
    }
  }

  // ---------------------------------------------------------------------
  // The separator line and the alignments

  /** `s.replace(c, '')` for one character: every other character, in order. */
  function Without(s: string, c: char): (r: string)
    ensures c !in r
  {
    if s == [] then [] else (if s[0] == c then [] else [s[0]]) + Without(s[1..], c)
  }

  lemma {:induction false} ReplaceRemoves(s: string, c: char)
    ensures Replace(s, [c], "") == Without(s, c)
  {
    if s != [] {
      ReplaceRemoves(s[1..], c);
      assert s[..1] == [s[0]];
    }
  }

  /** Only dashes and colons. */
  predicate DashesAndColons(s: string) {
    forall k :: 0 <= k < |s| ==> s[k] == '-' || s[k] == ':'
  }

  lemma {:induction false} WithoutBothEmpty(s: string)
    ensures Without(Without(s, '-'), ':') == [] <==> DashesAndColons(s)
  {
    if s != [] {
      WithoutBothEmpty(s[1..]);
      WithoutHead(s, '-');
      var rest := Without(Without(s[1..], '-'), ':');
      if s[0] != '-' {
        var w1 := [s[0]] + Without(s[1..], '-');
        WithoutHead(w1, ':');
        assert w1[1..] == Without(s[1..], '-');
        if s[0] == ':' {
          assert Without(w1, ':') == rest;
        } else {
          assert Without(w1, ':') == [s[0]] + rest;
        }
      } else {
        assert Without(s, '-') == Without(s[1..], '-');
      }
      assert DashesAndColons(s) <==> (s[0] == '-' || s[0] == ':') && DashesAndColons(s[1..]) by {
        if (s[0] == '-' || s[0] == ':') && DashesAndColons(s[1..]) {
          forall k | 0 <= k < |s|
            ensures s[k] == '-' || s[k] == ':'
          {
            if k > 0 {
              assert s[k] == s[1..][k - 1];
            }
          }
        }
      }
    }
  }

  lemma WithoutHead(s: string, c: char)
    requires s != []
    ensures Without(s, c) == (if s[0] == c then [] else [s[0]]) + Without(s[1..], c)
  {
  }

  /** A separator cell: `part.strip().replace('-', '').replace(':', '') == ''`. */
  predicate SeparatorCell(part: string) {
    Replace(Replace(Strip(part), "-", ""), ":", "") == []
  }

  /** `is_valid_separator(line)`: a separator line holds something besides bars and spaces. */
  predicate IsValidSeparator(line: string)
    ensures IsValidSeparator(line) ==> exists k :: 0 <= k < |line| && line[k] != '|' && line[k] != ' '
  {
    StripCharsEmpty(line, {'|', ' '});
    line != [] && StripChars(line, {'|', ' '}) != [] &&
    forall part :: part in Split(StripChars(Strip(line), {'|'}), '|') ==> SeparatorCell(part)
  }

  lemma {:induction false} StripCharsEmpty(s: string, cs: set<char>)
    ensures StripChars(s, cs) == [] <==> forall k :: 0 <= k < |s| ==> s[k] in cs
  {
    StripCharsLeftEmpty(s, cs);
    var l := StripCharsLeft(s, cs);
    if l != [] {
      assert StripCharsRight(l, cs) != [];
    }
  }

  lemma {:induction false} StripCharsLeftEmpty(s: string, cs: set<char>)
    ensures StripCharsLeft(s, cs) == [] <==> forall k :: 0 <= k < |s| ==> s[k] in cs
  {
    if s != [] && s[0] in cs {
      StripCharsLeftEmpty(s[1..], cs);
      assert forall k :: 1 <= k < |s| ==> s[k] == s[1..][k - 1];
    }
  }

  /**
   * The separator test in plain terms: the line holds something besides
   * bars and spaces, and each of its cells is, once stripped, made only of
   * dashes and colons.
   */
  lemma SeparatorIff(line: string)
    ensures IsValidSeparator(line) <==>
      (exists k :: 0 <= k < |line| && line[k] != '|' && line[k] != ' ') &&
      forall part :: part in Split(StripChars(Strip(line), {'|'}), '|') ==> DashesAndColons(Strip(part))
  {
    StripCharsEmpty(line, {'|', ' '});
    forall part | part in Split(StripChars(Strip(line), {'|'}), '|')
      ensures SeparatorCell(part) <==> DashesAndColons(Strip(part))
    {
      ReplaceRemoves(Strip(part), '-');
      ReplaceRemoves(Without(Strip(part), '-'), ':');
      WithoutBothEmpty(Strip(part));
    }
  }

  /** A column's alignment from its separator cell: centre, right or left. */
  function Align(cell: string): (a: char)
    ensures a in {'c', 'r', 'l'}
    ensures a == 'c' <==> StartsWith(Strip(cell), ":") && EndsWith(Strip(cell), ":")
    ensures a == 'r' <==> !StartsWith(Strip(cell), ":") && EndsWith(Strip(cell), ":")
    ensures a == 'l' <==> !EndsWith(Strip(cell), ":")
  {
    var c := Strip(cell);
    if StartsWith(c, ":") && EndsWith(c, ":") then 'c'
    else if EndsWith(c, ":") then 'r'
    else 'l'
  }

  /** The alignments, one per cell of the separator line with its outer bars stripped. */
  function Alignments(line: string): (r: seq<char>)
    ensures |r| >= 1 && forall i :: 0 <= i < |r| ==> r[i] in {'c', 'r', 'l'}
    ensures '|' !in line ==> |r| == 1
    ensures var cells := Split(StripChars(line, {'|'}), '|');
      |r| == |cells| && forall i :: 0 <= i < |r| ==> r[i] == Align(cells[i])
  {
    var cells := Split(StripChars(line, {'|'}), '|');
    seq(|cells|, i requires 0 <= i < |cells| => Align(cells[i]))
  }

  // ---------------------------------------------------------------------
  // TAG_MAP and REVERSE_TAG_MAP

  /** The tags kept through the escaping of table cells, each with its hash. */
  const TagMap: map<string, string> := map[
    "<b>" := "40bd001563085fc35165329ea1ff5c5ecbdbbeef",
    "</b>" := "c591326762260728871710537179fabf75973234",
    "<strong>" := "ef0b585e265b5287aa6d26a6860e0cd846623679",
    "</strong>" := "e882cf5c82a930662f17c188c70ade885c55c607",
    "<i>" := "497603a6c32112169ae39a79072c07e863ae3f7a",
    "</i>" := "0784921025d4c05de5069cc93610c754a4088015",
    "<em>" := "d1a25e1cb6b3d667b567323119f126f845c971df",
    "</em>" := "851e149d4a4313c6016e73f719c269076790ab23",
    "<code>" := "c1166919418e7c62a16b86662710541583068278",
    "</code>" := "b7e364fd74d46f698c0f164988c382957c220c7c",
    "<s>" := "03c7c0ace395d80182db07ae2c30f0341a739b1b",
    "</s>" := "86029812940d86d63c5899ee5227cf94639408a7",
    "<strike>" := "f0e25c74b67881c84327dc916c8c919f062c9003",
    "</strike>" := "935f70051f605261d9f93948a5c3382f3a843596",
    "<del>" := "8527a891e224136950ff32ca212b45bc93f69972",
    "</del>" := "a992a007a4e77704231c285601a97cca4a70b768",
    "<pre>" := "932162e70462a0f5d1a7599592ed51c41c4f8eb7",
    "</pre>" := "e9e6f7c1fe77261334b414ae017288814903b225",
    "<u>" := "764689e6705f61c6e7494bfa62688414325d8155",
    "</u>" := "8a048b284925205d3187f8b04625a702150a936f"
  ]

  const ReverseTagMap: map<string, string> := map[
    "40bd001563085fc35165329ea1ff5c5ecbdbbeef" := "<b>",
    "c591326762260728871710537179fabf75973234" := "</b>",
    "ef0b585e265b5287aa6d26a6860e0cd846623679" := "<strong>",
    "e882cf5c82a930662f17c188c70ade885c55c607" := "</strong>",
    "497603a6c32112169ae39a79072c07e863ae3f7a" := "<i>",
    "0784921025d4c05de5069cc93610c754a4088015" := "</i>",
    "d1a25e1cb6b3d667b567323119f126f845c971df" := "<em>",
    "851e149d4a4313c6016e73f719c269076790ab23" := "</em>",
    "c1166919418e7c62a16b86662710541583068278" := "<code>",
    "b7e364fd74d46f698c0f164988c382957c220c7c" := "</code>",
    "03c7c0ace395d80182db07ae2c30f0341a739b1b" := "<s>",
    "86029812940d86d63c5899ee5227cf94639408a7" := "</s>",
    "f0e25c74b67881c84327dc916c8c919f062c9003" := "<strike>",
    "935f70051f605261d9f93948a5c3382f3a843596" := "</strike>",
    "8527a891e224136950ff32ca212b45bc93f69972" := "<del>",
    "a992a007a4e77704231c285601a97cca4a70b768" := "</del>",
    "932162e70462a0f5d1a7599592ed51c41c4f8eb7" := "<pre>",
    "e9e6f7c1fe77261334b414ae017288814903b225" := "</pre>",
    "764689e6705f61c6e7494bfa62688414325d8155" := "<u>",
    "8a048b284925205d3187f8b04625a702150a936f" := "</u>"
  ]

  /** The reverse table undoes the forward one: every tag comes back from its hash. */
  lemma TagsComeBack()
    ensures forall t :: t in TagMap ==> TagMap[t] in ReverseTagMap && ReverseTagMap[TagMap[t]] == t
  {
  }

  /**
   * The forward table undoes the reverse one: every hash of the reverse
   * table is the hash of the tag it gives, so the reverse table holds no
   * other entry and the two are mutual inverses.
   */
  lemma HashesComeBack()
    ensures forall h :: h in ReverseTagMap ==> ReverseTagMap[h] in TagMap && TagMap[ReverseTagMap[h]] == h
  {
    TagsComeBack();
    forall h | h in ReverseTagMap
      ensures ReverseTagMap[h] in TagMap && TagMap[ReverseTagMap[h]] == h
    {
      assert ReverseTagMap[h] in TagMap;
    }
  }

  /** The tags of the two tables, ordered by `TagSig`. */
  const Tags: seq<string> := ["<b>", "<i>", "<s>", "<u>", "</b>", "</i>", "<em>", "</s>", "</u>", "<pre>", "<del>",
    "</em>", "</pre>", "<code>", "</del>", "</code>", "<strike>", "<strong>", "</strike>", "</strong>"]

  /** A number that tells the tags apart: the length, the last letter and the second character. */
  function TagSig(t: string): int {
    if |t| < 2 then 0 else |t| * 1000000 + (t[|t| - 2] as int) * 1000 + (t[1] as int)
  }

  /** Signatures rising step by step rise across any two positions, so the keys are pairwise distinct. */
  lemma {:induction false} AscendingDistinct(keys: seq<string>)
    requires forall i :: 0 <= i < |keys| - 1 ==> TagSig(keys[i]) < TagSig(keys[i + 1])
    ensures forall i, j :: 0 <= i < j < |keys| ==> TagSig(keys[i]) < TagSig(keys[j])
  {
    if |keys| > 1 {
      var rest := keys[1..];
      AscendingDistinct(rest);
      forall i, j | 0 <= i < j < |keys| ensures TagSig(keys[i]) < TagSig(keys[j]) {
        if i > 0 {
          assert keys[i] == rest[i - 1] && keys[j] == rest[j - 1];
        } else if j > 1 {
          assert keys[1] == rest[0] && keys[j] == rest[j - 1];
        }
      }
    }
  }

  /** A list without repeats has as many distinct elements as positions. */
  lemma {:induction false} DistinctCard(keys: seq<string>)
    requires forall i, j :: 0 <= i < j < |keys| ==> keys[i] != keys[j]
    ensures |set k | k in keys| == |keys|
  {
    if keys != [] {
      DistinctCard(keys[1..]);
      assert (set k | k in keys) == {keys[0]} + (set k | k in keys[1..]);
      assert keys[0] !in keys[1..];
    }
  }

  /** `Tags` is listed in increasing `TagSig` order. */
  lemma TagsAscending()
    ensures forall i :: 0 <= i < |Tags| - 1 ==> TagSig(Tags[i]) < TagSig(Tags[i + 1])
  {
    forall i | 0 <= i < |Tags| - 1 ensures TagSig(Tags[i]) < TagSig(Tags[i + 1]) {
      assert i in {0, 1, 2, 3, 4, 5, 6, 7, 8, 9, 10, 11, 12, 13, 14, 15, 16, 17, 18};
    }
  }

  /** The forward table's keys are exactly the listed tags. */
  lemma TagKeys()
    ensures TagMap.Keys == set k | k in Tags
  {
  }

  /** Two tables that undo each other have as many entries each. */
  lemma {:induction false} InverseCard(m: map<string, string>, r: map<string, string>)
    requires forall k :: k in m ==> m[k] in r && r[m[k]] == k
    requires forall h :: h in r ==> r[h] in m && m[r[h]] == h
    ensures |m| == |r|
    decreases |m|
  {
    if m == map[] {
      assert r.Keys == {};
    } else {
      var k :| k in m;
      var h := m[k];
      var m', r' := m - {k}, r - {h};
      assert m'.Keys == m.Keys - {k} && r'.Keys == r.Keys - {h};
      InverseCard(m', r');
    }
  }

  /**
   * Each table holds twenty entries: the ten tags in their open and close
   * forms, and their twenty hashes.
   */
  lemma TagCounts()
    ensures |TagMap| == 20 && |ReverseTagMap| == 20
  {
    TagsAscending();
    AscendingDistinct(Tags);
    DistinctCard(Tags);
    TagKeys();
    TagsComeBack();
    HashesComeBack();
    InverseCard(TagMap, ReverseTagMap);
  }
}

=== FILE: wolfram.dfy ===
/**
 * The WolframAlpha post-processing of src/agent/tools/wolfram.py (and its
 * copy in the older src/agent/tools.py): the calculator's rewrite of `^`,
 * the truncation of the LLM-API text at the website marker, and the
 * extraction and substitution of the image links (`re.findall` and `re.sub`
 * with `https?://\S+`).
 *
 * The HTTP requests are left out: the API's text is a parameter, and so is
 * Python's `eval`.
 */
module Wolfram {
  import opened Common

  // ---------------------------------------------------------------------
  // calculator

  /** `str(eval(e))`, or the exception text. */
  type Evaluator = string -> Result<string>

  /** `expression.replace('^', '**')`: Python's power operator for the usual caret. */
  function PowerSyntax(expression: string): string {
    Replace(expression, "^", "**")
  }

  /** `calculator`: evaluate the rewritten expression; any exception becomes a message. */
  function Calculator(expression: string, eval: Evaluator): (r: string)
    ensures eval(PowerSyntax(expression)).Ok? ==> r == eval(PowerSyntax(expression)).value
    ensures eval(PowerSyntax(expression)).Raised? ==>
      StartsWith(r, "Calculator error: ") && r[|"Calculator error: "|..] == eval(PowerSyntax(expression)).error
  {
    match eval(PowerSyntax(expression))
    case Ok(v) => v
    case Raised(e) => "Calculator error: " + e
  }

  /** The evaluated text has no caret left, and every other character is kept. */
  lemma {:induction false} PowerSyntaxShape(s: string)
    ensures '^' !in PowerSyntax(s)
    ensures |PowerSyntax(s)| == |s| + multiset(s)['^']
    decreases |s|
  {
    if |s| >= 1 {
      assert s == [s[0]] + s[1..];
      assert multiset(s)['^'] == multiset([s[0]])['^'] + multiset(s[1..])['^'];
      PowerSyntaxShape(s[1..]);
      assert s[..1] == [s[0]];
    }
  }

  /** An expression without a caret is evaluated as it is. */
  lemma NoCaretUnchanged(s: string)
    requires '^' !in s
    ensures PowerSyntax(s) == s
  {
    forall i ensures !OccursAt(s, "^", i) {
      if 0 <= i && i + 1 <= |s| {
        assert s[i..i + 1] == [s[i]];
      }
    }
    ReplaceNowhere(s, "^", "**");
  }

  // ---------------------------------------------------------------------
  // Truncation at the website marker

  const Marker: string := "Wolfram|Alpha website result for \""

  /** `answer[:answer.find(marker)]` as written: a missing marker gives -1, which drops the last character. */
  function Truncate(answer: string): (r: string)
    ensures |r| <= |answer| && r == answer[..|r|]
  {
    Slice(answer, 0, Find(answer, Marker))
  }

  /** The evident intent: cut before the marker when there is one, keep everything otherwise. */
  function TruncateFixed(answer: string): (r: string)
    ensures |r| <= |answer| && r == answer[..|r|]
  {
    var i := Find(answer, Marker);
    if i < 0 then answer else answer[..i]
  }

  /** As written, an answer without the marker loses its last character. */
  lemma TruncateDropsLast(answer: string)
    requires answer != [] && !Contains(answer, Marker)
    ensures Truncate(answer) == answer[..|answer| - 1]
  {
  }

  /** The concrete case: "x = 2" comes back as "x = ". */
  lemma TruncateExample()
    ensures Truncate("x = 2") == "x = "
  {
    TruncateDropsLast("x = 2");
  }

  /**
   * Corrected, the text is everything before the first marker, and it never
   * holds the marker; without a marker the text is kept whole.
   */
  lemma TruncateFixedCorrect(answer: string)
    ensures !Contains(answer, Marker) ==> TruncateFixed(answer) == answer
    ensures Contains(answer, Marker) ==> OccursAt(answer, Marker, |TruncateFixed(answer)|)
    ensures !Contains(TruncateFixed(answer), Marker)
  {
    var i := Find(answer, Marker);
    if i >= 0 {
      var r := answer[..i];
      var k := Find(r, Marker);
      if k >= 0 {
        assert OccursAt(r, Marker, k);
        assert r[k..k + |Marker|] == answer[k..k + |Marker|];
        assert OccursAt(answer, Marker, k);
        assert false;
      }
    }
  }

  /** Both versions agree whenever the marker is there. */
  lemma TruncateAgrees(answer: string)
    requires Contains(answer, Marker)
    ensures Truncate(answer) == TruncateFixed(answer)
  {
  }

  // ---------------------------------------------------------------------
  // Links: `https?://\S+`

  const Placeholder: string := "Images will be attached to the answer"

  /** The first white-space index at or after `i`, or the length. */
  function RunEnd(s: string, i: nat): (k: nat)
    requires i <= |s|
    ensures i <= k <= |s|
    ensures k < |s| ==> IsSpace(s[k])
    ensures forall j :: i <= j < k ==> !IsSpace(s[j])
    decreases |s| - i
  {
    if i == |s| || IsSpace(s[i]) then i else RunEnd(s, i + 1)
  }

  /**
   * The length of the match of `https?://\S+` at the start of `s`, 0 when
   * there is none: the scheme, then the longest non-empty run of non-space
   * characters.
   */
  function MatchLength(s: string): (m: nat)
    ensures m <= |s|
  {
    if StartsWith(s, "https://") && |s| > 8 && !IsSpace(s[8]) then RunEnd(s, 8)
    else if StartsWith(s, "http://") && |s| > 7 && !IsSpace(s[7]) then RunEnd(s, 7)
    else 0
  }

  /** What the pattern matches: a scheme, at least one more character, no white space. */
  predicate IsLink(u: string) {
    ((StartsWith(u, "https://") && |u| > 8) || (StartsWith(u, "http://") && |u| > 7)) &&
    forall j :: 0 <= j < |u| ==> !IsSpace(u[j])
  }

  /** The text seen by the two regex calls: characters outside any match, and the matches. */
  datatype Piece = Plain(c: char) | Link(url: string)

  /**
   * The left-to-right scan both `re.findall` and `re.sub` make. A match is
   * greedy: what follows a link is a white-space character.
   */
  function Pieces(s: string): (ps: seq<Piece>)
    ensures forall k :: 0 <= k < |ps| && ps[k].Link? ==> IsLink(ps[k].url)
    ensures s != [] ==> ps != [] && (IsSpace(s[0]) ==> ps[0] == Plain(s[0]))
    ensures forall k :: 0 <= k < |ps| - 1 && ps[k].Link? ==> ps[k + 1].Plain? && IsSpace(ps[k + 1].c)
    decreases |s|
  {
    if s == [] then []
    else
      var m := MatchLength(s);
      if m > 0 then
        MatchIsLink(s);
        [Link(s[..m])] + Pieces(s[m..])
      else [Plain(s[0])] + Pieces(s[1..])
  }

  /** A match is a link, and what follows it is white space. */
  lemma MatchIsLink(s: string)
    requires MatchLength(s) > 0
    ensures IsLink(s[..MatchLength(s)])
    ensures MatchLength(s) < |s| ==> IsSpace(s[MatchLength(s)])
  {
    var m := MatchLength(s);
    var u := s[..m];
    var scheme := if StartsWith(s, "https://") && |s| > 8 && !IsSpace(s[8]) then "https://" else "http://";
    assert StartsWith(s, scheme) && m == RunEnd(s, |scheme|);
    forall j | 0 <= j < m ensures !IsSpace(u[j]) {
      if j < |scheme| {
        assert u[j] == scheme[j];
      }
    }
    assert u[..|scheme|] == s[..|scheme|];
  }

  /** The text the pieces came from. */
  function Original(ps: seq<Piece>): string {
    if ps == [] then []
    else (match ps[0] case Plain(c) => [c] case Link(u) => u) + Original(ps[1..])
  }

  /** `re.sub(pattern, placeholder, text)`: every match replaced by the placeholder. */
  function Substituted(ps: seq<Piece>): string {
    if ps == [] then []
    else (match ps[0] case Plain(c) => [c] case Link(_) => Placeholder) + Substituted(ps[1..])
  }

  /** `re.findall(pattern, text)`: the matches in order. */
  function Links(ps: seq<Piece>): seq<string> {
    if ps == [] then []
    else (match ps[0] case Plain(_) => [] case Link(u) => [u]) + Links(ps[1..])
  }

  /** The pieces are the text cut into its non-matching characters and its matches. */
  lemma {:induction false} PiecesRoundTrip(s: string)
    ensures Original(Pieces(s)) == s
    decreases |s|
  {
    if s != [] {
      var m := MatchLength(s);
      if m > 0 {
        PiecesRoundTrip(s[m..]);
        assert s == s[..m] + s[m..];
      } else {
        PiecesRoundTrip(s[1..]);
        assert s == [s[0]] + s[1..];
      }
    }
  }

  /** Every link found is a full match: a scheme, at least one character, no white space. */
  lemma {:induction false} LinksWellFormed(ps: seq<Piece>)
    requires forall k :: 0 <= k < |ps| && ps[k].Link? ==> IsLink(ps[k].url)
    ensures forall u :: u in Links(ps) ==> IsLink(u)
  {
    if ps != [] {
      LinksWellFormed(ps[1..]);
    }
  }

  /** A text in which no `http` occurs has no link and is not changed. */
  lemma {:induction false} NoSchemeUnchanged(s: string)
    requires !Contains(s, "http")
    ensures Links(Pieces(s)) == [] && Substituted(Pieces(s)) == s
    decreases |s|
  {
    if s != [] {
      ContainsIff(s, "http");
      assert !OccursAt(s, "http", 0);
      assert MatchLength(s) == 0 by {
        if |s| >= 8 { assert s[..8][..4] == s[..4]; }
        if |s| >= 7 { assert s[..7][..4] == s[..4]; }
      }
      ContainsIff(s[1..], "http");
      forall j ensures !OccursAt(s[1..], "http", j) {
        if 0 <= j && j + 4 <= |s| - 1 {
          assert s[1..][j..j + 4] == s[j + 1..j + 5];
          assert !OccursAt(s, "http", j + 1);
        }
      }
      NoSchemeUnchanged(s[1..]);
    }
  }

  // ---------------------------------------------------------------------
  // wolfram_llm_api

  /**
   * `wolfram_llm_api` for the API's text: the cut text with every link
   * replaced by the placeholder, and the links in order (as written, with
   * the truncation above).
   */
  function LlmApiAnswer(answer: string): (r: (string, seq<string>))
    ensures forall u :: u in r.1 ==> IsLink(u)
    ensures !Contains(Truncate(answer), "http") ==> r == (Truncate(answer), [])
  {
    var ps := Pieces(Truncate(answer));
    LinksWellFormed(ps);
    if !Contains(Truncate(answer), "http") then
      NoSchemeUnchanged(Truncate(answer));
      (Substituted(ps), Links(ps))
    else (Substituted(ps), Links(ps))
  }

  /** The same with the corrected truncation. */
  function LlmApiAnswerFixed(answer: string): (r: (string, seq<string>))
    ensures forall u :: u in r.1 ==> IsLink(u)
    ensures !Contains(answer, Marker) && !Contains(answer, "http") ==> r == (answer, [])
  {
    var ps := Pieces(TruncateFixed(answer));
    LinksWellFormed(ps);
    TruncateFixedCorrect(answer);
    if !Contains(TruncateFixed(answer), "http") then
      NoSchemeUnchanged(TruncateFixed(answer));
      (Substituted(ps), Links(ps))
    else (Substituted(ps), Links(ps))
  }
}

=== FILE: youtube.dfy ===
/**
 * The YouTube tool of src/agent/tools/youtube.py: the rendering of a
 * transcript as text with a header at every new minute, the extraction of
 * the video id from a link, the title taken from the page, the chain of
 * transcript sources tried in order, and `youtube_sum`, which hands the
 * text to the language model.
 *
 * The page request, the transcript API, language detection and the model
 * are parameters; each answers a value or raises.
 */
module YouTube {
  import opened Common

  // ---------------------------------------------------------------------
  // transcript2text

  /** One transcript entry: `{'text': ..., 'start': ...}`. */
  datatype Entry = Entry(text: string, start: real)

  /** `int(t["start"] // 60)`: the minute an entry starts in, rounded down. */
  function Minute(e: Entry): int {
    (e.start / 60.0).Floor
  }

  /** A row of the result: a minute header, or an entry's text. */
  datatype Row = Header(minute: int) | Line(text: string)

  /** `f"{minute} minute:"`, or the text itself. */
  function Render(row: Row): string {
    match row
    case Header(m) => IntToString(m) + " minute:"
    case Line(t) => t
  }

  function Rendered(rows: seq<Row>): (r: seq<string>)
    ensures |r| == |rows| && forall k :: 0 <= k < |rows| ==> r[k] == Render(rows[k])
  {
    seq(|rows|, k requires 0 <= k < |rows| => Render(rows[k]))
  }

  lemma RenderedAppend(a: seq<Row>, b: seq<Row>)
    ensures Rendered(a + b) == Rendered(a) + Rendered(b)
  {
  }

  /** The minute of the entry before `i`, and -1 before the first. */
  function Previous(ts: seq<Entry>, i: nat): int
    requires i <= |ts|
  {
    if i == 0 then -1 else Minute(ts[i - 1])
  }

  /** The rows for entry `i`: a header when its minute differs from the previous entry's, then its text. */
  function Block(ts: seq<Entry>, i: nat): seq<Row>
    requires i < |ts|
  {
    (if Minute(ts[i]) != Previous(ts, i) then [Header(Minute(ts[i]))] else []) + [Line(ts[i].text)]
  }

  /** The rows for a whole transcript: the blocks of its entries in order. */
  function Rows(ts: seq<Entry>): seq<Row>
    decreases |ts|
  {
    if ts == [] then [] else Rows(ts[..|ts| - 1]) + Block(ts, |ts| - 1)
  }

  /**
   * Each entry gives its text and at most one header; a transcript that
   * starts at a time not before zero opens with its first minute's header,
   * and the last row is the last entry's text.
   */
  lemma {:induction false} RowsShape(ts: seq<Entry>)
    ensures |ts| <= |Rows(ts)| <= 2 * |ts|
    ensures ts != [] && ts[0].start >= 0.0 ==> Rows(ts)[0] == Header(Minute(ts[0]))
    ensures ts != [] ==> Rows(ts)[|Rows(ts)| - 1] == Line(ts[|ts| - 1].text)
    decreases |ts|
  {
    if ts != [] {
      var front := ts[..|ts| - 1];
      RowsShape(front);
      assert Rows(ts) == Rows(front) + Block(ts, |ts| - 1);
      if |ts| > 1 {
        assert front[0] == ts[0];
      }
    }
  }

  /** The text of a transcript with the rows joined by `sep`. */
  function TranscriptText(ts: seq<Entry>, sep: string): string {
    Join(Rendered(Rows(ts)), sep)
  }

  /** One more entry adds its block. */
  lemma RowsStep(ts: seq<Entry>, i: nat)
    requires i < |ts|
    ensures Rows(ts[..i + 1]) == Rows(ts[..i]) + Block(ts, i)
  {
    var p := ts[..i + 1];
    assert p[..i] == ts[..i];
    assert Block(p, i) == Block(ts, i);
  }

  /** The rendered rows for one more entry: the header line when the minute changes, then the text. */
  lemma RenderedStep(ts: seq<Entry>, i: nat)
    requires i < |ts|
    ensures Rendered(Rows(ts[..i + 1])) == Rendered(Rows(ts[..i])) +
      (if Minute(ts[i]) != Previous(ts, i) then [IntToString(Minute(ts[i])) + " minute:"] else []) + [ts[i].text]
  {
    RowsStep(ts, i);
    RenderedAppend(Rows(ts[..i]), Block(ts, i));
  }

  /**
   * `transcript2text(transcript, sep)`: the loop that keeps the minute of
   * the last header in `current_minute`. Its result is the rows for the
   * whole transcript, so a header comes before an entry exactly when the
   * entry's minute differs from the previous entry's.
   */
  method Transcript2Text(transcript: seq<Entry>, sep: string) returns (r: string)
    ensures r == TranscriptText(transcript, sep)
  {
    var result: seq<string> := [];
    var current := -1;
    for i := 0 to |transcript|
      invariant result == Rendered(Rows(transcript[..i]))
      invariant current == Previous(transcript, i)
    {
      RenderedStep(transcript, i);
      var t := transcript[i];
      var minute := Minute(t);
      if minute != current {
        result := result + [IntToString(minute) + " minute:"];
        current := minute;
      }
      result := result + [t.text];
    }
    assert transcript[..|transcript|] == transcript;
    r := Join(result, sep);
  }

  /** The texts of the rows that are not headers. */
  function Lines(rows: seq<Row>): seq<string>
    decreases |rows|
  {
    if rows == [] then []
    else Lines(rows[..|rows| - 1]) + (if rows[|rows| - 1].Line? then [rows[|rows| - 1].text] else [])
  }

  /** The number of header rows. */
  function HeaderCount(rows: seq<Row>): nat
    decreases |rows|
  {
    if rows == [] then 0
    else HeaderCount(rows[..|rows| - 1]) + (if rows[|rows| - 1].Header? then 1 else 0)
  }

  /** The texts of the entries, in order. */
  function Texts(ts: seq<Entry>): seq<string>
    decreases |ts|
  {
    if ts == [] then [] else Texts(ts[..|ts| - 1]) + [ts[|ts| - 1].text]
  }

  lemma {:induction false} LinesAppend(a: seq<Row>, b: seq<Row>)
    ensures Lines(a + b) == Lines(a) + Lines(b)
    ensures HeaderCount(a + b) == HeaderCount(a) + HeaderCount(b)
    decreases |b|
  {
    if b == [] {
      assert a + b == a;
    } else {
      var b' := b[..|b| - 1];
      assert (a + b)[..|a + b| - 1] == a + b';
      assert (a + b)[|a + b| - 1] == b[|b| - 1];
      LinesAppend(a, b');
    }
  }

  /**
   * Every entry's text appears exactly once and in order among the rows,
   * and there is at most one header per entry.
   */
  lemma {:induction false} TextsInOrder(ts: seq<Entry>)
    ensures Lines(Rows(ts)) == Texts(ts)
    ensures HeaderCount(Rows(ts)) <= |ts|
    ensures |Rows(ts)| == |ts| + HeaderCount(Rows(ts))
    decreases |ts|
  {
    if ts != [] {
      var init := ts[..|ts| - 1];
      TextsInOrder(init);
      var block := Block(ts, |ts| - 1);
      LinesAppend(Rows(init), block);
      var last := [Line(ts[|ts| - 1].text)];
      if Minute(ts[|ts| - 1]) != Previous(ts, |ts| - 1) {
        LinesAppend([Header(Minute(ts[|ts| - 1]))], last);
        assert block == [Header(Minute(ts[|ts| - 1]))] + last;
      } else {
        assert block == last;
      }
      assert Lines(last) == [ts[|ts| - 1].text] by {
        assert last[..0] == [];
      }
      assert HeaderCount(last) == 0 by {
        assert last[..0] == [];
      }
    }
  }

  /** The rows of a prefix of the transcript begin the rows of the whole. */
  lemma {:induction false} RowsPrefix(ts: seq<Entry>, n: nat)
    requires n <= |ts|
    ensures Rows(ts[..n]) <= Rows(ts)
    decreases |ts| - n
  {
    if n < |ts| {
      RowsStep(ts, n);
      RowsPrefix(ts, n + 1);
      assert ts[..|ts|] == ts;
    } else {
      assert ts[..n] == ts;
    }
  }

  /** The first entry gets a header whenever it starts at or after zero. */
  lemma FirstEntryHeaded(ts: seq<Entry>)
    requires ts != [] && ts[0].start >= 0.0
    ensures Rows(ts)[0] == Header(Minute(ts[0]))
  {
    RowsStep(ts, 0);
    assert ts[..0] == [];
    RowsPrefix(ts, 1);
    assert Minute(ts[0]) >= 0;
  }

  /** With no entries the text is empty. */
  lemma EmptyTranscript(sep: string)
    ensures TranscriptText([], sep) == ""
  {
  }

  // ---------------------------------------------------------------------
  // The video id: `re.search(r"(?:v=|\/)([a-zA-Z0-9_-]{11})", link)`

  predicate IdChar(c: char) {
    'a' <= c <= 'z' || 'A' <= c <= 'Z' || '0' <= c <= '9' || c == '_' || c == '-'
  }

  /** Eleven id characters start at `i`. */
  predicate IdRun(s: string, i: int) {
    0 <= i && i + 11 <= |s| && forall j :: i <= j < i + 11 ==> IdChar(s[j])
  }

  /** The group the pattern captures when its match starts at `p`: after `v=`, else after `/`. */
  function MatchAt(s: string, p: int): (r: Option<string>)
    ensures r.Some? ==> |r.value| == 11 && forall j :: 0 <= j < 11 ==> IdChar(r.value[j])
    ensures r.Some? ==> OccursAt(s, "v=" + r.value, p) || OccursAt(s, "/" + r.value, p)
  {
    if OccursAt(s, "v=", p) && IdRun(s, p + 2) then
      assert s[p..p + 13] == s[p..p + 2] + s[p + 2..p + 13];
      Some(s[p + 2..p + 13])
    else if 0 <= p < |s| && s[p] == '/' && IdRun(s, p + 1) then
      assert s[p..p + 12] == [s[p]] + s[p + 1..p + 12];
      Some(s[p + 1..p + 12])
    else None
  }

  /** The leftmost start of a match at or after `p`, or -1. */
  function MatchStart(s: string, p: nat): (k: int)
    requires p <= |s|
    ensures k == -1 || (p <= k < |s| && MatchAt(s, k).Some?)
    ensures k == -1 ==> forall q :: p <= q ==> MatchAt(s, q).None?
    ensures k != -1 ==> forall q :: p <= q < k ==> MatchAt(s, q).None?
    decreases |s| - p
  {
    if p == |s| then -1
    else if MatchAt(s, p).Some? then p
    else MatchStart(s, p + 1)
  }

  /**
   * The id a link names: for a link with `youtube.com`, the group of the
   * leftmost match (`None` when there is none, the `'Error: incorrect link'`
   * case); any other link is taken as the id.
   */
  function VideoId(link: string): (r: Option<string>)
    ensures !Contains(link, "youtube.com") ==> r == Some(link)
    ensures Contains(link, "youtube.com") && r.Some? ==>
      exists p :: 0 <= p < |link| && MatchAt(link, p) == r && forall q :: 0 <= q < p ==> MatchAt(link, q).None?
    ensures Contains(link, "youtube.com") && r.None? ==> forall p :: MatchAt(link, p).None?
  {
    if Contains(link, "youtube.com") then
      var k := MatchStart(link, 0);
      if k == -1 then None else MatchAt(link, k)
    else Some(link)
  }

  /** No match starts at a character other than `v` and `/`. */
  lemma NoMatchAt(s: string, q: int)
    requires 0 <= q < |s| && s[q] != 'v' && s[q] != '/'
    ensures MatchAt(s, q).None?
  {
    if q + 2 <= |s| {
      assert s[q..q + 2][0] == s[q];
    }
  }

  /** No match starts inside a stretch of the text without `v` and `/`. */
  lemma NoMatchIn(s: string, lo: nat, stretch: string)
    requires lo + |stretch| <= |s| && s[lo..lo + |stretch|] == stretch
    requires 'v' !in stretch && '/' !in stretch
    ensures forall q :: lo <= q < lo + |stretch| ==> MatchAt(s, q).None?
  {
    forall q | lo <= q < lo + |stretch| ensures MatchAt(s, q).None? {
      assert s[q] == stretch[q - lo];
      NoMatchAt(s, q);
    }
  }

  /** A watch link gives the id after `v=`. */
  lemma WatchLinkId(id: string)
    requires |id| == 11 && forall j :: 0 <= j < 11 ==> IdChar(id[j])
    ensures VideoId("youtube.com/watch?v=" + id) == Some(id)
  {
    var prefix := "youtube.com/watch?v=";
    var link := prefix + id;
    assert link[..20] == prefix;
    assert link[0..11] == "youtube.com";
    OccursAtContains(link, "youtube.com", 0);
    assert link[18..20] == "v=";
    assert link[20..31] == id;
    assert MatchAt(link, 18) == Some(id);
    NoMatchIn(link, 0, "youtube.com");
    assert link[12..18] == "watch?";
    NoMatchIn(link, 12, "watch?");
    assert link[17] == '?';
    assert !IdRun(link, 12);
  }

  // ---------------------------------------------------------------------
  // The title

  /** The `<title>` text without `' - YouTube'`, or the error title when the page has none. */
  function Title(tag: Option<string>): (r: string)
    ensures tag.None? ==> r == "Error: title not found"
  {
    match tag
    case None => "Error: title not found"
    case Some(t) => Replace(t, " - YouTube", "")
  }

  /** A title without the suffix is kept as it is. */
  lemma TitleKept(t: string)
    requires !Contains(t, " - YouTube")
    ensures Title(Some(t)) == t
  {
    ReplaceAbsent(t, " - YouTube", "");
  }

  // ---------------------------------------------------------------------
  // The transcript sources

  /** `get_transcript(video_id, languages=[language])`: the entries, or an exception. */
  type Fetcher = (string, string) -> Result<seq<Entry>>

  /** `detect_language(title)`, or an exception. */
  type Detector = string -> Result<string>

  /**
   * `list_transcripts(video_id)` with the first transcript translated to
   * English and fetched: `None` for an empty listing, or an exception.
   */
  type Translator = string -> Result<Option<seq<Entry>>>

  const NoSubtitles: string := "Subtitles are not available"

  /** Where the transcript came from. */
  datatype Source = Requested | Detected(language: string) | TranslatedFirst | Placeholder

  /**
   * The transcript the chain settles on and its source: the requested
   * language, the language detected from the title, the first transcript
   * translated to English, and the placeholder when the last one raises.
   * An empty listing leaves `transcript` unbound, and reading it raises.
   */
  function Transcript(id: string, title: string, language: string, fetch: Fetcher, detect: Detector, translate: Translator)
    : (r: Result<(Source, seq<Entry>)>)
    ensures fetch(id, language).Ok? ==> r == Ok((Requested, fetch(id, language).value))
    ensures r.Ok? && r.value.0.Requested? ==> fetch(id, language).Ok?
    ensures fetch(id, language).Raised? && detect(title).Ok? && fetch(id, detect(title).value).Ok? ==>
      r == Ok((Detected(detect(title).value), fetch(id, detect(title).value).value))
    ensures (fetch(id, language).Raised? && (detect(title).Raised? || fetch(id, detect(title).value).Raised?) &&
             translate(id).Ok? && translate(id).value.Some?) ==>
      r == Ok((TranslatedFirst, translate(id).value.value))
    ensures r.Ok? && r.value.0.Detected? ==>
      fetch(id, language).Raised? && detect(title) == Ok(r.value.0.language) &&
      fetch(id, r.value.0.language) == Ok(r.value.1)
    ensures r.Ok? && r.value.0.TranslatedFirst? ==> translate(id) == Ok(Some(r.value.1))
    ensures r.Ok? && r.value.0.Placeholder? <==>
      fetch(id, language).Raised? && (detect(title).Raised? || fetch(id, detect(title).value).Raised?) &&
      translate(id).Raised?
    ensures r.Raised? <==>
      fetch(id, language).Raised? && (detect(title).Raised? || fetch(id, detect(title).value).Raised?) &&
      translate(id) == Ok(None)
  {
    if fetch(id, language).Ok? then Ok((Requested, fetch(id, language).value))
    else if detect(title).Ok? && fetch(id, detect(title).value).Ok? then
      Ok((Detected(detect(title).value), fetch(id, detect(title).value).value))
    else
      match translate(id)
      case Raised(_) => Ok((Placeholder, [Entry(NoSubtitles, 0.0)]))
      case Ok(None) => Raised("UnboundLocalError: transcript")
      case Ok(Some(ts)) => Ok((TranslatedFirst, ts))
  }

  /** The placeholder renders as a header for minute 0 and the notice. */
  lemma PlaceholderText()
    ensures TranscriptText([Entry(NoSubtitles, 0.0)], "\n") == "0 minute:\n" + NoSubtitles
  {
    var ts := [Entry(NoSubtitles, 0.0)];
    assert ts[..0] == [];
    assert Minute(ts[0]) == 0;
    assert Rows(ts) == [Header(0), Line(NoSubtitles)];
    assert IntToString(0) == "0";
    assert "0" + " minute:" == "0 minute:";
    var rendered := Rendered(Rows(ts));
    assert rendered == ["0 minute:", NoSubtitles];
    assert rendered[1..] == [NoSubtitles];
    assert Join(rendered, "\n") == "0 minute:" + "\n" + NoSubtitles;
    assert "0 minute:" + "\n" == "0 minute:\n";
  }

  /** What `get_youtube_transcripts` returns: the text and the title, or the bare error string for a bad link. */
  datatype Fetched = Fetched(text: string, title: string) | IncorrectLink

  /**
   * `get_youtube_transcripts(link, language)`. `page` is the outcome of the
   * page request: the text of its `<title>` tag, if any, or the exception.
   */
  function GetYoutubeTranscripts(link: string, language: string, page: Result<Option<string>>,
                                 fetch: Fetcher, detect: Detector, translate: Translator)
    : (r: Result<Fetched>)
    ensures VideoId(link).None? ==> r == Ok(IncorrectLink)
    ensures VideoId(link).Some? && page.Raised? ==> r == Raised(page.error)
    ensures VideoId(link).Some? && page.Ok? ==>
      var t := Transcript(VideoId(link).value, Title(page.value), language, fetch, detect, translate);
      (r.Raised? <==> t.Raised?) &&
      (t.Ok? ==> r == Ok(Fetched(TranscriptText(t.value.1, "\n"), Title(page.value))))
    ensures r.Ok? && r.value.Fetched? ==>
      VideoId(link).Some? && page.Ok? && r.value.title == Title(page.value) &&
      var t := Transcript(VideoId(link).value, Title(page.value), language, fetch, detect, translate);
      t.Ok? && r.value.text == TranscriptText(t.value.1, "\n")
  {
    match VideoId(link)
    case None => Ok(IncorrectLink)
    case Some(id) =>
      match page
      case Raised(e) => Raised(e)
      case Ok(tag) =>
        var title := Title(tag);
        match Transcript(id, title, language, fetch, detect, translate)
        case Raised(e) => Raised(e)
        case Ok((_, ts)) => Ok(Fetched(TranscriptText(ts, "\n"), title))
  }

  // ---------------------------------------------------------------------
  // youtube_sum

  /** The prompt: a question about the video when one is given (and not empty), else a summary request. */
  function SumPrompt(question: Option<string>, title: string, text: string): (r: string)
    ensures EndsWith(r, "\": " + text)
    ensures question.Some? && question.value != [] ==>
      StartsWith(r, "Answer the question \"" + question.value + "\" based on this YouTube video \"" + title)
    ensures !(question.Some? && question.value != []) ==> StartsWith(r, "Summarize this YouTube video \"" + title)
  {
    if question.Some? && question.value != [] then
      var head := "Answer the question \"" + question.value + "\" based on this YouTube video \"" + title;
      var r := head + "\": " + text;
      assert r == head + ("\": " + text);
      assert r[..|head|] == head;
      r
    else
      var head := "Summarize this YouTube video \"" + title;
      var r := head + "\": " + text;
      assert r == head + ("\": " + text);
      assert r[..|head|] == head;
      r
  }

  /** The advice after the exception in the error answer, kept in short pieces. */
  const ErrorAdvice: string := Concat([
    ". Most like too much text or a completely incomprehensible error ",
    "that cannot be fixed (or subtitles are not available). ",
    "Tell the user to try again later"])

  /** The answer when the model raises: `f'Error({e}){advice}'`. */
  function ErrorAnswer(e: string): (r: string)
    ensures OccursAt(r, e, 6) && StartsWith(r, "Error(") && EndsWith(r, ErrorAdvice)
  {
    var r := "Error(" + e + ")" + ErrorAdvice;
    assert r[..6] == "Error(";
    assert r[6..6 + |e|] == e;
    assert r[|r| - |ErrorAdvice|..] == ErrorAdvice;
    r
  }

  /** The model, given the one user message of the prompt (on the Google backend). */
  type Model = string -> Result<string>

  /**
   * `youtube_sum(link, question, language)` as written: the model's answer
   * for the prompt, or the error answer when it raises; the bare error
   * string for a bad link cannot be unpacked into a text and a title, so
   * that case raises.
   */
  function YoutubeSum(link: string, question: Option<string>, language: string, page: Result<Option<string>>,
                      fetch: Fetcher, detect: Detector, translate: Translator, llm: Model)
    : (r: Result<string>)
    ensures VideoId(link).None? ==> r.Raised?
    ensures r.Ok? ==> GetYoutubeTranscripts(link, language, page, fetch, detect, translate).Ok?
    ensures GetYoutubeTranscripts(link, language, page, fetch, detect, translate).Raised? ==> r.Raised?
    ensures var g := GetYoutubeTranscripts(link, language, page, fetch, detect, translate);
      g.Ok? && g.value.Fetched? ==> r == Ok(Answer(SumPrompt(question, g.value.title, g.value.text), llm))
  {
    match GetYoutubeTranscripts(link, language, page, fetch, detect, translate)
    case Raised(e) => Raised(e)
    case Ok(IncorrectLink) => Raised("ValueError: too many values to unpack (expected 2)")
    case Ok(Fetched(text, title)) => Ok(Answer(SumPrompt(question, title, text), llm))
  }

  /** The model's answer, or the error answer. */
  function Answer(prompt: string, llm: Model): (r: string)
    ensures llm(prompt).Ok? ==> r == llm(prompt).value
    ensures llm(prompt).Raised? ==> StartsWith(r, "Error(") && OccursAt(r, llm(prompt).error, 6)
  {
    match llm(prompt)
    case Ok(a) => a
    case Raised(e) => ErrorAnswer(e)
  }

  /** The evident intent: a bad link is reported as its error string. */
  function YoutubeSumFixed(link: string, question: Option<string>, language: string, page: Result<Option<string>>,
                           fetch: Fetcher, detect: Detector, translate: Translator, llm: Model)
    : (r: Result<string>)
    ensures VideoId(link).None? ==> r == Ok("Error: incorrect link")
    ensures VideoId(link).Some? ==> r == YoutubeSum(link, question, language, page, fetch, detect, translate, llm)
  {
    match GetYoutubeTranscripts(link, language, page, fetch, detect, translate)
    case Raised(e) => Raised(e)
    case Ok(IncorrectLink) => Ok("Error: incorrect link")
    case Ok(Fetched(text, title)) => Ok(Answer(SumPrompt(question, title, text), llm))
  }

  /** As written, a `youtube.com` link without an id raises instead of answering. */
  lemma IncorrectLinkRaises(page: Result<Option<string>>, fetch: Fetcher, detect: Detector, translate: Translator, llm: Model)
    ensures YoutubeSum("www.youtube.com", None, "en", page, fetch, detect, translate, llm).Raised?
  {
    BareDomainHasNoId();
  }

  /** The bare domain names the site but holds no id. */
  lemma BareDomainHasNoId()
    ensures VideoId("www.youtube.com").None?
  {
    var link := "www.youtube.com";
    assert link[4..15] == "youtube.com";
    OccursAtContains(link, "youtube.com", 4);
    forall q ensures MatchAt(link, q).None? {
      if 0 <= q < |link| {
        assert link[q] != 'v' && link[q] != '/';
        NoMatchAt(link, q);
      }
    }
  }

  /**
   * With a working page and model, the answer for a question is the model's
   * answer to a prompt that names the question and the title and ends with
   * the transcript text.
   */
  lemma AnswersFromTranscript(link: string, question: string, language: string, tag: Option<string>,
                              fetch: Fetcher, detect: Detector, translate: Translator, llm: Model)
    requires VideoId(link).Some? && question != []
    requires Transcript(VideoId(link).value, Title(tag), language, fetch, detect, translate).Ok?
    ensures var t := Transcript(VideoId(link).value, Title(tag), language, fetch, detect, translate).value.1;
      var prompt := SumPrompt(Some(question), Title(tag), TranscriptText(t, "\n"));
      YoutubeSum(link, Some(question), language, Ok(tag), fetch, detect, translate, llm) == Ok(Answer(prompt, llm)) &&
      StartsWith(prompt, "Answer the question \"" + question) &&
      EndsWith(prompt, TranscriptText(t, "\n"))
  {
    var t := Transcript(VideoId(link).value, Title(tag), language, fetch, detect, translate).value.1;
    var text := TranscriptText(t, "\n");
    var prompt := SumPrompt(Some(question), Title(tag), text);
    assert GetYoutubeTranscripts(link, language, Ok(tag), fetch, detect, translate) == Ok(Fetched(text, Title(tag)));
    QuestionPrompt(question, Title(tag), text);
  }

  /**
   * Without a question (none, or an empty one), the answer is the model's
   * answer to a summary request that names the title and ends with the
   * transcript text.
   */
  lemma SummarizesTranscript(link: string, question: Option<string>, language: string, tag: Option<string>,
                             fetch: Fetcher, detect: Detector, translate: Translator, llm: Model)
    requires VideoId(link).Some? && (question.None? || question.value == [])
    requires Transcript(VideoId(link).value, Title(tag), language, fetch, detect, translate).Ok?
    ensures var t := Transcript(VideoId(link).value, Title(tag), language, fetch, detect, translate).value.1;
      var prompt := SumPrompt(question, Title(tag), TranscriptText(t, "\n"));
      YoutubeSum(link, question, language, Ok(tag), fetch, detect, translate, llm) == Ok(Answer(prompt, llm)) &&
      StartsWith(prompt, "Summarize this YouTube video \"" + Title(tag)) &&
      EndsWith(prompt, TranscriptText(t, "\n"))
  {
    var t := Transcript(VideoId(link).value, Title(tag), language, fetch, detect, translate).value.1;
    var text := TranscriptText(t, "\n");
    EndsWithShorter(SumPrompt(question, Title(tag), text), "\": ", text);
  }

  /** A prompt with a question starts with the question and ends with the transcript. */
  lemma QuestionPrompt(question: string, title: string, text: string)
    requires question != []
    ensures var prompt := SumPrompt(Some(question), title, text);
      StartsWith(prompt, "Answer the question \"" + question) && EndsWith(prompt, text)
  {
    var prompt := SumPrompt(Some(question), title, text);
    StartsWithShorter(prompt, "Answer the question \"" + question, "\" based on this YouTube video \"" + title);
    EndsWithShorter(prompt, "\": ", text);
  }
}
